=== FILE: README.md ===
# carbio in Dafny

A model of the core of carbio, a driver for a UART fingerprint sensor. The
repository also holds a Qt access-control application built on that driver.
The model covers three groups of code.

**The sensor wire protocol.**
- The frame format: start code `0xEF01`, a 4-byte address, a type byte, a big-endian length that counts the checksum, the payload, and a 16-bit additive checksum.
- The byte-order helpers of `endian.h`.
- The two packet encoders and decoders and the internal template serializer/deserializer pair.
- The Qt-era `FingerprintSensor` packet code.
- The per-command request and response layouts.
- Command, acknowledge and data-chunk framing in the protocol handler.
- Status codes and the baud-rate and data-length settings.

**The two driver-profile registries.**
- `profile_store` in the library and `ProfileManager` in the application.
- Template-id allocation in 0..127, add, update and delete.
- The library's hand-written profile file text.

**The application's security and control logic.**
- The admin password gate, the admin session table, and the hash-chained audit log with its XOR stream cipher.
- The dashboard's lockout, adaptive polling and admin-phase machine.
- The sensor worker's error classification and enrollment stages.
- The prioritised command queue, `locked_buffer` and `secure_value`.

The model is functional throughout:
- Every operation is a pure function from the old state and its inputs to the new state and its result.
- Byte buffers are `seq<uint8>`.
- Hashes, HMACs, key derivation, random bytes, clocks, file writes and sensor replies are parameters.

Each module's doc comment says which parameters stand for what.

## Shared models

Several files of the repository repeat the same code in another namespace. Each is modelled once:
- `src/fingerprint/packet.cpp:44-120` (`carbio::fingerprint::packet`) runs the same `encode` and `decode` as `src/packet.cpp:12-67`. Module `Packet` models both. Module `FingerprintPacket` adds `secure_clear` and the move operations of `include/carbio/fingerprint/packet.h`.
- `src/fingerprint/protocol_handler.cpp:50-167` builds and parses the same command, acknowledge and data frames as `src/protocol_handler.cpp:16-106`, over `locked_buffer` storage. Module `ProtocolHandler` models both.
- `include/carbio/fingerprint/command_serializer.h:56-488` specialises the same 24 commands with the same byte layouts as `include/carbio/command_serializer.h:27-487`. The one difference is that passwords are read out of a `secure_value`, which the model represents as the 32-bit value it holds. Module `CommandSerializer` models both.

## A comment that contradicts the code

The comment above the copy operations in include/carbio/utility/secure_value.h (line 143) says that copying clears the source. The code at lines 144-156 copies the value and leaves the source as it was. `SecureValue.CopyConstruct` and `SecureValue.CopyAssign` model the code. `SecureValue.CopyKeepsWhatMoveClears` states the difference from the moves, which do clear the source.

## Model

| member | source | states |
|---|---|---|
| Endian.Byteswap | include/carbio/endian.h:56-79 | the swapped value fits the same width and its big-endian bytes are the original's reversed |
| Endian.ByteswapInvolution | include/carbio/endian.h:56-79 | swapping twice gives back the value, for every width 1, 2, 4, 8 |
| Endian.Byteswap16 | include/carbio/endian.h:63-66 | for 16 bits the swap exchanges the low and the high byte |
| Endian.Byteswap8 | include/carbio/endian.h:59-62 | a one-byte value is its own swap |
| Endian.ToBigEndian | include/carbio/endian.h:87-98 | identity on a big-endian host, the byte swap on a little-endian one |
| Endian.ToLittleEndian | include/carbio/endian.h:106-117 | identity on a little-endian host, the byte swap on a big-endian one |
| Endian.FromBigEndian | include/carbio/endian.h:125-129 | the same conversion as `to_big_endian` on either host |
| Endian.FromLittleEndian | include/carbio/endian.h:137-141 | the same conversion as `to_little_endian` on either host |
| Endian.ReadBe | include/carbio/endian.h:149-159 | fails (the panic) exactly when the buffer is shorter than the width; otherwise the big-endian value of the first `w` bytes, which fits the width |
| Endian.ReadLe | include/carbio/endian.h:167-177 | fails exactly on a short buffer; otherwise the little-endian value of the first `w` bytes |
| Endian.WriteBe | include/carbio/endian.h:185-194 | fails exactly on a short buffer; otherwise the first `w` bytes hold the value most significant first and every later byte is untouched |
| Endian.WriteLe | include/carbio/endian.h:202-211 | fails exactly on a short buffer; otherwise the first `w` bytes hold the value least significant first and every later byte is untouched |
| Endian.WriteThenReadBe | include/carbio/endian.h:149-194 | `read_be` after `write_be` on the same buffer returns the written value |
| Endian.WriteThenReadLe | include/carbio/endian.h:167-211 | `read_le` after `write_le` on the same buffer returns the written value |
| Endian.ToBytesBe | include/carbio/endian.h:219-228 | `w` bytes whose big-endian value is the input; byte 0 is the most and byte `w-1` the least significant |
| Endian.ToBytesLe | include/carbio/endian.h:236-245 | `w` bytes whose little-endian value is the input, and exactly the reverse of `to_bytes_be` |
| Endian.BigEndianBytes | include/carbio/endian.h:185-194 | the bytes written most significant first read back as the value |
| Endian.LittleEndianBytes | include/carbio/endian.h:202-211 | the bytes written least significant first read back as the value and are the big-endian bytes reversed |
| Endian.BeBytesInjective | include/carbio/endian.h:219-228 | two values of one width with the same bytes are equal |
| Packet.Encode | src/packet.cpp:12-39 | succeeds exactly when the buffer holds 9 + length + 2 bytes, then returns 11 + length; otherwise `bad_packet` |
| Packet.EncodeLayout | src/packet.cpp:15-38 | tag big-endian in bytes 0-1, address in 2-5, type in 6, length + 2 in 7-8, the payload, then the additive checksum of type, length bytes and payload, big-endian |
| Packet.Decode | src/packet.cpp:41-67 | `frame_error` exactly for fewer than 11 bytes (nothing stored); on success 9 + the length field, with the builtin tag, the expected address, the type byte, length field − 2 ≤ 256 and the payload copied over the old data |
| Packet.DecodeRejects | src/packet.cpp:48-65 | `bad_packet` for a foreign tag, a foreign address, a length field below 2 or above 258, a truncated buffer or a checksum mismatch; success exactly for a well-formed frame whose checksum matches |
| Packet.EncodeDecodeRoundTrip | src/packet.cpp:12-67 | decoding an encoded packet (followed by any bytes) succeeds with 11 + length and restores tag, address, type, length and payload |
| Packet.DecodeEncodeRoundTrip | src/packet.cpp:12-67 | re-encoding a successfully decoded packet gives back exactly the decoded bytes |
| Packet.EncodedIsWellFormed | src/packet.cpp:15-38 | an encoded frame passes every header check of `decode` and its checksum matches |
| Packet.Constants | include/carbio/fingerprint/packet.h:51-60 | `max_packet_size` is 267; a default packet has tag 0xEF01, address 0xFFFFFFFF, type 0x01, length 0 and zero data |
| FingerprintPacket.SecureClear | include/carbio/fingerprint/packet.h:106-112 | all 256 data bytes zero and length 0; tag, address and type kept |
| FingerprintPacket.MoveConstruct | include/carbio/fingerprint/packet.h:77-81 | the new packet has every field of the source; the source is cleared with its header kept |
| FingerprintPacket.MoveAssign | include/carbio/fingerprint/packet.h:86-97 | self-assignment changes nothing; otherwise the destination gets the source's fields and the source is cleared |
| FingerprintPacket.SecureClearIdempotent | include/carbio/fingerprint/packet.h:106-112 | clearing twice is clearing once, and a cleared packet has an empty payload |
| FingerprintPacket.MoveFromMovedIsCleared | include/carbio/fingerprint/packet.h:77-81 | moving out of a moved-from packet yields a cleared packet |
| TemplatePacket.Serialize | include/carbio/.hidden/internal/fingerprint/packet_serializer.h:57-103 | 11 + size bytes: start code, address, type, size + 2 (in 16 bits) big-endian, the first `size` payload bytes, then the big-endian checksum |
| TemplatePacket.DeserializeFrom | include/carbio/.hidden/internal/fingerprint/packet_deserializer.h:62-136 | for a given minimum size: short buffer or foreign start code give `bad_packet`, a foreign address `illegal_device_address`, a bad length field, truncation or too long a payload fail; success exactly for an acceptable frame with a matching checksum, storing header, payload (zero beyond it) and checksum |
| TemplatePacket.Deserialize | include/carbio/.hidden/internal/fingerprint/packet_deserializer.h:52-68 | with `MIN_PACKET_SIZE` = 12: anything shorter is `bad_packet`; success exactly for an acceptable frame of at least 12 bytes whose checksum matches |
| TemplatePacket.RoundTrip | include/carbio/.hidden/internal/fingerprint/packet_deserializer.h:52-136 | for 1 ≤ size ≤ N, deserializing a serialized packet succeeds and restores header and payload |
| TemplatePacket.EmptyPayloadRejected | include/carbio/.hidden/internal/fingerprint/packet_deserializer.h:52-68 | the 11-byte frame serialized for an empty payload is rejected with `bad_packet` |
| TemplatePacket.DeserializeCorrected | include/carbio/.hidden/internal/fingerprint/packet_deserializer.h:52-136 | with the minimum at 11 bytes, the smallest frame the serializer emits: success exactly for an acceptable frame whose checksum matches |
| TemplatePacket.RoundTripCorrected | include/carbio/.hidden/internal/fingerprint/packet_serializer.h:57-103 | the corrected deserializer restores every serialized packet, including the empty one |
| ProtocolHandler.ConstructCommandPacket | src/protocol_handler.cpp:16-33 | always succeeds; the frame is 12 + min(params, 255) bytes long and decodes, at the handler's address, to a command packet whose payload is the code followed by the first at most 255 parameter bytes |
| ProtocolHandler.ParseAcknowledgePacket | src/protocol_handler.cpp:40-53 | succeeds exactly for a frame that decodes as an acknowledge packet with a non-empty payload whose first byte is `success`; `no_frame` for a bad frame, another type or an empty payload; otherwise fails with the device's status byte; on success returns the payload after the status byte |
| ProtocolHandler.AcknowledgeRoundTrip | src/protocol_handler.cpp:40-53 | parsing an encoded acknowledge with status s and body b gives b when s is `success` and the error s otherwise |
| ProtocolHandler.ConstructDataPacket | src/protocol_handler.cpp:60-85 | the frames are the payload cut in chunks of min(chunk length, remaining, 256), each encoded at the handler's address |
| ProtocolHandler.EncodeChunk | src/protocol_handler.cpp:67-82 | one loop step encodes a chunk of 1 to the remaining bytes and leaves exactly the frames of the rest to do |
| ProtocolHandler.ParseDataPacket | src/protocol_handler.cpp:92-106 | no frames give the empty payload; the only error is `no_frame`; an undecodable first frame, or a decoded one that is neither data nor end_data, is `no_frame`; an end_data first frame gives its payload alone; a data first frame prefixes its payload to the rest, and fails exactly when the rest fails |
| ProtocolHandler.DataFramesShape | src/protocol_handler.cpp:65-82 | every produced frame decodes at the handler's address; all are `data` except the last, which is `end_data`; each carries 1 to min(chunk length, 256) bytes |
| ProtocolHandler.DataRoundTrip | src/protocol_handler.cpp:60-106 | parsing the frames built from a payload gives the payload back |
| ProtocolHandler.DataRoundTripWithTrailing | src/protocol_handler.cpp:96-104 | frames after the `end_data` frame are ignored: the round trip holds whatever follows |
| ProtocolHandler.ParseFirst | src/protocol_handler.cpp:96-104 | an `end_data` first frame ends parsing with its payload; a `data` first frame prefixes its payload to the parse of the rest, or passes on its error |
| ProtocolHandler.ParseSameAddress | src/protocol_handler.cpp:99 | parsing depends on the handler only through its address |
| ProtocolHandler.ConstructDataPacketAsWritten | src/protocol_handler.cpp:60-85 | with a positive chunk length and enough steps the loop as written produces exactly the data frames |
| ProtocolHandler.ZeroChunkLengthNeverEnds | src/protocol_handler.cpp:65-83 | with chunk length 0 and a non-empty payload the loop never finishes, however many steps it is given |
| ProtocolHandler.EffectiveChunkLength | src/protocol_handler.cpp:67-68 | the chunk length used is always positive and equals the configured one whenever that is positive |
| ProtocolHandler.ConstructDataPacketCorrected | src/protocol_handler.cpp:60-85 | with a zero chunk length treated as the largest chunk the frames always parse back to the payload, and are the loop's frames whenever the chunk length is positive |
| CommandSerializer.CommandOf | include/carbio/command_code.h:49-75 | a byte names a command only when that command's code is the byte |
| CommandSerializer.CodeRoundTrip | include/carbio/command_code.h:49-75 | every one of the 24 commands is recovered from its code |
| CommandSerializer.CodeInjective | include/carbio/command_code.h:49-75 | two commands share a code exactly when they are the same command |
| CommandSerializer.SerializeRequest | include/carbio/command_serializer.h:27-244 | a request's payload has the fixed size its command prescribes (0, 1, 2, 3, 4, 5 or 14 bytes) |
| CommandSerializer.ParseRequest | include/carbio/command_serializer.h:27-244 | a parsed request is for the command asked and has that command's argument shape |
| CommandSerializer.RequestRoundTrip | include/carbio/command_serializer.h:27-244 | parsing a serialized request gives the request back |
| CommandSerializer.SerializeRequestInjective | include/carbio/command_serializer.h:27-244 | two requests of one command serialize alike exactly when they are equal |
| CommandSerializer.RequestLayout | include/carbio/command_serializer.h:109-226 | the buffer id comes first, page id and count follow as big-endian 16-bit values, a password is one big-endian 32-bit value, argument-less commands send nothing |
| CommandSerializer.DeserializeResponse | include/carbio/command_serializer.h:250-487 | a response fails exactly when the data is shorter than the command's minimum (0, 2, 4, 16, 32 or 512 bytes), and then with `bad_packet` |
| CommandSerializer.ResponseRoundTrip | include/carbio/command_serializer.h:250-487 | a serialized response, followed by any bytes, deserializes back to itself |
| CommandSerializer.SettingsRoundTrip | include/carbio/command_serializer.h:465-483 | the seven system parameters are read back from their big-endian fields at offsets 0, 2, 4, 6, 8, 12 and 14 |
| CommandSerializer.ResponseReadsPrefix | include/carbio/command_serializer.h:250-487 | only the command's minimum number of leading bytes influences the response |
| CommandSerializer.StatusOnlyAlwaysSucceeds | include/carbio/command_serializer.h:250-360 | a command whose answer is only a status succeeds on any data |
| StatusCodes.IsErrorExactlyWhenNotSuccess | include/carbio/status_code.h:318-331 | a status is an error exactly when it is not 0x00, and never both success and error |
| StatusCodes.HexStr | include/carbio/status_code.h:166-240 | each enumerator's hex string is "0x" followed by its value's two upper-case hexadecimal digits |
| StatusCodes.FromName | include/carbio/status_code.h:90-164 | a name found by the inverse lookup belongs to a named enumerator whose `get_name` is that name |
| StatusCodes.NameRoundTrip | include/carbio/status_code.h:90-164 | every named enumerator is found again from its `get_name` string |
| StatusCodes.NameInjective | include/carbio/status_code.h:90-164 | no two enumerators share a name |
| BaudRateSetting.Bps | include/carbio/baud_rate_setting.h:50-64 | the twelve codes select line speeds between 9600 and 115200 bps |
| BaudRateSetting.Hex | include/carbio/baud_rate_setting.h:107-141 | the hex text of every code is "0x" followed by the code's own two hexadecimal digits |
| BaudRateSetting.NameIsDecimalBps | include/carbio/baud_rate_setting.h:71-105 | the name of every code is the decimal text of the line speed it selects |
| DataLengthSetting.NameIsDecimalSize | include/carbio/data_length_setting.h:62-78 | the name of every code is the decimal text of its packet size, 32 · 2^code |
| DataLengthSetting.HexAsWritten | include/carbio/data_length_setting.h:82-98 | the hex text as written is that of the code plus one |
| DataLengthSetting.HexAsWrittenIsOffByOne | include/carbio/data_length_setting.h:82-98 | no code's written hex text matches the code: 0x00 (32 bytes) shows "0x01", the text of code 0x01 |
| DataLengthSetting.Hex | include/carbio/data_length_setting.h:48-54 | the corrected hex text of every code is "0x" followed by the code's own two hexadecimal digits |
| LockedBuffer.EmptyMeansNoElements | include/carbio/locked_buffer.h:169-177 | `empty()` holds exactly when the buffer has no elements, and `size()` counts them |
| LockedBuffer.Default | include/carbio/locked_buffer.h:104-107 | a default buffer has size 0, no elements and is not locked |
| LockedBuffer.Sized | include/carbio/locked_buffer.h:112-130 | a granted non-zero allocation gives `size` value-initialised elements, locked when `mlock` succeeded; a zero size or a refused allocation gives an empty buffer |
| LockedBuffer.Move | include/carbio/locked_buffer.h:137-152 | the target takes the source's size, contents and lock state; the source is left empty with size 0 |
| LockedBuffer.MoveBack | include/carbio/locked_buffer.h:137-152 | moving a buffer out and back restores it exactly |
| LockedBuffer.Resize | include/carbio/locked_buffer.h:186-213 | returns true exactly for size 0 or a granted allocation; then the buffer has the new size, all elements value-initialised; otherwise it is empty |
| LockedBuffer.ResizeIsFresh | include/carbio/locked_buffer.h:186-213 | the old contents never survive: resizing gives the same buffer as constructing one of the new size |
| LockedBuffer.Clear | include/carbio/locked_buffer.h:215-225 | every element becomes `T{}`; size and lock state are kept |
| LockedBuffer.Fill | include/carbio/locked_buffer.h:235-241 | every element becomes the value; size and lock state are kept |
| LockedBuffer.ClearIsFillWithZero | include/carbio/locked_buffer.h:215-241 | clearing is filling with `T{}`, and clearing twice is clearing once |
| LockedBuffer.CopyFrom | include/carbio/locked_buffer.h:227-233 | with storage, a source and count within the size the first count elements are copied and the rest kept; otherwise nothing changes |
| LockedBuffer.CopyWholeBuffer | include/carbio/locked_buffer.h:227-233 | copying a full buffer's worth makes the contents the source's prefix |
| SecureValue.Default | include/carbio/utility/secure_value.h:62-65 | a default wrapper holds `T{}` |
| SecureValue.MoveConstruct | include/carbio/utility/secure_value.h:127-130 | the new wrapper holds the source's value and the source holds `T{}` |
| SecureValue.MoveAssign | include/carbio/utility/secure_value.h:132-141 | the target holds the source's value and the source holds `T{}` |
| SecureValue.CopyConstruct | include/carbio/utility/secure_value.h:144-146 | the copy holds the source's value and the source is unchanged |
| SecureValue.CopyAssign | include/carbio/utility/secure_value.h:148-156 | the target holds the source's value and the source is unchanged |
| SecureValue.CopyKeepsWhatMoveClears | include/carbio/utility/secure_value.h:127-156 | copying and moving give the target the same value; only moving clears the source |
| SecureValue.ComparisonsAreValueEquality | include/carbio/utility/secure_value.h:159-177 | a copy compares equal to its source, `==` is symmetric, `!=` is unequal values, and `== v` holds exactly for the wrapper made from v |
| SecureValue.GetReturnsLastWritten | include/carbio/utility/secure_value.h:62-156 | after any history of sets, clears, copies and moves, `get()` returns the value the history last wrote, `T{}` after a clear or a move out |
| SensorCommand.Rank | cli/sensor_command.h:58-71 | each command has a rank in [0, 9 · 2^32) |
| SensorCommand.LessIsRankOrder | cli/sensor_command.h:58-71 | the comparator orders commands exactly as their lexicographic (priority, type, parameter) rank |
| SensorCommand.TiesAreEqualKeys | cli/sensor_command.h:58-71 | two commands are incomparable exactly when priority, type and parameter agree |
| SensorCommand.StrictWeakOrder | cli/sensor_command.h:58-71 | the comparator is irreflexive, asymmetric, transitive, and incomparability is transitive |
| SensorCommand.PriorityDominates | cli/sensor_command.h:39-43 | a command of lower priority always orders before one of higher priority |
| CommandQueue.Push | cli/sensor_command_queue.h:57-61 | the queue gains exactly the pushed command and reports data |
| CommandQueue.MaxIndex | cli/sensor_command_queue.h:152-154 | the chosen command is a maximum of the comparator, as `priority_queue::top` returns |
| CommandQueue.Pop | cli/sensor_command_queue.h:63-77 | returns a greatest command of the queue and removes exactly it; the flag stays set exactly when more remain |
| CommandQueue.TryPop | cli/sensor_command_queue.h:79-98 | false and nothing changes without the flag; false and the flag cleared for a flagged empty queue; otherwise true with a greatest command, removed |
| CommandQueue.ClearType | cli/sensor_command_queue.h:100-119 | every command of the type is removed, every other command kept with its multiplicity |
| CommandQueue.ClearLowPriority | cli/sensor_command_queue.h:121-140 | every low-priority command is removed, every other command kept with its multiplicity |
| CommandQueue.IsEmpty | cli/sensor_command_queue.h:142 | in a consistent queue, `empty()` holds exactly when no command is queued |
| CommandQueue.Size | cli/sensor_command_queue.h:144-147 | in a consistent queue the size is zero exactly when the queue is empty |
| CommandQueue.SizeCounts | cli/sensor_command_queue.h:57-147 | a push adds one to the size, a pop takes one away, and clearing never grows the queue |
| CommandQueue.CriticalServedFirst | cli/sensor_command_queue.h:63-77 | while a critical command is queued, the next pop returns a critical command |
| CommandQueue.PopOrderNonIncreasing | cli/sensor_command_queue.h:63-77 | successive pops never return a command greater than the one before |
| CommandQueue.PushedMaxServedNext | cli/sensor_command_queue.h:57-77 | a command greater than all queued ones is the next popped |
| SecureValue.Make | include/carbio/utility/secure_value.h:66-72 | get on a value constructed from v returns v |
| SecureValue.Set | include/carbio/utility/secure_value.h:91-98 | after set(v), get returns v |
| SecureValue.Clear | include/carbio/utility/secure_value.h:118-124 | after clear, get returns the type's zero value |
| FingerprintSensor.Serialize | src/fingerprint.cpp:75-114 | a serialised packet is its payload plus 11 bytes of framing |
| FingerprintSensor.SerializeLayout | src/fingerprint.cpp:75-114 | start code big-endian in bytes 0-1, address in 2-5, id in 6, payload size + 2 in 7-8, the payload, then the additive checksum big-endian |
| FingerprintSensor.SerializeAgreesWithEncode | src/fingerprint.cpp:75-114 | for payloads of at most 256 bytes the driver writes exactly the frame the packet encoder of `src/packet.cpp` writes |
| FingerprintSensor.Receive | src/fingerprint.cpp:669-786 | an accepted packet consumed max(12, 11 + payload) bytes, all of them present in the stream |
| FingerprintSensor.ReceivedIsSerialized | src/fingerprint.cpp:669-786 | whatever is accepted carries the start code and the driver's address and is exactly the serialisation at the head of the stream |
| FingerprintSensor.AcceptedFields | src/fingerprint.cpp:669-786 | acceptance implies a valid start code, the driver's address, a length field of at least 2 that fits the stream and a matching checksum, and the packet is read from those fields |
| FingerprintSensor.ReceiveSerialized | src/fingerprint.cpp:669-786 | a packet serialised for the driver's address is received back unchanged, whatever follows it |
| FingerprintSensor.EmptyPayloadConsumesNextByte | src/fingerprint.cpp:669-786 | an 11-byte frame is shorter than the first 12-byte read, so the byte after it is consumed too |
| FingerprintSensor.SendCommandWithData | src/fingerprint.cpp:599-662 | a failed write gives `Timeout`, an unreadable reply `PacketReceiveError`; a reply payload's first byte is the status |
| FingerprintSensor.SendCommandAcknowledged | src/fingerprint.cpp:599-662 | an acknowledgement with status s and body b gives s and the whole payload; any other packet type is a receive error |
| FingerprintSensor.GetParameters | src/fingerprint.cpp:252-283 | parameters are read only from a successful reply with at least 17 bytes |
| FingerprintSensor.GetParametersAgreesWithDecoder | src/fingerprint.cpp:252-283 | the driver reads the parameters exactly when, and exactly as, the `read_system_parameter` response decoder does |
| FingerprintSensor.SearchRequestParses | src/fingerprint.cpp:313-324 | the search request is the slot, start id and count (the capacity when count is 0), as the command serialiser lays them out |
| FingerprintSensor.FastSearchRequestParses | src/fingerprint.cpp:346-366 | the fast search asks slot 1 from id 0 for a positive count: the capacity, or 127 when it is 0 |
| FingerprintSensor.SearchResponse | src/fingerprint.cpp:326-343 | a search result is read only from a successful reply of at least 5 bytes |
| FingerprintSensor.TemplateCount | src/fingerprint.cpp:399-414 | a template count is read only from a successful reply of at least 3 bytes |
| FingerprintSensor.ResponsesAgreeWithDecoder | src/fingerprint.cpp:326-414 | search and template count succeed exactly when, and read exactly what, the command serialiser's decoders do |
| FingerprintSensor.NumPages | src/fingerprint.cpp:426-427 | at most 256 index-table pages are read |
| FingerprintSensor.FetchTemplates | src/fingerprint.cpp:416-469 | fails exactly when some page request fails; otherwise returns the used slots below the capacity of every fully answered page, in order |
| FingerprintSensor.FetchedTemplates | src/fingerprint.cpp:416-469 | the listed ids are strictly increasing, are exactly the slots whose bitmap bit is set, and are all below the capacity |
| FingerprintSensor.ListedBelowMembers | src/fingerprint.cpp:442-462 | the reference list below n holds exactly the used slots below n |
| FingerprintSensor.SkippedPage | src/fingerprint.cpp:438-441 | a page whose reply is shorter than 33 bytes contributes nothing |
| FingerprintSensor.ScanPage | src/fingerprint.cpp:443-462 | the bitmap walk over one page appends exactly that page's used slots |
| FingerprintSensor.ScanByte | src/fingerprint.cpp:445-461 | bits 0 to 7 of one bitmap byte append exactly those eight slots that are used |
| FingerprintSensor.PacketSize | src/fingerprint.cpp:861-865 | the chunk size is positive, and is the stored packet length when that is positive |
| FingerprintSensor.SendDataPackets | src/fingerprint.cpp:859-891 | succeeds exactly when every packet can be written; the packets written are the chunks in order, up to the first failing write |
| FingerprintSensor.DataPacketsStep | src/fingerprint.cpp:869-888 | the packets from an offset are one packet for the next chunk followed by the packets for the rest |
| FingerprintSensor.DataRoundTrip | src/fingerprint.cpp:829-891 | receiving the wire bytes of the packets sent for a non-empty payload gives the payload back, whatever follows |
| FingerprintSensor.ReceiveFirst | src/fingerprint.cpp:829-857 | an end-of-data first packet ends the transfer with its payload; a data packet prefixes its payload to the rest of the transfer |
| ProfileStore.Save | src/profile_store.cpp:283-309 | a save succeeds exactly when the write succeeds and otherwise reports `database_access_error` |
| ProfileStore.CharUtf8Size | src/profile_store.cpp:313 | one to four bytes per character, one exactly for ASCII |
| ProfileStore.Utf8Size | src/profile_store.cpp:313 | the byte length `name.length()` reports: between one and four bytes per character, zero exactly for the empty name |
| ProfileStore.Utf8SizeUniform | src/profile_store.cpp:342 | a name whose characters all take k bytes has k bytes per character |
| ProfileStore.NameLimitCountsBytes | src/profile_store.cpp:382 | the 64 limit counts bytes: 33 copies of 'é' are refused, 64 ASCII letters pass |
| ProfileStore.Find | src/profile_store.cpp:367-372 | the search finds the first profile with the id, and finds nothing exactly when no profile has it |
| ProfileStore.GetNextAvailableId | src/profile_store.cpp:432-442 | the answer is the smallest valid template id (0 to 127) no profile uses; none exactly when every valid id is used |
| ProfileStore.FullNeedsAllSlots | src/profile_store.cpp:432-442 | the registry only reports itself full when it holds at least 128 profiles |
| ProfileStore.AddProfileWithId | src/profile_store.cpp:334-363 | `index_out_of_range` for an id above 127, `permission_denied` for an empty name or one over 64 UTF-8 bytes or an id in use, all leaving the list alone; otherwise the profile is appended with both timestamps `now` and the save's result is returned |
| ProfileStore.AddProfile | src/profile_store.cpp:311-332 | `permission_denied` for an empty name or one over 64 UTF-8 bytes; otherwise the profile is appended under the next free id, whose value is returned when the save succeeds; with fewer than 128 profiles it is always added; the only refusals are `permission_denied` and `database_full` |
| ProfileStore.DeleteProfile | src/profile_store.cpp:365-378 | `not_found` exactly when no profile has the id, with the list unchanged; otherwise one profile fewer and the save's result |
| ProfileStore.UpdateProfile | src/profile_store.cpp:380-400 | `permission_denied` for an empty name or one over 64 UTF-8 bytes and `not_found` for an unknown id, list unchanged; the list never changes length; otherwise the save's result |
| ProfileStore.GetProfile | src/profile_store.cpp:404-414 | a profile is returned exactly when one has the id, and it is a profile of the list with that id |
| ProfileStore.GetDriverName | src/profile_store.cpp:416-424 | the name of the profile with the id, or "Unknown" |
| ProfileStore.IsAdminId | src/profile_store.cpp:426-430 | true exactly when a profile has the id and is an administrator |
| ProfileStore.ClearAllProfiles | src/profile_store.cpp:471-475 | afterwards no id is registered, the list is valid, and the call succeeds exactly when the save does |
| ProfileStore.LookupFindsOwner | src/profile_store.cpp:404-430 | in a valid registry every profile is found, named and classified by its own id |
| ProfileStore.AddWithIdKeepsValid | src/profile_store.cpp:334-363 | adding with an id keeps ids unique and valid and names within 1 to 64 characters |
| ProfileStore.AddKeepsValid | src/profile_store.cpp:311-332 | adding under the next free id keeps the registry valid |
| ProfileStore.DeleteRemovesOnlyTarget | src/profile_store.cpp:365-378 | after a delete the id is gone, the registry is valid, and every other profile is still there |
| ProfileStore.UpdateChangesOnlyTarget | src/profile_store.cpp:380-400 | an update rewrites only the profile with the id (name, admin flag, modification time) and keeps the registry valid |
| ProfileJson.WholeIsQuotient | src/profile_store.cpp:691-694 | whole seconds are the quotient of the tick count by the ticks per second |
| ProfileJson.Find | src/profile_store.cpp:726 | a found occurrence starts at or after the search position and fits inside the text |
| ProfileJson.DigitRun | src/profile_store.cpp:732-733 | the run of digits from a position: absent only past the end; otherwise all digits, present at the position, and ended by the end of the text or a non-digit |
| ProfileJson.TruncateAll | src/profile_store.cpp:691-694 | cutting timestamps to whole seconds keeps the number of profiles |
| ProfileJsonProofs.EmptyHasNoKey | src/profile_store.cpp:681-726 | the text of an empty list contains no `"template_id":` key, so it loads as the empty list |
| ProfileJsonProofs.WritableRows | src/profile_store.cpp:687-709 | every profile with a quote-free name and non-negative 64-bit timestamps prints one row, and reading the rows back gives the profiles with whole-second timestamps |
| ProfileJsonProofs.RecordsShape | src/profile_store.cpp:696-708 | the records of a non-empty list are the first record followed by the comma-separated records of the rest |
| ProfileJsonProofs.SerializedChain | src/profile_store.cpp:681-715 | the serialised text is a chain of records, one per profile, each read by one pass of the loader |
| ProfileJsonProofs.ChainLoads | src/profile_store.cpp:725-759 | a chain of records loads, with enough passes, as exactly its profiles |
| ProfileJsonProofs.RoundTrip | src/profile_store.cpp:681-762 | with the timestamp offsets corrected, loading the saved text of writable profiles gives back the same profiles, timestamps cut to whole seconds |
| ProfileJsonProofs.AsWrittenRecordThrows | src/profile_store.cpp:746-748 | as written, the created-at offset lands on the space before the digits, so the digit run is empty and `stoll` throws |
| ProfileJsonProofs.ThrowStep | src/profile_store.cpp:726-759 | a record the as-written pass cannot read ends the whole load in `std::terminate` |
| ProfileJsonProofs.AsWrittenTerminates | src/profile_store.cpp:717-762 | as written, loading the saved text of any non-empty list whose first name is quote-free terminates the program |
| ProfileManager.LeadingSpaces | cli/profile_manager.cpp:476 | the count of leading white space: all of it is space and the next character is not |
| ProfileManager.TrailingSpaces | cli/profile_manager.cpp:476 | the count of trailing white space: all of it is space and the character before is not |
| ProfileManager.Trimmed | cli/profile_manager.cpp:476-489 | `trimmed()` is empty exactly for an all-space name, and otherwise neither starts nor ends with space |
| ProfileManager.TrimmedCore | cli/profile_manager.cpp:489 | trimming removes exactly the surrounding space and keeps the inside intact |
| ProfileManager.TrimmedIdempotent | cli/profile_manager.cpp:489 | trimming twice is trimming once |
| ProfileManager.Find | cli/profile_manager.cpp:511-521 | the loop stops at the first profile with the id, and finds nothing exactly when no profile has it |
| ProfileManager.NextAvailableId | cli/profile_manager.cpp:582-601 | the smallest id in 0..127 no profile uses, or 128 exactly when all 128 are used |
| ProfileManager.FullNeedsAllSlots | cli/profile_manager.cpp:582-601 | the table only reports itself full when it holds at least 128 profiles |
| ProfileManager.AddProfile | cli/profile_manager.cpp:474-507 | refused, list unchanged, exactly for an all-space name or a full table; otherwise the trimmed name is appended under the smallest free id, written to the out-pointer, and the result is the save's |
| ProfileManager.DeleteProfile | cli/profile_manager.cpp:509-525 | false with the list unchanged for an unknown id; otherwise one profile fewer and the save's result |
| ProfileManager.UpdateProfile | cli/profile_manager.cpp:527-544 | false with the list unchanged for an unknown id; otherwise the save's result; ids and length never change |
| ProfileManager.GetProfile | cli/profile_manager.cpp:546-556 | a profile is returned exactly when one has the id, and it is a profile of the list with that id |
| ProfileManager.GetDriverName | cli/profile_manager.cpp:558-568 | the name of the profile with the id, or "Unknown (ID n)" |
| ProfileManager.IsAdminId | cli/profile_manager.cpp:570-580 | true exactly when a profile has the id and is an administrator |
| ProfileManager.LookupFindsOwner | cli/profile_manager.cpp:546-580 | with unique ids every profile is found, named and classified by its own id |
| ProfileManager.AddKeepsUnique | cli/profile_manager.cpp:474-507 | adding keeps ids unique, and valid when they were |
| ProfileManager.DeleteRemovesOnlyTarget | cli/profile_manager.cpp:509-525 | delete removes nothing but a profile with the id; with unique ids the id is gone afterwards |
| ProfileManager.UpdateChangesOnlyTarget | cli/profile_manager.cpp:527-544 | update rewrites the first profile with the id (trimmed name, admin flag, modification time) and nothing else |
| ProfileManager.IsoTextRoundTrip | cli/profile_manager.cpp:322-363 | a time written as text and read back is the same time to the second; an invalid time stays invalid |
| ProfileManager.ProfilesOf | cli/profile_manager.cpp:356-367 | one profile is read per array element |
| ProfileManager.Deserialize | cli/profile_manager.cpp:336-371 | rejects, list unchanged, a document that is not a JSON object or whose version is not 1; succeeds exactly otherwise, with one profile per array element |
| ProfileManager.ProfileRoundTrip | cli/profile_manager.cpp:316-367 | a profile written as a JSON object and read back keeps id, name and admin flag, times to the second |
| ProfileManager.SerializeRoundTrip | cli/profile_manager.cpp:312-371 | loading what `serializeProfiles` wrote replaces the list with the saved profiles, times to the second, whatever was loaded before |
| ProfileManager.ProfilesRoundTrip | cli/profile_manager.cpp:316-367 | reading back the written array gives each profile back in order, times to the second |
| AdminAuthenticator.RemainingAttempts | cli/admin_authenticator.cpp:193-200 | 0 while locked out; otherwise the failures so far and the attempts left add up to 3 |
| AdminAuthenticator.LockoutSecondsRemaining | cli/admin_authenticator.cpp:202-211 | 0 when not locked out; otherwise the whole seconds left until the lockout ends |
| AdminAuthenticator.ResetAttempts | cli/admin_authenticator.cpp:213-218 | afterwards there is no lockout and all 3 attempts are available; password, salt and challenge are kept |
| AdminAuthenticator.ConstantTimeCompare | cli/admin_authenticator.cpp:260-275 | true exactly when the two byte strings are equal |
| AdminAuthenticator.VerifyPassword | cli/admin_authenticator.cpp:45-89 | refused, nothing changed, while locked out; otherwise accepted exactly when the salted hash matches, which resets the failures; a failure counts one more and, at 3 failures, locks out for 300 seconds from now |
| AdminAuthenticator.SetPassword | cli/admin_authenticator.cpp:91-110 | refused, nothing changed, below 8 characters; otherwise the new salt and the hash of the password under it are stored |
| AdminAuthenticator.ThreeFailuresLockOut | cli/admin_authenticator.cpp:45-211 | three wrong passwords lock the authenticator: within 300 seconds even the right password is refused and no attempt remains |
| AdminAuthenticator.LockoutExpiresButRelocks | cli/admin_authenticator.cpp:45-200 | once the lockout time has passed the lock lifts, but the failure count is not reset, so one more wrong password locks again |
| AdminAuthenticator.SetThenVerify | cli/admin_authenticator.cpp:45-110 | a password just set is accepted unless a lockout is running, and clears the failures |
| AdminAuthenticator.GenerateChallenge | cli/admin_authenticator.cpp:117-135 | the 16-byte nonce is returned and stored as the active challenge with the current time |
| AdminAuthenticator.ValidateChallenge | cli/admin_authenticator.cpp:137-175 | accepted exactly for the active challenge's nonce within 30 seconds; acceptance or expiry deactivates the challenge; a refused nonce within the window changes nothing |
| AdminAuthenticator.ChallengeRoundTrip | cli/admin_authenticator.cpp:117-175 | a freshly issued nonce validates exactly when at most 30 seconds have passed |
| AdminAuthenticator.ChallengeSingleUse | cli/admin_authenticator.cpp:137-175 | a nonce that was accepted is never accepted again |
| SessionManager.U64RoundTrip | cli/session_manager.cpp:76-112 | the 8-byte timestamp field reads back as the timestamp |
| SessionManager.U16RoundTrip | cli/session_manager.cpp:79-113 | the 2-byte admin id field reads back as the id |
| SessionManager.GenerateToken | cli/session_manager.cpp:43-87 | nothing for an id outside the session table; otherwise a new unused session with the random token, its HMAC and the time replaces the id's slot and its 74-byte payload is returned |
| SessionManager.ValidateToken | cli/session_manager.cpp:89-169 | the checks in the source's order: `NotAdmin` for an id outside the table, `TokenInvalid` for a payload of the wrong size, `NotAdmin` when the embedded id is another admin's, `TokenInvalid` for a bad HMAC, `TokenExpired` past the 300-second lifetime, and `TokenInvalid` when no session, another token or a used one is stored; success exactly when every check passes, which marks the session used; a failure changes nothing |
| SessionManager.PayloadParts | cli/session_manager.cpp:74-79 | the payload is the 32-byte token, the 32-byte HMAC, the timestamp and the admin id, each readable back |
| SessionManager.IssuedTokenValidatesOnce | cli/session_manager.cpp:43-169 | a token validates within its 300-second lifetime, and only once: a replay within the lifetime gives `TokenInvalid`, and after it `TokenExpired` |
| SessionManager.NoCrossAdminValidation | cli/session_manager.cpp:118-124 | a token issued to one admin never validates for another |
| SessionManager.HasValidSession | cli/session_manager.cpp:171-194 | true exactly for an id with a stored, unused, unexpired session |
| SessionManager.SessionTimeRemaining | cli/session_manager.cpp:230-242 | 0 without a valid session; otherwise, when the session's timestamp is not after the current time, the seconds until it expires, at most 300 |
| SessionManager.RevokeSession | cli/session_manager.cpp:212-228 | the id's session is dropped and every other one is kept |
| SessionManager.RevokeAllSessions | cli/session_manager.cpp:196-210 | every session is dropped, so no id has a valid session |
| SessionManager.CleanupExpiredTokens | cli/session_manager.cpp:262-286 | exactly the expired sessions are dropped |
| SessionManager.CleanupKeepsValidSessions | cli/session_manager.cpp:262-286 | cleaning up never changes whether an id has a valid session |
| AuditLogger.LoadKeyAsWritten | cli/audit_logger.cpp:184-224 | a missing file yields a fresh key that is saved; an unreadable file changes nothing; a stored 32-byte key is used |
| AuditLogger.WrongSizeKeyNeverLoads | cli/audit_logger.cpp:215-221 | a stored key of the wrong size makes the loader call itself on the same file again and again: no number of calls ends it |
| AuditLogger.LoadKey | cli/audit_logger.cpp:184-224 | corrected so that a wrong-size file is replaced: unless the file is unreadable the key has 32 bytes and is what the file holds, and a stored 32-byte key is kept |
| AuditLogger.LoadKeyAgrees | cli/audit_logger.cpp:184-224 | whenever the loader as written finishes, it agrees with the corrected one |
| AuditLogger.Initialize | cli/audit_logger.cpp:163-182 | built on the corrected loader: the key is what `LoadKey` gives (a wrong-size key file is replaced, where the source never returns) and the chain head is the hash of the last logged entry (all zero for an empty log) |
| AuditLogger.InitializeAsWritten | cli/audit_logger.cpp:163-182 | over the loader as written: it returns only when the key file is not a stored key of the wrong size, and then gives the same logger and file as the corrected `Initialize` |
| AuditLogger.WrongSizeKeyNeverInitializes | cli/audit_logger.cpp:165 | with a stored key of the wrong size, `initialize` as written never returns, for any number of loader calls |
| AuditLogger.LogEvent | cli/audit_logger.cpp:32-63 | one entry is appended, nothing else changes; it records the time, event, user, result, "local", the details, the previous chain head and its own hash, which becomes the new head; a linked log stays linked |
| AuditLogger.AdminDetailsInjective | cli/audit_logger.cpp:67-69 | the detail text tells apart all four password/fingerprint combinations |
| AuditLogger.LogAdminAccess | cli/audit_logger.cpp:65-76 | granted exactly when the event is `ADMIN_ACCESS_GRANTED` with `SUCCESS`; a refusal is `INVALID_PASSWORD` when the fingerprint was an admin's and `NOT_ADMIN` otherwise |
| AuditLogger.LogUnauthorizedAccess | cli/audit_logger.cpp:78-81 | one `UNAUTHORIZED_ACCESS` entry with `NOT_ADMIN`, the user and the details is appended |
| AuditLogger.VerifyIntegrity | cli/audit_logger.cpp:83-119 | true exactly when every entry names the previous entry's hash (zero for the first) and carries its own correct hash |
| AuditLogger.LinkedStep | cli/audit_logger.cpp:96-115 | a linked prefix stays linked with one more entry exactly when that entry passes both checks |
| AuditLogger.LoggedChainVerifies | cli/audit_logger.cpp:32-119 | logging any sequence of events onto a linked log gives a linked log one entry longer per event |
| AuditLogger.AlteredDetailsDetected | cli/audit_logger.cpp:83-119 | changing one entry's details so that its hash changes breaks verification |
| AuditLogger.DeletionDetected | cli/audit_logger.cpp:83-119 | removing an entry that is followed by another breaks verification |
| AuditLogger.TruncationUndetected | cli/audit_logger.cpp:83-119 | cutting entries off the end of a linked log leaves it linked: verification does not notice |
| AuditLogger.GetRecentEntries | cli/audit_logger.cpp:121-134 | the last min(count, size) entries in order, none for a count of 0 or less |
| AuditLogger.RecentShowsNewest | cli/audit_logger.cpp:32-134 | after logging an event, the recent entries end with that event |
| AuditLogger.Crypt | cli/audit_logger.cpp:286-292 | each byte is xored with the key byte and the IV byte at its position, cycling both |
| AuditLogger.EncryptEntry | cli/audit_logger.cpp:270-296 | the ciphertext is the 16-byte IV followed by as many bytes as the plaintext |
| AuditLogger.DecryptEntry | cli/audit_logger.cpp:298-318 | empty for fewer than 16 bytes; otherwise as many bytes as follow the IV |
| AuditLogger.DecryptEncrypt | cli/audit_logger.cpp:270-318 | decrypting an encrypted entry gives back the plaintext |
| Controller.Initial | cli/controller.cpp:9-58 | a new dashboard is off, has no sensor and no admin phase, and satisfies the dashboard invariant |
| Controller.AdjustInterval | cli/controller.cpp:1226-1244 | below 3 consecutive misses the interval is kept; from 3 misses on it doubles up to the 16 ms cap, so a power of two in [1, 16] stays one and never shrinks |
| Controller.MissedPoll | cli/controller.cpp:186-195 | a missed poll counts one more miss and keeps the poller invariant (power-of-two interval in [1, 16]) |
| Controller.BackoffSchedule | cli/controller.cpp:1226-1284 | from a reset poller, n misses in a row give the interval 1 for the first 2 misses and then doubling to at most 16 |
| Controller.BackoffReachesMaximum | cli/controller.cpp:1226-1284 | six consecutive misses after a reset reach the 16 ms maximum |
| Controller.SetAuthState | cli/controller.cpp:298-314 | setting the current state changes nothing; otherwise only the state changes, and failed attempts are reset exactly on the ON to SCANNING transition |
| Controller.StartAuthentication | cli/controller.cpp:106-133 | without a sensor or in ALERT nothing changes; otherwise the state becomes SCANNING with a fresh poller and the lockout untouched; the invariant is kept |
| Controller.CancelAuthentication | cli/controller.cpp:135-151 | the state becomes OFF with polling stopped at the minimum interval; failures and lockout are kept |
| Controller.ResetLockout | cli/controller.cpp:153-176 | failures and lockout are cleared, the lockout timer stops and scanning restarts from the minimum interval |
| Controller.HandleAuthenticationFailure | cli/controller.cpp:259-290 | one more failure; at 3 failures the state is ALERT with a 20-second lockout and polling stopped, otherwise scanning restarts |
| Controller.PerformAuthentication | cli/controller.cpp:178-257 | acts only in SCANNING; no finger counts a miss; a match turns the dashboard ON with failures cleared; anything else is one more failure, locking out at 3 |
| Controller.Authenticate | cli/controller.cpp:197-257 | after a finger is seen: a match (capture, extract and search all succeed) grants ON; a miss is one more failure with the ALERT lockout at 3; the poller is reset either way |
| Controller.OnLockoutTick | cli/controller.cpp:377-410 | a positive lockout counts down by one second; the last second clears failures, stops the timer and returns to SCANNING, restarting polling when a sensor is present |
| Controller.LockoutCountsDown | cli/controller.cpp:377-410 | n ticks before the end only subtract n from the lockout seconds |
| Controller.ThreeFailuresLockOut | cli/controller.cpp:259-290 | three consecutive non-matching fingers from a clean state lock the dashboard in ALERT for 20 seconds, where starting or performing authentication does nothing |
| Controller.LockoutEnds | cli/controller.cpp:377-410 | after as many ticks as lockout seconds the dashboard is back in SCANNING with no failures and no lockout |
| Controller.AlertUntilLastTick | cli/controller.cpp:377-410 | the dashboard stays in ALERT until the last lockout second has elapsed |
| Controller.CancelLeavesLockout | cli/controller.cpp:135-151 | cancelling during ALERT and starting again scans while the lockout timer still runs and the failures stay at 3 or more |
| Controller.InitializeSensor | cli/controller.cpp:62-104 | the sensor is available exactly when the port opened; then scanning starts unless in ALERT; a failed open changes nothing else |
| Controller.LockDashboard | cli/controller.cpp:1181-1197 | after an admin failure the dashboard returns to SCANNING with no failures, keeping the lockout |
| Controller.AdminFailure | cli/controller.cpp:1181-1197 | any admin failure returns the phase to IDLE and the dashboard to SCANNING |
| Controller.RequestAdminAccess | cli/controller.cpp:920-948 | refused with no change while the password gate is rate limited; otherwise the phase becomes PASSWORD_PENDING with the menu closed and the token cleared |
| Controller.VerifyAdminPassword | cli/controller.cpp:950-984 | only in PASSWORD_PENDING; the phase becomes FINGERPRINT_PENDING exactly when the authenticator accepts the password, otherwise IDLE with the dashboard rescanning |
| Controller.StartAdminFingerprintScan | cli/controller.cpp:986-1009 | only in FINGERPRINT_PENDING with a sensor: starts the admin poller at the minimum interval |
| Controller.PerformAdminFingerprintVerification | cli/controller.cpp:1058-1164 | the phase becomes COMPLETED exactly when extraction succeeds and the match is an admin id 0..2 with confidence at least 150; then a session token is issued and the menu opens; otherwise the phase returns to IDLE |
| Controller.OnAdminFingerprintPoll | cli/controller.cpp:1011-1056 | outside FINGERPRINT_PENDING the admin poller stops; no finger counts a miss; COMPLETED is reached only from FINGERPRINT_PENDING with a captured, admin-matching finger |
| Controller.AdminCaptured | cli/controller.cpp:1036-1056 | after a finger is seen the phase is COMPLETED exactly when capture succeeded and the admin match holds, and IDLE otherwise |
| Controller.RevokeAdminAccess | cli/controller.cpp:1166-1179 | the phase is IDLE, the menu closed, the token cleared and no admin has a valid session afterwards |
| Controller.StepKeepsInv | cli/controller.cpp:259-410 | every dashboard event keeps the invariant: the lockout timer runs exactly while lockout seconds remain, ALERT implies a pending lockout with 3 or more failures and polling stopped, poll intervals are powers of two in [1, 16], and the admin menu is open exactly in COMPLETED with a token |
| Controller.RunKeepsInv | cli/controller.cpp:259-410 | any sequence of dashboard events keeps the invariant |
| Controller.StepPhases | cli/controller.cpp:950-1202 | one event enters FINGERPRINT_PENDING only by an accepted password, and COMPLETED only by an admin fingerprint match |
| Controller.CompletedNeedsMatch | cli/controller.cpp:1058-1164 | any event sequence that reaches COMPLETED contains an admin fingerprint match |
| Controller.CompletedNeedsBothFactors | cli/controller.cpp:950-1202 | from IDLE or PASSWORD_PENDING, COMPLETED is reached only through an accepted password followed by an admin fingerprint match |
| Controller.FirstFailure | cli/controller.cpp:412-507 | the index of the first failing enrollment step, or none exactly when every step succeeded |
| Controller.EnrollFingerprint | cli/controller.cpp:412-507 | refused without a sensor, while scanning, or for ids outside 1..127; done exactly when every step succeeds; otherwise reports the first failing step |
| Controller.QueryTemplate | cli/controller.cpp:646-674 | refused without a sensor or for ids of 256 and more; found exactly when the index table loads and bit id mod 8 of byte id div 8 is set |
| Controller.DeleteFingerprintAsWritten | cli/controller.cpp:676-710 | as written, reports success exactly when the sensor's erase failed |
| Controller.ClearDatabaseAsWritten | cli/controller.cpp:712-740 | as written, reports success exactly when the sensor's empty-database call failed |
| Controller.DeleteAndClearInverted | cli/controller.cpp:699-739 | for a valid request, as written, a successful sensor call is reported as a failure and a failing one as success |
| Controller.DeleteFingerprint | cli/controller.cpp:676-710 | done exactly when a sensor is present, not scanning, the id is in 1..127 and the erase succeeds |
| Controller.ClearDatabase | cli/controller.cpp:712-740 | done exactly when a sensor is present, not scanning, and the database was emptied |
| Controller.CorrectedHandlersDiffer | cli/controller.cpp:699-739 | the corrected handlers disagree with the as-written ones on every request that reaches the sensor |
| SensorWorker.TransientSets | cli/sensor_worker.cpp:104-152 | the extraction retry set is exactly the capture retry set without image_capture_error, and neither holds no_finger, success, no_match or not_found |
| SensorWorker.PollTick | cli/sensor_worker.cpp:83-175 | with a sensor: a match is reported exactly when capture, extraction and search all succeed; capture errors outside the 10-code retry set fail at the capture stage; extraction errors outside the 9-code set fail at extraction; only no_match and not_found fail the search; the timer keeps running exactly on quiet outcomes and capture-stage failures |
| SensorWorker.Attempt | cli/sensor_worker.cpp:271-383 | the one-shot attempt reports a match exactly when all three sensor calls succeed and never stays quiet |
| SensorWorker.AttemptAgreesWithTick | cli/sensor_worker.cpp:271-383 | the one-shot attempt classifies every reply as the poll tick does, except that the poll tick's quiet retries become a no-finger report |
| SensorWorker.CaptureFailureRepeats | cli/sensor_worker.cpp:104-125 | a capture error outside the retry set fails both the authentication and the admin tick at the capture stage |
| SensorWorker.EnrollFingerprint | cli/sensor_worker.cpp:490-519 | enrollment starts (operation ENROLL, stage 0, polling) exactly when a sensor is present and the id is in 1..127; otherwise it fails with the worker unchanged |
| SensorWorker.StartOperation | cli/sensor_worker.cpp:742-800 | find, identify and verify fail without a sensor; otherwise they arm the operation, keep the id only for verify, and start polling |
| SensorWorker.CompleteSearch | cli/sensor_worker.cpp:599-641 | find and identify report the match exactly when extraction and the search succeed, and fail otherwise |
| SensorWorker.CompleteVerify | cli/sensor_worker.cpp:643-671 | verify succeeds exactly when extraction, loading the template and the search succeed and the matched id equals the requested id truncated to 16 bits |
| SensorWorker.ContinueEnrollment | cli/sensor_worker.cpp:673-740 | stage 0 with a good scan moves to stage 1 and re-arms ENROLL; stage 1 with extraction, model creation and storage all succeeding completes enrollment of the id and returns to stage 0; a failure leaves the worker unchanged |
| SensorWorker.Dispatch | cli/sensor_worker.cpp:572-594 | only the ENROLL operation at stage 1 can complete an enrollment, and other operations leave the worker unchanged |
| SensorWorker.OperationCapture | cli/sensor_worker.cpp:529-568 | a finger is detected exactly when a sensor is present and capture succeeds; no_finger and the 10 transient errors keep polling; anything else fails the operation |
| SensorWorker.OnOperationPollTickAsWritten | cli/sensor_worker.cpp:525-597 | as written, once a finger is detected the operation is always NONE afterwards, even when stage 0 has just re-armed ENROLL |
| SensorWorker.OnOperationPollTick | cli/sensor_worker.cpp:525-597 | a detected finger clears the operation, except that the re-armed ENROLL survives stage 0 so that stage 1 runs on the next finger |
| SensorWorker.AsWrittenStepKeeps | cli/sensor_worker.cpp:572-596 | as written, no worker event takes an enrollment past stage 0 or completes it |
| SensorWorker.EnrollmentNeverCompletesAsWritten | cli/sensor_worker.cpp:572-596 | as written, no sequence of events starting at stage 0 ever completes an enrollment |
| SensorWorker.NoEnrollmentFromStart | cli/sensor_worker.cpp:490-596 | as written, no sequence of events from an idle worker completes an enrollment |
| SensorWorker.EnrollmentCompletes | cli/sensor_worker.cpp:673-740 | corrected, a valid enrollment followed by two good scans reports progress and then completion of that id, leaving the worker idle |
| SensorWorker.EnrollmentStallsAsWritten | cli/sensor_worker.cpp:572-596 | as written, the same two good scans report progress and then nothing, with the worker stuck at stage 1 and not polling |
| SensorWorker.DeleteFingerprintAsWritten | cli/sensor_worker.cpp:832-856 | as written, success is reported exactly when the erase failed |
| SensorWorker.ClearDatabaseAsWritten | cli/sensor_worker.cpp:858-876 | as written, success is reported exactly when emptying the database failed |
| SensorWorker.DeleteFingerprint | cli/sensor_worker.cpp:832-856 | success exactly when a sensor is present, the id is in 1..127 and the erase succeeded; failure otherwise |
| SensorWorker.ClearDatabase | cli/sensor_worker.cpp:858-876 | success exactly when a sensor is present and the database was emptied; failure otherwise |
| SensorWorker.WorkerHandlersInverted | cli/sensor_worker.cpp:848-875 | for a valid id, the as-written handlers report what the corrected ones report for the opposite sensor result |

## Left out

Weaker or narrower contracts:
- Packet.Encode: requires a payload length of at most 256. At src/packet.cpp:28-29 a larger length copies past the end of the 256-byte payload array, and what that copy reads is not defined.
- ProtocolHandler.ConstructCommandPacket: the `locked_buffer` variant can also fail when secure storage cannot be allocated. That happens at src/fingerprint/protocol_handler.cpp:67-68 and affects the other three functions too. Allocation is taken to succeed, so those returns are not modelled.
- ProtocolHandler.ParseAcknowledgePacket: the allocation-failure return at src/fingerprint/protocol_handler.cpp:92-93 is not modelled.
- ProtocolHandler.ParseDataPacket: the allocation of the growing buffer at src/fingerprint/protocol_handler.cpp:159 is taken to succeed.
- ProtocolHandler.ConstructDataPacket: requires a positive chunk length or an empty payload. With length 0 the loop at src/protocol_handler.cpp:65-83 never ends; `ConstructDataPacketAsWritten` models that case with a step bound.
- SensorWorker.PollTick: cli/sensor_worker.cpp:97, 191, 284 and 540 call `error()` on a capture result that may hold success. That is undefined for `std::expected<void, status_code>`. The model reads a successful capture as a finger being present.
- SensorWorker.OperationCapture: the same undefined `error()` call on a successful capture, at cli/sensor_worker.cpp:540.
- Controller.PerformAuthentication: the same undefined `error()` call on a successful capture, at cli/controller.cpp:188 and 1031. The model reads success as a finger being present.
- Controller.Authenticate: cli/controller.cpp:230-231 and 1077-1078 dereference `settings->capacity` without checking that `get_device_setting_info` succeeded. The search reply is an input, so a failed settings read is not represented. The same applies to `PerformAdminFingerprintVerification`.
- AuditLogger.Initialize: built on the corrected `LoadKey`. The source's `initialize` calls the loader as written (cli/audit_logger.cpp:165), which never returns on a key file of the wrong size (:219). `AuditLogger.InitializeAsWritten` models that behaviour (see Findings).
- AuditLogger.LogEvent: the chain head advances at cli/audit_logger.cpp:48, before `appendToLog` at :52. When the log file cannot be opened (:354-357), the entry is lost while the head has moved, so the stored chain stops verifying. The model keeps every logged entry.
- AuditLogger.Crypt: requires a non-empty key or empty data. With an empty key, which is what an unreadable key file leaves, `i % key.size()` divides by zero.
- AuditLogger.EncryptEntry: the same non-empty-key requirement as `Crypt`.
- AuditLogger.DecryptEntry: the same non-empty-key requirement as `Crypt`.
- ProfileJsonProofs.RoundTrip: holds for names without a `"` character and for timestamps from the epoch up to the 64-bit maximum. The reader stops a name at its first quote and skips a minus sign, so other profiles do not come back unchanged. Converting the read seconds back to clock ticks can overflow 64 bits; the model computes that product without overflow.
- ProfileJson.Deserialize: the number of loop passes is bounded by a `fuel` parameter. `OutOfFuel` stands for a text whose keys would keep the loop going longer.
- ProfileManager.IsoText: timestamps are written as decimal seconds rather than ISO 8601 date text. `FromIsoText` reads them back. Only the exact round trip to whole seconds is modelled, not the calendar format.
- ProfileManager.FromIsoText: the partner of `IsoText`, under the same decimal-seconds simplification.
- ProfileManager.Deserialize: the JSON text is taken as already parsed (`QJsonDocument::fromJson` is an input), and the decryption of the file is not modelled.
- AdminAuthenticator.SetPassword: the 8-character minimum counts Unicode code points. `QString::length` counts UTF-16 code units, so the two differ for characters outside the Basic Multilingual Plane.
- ProfileManager.AddProfile: trimming and emptiness likewise work on code points, not UTF-16 code units.
- FingerprintSensor.Receive: the port-closed and timeout paths of `receivePacket` become a failed read of the byte stream. Wall-clock timeouts are not modelled.
- FingerprintSensor.FetchTemplates: the `getParameters` refresh inside `fastSearch` and `fetchTemplates` is not modelled; the capacity is a parameter.
- CommandQueue.Pop: requires a non-empty queue. In cli/sensor_command_queue.h:63-77, `pop` on an empty queue spins until another thread pushes, and threads are not modelled.
- SessionManager.ValidateToken: the token arrives as its 74-byte payload. The Base64 text form is not modelled.

Operations not modelled:
- StatusCodes.Message and the `get_message` functions of both setting headers are modelled without a contract of their own. They only prefix or suffix the name text, and a contract would restate the table.
- `get_all_profiles` and `get_profile_count` in src/profile_store.cpp only return the list and its length.
- File encryption, key derivation and the files themselves in src/profile_store.cpp and cli/profile_manager.cpp are I/O and cryptography. A save is the success flag `saved`.
- `formatEntry`, `exportLog`, `readAllEntries` and `appendToLog` in cli/audit_logger.cpp write or read the host's memory layout of an entry. The log is modelled as its list of entries.
- `findFingerprint`, `identifyFingerprint` and `verifyFingerprint` in cli/controller.cpp (509-644) issue the same capture, extract and search calls that `SensorWorker.CompleteSearch` and `SensorWorker.CompleteVerify` model, and only format messages.
- The LED, baud-rate, security-level and packet-size setters, `softReset`, `showSystemSettings` and `refreshTemplateCount` in cli/controller.cpp and cli/sensor_worker.cpp forward one sensor call and emit a message. The request bytes they send are modelled by `CommandSerializer.SerializeRequest`.
- `queryTemplate` and `refreshTemplateCount` in cli/sensor_worker.cpp (802-830, 878-895) repeat the index-table test of `Controller.QueryTemplate` and the count of `FingerprintSensor.TemplateCount`.
- `addDriver`, `deleteDriver`, `getDriverName`, `getAllDrivers` and `lookupDriverName` in cli/controller.cpp (292-296, 1290-1360) forward to the `ProfileManager` operations modelled here.
- QTimer, signal and QML property glue in cli/controller.cpp and cli/sensor_worker.cpp. Only the state transitions are modelled.
- Serial-port I/O, the command executors and the baud auto-detect loop. The serial line is a byte sequence or a reply given as input.
- The coroutine and epoll drafts under src/.hidden and include/carbio/.hidden/internal/io, except the template serializer pair.
- `loadSecretKey` in cli/session_manager.cpp (288-327) reads the HMAC key file. It is file I/O, and the key is a parameter of the model. On a key file of the wrong size it clears the key and calls itself on the unchanged file at :323, so it never returns. That is the same defect as the audit logger's key loader in Findings.
- Spin locks, atomics and the lock-free and blocking queues. The command queue is modelled sequentially.
- SHA-256, HMAC, PBKDF2, AES-GCM, random generators and clocks. Each is a parameter.
- Floating-point helpers and the `to_json` formatting helpers.

## Findings

| source | as written | input that shows it | evidently intended | confidence | as-written member | corrected member |
|---|---|---|---|---|---|---|
| include/carbio/.hidden/internal/fingerprint/packet_deserializer.h:52 | `MIN_PACKET_SIZE` is 12, so `deserialize` rejects every buffer shorter than 12 bytes | a packet with an empty payload: `serialize` emits its 11-byte frame, and `deserialize` of that frame returns `bad_packet` | the 11-byte minimum of a frame (9 header bytes and 2 checksum bytes), so that every serialized packet reads back | high; not executed | TemplatePacket.Deserialize, TemplatePacket.EmptyPayloadRejected | TemplatePacket.DeserializeCorrected, TemplatePacket.RoundTripCorrected |
| include/carbio/data_length_setting.h:82-98 | `get_hex` returns "0x01" to "0x04" for the codes 0x00 to 0x03 | `get_hex(data_length_setting::_32)`, code 0x00, returns "0x01" | the code's own hex text, as `get_hex` of the baud-rate setting and of the fingerprint-namespace data-length setting give | high; not executed | DataLengthSetting.HexAsWritten, DataLengthSetting.HexAsWrittenIsOffByOne | DataLengthSetting.Hex |
| cli/controller.cpp:699-739 | `deleteFingerprint` and `clearDatabase` report success when the sensor call returns an error (`!result`) | `deleteFingerprint(5)` with a sensor whose erase succeeds reports "Failed to delete"; a failing erase reports the fingerprint deleted | success reported exactly when the sensor call succeeds, as in every other handler | high; not executed | Controller.DeleteFingerprintAsWritten, Controller.ClearDatabaseAsWritten, Controller.DeleteAndClearInverted | Controller.DeleteFingerprint, Controller.ClearDatabase, Controller.CorrectedHandlersDiffer |
| cli/sensor_worker.cpp:848-875 | the worker's `deleteFingerprint` and `clearDatabase` have the same inverted test | `deleteFingerprint(5)` with a successful erase emits `operationFailed` | success reported exactly when the sensor call succeeds | high; not executed | SensorWorker.DeleteFingerprintAsWritten, SensorWorker.ClearDatabaseAsWritten | SensorWorker.DeleteFingerprint, SensorWorker.ClearDatabase, SensorWorker.WorkerHandlersInverted |
| cli/sensor_worker.cpp:596 | after dispatch `onOperationPollTick` sets the operation to NONE, overwriting the ENROLL that stage 0 re-armed at :695 | `enrollFingerprint(5)`, then two good scans: the first reports progress, the second is never dispatched, so enrollment never completes | stage 1 runs on the next finger and enrollment completes | high; not executed | SensorWorker.OnOperationPollTickAsWritten, SensorWorker.EnrollmentNeverCompletesAsWritten | SensorWorker.OnOperationPollTick, SensorWorker.EnrollmentCompletes |
| src/profile_store.cpp:746-753 | the timestamp offsets `+ 13` and `+ 14` skip only the key and its colon, so the digit run starts at the space and is empty; `std::stoll("")` throws inside a `noexcept` function | loading the saved text of any non-empty profile list ends the program through `std::terminate` | offsets past the space (14 and 15), so that the saved profiles load back | high; not executed | ProfileJsonProofs.AsWrittenTerminates | ProfileJsonProofs.RoundTrip |
| cli/audit_logger.cpp:215-221 | a key file of the wrong size is cleared from memory and `loadEncryptionKey` calls itself, which reads the same unchanged file again | a 31-byte key file: the recursion never ends | replace the wrong-size key by a fresh one and save it | medium; not executed | AuditLogger.LoadKeyAsWritten, AuditLogger.WrongSizeKeyNeverLoads, AuditLogger.InitializeAsWritten, AuditLogger.WrongSizeKeyNeverInitializes | AuditLogger.LoadKey, AuditLogger.LoadKeyAgrees, AuditLogger.Initialize |
| src/protocol_handler.cpp:65-83 | each loop step takes `min(length_, remaining)` bytes, so with `length_` 0 the offset never advances | a handler whose data-packet length is 0 and a non-empty payload: the loop never ends | a positive chunk length; the corrected model uses the default length of 128 in place of 0 | medium; not executed | ProtocolHandler.ConstructDataPacketAsWritten, ProtocolHandler.ZeroChunkLengthNeverEnds | ProtocolHandler.ConstructDataPacketCorrected |

=== FILE: admin_authenticator.dfy ===
/** The admin password gate of `cli/admin_authenticator.cpp`: a salted
    password hash, a failed-attempt counter with a five-minute lockout, and
    a single-use sixteen-byte challenge valid for thirty seconds.

    The key derivation (PBKDF2 over SHA-256) is the function parameter
    `hash`, the random salt and nonce are parameters, and `now` is a
    `steady_clock` reading in nanoseconds. */
module AdminAuthenticator {
  import opened Bytes
  import SecurityTypes

  const MaxAttempts: int := SecurityTypes.MaxAuthAttempts
  const LockoutDurationSeconds: int := SecurityTypes.LockoutDurationSeconds
  const ChallengeWindowSeconds: int := SecurityTypes.ChallengeWindowSeconds
  const PasswordMinLength: nat := 8
  const NonceSize: nat := SecurityTypes.NonceSize

  /** `steady_clock` ticks per second. */
  const TicksPerSecond: int := 1_000_000_000

  /** `steady_clock::time_point::min()`. */
  const MinTime: int := -0x8000_0000_0000_0000

  /** `duration_cast<seconds>`: whole seconds, cut toward zero. */
  function Seconds(ticks: int): int
  {
    if ticks >= 0 then ticks / TicksPerSecond else -((-ticks) / TicksPerSecond)
  }

  datatype Challenge = Challenge(nonce: bytes, timestamp: int, active: bool)

  datatype Authenticator = Authenticator(
    failedAttempts: int, lockoutUntil: int, lastAttempt: int,
    passwordHash: bytes, salt: bytes, challenge: Challenge)

  /** What `clearChallenge` leaves: a zeroed nonce, inactive. */
  function ClearedChallenge(c: Challenge): Challenge
  {
    c.(nonce := ZeroBytes(NonceSize), active := false)
  }

  // ---------------------------------------------------------------------
  // Rate limiting

  /** `isRateLimited`: three or more failures and the lockout still running. */
  predicate IsRateLimited(a: Authenticator, now: int)
  {
    a.failedAttempts >= MaxAttempts && now < a.lockoutUntil
  }

  /** `remainingAttempts`. */
  function RemainingAttempts(a: Authenticator, now: int): (r: int)
    ensures IsRateLimited(a, now) ==> r == 0
    ensures 0 <= a.failedAttempts < MaxAttempts ==> 0 < r <= MaxAttempts
    ensures !IsRateLimited(a, now) ==> a.failedAttempts + r == MaxAttempts
  {
    if IsRateLimited(a, now) then 0 else MaxAttempts - a.failedAttempts
  }

  /** `lockoutSecondsRemaining`: the whole seconds left of a running
      lockout, never negative. */
  function LockoutSecondsRemaining(a: Authenticator, now: int): (r: int)
    ensures r >= 0
    ensures !IsRateLimited(a, now) ==> r == 0
    ensures IsRateLimited(a, now) ==> r * TicksPerSecond <= a.lockoutUntil - now < (r + 1) * TicksPerSecond
  {
    if !IsRateLimited(a, now) then 0
    else
      var remaining := Seconds(a.lockoutUntil - now);
      if remaining < 0 then 0 else remaining
  }

  /** `resetAttempts`. */
  function ResetAttempts(a: Authenticator): (r: Authenticator)
    ensures forall now :: !IsRateLimited(r, now) && RemainingAttempts(r, now) == MaxAttempts
    ensures r.passwordHash == a.passwordHash && r.salt == a.salt && r.challenge == a.challenge
  {
    a.(failedAttempts := 0, lockoutUntil := MinTime)
  }

  // ---------------------------------------------------------------------
  // Passwords

  /** `constantTimeCompare`: or-accumulates the xor of every byte pair, so
      the time taken does not depend on where the inputs differ. */
  method ConstantTimeCompare(a: bytes, b: bytes) returns (equal: bool)
    ensures equal <==> a == b
  {
    if |a| != |b| {
      return false;
    }
    var diff: uint8 := 0;
    for i := 0 to |a|
      invariant diff == 0 <==> a[..i] == b[..i]
    {
      XorZero(a[i], b[i]);
      OrZero(diff, Xor(a[i], b[i]));
      assert a[..i + 1] == a[..i] + [a[i]] && b[..i + 1] == b[..i] + [b[i]];
      diff := Or(diff, Xor(a[i], b[i]));
    }
    assert a[..|a|] == a && b[..|b|] == b;
    equal := diff == 0;
  }

  /** `verifyPassword`: refused without any change while rate limited;
      otherwise a match clears the failure count and a mismatch adds one,
      the third one starting a lockout. */
  function VerifyPassword(a: Authenticator, password: string, now: int, hash: (string, bytes) -> bytes)
    : (r: (Authenticator, bool))
    ensures IsRateLimited(a, now) ==> r == (a, false)
    ensures !IsRateLimited(a, now) ==> r.0.lastAttempt == now
    ensures !IsRateLimited(a, now) ==> (r.1 <==> hash(password, a.salt) == a.passwordHash)
    ensures r.1 ==> r.0.failedAttempts == 0 && r.0.lockoutUntil == a.lockoutUntil
    ensures !IsRateLimited(a, now) && !r.1 ==> r.0.failedAttempts == a.failedAttempts + 1
    ensures !IsRateLimited(a, now) && !r.1 ==>
      r.0.lockoutUntil == (if r.0.failedAttempts >= MaxAttempts then now + LockoutDurationSeconds * TicksPerSecond
                           else a.lockoutUntil)
    ensures r.0.passwordHash == a.passwordHash && r.0.salt == a.salt && r.0.challenge == a.challenge
  {
    if IsRateLimited(a, now) then (a, false)
    else
      var tried := a.(lastAttempt := now);
      if hash(password, a.salt) == a.passwordHash then (tried.(failedAttempts := 0), true)
      else
        var failed := a.failedAttempts + 1;
        if failed >= MaxAttempts then
          (tried.(failedAttempts := failed, lockoutUntil := now + LockoutDurationSeconds * TicksPerSecond), false)
        else (tried.(failedAttempts := failed), false)
  }

  /** `setPassword`: refuses passwords shorter than eight characters and
      otherwise stores the hash of the password under the fresh salt. */
  function SetPassword(a: Authenticator, newPassword: string, salt: bytes, hash: (string, bytes) -> bytes)
    : (r: (Authenticator, bool))
    ensures |newPassword| < PasswordMinLength ==> r == (a, false)
    ensures |newPassword| >= PasswordMinLength ==> r.1 && r.0 == a.(salt := salt, passwordHash := hash(newPassword, salt))
  {
    if |newPassword| < PasswordMinLength then (a, false)
    else (a.(salt := salt, passwordHash := hash(newPassword, salt)), true)
  }

  /** `hasPasswordSet`. */
  predicate HasPasswordSet(a: Authenticator)
  {
    |a.passwordHash| > 0 && |a.salt| > 0
  }

  /** Three wrong passwords in a row from a clean counter lock the gate
      for five minutes, and during that time even the right password is
      refused. */
  lemma ThreeFailuresLockOut(a: Authenticator, wrong: string, right: string, now: int, later: int,
                             hash: (string, bytes) -> bytes)
    requires a.failedAttempts == 0 && hash(wrong, a.salt) != a.passwordHash
    requires now <= later < now + LockoutDurationSeconds * TicksPerSecond
    ensures var a3 := VerifyPassword(VerifyPassword(VerifyPassword(a, wrong, now, hash).0, wrong, now, hash).0,
                                     wrong, now, hash).0;
      IsRateLimited(a3, later) && VerifyPassword(a3, right, later, hash) == (a3, false)
      && RemainingAttempts(a3, later) == 0 && LockoutSecondsRemaining(a3, later) <= LockoutDurationSeconds
  {
  }

  /** A lockout expires: once its end has passed the gate accepts attempts
      again, but the count stays at three or more, so the next wrong
      password starts a new lockout at once. */
  lemma LockoutExpiresButRelocks(a: Authenticator, wrong: string, now: int, hash: (string, bytes) -> bytes)
    requires a.failedAttempts >= MaxAttempts && now >= a.lockoutUntil
    requires hash(wrong, a.salt) != a.passwordHash
    ensures !IsRateLimited(a, now)
    ensures IsRateLimited(VerifyPassword(a, wrong, now, hash).0, now)
    ensures RemainingAttempts(a, now) <= 0
  {
  }

  /** A password that was set is accepted afterwards unless the gate is
      locked, and acceptance clears the failure count. */
  lemma SetThenVerify(a: Authenticator, password: string, salt: bytes, now: int, hash: (string, bytes) -> bytes)
    requires |password| >= PasswordMinLength
    ensures var s := SetPassword(a, password, salt, hash).0;
      !IsRateLimited(s, now) ==> VerifyPassword(s, password, now, hash).1
                                 && VerifyPassword(s, password, now, hash).0.failedAttempts == 0
  {
  }

  // ---------------------------------------------------------------------
  // Challenges

  /** `generateChallenge`: stores the random nonce as the active challenge. */
  function GenerateChallenge(a: Authenticator, nonce: bytes, now: int): (r: (Authenticator, bytes))
    requires |nonce| == NonceSize
    ensures r.1 == nonce && r.0.challenge == Challenge(nonce, now, true)
    ensures r.0.failedAttempts == a.failedAttempts && r.0.passwordHash == a.passwordHash
  {
    (a.(challenge := Challenge(nonce, now, true)), nonce)
  }

  /** `validateChallenge`: fails without an active challenge; an expired
      challenge is cleared and fails; a nonce of the wrong size or value
      fails and leaves the challenge in place; a match clears it. */
  function ValidateChallenge(a: Authenticator, nonce: bytes, now: int): (r: (Authenticator, bool))
    ensures r.1 <==> a.challenge.active && Seconds(now - a.challenge.timestamp) <= ChallengeWindowSeconds
                     && nonce == a.challenge.nonce && |nonce| == NonceSize
    ensures r.1 ==> !r.0.challenge.active
    ensures a.challenge.active && Seconds(now - a.challenge.timestamp) > ChallengeWindowSeconds ==> !r.0.challenge.active
    ensures !r.1 && Seconds(now - a.challenge.timestamp) <= ChallengeWindowSeconds ==> r.0 == a
    ensures r.0.failedAttempts == a.failedAttempts && r.0.passwordHash == a.passwordHash
  {
    var c := a.challenge;
    if !c.active then (a, false)
    else if Seconds(now - c.timestamp) > ChallengeWindowSeconds then (a.(challenge := ClearedChallenge(c)), false)
    else if |nonce| != NonceSize then (a, false)
    else if nonce == c.nonce then (a.(challenge := ClearedChallenge(c)), true)
    else (a, false)
  }

  /** A fresh challenge validates with its own nonce exactly while at most
      thirty whole seconds have passed. */
  lemma ChallengeRoundTrip(a: Authenticator, nonce: bytes, issued: int, now: int)
    requires |nonce| == NonceSize
    ensures var g := GenerateChallenge(a, nonce, issued);
      ValidateChallenge(g.0, g.1, now).1 <==> Seconds(now - issued) <= ChallengeWindowSeconds
  {
  }

  /** A challenge is single use: after it validated once the same nonce is
      refused at any later time. */
  lemma ChallengeSingleUse(a: Authenticator, nonce: bytes, now: int, later: int)
    requires ValidateChallenge(a, nonce, now).1
    ensures !ValidateChallenge(ValidateChallenge(a, nonce, now).0, nonce, later).1
  {
  }
}

=== FILE: audit_logger.dfy ===
/** The tamper-evident audit trail of `cli/audit_logger.cpp`: every event
    becomes an entry that carries the hash of its predecessor and the hash
    of its own contents, so that the chain from the all-zero genesis hash
    can be re-checked; entries are stored under a xor stream keyed by a
    32-byte key file and a generated 16-byte IV.

    SHA-256 is the function parameter `hash`, the clock reading and the
    random IV and key bytes are parameters. The log file is its list of
    entries: the byte layout of an entry, the length prefix in front of
    each encrypted record and the readable text of `formatEntry` are not
    modelled. */
module AuditLogger {
  import opened Bytes
  import opened Wrappers
  import opened SecurityTypes

  const IvSize: nat := 16
  const EncryptionKeySize: nat := 32

  /** `AuditEntry`. */
  datatype Entry = Entry(
    timestamp: uint64, event: SecurityEvent, userId: uint16, result: AuthResult,
    ipAddress: string, details: string, prevHash: Digest, entryHash: Digest)

  /** `computeEntryHash`: SHA-256 over every field except the entry's own
      hash. */
  type Hasher = (uint64, SecurityEvent, uint16, AuthResult, string, string, Digest) -> Digest

  function HashOf(e: Entry, hash: Hasher): Digest
  {
    hash(e.timestamp, e.event, e.userId, e.result, e.ipAddress, e.details, e.prevHash)
  }

  /** The previous hash of the first entry. */
  const Genesis: Digest := ZeroBytes(HashSize)

  /** The logger: its encryption key, the head of the chain, the number of
      entries written, and the entries of the log file in order. */
  datatype Logger = Logger(key: bytes, lastHash: Digest, entryCount: nat, log: seq<Entry>)

  /** The hash the next entry must name as its predecessor. */
  function ChainHead(es: seq<Entry>): Digest
  {
    if |es| == 0 then Genesis else es[|es| - 1].entryHash
  }

  /** A well-linked log: each entry names the hash of the one before it
      (the first names the genesis hash) and carries the hash of its own
      contents. */
  predicate Linked(es: seq<Entry>, hash: Hasher)
  {
    && (|es| > 0 ==> es[0].prevHash == Genesis)
    && (forall i :: 0 < i < |es| ==> es[i].prevHash == es[i - 1].entryHash)
    && (forall i :: 0 <= i < |es| ==> es[i].entryHash == HashOf(es[i], hash))
  }

  /** The logger's chain head and count describe its log. */
  predicate InSync(l: Logger)
  {
    l.lastHash == ChainHead(l.log) && l.entryCount == |l.log|
  }

  // ---------------------------------------------------------------------
  // The encryption key

  /** The key file as `loadEncryptionKey` finds it. */
  datatype KeyFile = Missing | Unreadable | Stored(data: bytes)

  /** `loadEncryptionKey` as written: a missing file gets the generated key,
      an unreadable one leaves the key as it was, and a stored key of the
      wrong size clears the key and loads the same file again. `None` means
      the recursion has not come back within `fuel` calls. */
  function LoadKeyAsWritten(file: KeyFile, key: bytes, generated: bytes, fuel: nat): (r: Option<(bytes, KeyFile)>)
    ensures file.Missing? ==> r == Some((generated, Stored(generated)))
    ensures file.Unreadable? ==> r == Some((key, file))
    ensures file.Stored? && |file.data| == EncryptionKeySize ==> r == Some((file.data, file))
    decreases fuel
  {
    match file
    case Missing => Some((generated, Stored(generated)))
    case Unreadable => Some((key, file))
    case Stored(data) =>
      if |data| != EncryptionKeySize then
        if fuel == 0 then None else LoadKeyAsWritten(file, [], generated, fuel - 1)
      else Some((data, file))
  }

  /** A stored key of the wrong size is never got past: however many calls
      are allowed, the as-written loader does not return. */
  lemma {:induction false} WrongSizeKeyNeverLoads(data: bytes, key: bytes, generated: bytes, fuel: nat)
    requires |data| != EncryptionKeySize
    ensures LoadKeyAsWritten(Stored(data), key, generated, fuel).None?
    decreases fuel
  {
    if fuel > 0 {
      WrongSizeKeyNeverLoads(data, [], generated, fuel - 1);
    }
  }

  /** `loadEncryptionKey` as its warning says it behaves: a stored key of
      the wrong size is replaced by a generated one, which is written back. */
  function LoadKey(file: KeyFile, key: bytes, generated: bytes): (r: (bytes, KeyFile))
    requires |generated| == EncryptionKeySize
    ensures !file.Unreadable? ==> |r.0| == EncryptionKeySize && r.1 == Stored(r.0)
    ensures file.Stored? && |file.data| == EncryptionKeySize ==> r.0 == file.data
    ensures file.Unreadable? ==> r == (key, file)
  {
    match file
    case Missing => (generated, Stored(generated))
    case Unreadable => (key, file)
    case Stored(data) => if |data| != EncryptionKeySize then (generated, Stored(generated)) else (data, file)
  }

  /** Wherever the as-written loader returns, the corrected one returns the
      same key and file. */
  lemma LoadKeyAgrees(file: KeyFile, key: bytes, generated: bytes, fuel: nat)
    requires |generated| == EncryptionKeySize
    requires LoadKeyAsWritten(file, key, generated, fuel).Some?
    ensures LoadKeyAsWritten(file, key, generated, fuel).value == LoadKey(file, key, generated)
  {
    if file.Stored? && |file.data| != EncryptionKeySize {
      WrongSizeKeyNeverLoads(file.data, key, generated, fuel);
    }
  }

  // ---------------------------------------------------------------------
  // initialize, logEvent

  /** `initialize`: loads the key (starting from the constructor's empty
      one) and resumes the chain at the last stored entry, or at the
      genesis hash for an empty log. */
  function Initialize(file: KeyFile, generated: bytes, log: seq<Entry>): (r: (Logger, KeyFile))
    requires |generated| == EncryptionKeySize
    ensures InSync(r.0) && r.0.log == log
    ensures (r.0.key, r.1) == LoadKey(file, [], generated)
  {
    var (key, file') := LoadKey(file, [], generated);
    (Logger(key, ChainHead(log), |log|, log), file')
  }

  /** `initialize` over the as-written loader: `None` when the loader has
      not returned within `fuel` calls. Whenever it returns, the logger is
      the one `Initialize` builds. */
  function InitializeAsWritten(file: KeyFile, generated: bytes, log: seq<Entry>, fuel: nat): (r: Option<(Logger, KeyFile)>)
    requires |generated| == EncryptionKeySize
    ensures r.None? ==> file.Stored? && |file.data| != EncryptionKeySize
    ensures r.Some? ==> r.value == Initialize(file, generated, log)
  {
    var loaded := LoadKeyAsWritten(file, [], generated, fuel);
    if loaded.None? then None
    else
      LoadKeyAgrees(file, [], generated, fuel);
      var (key, file') := loaded.value;
      Some((Logger(key, ChainHead(log), |log|, log), file'))
  }

  /** With a stored key of the wrong size, `initialize` as written never
      returns, however many loader calls are allowed. */
  lemma WrongSizeKeyNeverInitializes(data: bytes, generated: bytes, log: seq<Entry>, fuel: nat)
    requires |generated| == EncryptionKeySize && |data| != EncryptionKeySize
    ensures InitializeAsWritten(Stored(data), generated, log, fuel).None?
  {
    WrongSizeKeyNeverLoads(data, [], generated, fuel);
  }

  /** `logEvent`: appends an entry stamped with the time, the address
      "local" and the current chain head, and advances the head to the new
      entry's hash. */
  function LogEvent(l: Logger, now: uint64, event: SecurityEvent, userId: uint16, result: AuthResult,
                    details: string, hash: Hasher): (r: Logger)
    ensures |r.log| == |l.log| + 1 && r.log[..|l.log|] == l.log && r.key == l.key
    ensures var e := r.log[|l.log|];
      e.timestamp == now && e.event == event && e.userId == userId && e.result == result
      && e.ipAddress == "local" && e.details == details && e.prevHash == l.lastHash
      && e.entryHash == HashOf(e, hash) && r.lastHash == e.entryHash
    ensures InSync(l) ==> InSync(r)
    ensures InSync(l) && Linked(l.log, hash) ==> Linked(r.log, hash)
  {
    var e := Entry(now, event, userId, result, "local", details, l.lastHash,
                   hash(now, event, userId, result, "local", details, l.lastHash));
    Logger(l.key, e.entryHash, l.entryCount + 1, l.log + [e])
  }

  /** The details text of `logAdminAccess`. */
  function AdminDetails(passwordValid: bool, fingerprintValid: bool): string
  {
    "Password: " + (if passwordValid then "VALID" else "INVALID")
    + ", Fingerprint: " + (if fingerprintValid then "VALID ADMIN" else "NOT ADMIN")
  }

  /** The details text records both checks: different outcomes never give
      the same text. */
  lemma AdminDetailsInjective(p1: bool, f1: bool, p2: bool, f2: bool)
    ensures AdminDetails(p1, f1) == AdminDetails(p2, f2) <==> p1 == p2 && f1 == f2
  {
    if p1 != p2 {
      assert AdminDetails(p1, f1)[10] != AdminDetails(p2, f2)[10];
    } else if f1 != f2 {
      assert |AdminDetails(p1, f1)| != |AdminDetails(p2, f2)|;
    }
  }

  /** `logAdminAccess`: a granted access is logged as a success; a denied
      one as a wrong password when the fingerprint was an admin's and as
      not-admin otherwise. */
  function LogAdminAccess(l: Logger, now: uint64, userId: uint16, passwordValid: bool, fingerprintValid: bool,
                          granted: bool, hash: Hasher): (r: Logger)
    ensures |r.log| == |l.log| + 1 && r.log[..|l.log|] == l.log
    ensures var e := r.log[|l.log|];
      e.userId == userId
      && (e.event == AdminAccessGranted <==> granted) && (e.event == AdminAccessDenied <==> !granted)
      && (e.result == AuthResult.Success <==> granted)
      && (e.result == InvalidPassword <==> !granted && fingerprintValid)
      && (e.result == NotAdmin <==> !granted && !fingerprintValid)
      && e.details == AdminDetails(passwordValid, fingerprintValid)
  {
    var event := if granted then AdminAccessGranted else AdminAccessDenied;
    var result := if granted then AuthResult.Success else if fingerprintValid then InvalidPassword else NotAdmin;
    LogEvent(l, now, event, userId, result, AdminDetails(passwordValid, fingerprintValid), hash)
  }

  /** `logUnauthorizedAccess`. */
  function LogUnauthorizedAccess(l: Logger, now: uint64, userId: uint16, details: string, hash: Hasher)
    : (r: Logger)
    ensures |r.log| == |l.log| + 1 && r.log[..|l.log|] == l.log
    ensures var e := r.log[|l.log|];
      e.event == UnauthorizedAccess && e.result == NotAdmin && e.userId == userId && e.details == details
  {
    LogEvent(l, now, UnauthorizedAccess, userId, NotAdmin, details, hash)
  }

  // ---------------------------------------------------------------------
  // verifyIntegrity, getRecentEntries

  /** `verifyIntegrity`: walks the log from the genesis hash, checking each
      entry's link and recomputing its hash; succeeds exactly on a
      well-linked log. */
  method VerifyIntegrity(es: seq<Entry>, hash: Hasher) returns (ok: bool)
    ensures ok <==> Linked(es, hash)
  {
    if |es| == 0 {
      return true;
    }
    var prevHash := Genesis;
    for i := 0 to |es|
      invariant Linked(es[..i], hash)
      invariant prevHash == ChainHead(es[..i])
    {
      LinkedStep(es, i, hash);
      if es[i].prevHash != prevHash || HashOf(es[i], hash) != es[i].entryHash {
        TruncationUndetected(es, i + 1, hash);
        return false;
      }
      prevHash := es[i].entryHash;
    }
    assert es[..|es|] == es;
    return true;
  }

  /** A well-linked prefix extends by one entry exactly when that entry
      names the prefix's head and carries its own hash. */
  lemma LinkedStep(es: seq<Entry>, i: nat, hash: Hasher)
    requires i < |es| && Linked(es[..i], hash)
    ensures Linked(es[..i + 1], hash) <==> es[i].prevHash == ChainHead(es[..i]) && es[i].entryHash == HashOf(es[i], hash)
  {
    var p := es[..i + 1];
    assert p[i] == es[i];
    if es[i].prevHash == ChainHead(es[..i]) && es[i].entryHash == HashOf(es[i], hash) {
      forall j | 0 <= j < |p|
        ensures p[j].prevHash == (if j == 0 then Genesis else p[j - 1].entryHash) && p[j].entryHash == HashOf(p[j], hash)
      {
        if j < i {
          assert p[j] == es[..i][j];
          if j > 0 {
            assert p[j - 1] == es[..i][j - 1];
          }
        }
      }
    }
  }

  /** A chain of events logged from a generated or reloaded well-linked log
      passes the integrity check. */
  lemma {:induction false} LoggedChainVerifies(l: Logger, events: seq<(uint64, SecurityEvent, uint16, AuthResult, string)>,
                                               hash: Hasher)
    requires InSync(l) && Linked(l.log, hash)
    ensures var r := LogAll(l, events, hash); InSync(r) && Linked(r.log, hash) && |r.log| == |l.log| + |events|
    decreases |events|
  {
    if |events| > 0 {
      var (now, event, userId, result, details) := events[0];
      LoggedChainVerifies(LogEvent(l, now, event, userId, result, details, hash), events[1..], hash);
    }
  }

  /** Logging a list of events in order. */
  function LogAll(l: Logger, events: seq<(uint64, SecurityEvent, uint16, AuthResult, string)>, hash: Hasher)
    : Logger
    decreases |events|
  {
    if |events| == 0 then l
    else
      var (now, event, userId, result, details) := events[0];
      LogAll(LogEvent(l, now, event, userId, result, details, hash), events[1..], hash)
  }

  /** Altering an entry's details is detected unless the new contents hash
      to the old value. */
  lemma AlteredDetailsDetected(es: seq<Entry>, k: nat, details: string, hash: Hasher)
    requires Linked(es, hash) && k < |es|
    requires HashOf(es[k].(details := details), hash) != es[k].entryHash
    ensures !Linked(es[k := es[k].(details := details)], hash)
  {
    var t := es[k := es[k].(details := details)];
    assert !(t[k].entryHash == HashOf(t[k], hash));
  }

  /** Deleting an entry other than the last is detected unless its hash
      equals its predecessor's. */
  lemma DeletionDetected(es: seq<Entry>, k: nat, hash: Hasher)
    requires Linked(es, hash) && k + 1 < |es| && es[k].entryHash != es[k].prevHash
    ensures !Linked(es[..k] + es[k + 1..], hash)
  {
    var t := es[..k] + es[k + 1..];
    assert t[k] == es[k + 1];
    assert es[k + 1].prevHash == es[k].entryHash;
    assert es[k].prevHash == (if k == 0 then Genesis else es[k - 1].entryHash);
    if k > 0 {
      assert t[k - 1] == es[k - 1];
    }
    assert !(t[k].prevHash == (if k == 0 then Genesis else t[k - 1].entryHash));
  }

  /** Dropping the newest entries is not detected: every prefix of a
      well-linked log is well-linked. */
  lemma TruncationUndetected(es: seq<Entry>, n: nat, hash: Hasher)
    requires n <= |es|
    ensures Linked(es, hash) ==> Linked(es[..n], hash)
  {
    if Linked(es, hash) {
      var p := es[..n];
      forall j | 0 < j < |p|
        ensures p[j].prevHash == p[j - 1].entryHash
      {
        assert p[j] == es[j] && p[j - 1] == es[j - 1];
      }
    }
  }

  /** `getRecentEntries`: the last `count` entries in log order, all of
      them when there are fewer, none for a count of zero or less. */
  function GetRecentEntries(es: seq<Entry>, count: int): (r: seq<Entry>)
    ensures |r| == (if count <= 0 then 0 else Min(count, |es|))
    ensures r == es[|es| - |r|..]
  {
    var start := if |es| - count > 0 then |es| - count else 0;
    if start >= |es| then [] else es[start..]
  }

  /** Right after an event is logged, the most recent entry shown is that
      event's. */
  lemma RecentShowsNewest(l: Logger, now: uint64, event: SecurityEvent, userId: uint16, result: AuthResult,
                          details: string, hash: Hasher, count: int)
    requires count >= 1
    ensures var r := LogEvent(l, now, event, userId, result, details, hash);
      var recent := GetRecentEntries(r.log, count);
      |recent| >= 1 && recent[|recent| - 1] == r.log[|l.log|]
  {
  }

  // ---------------------------------------------------------------------
  // encryptEntry, decryptEntry

  /** The xor stream both directions apply: byte `i` is xor-ed with key
      byte `i mod |key|` and IV byte `i mod 16`. The key may be empty only
      for empty data, since the index is taken modulo its size. */
  function Crypt(key: bytes, iv: bytes, data: bytes): (r: bytes)
    requires |key| > 0 || |data| == 0
    requires |iv| == IvSize
    ensures |r| == |data|
    ensures forall i :: 0 <= i < |data| ==> r[i] == Xor(Xor(data[i], key[i % |key|]), iv[i % IvSize])
  {
    seq(|data|, i requires 0 <= i < |data| => Xor(Xor(data[i], key[i % |key|]), iv[i % IvSize]))
  }

  /** `encryptEntry`: the IV followed by the xor-encrypted plaintext. */
  function EncryptEntry(key: bytes, iv: bytes, plaintext: bytes): (r: bytes)
    requires |key| > 0 || |plaintext| == 0
    requires |iv| == IvSize
    ensures |r| == IvSize + |plaintext| && r[..IvSize] == iv
  {
    iv + Crypt(key, iv, plaintext)
  }

  /** `decryptEntry`: input shorter than an IV decrypts to nothing;
      otherwise the IV is split off and the rest decrypted. */
  function DecryptEntry(key: bytes, ciphertext: bytes): (r: bytes)
    requires |key| > 0 || |ciphertext| <= IvSize
    ensures |ciphertext| < IvSize ==> r == []
    ensures |ciphertext| >= IvSize ==> |r| == |ciphertext| - IvSize
  {
    if |ciphertext| < IvSize then [] else Crypt(key, ciphertext[..IvSize], ciphertext[IvSize..])
  }

  /** Decryption undoes encryption under the same key, whatever the IV. */
  lemma DecryptEncrypt(key: bytes, iv: bytes, plaintext: bytes)
    requires |key| > 0 || |plaintext| == 0
    requires |iv| == IvSize
    ensures DecryptEntry(key, EncryptEntry(key, iv, plaintext)) == plaintext
  {
    var c := EncryptEntry(key, iv, plaintext);
    assert c[..IvSize] == iv && c[IvSize..] == Crypt(key, iv, plaintext);
    var d := DecryptEntry(key, c);
    forall i | 0 <= i < |plaintext|
      ensures d[i] == plaintext[i]
    {
      var k, v := key[i % |key|], iv[i % IvSize];
      var y := XorNat(plaintext[i], k);
      var x := XorNat(y, v);
      XorSwap(x, k, v);
      XorTwice(y, v);
      XorTwice(plaintext[i], k);
    }
  }
}

=== FILE: bytes.dfy ===
/** Fixed-width unsigned integers of the C++ code, as bounded subsets of `int`,
    and the two arithmetic helpers every frame format uses: big-endian field
    values and the additive byte sum. */
module Bytes {

  type uint8 = x: int | 0 <= x < 0x100
  type uint16 = x: int | 0 <= x < 0x1_0000
  type uint32 = x: int | 0 <= x < 0x1_0000_0000
  type uint64 = x: int | 0 <= x < 0x1_0000_0000_0000_0000

  /** A signed 32-bit `int`. */
  type int32 = x: int | -0x8000_0000 <= x < 0x8000_0000

  type bytes = seq<uint8>

  /** Bitwise exclusive-or of two naturals, one bit at a time from the least
      significant. */
  function XorNat(a: nat, b: nat): nat
    decreases a + b
  {
    if a == 0 && b == 0 then 0 else 2 * XorNat(a / 2, b / 2) + (a + b) % 2
  }

  /** Bitwise or of two naturals. */
  function OrNat(a: nat, b: nat): nat
    decreases a + b
  {
    if a == 0 && b == 0 then 0 else 2 * OrNat(a / 2, b / 2) + (if a % 2 == 1 || b % 2 == 1 then 1 else 0)
  }

  lemma {:induction false} XorNatBound(a: nat, b: nat, k: nat)
    requires a < Pow2(k) && b < Pow2(k)
    ensures XorNat(a, b) < Pow2(k)
    decreases k
  {
    if !(a == 0 && b == 0) {
      XorNatBound(a / 2, b / 2, k - 1);
    }
  }

  lemma {:induction false} OrNatBound(a: nat, b: nat, k: nat)
    requires a < Pow2(k) && b < Pow2(k)
    ensures OrNat(a, b) < Pow2(k)
    decreases k
  {
    if !(a == 0 && b == 0) {
      OrNatBound(a / 2, b / 2, k - 1);
    }
  }

  /** Exclusive-or of two bytes. */
  function Xor(a: uint8, b: uint8): uint8
  {
    XorNatBound(a, b, 8);
    XorNat(a, b)
  }

  /** Bitwise or of two bytes. */
  function Or(a: uint8, b: uint8): uint8
  {
    OrNatBound(a, b, 8);
    OrNat(a, b)
  }

  /** Xor-ing with the same value twice gives the value back. */
  lemma {:induction false} XorTwice(a: nat, b: nat)
    ensures XorNat(XorNat(a, b), b) == a
    decreases a + b
  {
    if a + b > 0 {
      var x := XorNat(a, b);
      XorHalves(a, b);
      XorHalves(x, b);
      XorTwice(a / 2, b / 2);
      XorParity(a, b, b);
      SameHalves(XorNat(x, b), a);
    }
  }

  /** The low bit of an exclusive-or and the exclusive-or of the remaining
      bits. */
  lemma XorHalves(a: nat, b: nat)
    ensures XorNat(a, b) / 2 == XorNat(a / 2, b / 2) && XorNat(a, b) % 2 == (a + b) % 2
  {
  }

  /** The low bit of two exclusive-ors in a row is the parity of the sum. */
  lemma XorParity(a: nat, b: nat, c: nat)
    ensures XorNat(XorNat(a, b), c) % 2 == (a + b + c) % 2
  {
    XorHalves(a, b);
    XorHalves(XorNat(a, b), c);
    ParityOfSum(XorNat(a, b), c);
    ParityOfSum(a + b, c);
  }

  lemma ParityOfSum(x: nat, y: nat)
    ensures (x % 2 + y) % 2 == (x + y) % 2
  {
  }

  /** A natural is determined by its half and its low bit. */
  lemma SameHalves(x: nat, y: nat)
    requires x / 2 == y / 2 && x % 2 == y % 2
    ensures x == y
  {
  }

  /** The operands of two exclusive-ors in a row may be swapped. */
  lemma {:induction false} XorSwap(a: nat, b: nat, c: nat)
    ensures XorNat(XorNat(a, b), c) == XorNat(XorNat(a, c), b)
    decreases a + b + c
  {
    if a + b + c > 0 {
      var ab, ac := XorNat(a, b), XorNat(a, c);
      XorHalves(a, b);
      XorHalves(a, c);
      XorHalves(ab, c);
      XorHalves(ac, b);
      XorSwap(a / 2, b / 2, c / 2);
      XorParity(a, b, c);
      XorParity(a, c, b);
      SameHalves(XorNat(ab, c), XorNat(ac, b));
    }
  }

  /** Two values xor to zero exactly when they are equal. */
  lemma {:induction false} XorZero(a: nat, b: nat)
    ensures XorNat(a, b) == 0 <==> a == b
    decreases a + b
  {
    if !(a == 0 && b == 0) {
      XorZero(a / 2, b / 2);
    }
  }

  /** An or is zero exactly when both operands are. */
  lemma {:induction false} OrZero(a: nat, b: nat)
    ensures OrNat(a, b) == 0 <==> a == 0 && b == 0
    decreases a + b
  {
    if !(a == 0 && b == 0) {
      OrZero(a / 2, b / 2);
    }
  }

  /** Whether bit `bit` (0 being the least significant) of a byte is set,
      as `byte & (1 << bit)` tests it. */
  predicate BitSet(b: uint8, bit: nat)
    requires bit < 8
  {
    (b / Pow2(bit)) % 2 == 1
  }

  function Pow2(k: nat): (r: nat)
    ensures r > 0
  {
    if k == 0 then 1 else 2 * Pow2(k - 1)
  }

  /** Sum of all bytes, as `std::accumulate(..., 0u)` computes it before the
      result is truncated by the caller. */
  function Sum(s: bytes): nat
  {
    if |s| == 0 then 0 else Sum(s[..|s| - 1]) + s[|s| - 1]
  }

  function Min(a: int, b: int): int { if a < b then a else b }

  /** `n` zero bytes. */
  function ZeroBytes(n: nat): (r: bytes)
    ensures |r| == n && forall i :: 0 <= i < n ==> r[i] == 0
  {
    if n == 0 then [] else ZeroBytes(n - 1) + [0]
  }

  /** The high and low byte of a 16-bit value. */
  function Hi(v: uint16): uint8 { v / 0x100 }
  function Lo(v: uint16): uint8 { v % 0x100 }

  /** Two bytes as a big-endian 16-bit value. */
  function Be16(hi: uint8, lo: uint8): uint16 { hi * 0x100 + lo }

  /** Four bytes as a big-endian 32-bit value. */
  function Be32(b0: uint8, b1: uint8, b2: uint8, b3: uint8): uint32
  {
    ((b0 * 0x100 + b1) * 0x100 + b2) * 0x100 + b3
  }

  /** The 2-byte big-endian encoding of a 16-bit value. */
  function Bytes16(v: uint16): bytes { [Hi(v), Lo(v)] }

  /** The 4-byte big-endian encoding of a 32-bit value. */
  function Bytes32(v: uint32): bytes
  {
    [v / 0x100_0000, (v / 0x1_0000) % 0x100, (v / 0x100) % 0x100, v % 0x100]
  }

  lemma SumAppend(a: bytes, b: bytes)
    ensures Sum(a + b) == Sum(a) + Sum(b)
  {
    if |b| == 0 {
      assert a + b == a;
    } else {
      assert (a + b)[..|a + b| - 1] == a + b[..|b| - 1];
      SumAppend(a, b[..|b| - 1]);
    }
  }

  lemma Be16OfBytes(v: uint16)
    ensures Be16(Hi(v), Lo(v)) == v
  {
  }

  lemma Be32OfBytes(v: uint32)
    ensures var b := Bytes32(v); Be32(b[0], b[1], b[2], b[3]) == v
  {
    var x2 := v / 0x100;
    var x1 := x2 / 0x100;
    DivUnique(v, 0x1_0000, x1, (x2 % 0x100) * 0x100 + v % 0x100);
    DivUnique(v, 0x100_0000, x1 / 0x100, (x1 % 0x100) * 0x1_0000 + (x2 % 0x100) * 0x100 + v % 0x100);
  }

  lemma Bytes16OfBe16(hi: uint8, lo: uint8)
    ensures Bytes16(Be16(hi, lo)) == [hi, lo]
  {
  }

  lemma Bytes32OfBe32(b0: uint8, b1: uint8, b2: uint8, b3: uint8)
    ensures Bytes32(Be32(b0, b1, b2, b3)) == [b0, b1, b2, b3]
  {
    var x1 := b0 * 0x100 + b1;
    var x2 := x1 * 0x100 + b2;
    var v := x2 * 0x100 + b3;
    DivUnique(v, 0x100, x2, b3);
    DivUnique(x2, 0x100, x1, b2);
    DivUnique(x1, 0x100, b0, b1);
    DivUnique(v, 0x1_0000, x1, b2 * 0x100 + b3);
    DivUnique(v, 0x100_0000, b0, b1 * 0x1_0000 + b2 * 0x100 + b3);
  }

  lemma Mod16Small(x: nat)
    requires x < 0x1_0000
    ensures x % 0x1_0000 == x
  {
  }

  /** Euclidean division is determined by quotient and remainder. */
  lemma DivUnique(a: int, d: int, q: int, m: int)
    requires d > 0 && 0 <= m < d && a == q * d + m
    ensures a / d == q && a % d == m
  {
    var q' := a / d;
    var m' := a % d;
    assert (q' - q) * d == m - m';
    MulSmall(q' - q, d);
  }

  lemma MulSmall(k: int, d: int)
    requires d > 0 && -d < k * d < d
    ensures k == 0
  {
  }

}

=== FILE: command_serializer.dfy ===
/** Per-command request payloads and response decoders
    (`serialize_request` / `deserialize_response`).  The `carbio` and the
    `carbio::fingerprint` headers specialise the two templates for the same
    24 commands with the same byte layouts; the only difference is that the
    fingerprint variant reads the password out of a `secure_value`, which is
    modelled here as the plain 32-bit value it holds. */
module CommandSerializer {
  import opened Bytes
  import opened Wrappers
  import StatusCodes

  /** The instruction codes of the sensor. */
  datatype Command =
    | CaptureImage | ExtractFeatures | MatchModel | SearchModel | CreateModel
    | StoreModel | LoadModel | UploadModel | DownloadModel | UploadImage
    | DownloadImage | EraseModel | ClearDatabase | WriteSystemParameter
    | ReadSystemParameter | SetDevicePassword | VerifyDevicePassword
    | FastSearchModel | CountModel | ReadIndexTable | SetLedConfig
    | SoftResetDevice | TurnLedOn | TurnLedOff

  function Code(c: Command): uint8
  {
    match c
    case CaptureImage => 0x01
    case ExtractFeatures => 0x02
    case MatchModel => 0x03
    case SearchModel => 0x04
    case CreateModel => 0x05
    case StoreModel => 0x06
    case LoadModel => 0x07
    case UploadModel => 0x08
    case DownloadModel => 0x09
    case UploadImage => 0x0A
    case DownloadImage => 0x0B
    case EraseModel => 0x0C
    case ClearDatabase => 0x0D
    case WriteSystemParameter => 0x0E
    case ReadSystemParameter => 0x0F
    case SetDevicePassword => 0x12
    case VerifyDevicePassword => 0x13
    case FastSearchModel => 0x1B
    case CountModel => 0x1D
    case ReadIndexTable => 0x1F
    case SetLedConfig => 0x35
    case SoftResetDevice => 0x3D
    case TurnLedOn => 0x50
    case TurnLedOff => 0x51
  }

  /** The command a code names, if any. */
  function CommandOf(code: uint8): (r: Option<Command>)
    ensures r.Some? ==> Code(r.value) == code
  {
    if code == 0x01 then Some(CaptureImage)
    else if code == 0x02 then Some(ExtractFeatures)
    else if code == 0x03 then Some(MatchModel)
    else if code == 0x04 then Some(SearchModel)
    else if code == 0x05 then Some(CreateModel)
    else if code == 0x06 then Some(StoreModel)
    else if code == 0x07 then Some(LoadModel)
    else if code == 0x08 then Some(UploadModel)
    else if code == 0x09 then Some(DownloadModel)
    else if code == 0x0A then Some(UploadImage)
    else if code == 0x0B then Some(DownloadImage)
    else if code == 0x0C then Some(EraseModel)
    else if code == 0x0D then Some(ClearDatabase)
    else if code == 0x0E then Some(WriteSystemParameter)
    else if code == 0x0F then Some(ReadSystemParameter)
    else if code == 0x12 then Some(SetDevicePassword)
    else if code == 0x13 then Some(VerifyDevicePassword)
    else if code == 0x1B then Some(FastSearchModel)
    else if code == 0x1D then Some(CountModel)
    else if code == 0x1F then Some(ReadIndexTable)
    else if code == 0x35 then Some(SetLedConfig)
    else if code == 0x3D then Some(SoftResetDevice)
    else if code == 0x50 then Some(TurnLedOn)
    else if code == 0x51 then Some(TurnLedOff)
    else None
  }

  /** Every command has its own code, and the code names it back. */
  lemma CodeRoundTrip(c: Command)
    ensures CommandOf(Code(c)) == Some(c)
  {
  }

  lemma CodeInjective(c: Command, d: Command)
    ensures Code(c) == Code(d) <==> c == d
  {
    CodeRoundTrip(c);
    CodeRoundTrip(d);
  }

  // ---------------------------------------------------------------------
  // Requests

  /** The request argument of each command, as its `command_traits`
      request type declares it. */
  datatype Request =
    | NoArguments(command: Command)
    | Buffer(command: Command, bufferId: uint8)
    | BufferPage(command: Command, bufferId: uint8, pageId: uint16)
    | PageCount(command: Command, pageId: uint16, count: uint16)
    | BufferPageCount(command: Command, bufferId: uint8, pageId: uint16, count: uint16)
    | Password(command: Command, password: uint32)
    | Parameter(command: Command, index: uint8, value: uint8)
    | Led(command: Command, mode: uint8, speed: uint8, color: uint8, times: uint8)

  /** The request shape each command's traits give it. */
  predicate WellTyped(r: Request)
  {
    match r
    case NoArguments(c) =>
      c in {CaptureImage, CreateModel, UploadImage, DownloadImage, ClearDatabase,
            MatchModel, CountModel, ReadSystemParameter, TurnLedOn, TurnLedOff,
            SoftResetDevice}
    case Buffer(c, _) => c in {ExtractFeatures, ReadIndexTable, UploadModel, DownloadModel}
    case BufferPage(c, _, _) => c in {StoreModel, LoadModel}
    case PageCount(c, _, _) => c == EraseModel
    case BufferPageCount(c, _, _, _) => c in {SearchModel, FastSearchModel}
    case Password(c, _) => c in {SetDevicePassword, VerifyDevicePassword}
    case Parameter(c, _, _) => c == WriteSystemParameter
    case Led(c, _, _, _, _) => c == SetLedConfig
  }

  /** The payload size of a command's request. */
  function RequestSize(c: Command): nat
  {
    match c
    case ExtractFeatures | ReadIndexTable | UploadModel | DownloadModel => 1
    case StoreModel | LoadModel => 3
    case EraseModel => 4
    case SearchModel | FastSearchModel => 5
    case SetDevicePassword | VerifyDevicePassword => 4
    case WriteSystemParameter => 2
    case SetLedConfig => 4
    case _ => 0
  }

  /** `serialize_request<code>`: the instruction parameters that follow the
      command code in a command packet.  Multi-byte fields are big-endian. */
  function SerializeRequest(r: Request): (out: bytes)
    requires WellTyped(r)
    ensures |out| == RequestSize(r.command)
  {
    match r
    case NoArguments(_) => []
    case Buffer(_, b) => [b]
    case BufferPage(_, b, page) => [b] + Bytes16(page)
    case PageCount(_, page, count) => Bytes16(page) + Bytes16(count)
    case BufferPageCount(_, b, page, count) => [b] + Bytes16(page) + Bytes16(count)
    case Password(_, pw) => Bytes32(pw)
    case Parameter(_, i, v) => [i, v]
    case Led(_, m, s, col, n) => [m, s, col, n]
  }

  /** How the sensor reads the parameters of a command: the independent
      inverse of `SerializeRequest`. */
  function ParseRequest(c: Command, payload: bytes): (r: Option<Request>)
    ensures r.Some? ==> r.value.command == c && WellTyped(r.value)
  {
    if |payload| != RequestSize(c) then None
    else
      match c
      case ExtractFeatures | ReadIndexTable | UploadModel | DownloadModel =>
        Some(Buffer(c, payload[0]))
      case StoreModel | LoadModel =>
        Some(BufferPage(c, payload[0], Be16(payload[1], payload[2])))
      case EraseModel =>
        Some(PageCount(c, Be16(payload[0], payload[1]), Be16(payload[2], payload[3])))
      case SearchModel | FastSearchModel =>
        Some(BufferPageCount(c, payload[0], Be16(payload[1], payload[2]),
                             Be16(payload[3], payload[4])))
      case SetDevicePassword | VerifyDevicePassword =>
        Some(Password(c, Be32(payload[0], payload[1], payload[2], payload[3])))
      case WriteSystemParameter => Some(Parameter(c, payload[0], payload[1]))
      case SetLedConfig => Some(Led(c, payload[0], payload[1], payload[2], payload[3]))
      case _ => Some(NoArguments(c))
  }

  /** Every request is recovered from its command code and payload. */
  lemma RequestRoundTrip(r: Request)
    requires WellTyped(r)
    ensures ParseRequest(r.command, SerializeRequest(r)) == Some(r)
  {
    match r
    case BufferPage(_, _, page) => Be16OfBytes(page);
    case PageCount(_, page, count) => Be16OfBytes(page); Be16OfBytes(count);
    case BufferPageCount(_, _, page, count) => Be16OfBytes(page); Be16OfBytes(count);
    case Password(_, pw) => Be32OfBytes(pw);
    case _ =>
  }

  /** Two well-typed requests with the same payload for the same command are
      the same request: the serializer loses nothing. */
  lemma SerializeRequestInjective(r: Request, s: Request)
    requires WellTyped(r) && WellTyped(s) && r.command == s.command
    ensures SerializeRequest(r) == SerializeRequest(s) <==> r == s
  {
    if SerializeRequest(r) == SerializeRequest(s) {
      RequestRoundTrip(r);
      RequestRoundTrip(s);
    }
  }

  /** The request layouts: search and fast search put the buffer id first,
      then the start page and the page count, both big-endian; erase puts
      the page first; passwords are four big-endian bytes. */
  lemma RequestLayout(r: Request)
    requires WellTyped(r)
    ensures r.NoArguments? ==> SerializeRequest(r) == []
    ensures r.BufferPageCount? ==>
      var out := SerializeRequest(r);
      out[0] == r.bufferId && Be16(out[1], out[2]) == r.pageId && Be16(out[3], out[4]) == r.count
    ensures r.PageCount? ==>
      var out := SerializeRequest(r);
      Be16(out[0], out[1]) == r.pageId && Be16(out[2], out[3]) == r.count
    ensures r.BufferPage? ==>
      var out := SerializeRequest(r);
      out[0] == r.bufferId && Be16(out[1], out[2]) == r.pageId
    ensures r.Password? ==>
      var out := SerializeRequest(r);
      Be32(out[0], out[1], out[2], out[3]) == r.password
  {
    RequestRoundTrip(r);
  }

  // ---------------------------------------------------------------------
  // Responses

  /** `device_setting_info`, as read by `read_system_parameter`. */
  datatype DeviceSettingInfo = DeviceSettingInfo(
    status: uint16, id: uint16, capacity: uint16, securityLevel: uint16,
    address: uint32, length: uint16, baudrate: uint16)

  /** The decoded response of each command. */
  datatype Response =
    | Done
    | Count(count: uint16)
    | Image(image: bytes)
    | IndexTable(table: bytes)
    | Match(confidence: uint16)
    | Search(index: uint16, confidence: uint16)
    | Settings(info: DeviceSettingInfo)

  /** The fewest response bytes a command's decoder accepts. */
  function MinResponseSize(c: Command): nat
  {
    match c
    case CountModel | MatchModel => 2
    case SearchModel | FastSearchModel => 4
    case ReadSystemParameter => 16
    case ReadIndexTable => 32
    case UploadModel | UploadImage => 512
    case _ => 0
  }

  /** `deserialize_response<code>`: decode the bytes after the status byte
      of an acknowledgement. */
  function DeserializeResponse(c: Command, data: bytes): (r: Result<Response, StatusCodes.Status>)
    ensures r.Failure? <==> |data| < MinResponseSize(c)
    ensures r.Failure? ==> r.error == StatusCodes.BadPacket
  {
    if |data| < MinResponseSize(c) then Failure(StatusCodes.BadPacket)
    else
      match c
      case CountModel => Success(Count(Be16(data[0], data[1])))
      case MatchModel => Success(Match(Be16(data[0], data[1])))
      case SearchModel | FastSearchModel =>
        Success(Search(Be16(data[0], data[1]), Be16(data[2], data[3])))
      case ReadSystemParameter => Success(Settings(ReadSettings(data)))
      case ReadIndexTable => Success(IndexTable(data[..32]))
      case UploadModel | UploadImage => Success(Image(data[..512]))
      case _ => Success(Done)
  }

  /** The seven big-endian fields at offsets 0, 2, 4, 6, 8 (32-bit), 12 and
      14. */
  function ReadSettings(data: bytes): (info: DeviceSettingInfo)
    requires |data| >= 16
  {
    DeviceSettingInfo(
      Be16(data[0], data[1]), Be16(data[2], data[3]), Be16(data[4], data[5]),
      Be16(data[6], data[7]), Be32(data[8], data[9], data[10], data[11]),
      Be16(data[12], data[13]), Be16(data[14], data[15]))
  }

  /** The response the sensor sends, as the inverse of
      `DeserializeResponse`. */
  function SerializeResponse(resp: Response): (out: bytes)
  {
    match resp
    case Done => []
    case Count(n) => Bytes16(n)
    case Match(conf) => Bytes16(conf)
    case Search(i, conf) => Bytes16(i) + Bytes16(conf)
    case Settings(s) =>
      Bytes16(s.status) + Bytes16(s.id) + Bytes16(s.capacity) + Bytes16(s.securityLevel)
      + Bytes32(s.address) + Bytes16(s.length) + Bytes16(s.baudrate)
    case IndexTable(t) => t
    case Image(img) => img
  }

  /** The response each command can carry. */
  predicate Answers(c: Command, resp: Response)
  {
    match resp
    case Done => MinResponseSize(c) == 0
    case Count(_) => c == CountModel
    case Match(_) => c == MatchModel
    case Search(_, _) => c == SearchModel || c == FastSearchModel
    case Settings(_) => c == ReadSystemParameter
    case IndexTable(t) => c == ReadIndexTable && |t| == 32
    case Image(img) => (c == UploadModel || c == UploadImage) && |img| == 512
  }

  /** Decoding an encoded response gives it back, whatever follows it. */
  lemma ResponseRoundTrip(c: Command, resp: Response, rest: bytes)
    requires Answers(c, resp)
    ensures DeserializeResponse(c, SerializeResponse(resp) + rest) == Success(resp)
  {
    var data := SerializeResponse(resp) + rest;
    match resp
    case Count(n) => Be16OfBytes(n);
    case Match(conf) => Be16OfBytes(conf);
    case Search(i, conf) => Be16OfBytes(i); Be16OfBytes(conf);
    case Settings(s) => SettingsRoundTrip(s, rest);
    case IndexTable(t) => assert data[..32] == t;
    case Image(img) => assert data[..512] == img;
    case Done =>
  }

  lemma SettingsRoundTrip(s: DeviceSettingInfo, rest: bytes)
    ensures var data := SerializeResponse(Settings(s)) + rest;
      |data| >= 16 && ReadSettings(data) == s
  {
    Be16OfBytes(s.status);
    Be16OfBytes(s.id);
    Be16OfBytes(s.capacity);
    Be16OfBytes(s.securityLevel);
    Be32OfBytes(s.address);
    Be16OfBytes(s.length);
    Be16OfBytes(s.baudrate);
  }

  /** A decoder looks only at its first `MinResponseSize` bytes; anything
      after them is ignored. */
  lemma ResponseReadsPrefix(c: Command, data: bytes)
    requires |data| >= MinResponseSize(c)
    ensures DeserializeResponse(c, data) == DeserializeResponse(c, data[..MinResponseSize(c)])
  {
    var n := MinResponseSize(c);
    var p := data[..n];
    if c == ReadIndexTable {
      assert p[..32] == data[..32];
    } else if c == UploadModel || c == UploadImage {
      assert p[..512] == data[..512];
    }
  }

  /** The status-only commands succeed on any input, the empty one
      included. */
  lemma StatusOnlyAlwaysSucceeds(c: Command, data: bytes)
    requires MinResponseSize(c) == 0
    ensures DeserializeResponse(c, data) == Success(Done)
  {
  }
}

=== FILE: controller.dfy ===
/** The access-control logic of `cli/controller.cpp`: the dashboard's
    authentication state with its failed-attempt lockout, the adaptive
    polling of the two fingerprint timers, the admin-access phases, and the
    id checks of the template handlers.

    Every sensor call is an input: a capture is the status byte it
    returned, a feature extraction a success flag, a search an optional
    match. The admin password gate and the session table are the models of
    `AdminAuthenticator` and `SessionManager`; the password hash, the
    session HMAC, both clocks and the token's random bytes are parameters.
    LEDs, signals, log lines and audit-log calls are not modelled. */
module Controller {
  import opened Bytes
  import opened Wrappers
  import StatusCodes
  import FingerprintSensor
  import SecurityTypes
  import AdminAuthenticator
  import SessionManager

  const MaxAttempts: int := 3
  const LockoutDurationSec: int := 20
  const PollIntervalMin: int := 1
  const PollIntervalMax: int := 16
  const PollBackoffFactor: int := 2
  const PollBackoffThreshold: int := 3

  /** `AuthState`. */
  datatype AuthState = Off | Scanning | Authenticating | Alert | On

  /** `AdminAuthPhase`. */
  datatype AdminPhase = Idle | PasswordPending | FingerprintPending | Completed

  /** A polling `QTimer` together with its count of consecutive polls that
      found no finger. */
  datatype Poller = Poller(active: bool, interval: int, misses: int)

  /** The random bytes `generateToken` draws for one session token. */
  type TokenRandom = s: bytes | |s| == SecurityTypes.TokenSize witness ZeroBytes(SecurityTypes.TokenSize)

  datatype Dashboard = Dashboard(
    sensorAvailable: bool,
    state: AuthState,
    failedAttempts: int,
    lockoutSeconds: int,
    processing: bool,
    scan: Poller,
    lockoutTimer: bool,
    adminPhase: AdminPhase,
    adminMenu: bool,
    adminToken: bytes,
    adminScan: Poller,
    gate: AdminAuthenticator.Authenticator,
    sessions: SessionManager.Sessions)

  /** The constructor: no sensor yet, state OFF, both pollers stopped at
      the minimum interval, no admin access. */
  function Initial(gate: AdminAuthenticator.Authenticator): (d: Dashboard)
    ensures Inv(d) && d.state == Off && d.adminPhase == Idle && !d.sensorAvailable
  {
    Dashboard(false, Off, 0, 0, false, Poller(false, PollIntervalMin, 0), false,
              Idle, false, [], Poller(false, PollIntervalMin, 0), gate, SessionManager.NoSessions)
  }

  // ---------------------------------------------------------------------
  // Adaptive polling

  /** The intervals the backoff can produce: the powers of two from 1 to 16. */
  predicate IsBackoffInterval(i: int)
  {
    i == 1 || i == 2 || i == 4 || i == 8 || i == 16
  }

  predicate PollerInv(p: Poller)
  {
    IsBackoffInterval(p.interval) && p.misses >= 0
  }

  /** `adjust…PollingInterval`: below three consecutive misses the interval
      stays; from then on it doubles up to 16. */
  function AdjustInterval(p: Poller): (r: Poller)
    ensures r.active == p.active && r.misses == p.misses
    ensures p.misses < PollBackoffThreshold ==> r.interval == p.interval
    ensures IsBackoffInterval(p.interval) ==> IsBackoffInterval(r.interval) && p.interval <= r.interval
    ensures IsBackoffInterval(p.interval) && p.misses >= PollBackoffThreshold && p.interval < PollIntervalMax ==>
      r.interval == PollBackoffFactor * p.interval
  {
    if p.misses < PollBackoffThreshold then p
    else p.(interval := Min(p.interval * PollBackoffFactor, PollIntervalMax))
  }

  /** A poll that found no finger: one more miss, then the adjustment. */
  function MissedPoll(p: Poller): (r: Poller)
    ensures r.active == p.active && r.misses == p.misses + 1
    ensures PollerInv(p) ==> PollerInv(r)
  {
    AdjustInterval(p.(misses := p.misses + 1))
  }

  /** `reset…PollingInterval`. */
  function ResetInterval(p: Poller): Poller
  {
    p.(misses := 0, interval := PollIntervalMin)
  }

  /** A reset poller that is running. */
  function Restarted(p: Poller): Poller
  {
    ResetInterval(p).(active := true)
  }

  /** `n` polls in a row without a finger. */
  function Misses(p: Poller, n: nat): Poller
  {
    if n == 0 then p else MissedPoll(Misses(p, n - 1))
  }

  /** The interval after `n` misses from a reset: 1 for the first two, then
      2^(n-2), never above 16. */
  function BackoffAfter(n: nat): int
  {
    if n < 2 then 1 else Min(Pow2(n - 2), PollIntervalMax)
  }

  /** From a reset poller, `n` misses give exactly the interval
      `BackoffAfter(n)` and a miss count of `n`. */
  lemma {:induction false} BackoffSchedule(p: Poller, n: nat)
    requires p.misses == 0 && p.interval == PollIntervalMin
    ensures Misses(p, n) == p.(misses := n, interval := BackoffAfter(n))
  {
    if n > 0 {
      BackoffSchedule(p, n - 1);
      if n >= 3 {
        assert Pow2(n - 2) == 2 * Pow2(n - 3);
      }
    }
  }

  /** After six misses the poller has reached its slowest interval, 16. */
  lemma BackoffReachesMaximum(p: Poller, n: nat)
    requires p.misses == 0 && p.interval == PollIntervalMin && n >= 6
    ensures Misses(p, n).interval == PollIntervalMax
  {
    BackoffSchedule(p, n);
    Pow2AtLeast(n - 2);
  }

  lemma {:induction false} Pow2AtLeast(k: nat)
    requires k >= 4
    ensures Pow2(k) >= 16
  {
    if k > 4 {
      Pow2AtLeast(k - 1);
    }
  }

  // ---------------------------------------------------------------------
  // The dashboard invariant

  /** What holds between any two events: counters in range, the lockout
      timer runs exactly while seconds remain, ALERT always comes with a
      running lockout, at least three failures and no scanning, the
      transient AUTHENTICATING state is never left behind, both pollers
      keep a backoff interval, and the admin menu is open, with a token,
      exactly in the COMPLETED phase. */
  predicate Inv(d: Dashboard)
  {
    d.failedAttempts >= 0 && 0 <= d.lockoutSeconds <= LockoutDurationSec
    && (d.lockoutTimer <==> d.lockoutSeconds > 0)
    && (d.state == Alert ==> d.lockoutSeconds > 0 && d.failedAttempts >= MaxAttempts && !d.scan.active)
    && d.state != Authenticating
    && PollerInv(d.scan) && PollerInv(d.adminScan)
    && (d.adminMenu <==> d.adminPhase == Completed)
    && (d.adminMenu <==> |d.adminToken| > 0)
  }

  /** The admin part of the dashboard is the same. */
  predicate SameAdmin(d: Dashboard, r: Dashboard)
  {
    r.adminPhase == d.adminPhase && r.adminMenu == d.adminMenu && r.adminToken == d.adminToken
    && r.adminScan == d.adminScan && r.gate == d.gate && r.sessions == d.sessions
  }

  // ---------------------------------------------------------------------
  // Authentication state and lockout

  /** `setAuthState`: nothing for the same state; otherwise the new state,
      and the failure count cleared on the move from ON to SCANNING. */
  function SetAuthState(d: Dashboard, s: AuthState): (r: Dashboard)
    ensures d.state == s ==> r == d
    ensures r.state == s
    ensures r.failedAttempts == if d.state == On && s == Scanning && d.failedAttempts > 0 then 0 else d.failedAttempts
    ensures r.(state := d.state, failedAttempts := d.failedAttempts) == d
  {
    if d.state == s then d
    else
      var failed := if s == Scanning && d.state == On && d.failedAttempts > 0 then 0 else d.failedAttempts;
      d.(state := s, failedAttempts := failed)
  }

  /** `startAuthentication`: nothing without a sensor or during a lockout;
      otherwise SCANNING with the scan poller reset and running. */
  function StartAuthentication(d: Dashboard): (r: Dashboard)
    ensures !d.sensorAvailable || d.state == Alert ==> r == d
    ensures d.sensorAvailable && d.state != Alert ==>
      r.state == Scanning && r.scan == Poller(true, PollIntervalMin, 0)
      && r.lockoutSeconds == d.lockoutSeconds && r.lockoutTimer == d.lockoutTimer
    ensures r.failedAttempts <= d.failedAttempts && SameAdmin(d, r)
    ensures Inv(d) ==> Inv(r)
  {
    if !d.sensorAvailable || d.state == Alert then d
    else
      var s := SetAuthState(d, Scanning);
      s.(scan := Restarted(s.scan))
  }

  /** `cancelAuthentication`: stops scanning and goes to OFF. */
  function CancelAuthentication(d: Dashboard): (r: Dashboard)
    ensures r.state == Off && !r.scan.active && r.scan.interval == PollIntervalMin
    ensures r.failedAttempts == d.failedAttempts && r.lockoutSeconds == d.lockoutSeconds
    ensures SameAdmin(d, r)
    ensures Inv(d) ==> Inv(r)
  {
    var s := d.(scan := ResetInterval(d.scan).(active := false));
    SetAuthState(s, Off)
  }

  /** `resetLockout`: ends any lockout, clears the failures and scans again;
      unlike `startAuthentication` it does not look at the sensor. */
  function ResetLockout(d: Dashboard): (r: Dashboard)
    ensures r.state == Scanning && r.failedAttempts == 0 && r.lockoutSeconds == 0 && !r.lockoutTimer
    ensures r.scan == Poller(true, PollIntervalMin, 0)
    ensures SameAdmin(d, r)
    ensures Inv(d) ==> Inv(r)
  {
    var s := SetAuthState(d.(lockoutTimer := false, lockoutSeconds := 0, failedAttempts := 0), Scanning);
    s.(scan := Restarted(s.scan))
  }

  /** `handleAuthenticationFailure`: one more failure; the third starts a
      twenty-second lockout in ALERT with scanning stopped, any earlier one
      returns to SCANNING with a fresh poller. */
  function HandleAuthenticationFailure(d: Dashboard): (r: Dashboard)
    ensures !r.processing && SameAdmin(d, r)
    ensures d.failedAttempts + 1 >= MaxAttempts ==>
      r.state == Alert && r.failedAttempts == d.failedAttempts + 1
      && r.lockoutSeconds == LockoutDurationSec && r.lockoutTimer && !r.scan.active
    ensures d.failedAttempts + 1 < MaxAttempts ==>
      r.state == Scanning && r.scan == Poller(true, PollIntervalMin, 0)
      && r.lockoutSeconds == d.lockoutSeconds && r.lockoutTimer == d.lockoutTimer
    ensures d.failedAttempts + 1 < MaxAttempts && d.state != On ==> r.failedAttempts == d.failedAttempts + 1
  {
    var f := d.(processing := false, failedAttempts := d.failedAttempts + 1);
    if f.failedAttempts >= MaxAttempts then
      var s := f.(scan := f.scan.(active := false), lockoutSeconds := LockoutDurationSec);
      SetAuthState(s, Alert).(lockoutTimer := true)
    else
      var s := SetAuthState(f, Scanning);
      s.(scan := Restarted(s.scan))
  }

  /** A scan that reached the sensor's search and found a template. */
  predicate Matched(capture: StatusCodes.Status, extractOk: bool, search: Option<FingerprintSensor.SearchResult>)
  {
    capture == StatusCodes.Success && extractOk && search.Some?
  }

  /** `performAuthentication`, one tick of the scan timer: acts only in
      SCANNING; no finger counts a miss; otherwise the finger goes on to
      `Authenticate`. */
  function PerformAuthentication(d: Dashboard, capture: StatusCodes.Status, extractOk: bool,
                                 search: Option<FingerprintSensor.SearchResult>): (r: Dashboard)
    ensures d.state != Scanning ==> r == d
    ensures d.state == Scanning && capture == StatusCodes.NoFinger ==> r == d.(scan := MissedPoll(d.scan))
    ensures d.state == Scanning && capture != StatusCodes.NoFinger && Matched(capture, extractOk, search) ==>
      r.state == On && r.failedAttempts == 0 && !r.scan.active && !r.processing
      && r.lockoutSeconds == d.lockoutSeconds
    ensures d.state == Scanning && capture != StatusCodes.NoFinger && !Matched(capture, extractOk, search) ==>
      r.failedAttempts == d.failedAttempts + 1
      && r.state == (if d.failedAttempts + 1 >= MaxAttempts then Alert else Scanning)
    ensures SameAdmin(d, r)
    ensures Inv(d) ==> Inv(r)
  {
    if d.state != Scanning then d
    else if capture == StatusCodes.NoFinger then d.(scan := MissedPoll(d.scan))
    else Authenticate(d, capture, extractOk, search)
  }

  /** The rest of `performAuthentication` once a finger is on the sensor:
      scanning stops, a match unlocks the dashboard (ON, failures cleared)
      and any failed step counts as a failed attempt. */
  function Authenticate(d: Dashboard, capture: StatusCodes.Status, extractOk: bool,
                        search: Option<FingerprintSensor.SearchResult>): (r: Dashboard)
    ensures Matched(capture, extractOk, search) ==>
      r.state == On && r.failedAttempts == 0 && !r.scan.active && !r.processing
      && r.lockoutSeconds == d.lockoutSeconds && r.lockoutTimer == d.lockoutTimer
    ensures d.state == Scanning && !Matched(capture, extractOk, search) ==>
      r.failedAttempts == d.failedAttempts + 1
      && r.state == (if d.failedAttempts + 1 >= MaxAttempts then Alert else Scanning)
      && (r.state == Scanning ==> r.lockoutSeconds == d.lockoutSeconds && r.lockoutTimer == d.lockoutTimer)
      && (r.state == Alert ==> r.lockoutSeconds == LockoutDurationSec && r.lockoutTimer && !r.scan.active)
    ensures r.scan.interval == PollIntervalMin && r.scan.misses == 0
    ensures SameAdmin(d, r)
  {
    var s := SetAuthState(d.(scan := ResetInterval(d.scan).(active := false), processing := true), Authenticating);
    if !Matched(capture, extractOk, search) then HandleAuthenticationFailure(s)
    else SetAuthState(s.(failedAttempts := 0, processing := false), On)
  }

  /** `onLockoutTick`, one second of the lockout timer: counts a running
      lockout down; at zero the timer stops, the failures are cleared and
      scanning starts again. */
  function OnLockoutTick(d: Dashboard): (r: Dashboard)
    ensures d.lockoutSeconds <= 0 ==> r == d
    ensures d.lockoutSeconds > 1 ==> r == d.(lockoutSeconds := d.lockoutSeconds - 1)
    ensures d.lockoutSeconds == 1 ==>
      r.lockoutSeconds == 0 && !r.lockoutTimer && r.failedAttempts == 0 && r.state == Scanning
      && (d.sensorAvailable ==> r.scan == Poller(true, PollIntervalMin, 0))
      && (!d.sensorAvailable ==> r.scan.active == d.scan.active)
    ensures SameAdmin(d, r)
    ensures Inv(d) ==> Inv(r)
  {
    if d.lockoutSeconds <= 0 then d
    else
      var c := d.(lockoutSeconds := d.lockoutSeconds - 1);
      if c.lockoutSeconds > 0 then c
      else
        var s := SetAuthState(c.(lockoutTimer := false, failedAttempts := 0), Scanning);
        StartAuthentication(s.(scan := ResetInterval(s.scan)))
  }

  /** `n` ticks of the lockout timer. */
  function Ticks(d: Dashboard, n: nat): Dashboard
  {
    if n == 0 then d else OnLockoutTick(Ticks(d, n - 1))
  }

  /** While seconds remain the lockout only counts down: the dashboard
      stays in ALERT with nothing else changed. */
  lemma {:induction false} LockoutCountsDown(d: Dashboard, n: nat)
    requires n < d.lockoutSeconds
    ensures Ticks(d, n) == d.(lockoutSeconds := d.lockoutSeconds - n)
  {
    if n > 0 {
      LockoutCountsDown(d, n - 1);
    }
  }

  /** Three failed scans in a row from a clean count lock the dashboard:
      ALERT for twenty seconds, scanning stopped, and neither a start nor a
      scan tick changes anything until the lockout ends; then, after
      exactly that many ticks, the count is cleared and scanning resumes. */
  lemma ThreeFailuresLockOut(d: Dashboard, capture: StatusCodes.Status, extractOk: bool,
                             search: Option<FingerprintSensor.SearchResult>)
    requires Inv(d) && d.state == Scanning && d.failedAttempts == 0
    requires capture != StatusCodes.NoFinger && !Matched(capture, extractOk, search)
    ensures var a := PerformAuthentication(PerformAuthentication(PerformAuthentication(d, capture, extractOk, search),
                                                                 capture, extractOk, search), capture, extractOk, search);
      a.state == Alert && a.lockoutSeconds == LockoutDurationSec && !a.scan.active && Inv(a)
      && StartAuthentication(a) == a && PerformAuthentication(a, capture, extractOk, search) == a
  {
  }

  /** A lockout ends after exactly as many ticks as it has seconds left: in
      SCANNING, with the failures cleared, and scanning again whenever a
      sensor is available. */
  lemma {:induction false} LockoutEnds(d: Dashboard)
    requires Inv(d) && d.state == Alert
    ensures var e := Ticks(d, d.lockoutSeconds);
      e.state == Scanning && e.failedAttempts == 0 && e.lockoutSeconds == 0 && !e.lockoutTimer
      && e.scan.active == d.sensorAvailable && Inv(e)
  {
    var n := d.lockoutSeconds;
    var t := d.(lockoutSeconds := 1);
    LockoutCountsDown(d, n - 1);
    assert Ticks(d, n) == OnLockoutTick(t);
    LastTick(t);
  }

  lemma LastTick(t: Dashboard)
    requires Inv(t) && t.state == Alert && t.lockoutSeconds == 1
    ensures var e := OnLockoutTick(t);
      e.state == Scanning && e.failedAttempts == 0 && e.lockoutSeconds == 0 && !e.lockoutTimer
      && e.scan.active == t.sensorAvailable && Inv(e)
  {
  }

  /** Before that last tick the dashboard stays in ALERT. */
  lemma AlertUntilLastTick(d: Dashboard, n: nat)
    requires d.state == Alert && n < d.lockoutSeconds
    ensures Ticks(d, n).state == Alert && Ticks(d, n).lockoutSeconds == d.lockoutSeconds - n
  {
    LockoutCountsDown(d, n);
  }

  /** `cancelAuthentication` leaves ALERT without stopping the lockout
      countdown, and a following `startAuthentication` scans again while
      the lockout still runs and the failures are not cleared. */
  lemma CancelLeavesLockout(d: Dashboard)
    requires Inv(d) && d.state == Alert && d.sensorAvailable
    ensures var s := StartAuthentication(CancelAuthentication(d));
      s.state == Scanning && s.scan.active && s.lockoutTimer && s.lockoutSeconds == d.lockoutSeconds
      && s.failedAttempts >= MaxAttempts
  {
  }

  /** `initializeSensor`: an opened port makes the sensor available and
      starts scanning; a failed one leaves it unavailable. */
  function InitializeSensor(d: Dashboard, portOpened: bool): (r: Dashboard)
    ensures r.sensorAvailable == portOpened
    ensures portOpened && d.state != Alert ==> r.state == Scanning && r.scan.active
    ensures !portOpened ==> r == d.(sensorAvailable := false)
    ensures SameAdmin(d, r)
    ensures Inv(d) ==> Inv(r)
  {
    if portOpened then StartAuthentication(d.(sensorAvailable := true)) else d.(sensorAvailable := false)
  }

  // ---------------------------------------------------------------------
  // Admin access

  /** `isAdminFingerprint`. */
  predicate IsAdminFingerprint(id: int)
  {
    SecurityTypes.AdminIdMin as int <= id <= SecurityTypes.AdminIdMax as int
  }

  /** What a search result must show for admin access: an admin template
      matched with a confidence of at least 150. */
  predicate GrantsAccess(extractOk: bool, search: Option<FingerprintSensor.SearchResult>)
  {
    extractOk && search.Some? && IsAdminFingerprint(search.value.fingerId as int)
    && search.value.confidence >= SecurityTypes.MinAdminConfidence
  }

  /** `lockDashboardAfterAdminFailure`: clears the failures, goes to
      SCANNING and starts the scanner if it was not running. */
  function LockDashboard(d: Dashboard): (r: Dashboard)
    ensures r.state == Scanning && r.failedAttempts == 0
    ensures r.scan.active == (d.scan.active || d.sensorAvailable)
    ensures r.lockoutSeconds == d.lockoutSeconds && r.lockoutTimer == d.lockoutTimer
    ensures SameAdmin(d, r) && r.processing == d.processing
    ensures Inv(d) ==> Inv(r)
  {
    var s := SetAuthState(d.(failedAttempts := 0), Scanning);
    if !s.scan.active then StartAuthentication(s) else s
  }

  /** An admin attempt that failed: processing ends, the phase returns to
      IDLE and the dashboard is locked. */
  function AdminFailure(d: Dashboard): (r: Dashboard)
    ensures r.adminPhase == Idle && !r.processing && r.state == Scanning && r.failedAttempts == 0
    ensures r.adminScan == d.adminScan && r.sessions == d.sessions && r.gate == d.gate
    ensures Inv(d) && d.adminPhase != Completed ==> Inv(r)
  {
    LockDashboard(d.(processing := false, adminPhase := Idle))
  }

  /** `requestAdminAccess`: refused while the password gate is rate
      limited; otherwise the password is asked for, and any open admin
      menu and token are withdrawn. */
  function RequestAdminAccess(d: Dashboard, now: int): (r: Dashboard)
    ensures AdminAuthenticator.IsRateLimited(d.gate, now) ==> r == d
    ensures !AdminAuthenticator.IsRateLimited(d.gate, now) ==>
      r.adminPhase == PasswordPending && !r.adminMenu && r.adminToken == []
      && r == d.(adminPhase := r.adminPhase, adminMenu := false, adminToken := [])
    ensures Inv(d) ==> Inv(r)
  {
    if AdminAuthenticator.IsRateLimited(d.gate, now) then d
    else d.(adminPhase := PasswordPending, adminMenu := false, adminToken := [])
  }

  /** `verifyAdminPassword`: only while the password is pending; the gate
      decides, a right password moves on to the fingerprint and a wrong one
      ends the attempt and locks the dashboard. */
  function VerifyAdminPassword(d: Dashboard, password: string, now: int, hash: (string, bytes) -> bytes)
    : (r: Dashboard)
    ensures d.adminPhase != PasswordPending ==> r == d
    ensures d.adminPhase == PasswordPending ==>
      var v := AdminAuthenticator.VerifyPassword(d.gate, password, now, hash);
      r.gate == v.0 && (r.adminPhase == FingerprintPending <==> v.1) && (!v.1 ==> r.adminPhase == Idle)
      && (!v.1 ==> r.state == Scanning && r.failedAttempts == 0 && !r.processing)
    ensures r.adminMenu == d.adminMenu && r.adminToken == d.adminToken && r.sessions == d.sessions
    ensures Inv(d) ==> Inv(r)
  {
    if d.adminPhase != PasswordPending then d
    else
      var v := AdminAuthenticator.VerifyPassword(d.gate, password, now, hash);
      var g := d.(gate := v.0);
      if v.1 then g.(adminPhase := FingerprintPending)
      else AdminFailure(g)
  }

  /** `startAdminFingerprintScan`: only with the fingerprint pending and a
      sensor; starts the admin poller from its minimum interval. */
  function StartAdminFingerprintScan(d: Dashboard): (r: Dashboard)
    ensures d.adminPhase != FingerprintPending || !d.sensorAvailable ==> r == d
    ensures d.adminPhase == FingerprintPending && d.sensorAvailable ==>
      r == d.(processing := true, adminScan := Poller(true, PollIntervalMin, 0))
    ensures Inv(d) ==> Inv(r)
  {
    if d.adminPhase != FingerprintPending || !d.sensorAvailable then d
    else d.(processing := true, adminScan := Restarted(d.adminScan))
  }

  /** `performAdminFingerprintVerification`: a failed extraction, no match,
      a non-admin template or a confidence below 150 ends the attempt and
      locks the dashboard; otherwise a session token is issued and the
      admin menu opens. */
  function PerformAdminFingerprintVerification(d: Dashboard, extractOk: bool,
                                               search: Option<FingerprintSensor.SearchResult>,
                                               wallNow: uint64, random: TokenRandom, hmac: SessionManager.Signer)
    : (r: Dashboard)
    ensures r.adminPhase == Completed <==> GrantsAccess(extractOk, search)
    ensures !GrantsAccess(extractOk, search) ==>
      r.adminPhase == Idle && r.state == Scanning && r.failedAttempts == 0 && r.sessions == d.sessions
    ensures GrantsAccess(extractOk, search) ==>
      var g := SessionManager.GenerateToken(d.sessions, search.value.fingerId, random, wallNow, hmac);
      r.adminMenu && r.adminToken == g.1 && r.sessions == g.0 && !r.processing
    ensures !r.processing && r.adminScan == d.adminScan
    ensures Inv(d) && d.adminPhase == FingerprintPending ==> Inv(r)
  {
    if !extractOk || search.None? then AdminFailure(d)
    else
      var m := search.value;
      if !IsAdminFingerprint(m.fingerId as int) || m.confidence < SecurityTypes.MinAdminConfidence then AdminFailure(d)
      else
        var g := SessionManager.GenerateToken(d.sessions, m.fingerId, random, wallNow, hmac);
        if |g.1| == 0 then d.(sessions := g.0, processing := false, adminPhase := Idle)
        else d.(sessions := g.0, processing := false, adminPhase := Completed, adminMenu := true, adminToken := g.1)
  }

  /** `onAdminFingerprintPoll`, one tick of the admin poller: stops outside
      the fingerprint phase or without a sensor; no finger counts a miss;
      otherwise the poller stops and the capture goes on to
      `AdminCaptured`. */
  function OnAdminFingerprintPoll(d: Dashboard, capture: StatusCodes.Status, extractOk: bool,
                                  search: Option<FingerprintSensor.SearchResult>,
                                  wallNow: uint64, random: TokenRandom, hmac: SessionManager.Signer)
    : (r: Dashboard)
    ensures d.adminPhase != FingerprintPending ==> r == d.(adminScan := d.adminScan.(active := false))
    ensures d.adminPhase == FingerprintPending && d.sensorAvailable && capture == StatusCodes.NoFinger ==>
      r == d.(adminScan := MissedPoll(d.adminScan))
    ensures r.adminPhase == Completed && d.adminPhase != Completed ==>
      d.adminPhase == FingerprintPending && d.sensorAvailable && capture == StatusCodes.Success
      && GrantsAccess(extractOk, search)
    ensures d.adminPhase == FingerprintPending && d.sensorAvailable && capture == StatusCodes.Success ==>
      (r.adminPhase == Completed <==> GrantsAccess(extractOk, search))
    ensures r.adminPhase == d.adminPhase || r.adminPhase == Idle || r.adminPhase == Completed
    ensures Inv(d) ==> Inv(r)
  {
    if d.adminPhase != FingerprintPending then d.(adminScan := d.adminScan.(active := false))
    else if !d.sensorAvailable then d.(adminScan := d.adminScan.(active := false), processing := false)
    else if capture == StatusCodes.NoFinger then d.(adminScan := MissedPoll(d.adminScan))
    else AdminCaptured(d.(adminScan := ResetInterval(d.adminScan).(active := false)),
                       capture, extractOk, search, wallNow, random, hmac)
  }

  /** A finger on the sensor during the admin scan: a failed capture ends
      the attempt and locks the dashboard, a good one is verified. */
  function AdminCaptured(d: Dashboard, capture: StatusCodes.Status, extractOk: bool,
                         search: Option<FingerprintSensor.SearchResult>,
                         wallNow: uint64, random: TokenRandom, hmac: SessionManager.Signer)
    : (r: Dashboard)
    ensures r.adminPhase == Completed <==> capture == StatusCodes.Success && GrantsAccess(extractOk, search)
    ensures r.adminPhase == Completed || r.adminPhase == Idle
    ensures r.adminScan == d.adminScan
    ensures Inv(d) && d.adminPhase == FingerprintPending ==> Inv(r)
  {
    if capture != StatusCodes.Success then AdminFailure(d)
    else PerformAdminFingerprintVerification(d, extractOk, search, wallNow, random, hmac)
  }

  /** `revokeAdminAccess`: ends every session and closes the admin menu. */
  function RevokeAdminAccess(d: Dashboard): (r: Dashboard)
    ensures r.adminPhase == Idle && !r.adminMenu && r.adminToken == []
    ensures forall id, now :: !SessionManager.HasValidSession(r.sessions, id, now)
    ensures r.state == d.state && r.failedAttempts == d.failedAttempts
    ensures Inv(d) ==> Inv(r)
  {
    d.(sessions := SessionManager.RevokeAllSessions(d.sessions), adminPhase := Idle, adminMenu := false, adminToken := [])
  }

  // ---------------------------------------------------------------------
  // Runs of events

  /** The inputs that drive the dashboard: UI requests and timer ticks,
      each with what the sensor and the clocks report at that moment. */
  datatype Event =
    | OpenSensor(portOpened: bool)
    | Start
    | Cancel
    | Reset
    | ScanTick(capture: StatusCodes.Status, extractOk: bool, search: Option<FingerprintSensor.SearchResult>)
    | LockoutTick
    | RequestAdmin(now: int)
    | EnterPassword(password: string, now: int)
    | StartAdminScan
    | AdminTick(capture: StatusCodes.Status, extractOk: bool, search: Option<FingerprintSensor.SearchResult>,
                wallNow: uint64, random: TokenRandom)
    | Revoke

  /** The device secrets: the password hash and the session HMAC. */
  datatype Secrets = Secrets(hash: (string, bytes) -> bytes, hmac: SessionManager.Signer)

  function Step(d: Dashboard, e: Event, k: Secrets): Dashboard
  {
    match e
    case OpenSensor(portOpened) => InitializeSensor(d, portOpened)
    case Start => StartAuthentication(d)
    case Cancel => CancelAuthentication(d)
    case Reset => ResetLockout(d)
    case ScanTick(capture, extractOk, search) => PerformAuthentication(d, capture, extractOk, search)
    case LockoutTick => OnLockoutTick(d)
    case RequestAdmin(now) => RequestAdminAccess(d, now)
    case EnterPassword(password, now) => VerifyAdminPassword(d, password, now, k.hash)
    case StartAdminScan => StartAdminFingerprintScan(d)
    case AdminTick(capture, extractOk, search, wallNow, random) =>
      OnAdminFingerprintPoll(d, capture, extractOk, search, wallNow, random, k.hmac)
    case Revoke => RevokeAdminAccess(d)
  }

  function Run(d: Dashboard, es: seq<Event>, k: Secrets): Dashboard
    decreases |es|
  {
    if |es| == 0 then d else Run(Step(d, es[0], k), es[1..], k)
  }

  /** Every event keeps the dashboard invariant. */
  lemma StepKeepsInv(d: Dashboard, e: Event, k: Secrets)
    requires Inv(d)
    ensures Inv(Step(d, e, k))
  {
  }

  /** So does every run. */
  lemma {:induction false} RunKeepsInv(d: Dashboard, es: seq<Event>, k: Secrets)
    requires Inv(d)
    ensures Inv(Run(d, es, k))
    decreases |es|
  {
    if |es| > 0 {
      StepKeepsInv(d, es[0], k);
      RunKeepsInv(Step(d, es[0], k), es[1..], k);
    }
  }

  /** The event is a password the gate accepted while one was pending. */
  predicate PasswordAccepted(d: Dashboard, e: Event, k: Secrets)
  {
    e.EnterPassword? && d.adminPhase == PasswordPending
    && AdminAuthenticator.VerifyPassword(d.gate, e.password, e.now, k.hash).1
  }

  /** The event is an admin poll that captured an admin fingerprint good
      enough for access while the fingerprint was pending. */
  predicate AdminMatched(d: Dashboard, e: Event)
  {
    e.AdminTick? && d.adminPhase == FingerprintPending && d.sensorAvailable
    && e.capture == StatusCodes.Success && GrantsAccess(e.extractOk, e.search)
  }

  /** One event enters FINGERPRINT_PENDING only by an accepted password,
      and COMPLETED only by a matching admin fingerprint. */
  lemma StepPhases(d: Dashboard, e: Event, k: Secrets)
    ensures var r := Step(d, e, k);
      (r.adminPhase == FingerprintPending && d.adminPhase != FingerprintPending ==> PasswordAccepted(d, e, k))
      && (r.adminPhase == Completed && d.adminPhase != Completed ==> AdminMatched(d, e))
  {
  }

  /** Some event of the run is an admin fingerprint match. */
  predicate MatchedIn(d: Dashboard, es: seq<Event>, k: Secrets)
    decreases |es|
  {
    |es| > 0 && (AdminMatched(d, es[0]) || MatchedIn(Step(d, es[0], k), es[1..], k))
  }

  /** Some event of the run is an accepted password, and a later one an
      admin fingerprint match. */
  predicate PasswordThenMatchIn(d: Dashboard, es: seq<Event>, k: Secrets)
    decreases |es|
  {
    |es| > 0
    && ((PasswordAccepted(d, es[0], k) && MatchedIn(Step(d, es[0], k), es[1..], k))
        || PasswordThenMatchIn(Step(d, es[0], k), es[1..], k))
  }

  lemma {:induction false} CompletedNeedsMatch(d: Dashboard, es: seq<Event>, k: Secrets)
    requires d.adminPhase != Completed
    ensures Run(d, es, k).adminPhase == Completed ==> MatchedIn(d, es, k)
    decreases |es|
  {
    if |es| > 0 {
      StepPhases(d, es[0], k);
      if !AdminMatched(d, es[0]) {
        CompletedNeedsMatch(Step(d, es[0], k), es[1..], k);
      }
    }
  }

  /** Admin access is granted only through both factors in order: from
      IDLE or a pending password, a run ends in COMPLETED only if some
      event is an accepted password and a later one a matching admin
      fingerprint. */
  lemma {:induction false} CompletedNeedsBothFactors(d: Dashboard, es: seq<Event>, k: Secrets)
    requires d.adminPhase == Idle || d.adminPhase == PasswordPending
    ensures Run(d, es, k).adminPhase == Completed ==> PasswordThenMatchIn(d, es, k)
    decreases |es|
  {
    if |es| > 0 {
      var s := Step(d, es[0], k);
      StepPhases(d, es[0], k);
      if PasswordAccepted(d, es[0], k) {
        CompletedNeedsMatch(s, es[1..], k);
      } else {
        assert s.adminPhase == Idle || s.adminPhase == PasswordPending;
        CompletedNeedsBothFactors(s, es[1..], k);
      }
    }
  }

  // ---------------------------------------------------------------------
  // Template handlers

  /** Why a handler refused to start. */
  datatype Refusal = NoSensor | ScanActive | InvalidId | IdOutOfRange

  /** What a template handler reports. */
  datatype Report =
    | Done
    | Refused(why: Refusal)
    | StepFailed(step: nat)
    | Found(present: bool)
    | Undefined

  /** The ids enroll and delete accept. */
  predicate IsTemplateId(id: int)
  {
    1 <= id <= 127
  }

  /** The position of the first failed step, if any. */
  function FirstFailure(steps: seq<bool>): (r: Option<nat>)
    ensures r.None? <==> forall i :: 0 <= i < |steps| ==> steps[i]
    ensures r.Some? ==> r.value < |steps| && !steps[r.value] && forall i :: 0 <= i < r.value ==> steps[i]
  {
    if |steps| == 0 then None
    else if !steps[0] then Some(0)
    else match FirstFailure(steps[1..])
      case None => None
      case Some(i) => Some(i + 1)
  }

  /** `enrollFingerprint`: refuses without a sensor, while scanning, and
      for ids outside 1..127; then runs capture, extract into buffer 1,
      capture, extract into buffer 2, create the model and store it, and
      stops at the first step that fails. `steps` are those six sensor
      results in order. */
  function EnrollFingerprint(d: Dashboard, id: int, steps: seq<bool>): (r: Report)
    ensures !d.sensorAvailable ==> r == Refused(NoSensor)
    ensures d.sensorAvailable && d.scan.active ==> r == Refused(ScanActive)
    ensures d.sensorAvailable && !d.scan.active && !IsTemplateId(id) ==> r == Refused(InvalidId)
    ensures r == Done <==> d.sensorAvailable && !d.scan.active && IsTemplateId(id)
                           && forall i :: 0 <= i < |steps| ==> steps[i]
    ensures r.StepFailed? ==> r.step < |steps| && !steps[r.step] && forall i :: 0 <= i < r.step ==> steps[i]
  {
    if !d.sensorAvailable then Refused(NoSensor)
    else if d.scan.active then Refused(ScanActive)
    else if id < 1 || id > 127 then Refused(InvalidId)
    else match FirstFailure(steps)
      case None => Done
      case Some(i) => StepFailed(i)
  }

  /** `queryTemplate`: refuses without a sensor and for ids of 256 and
      more; otherwise tests bit `id mod 8` of byte `id div 8` of the index
      table and, when set, whether the template loads. A negative id, a
      failed table read or a byte past the table's end is undefined
      behaviour (a shift by more than the width of `int`, a dereference of
      an error result, an uncaught `std::out_of_range`). */
  function QueryTemplate(sensorAvailable: bool, id: int, table: Option<bytes>, loads: bool): (r: Report)
    ensures !sensorAvailable ==> r == Refused(NoSensor)
    ensures sensorAvailable && id >= 256 ==> r == Refused(IdOutOfRange)
    ensures r == Found(true) <==>
      sensorAvailable && 0 <= id < 256 && table.Some? && id / 8 < |table.value|
      && BitSet(table.value[id / 8], id % 8) && loads
    ensures r.Found? || r.Refused? || r.Undefined?
  {
    if !sensorAvailable then Refused(NoSensor)
    else if id >= 256 then Refused(IdOutOfRange)
    else if id < 0 || table.None? || id / 8 >= |table.value| then Undefined
    else Found(BitSet(table.value[id / 8], id % 8) && loads)
  }

  /** `deleteFingerprint` as written: the sensor's `erase_model` failing is
      reported as the deletion done, and its success as a failure. */
  function DeleteFingerprintAsWritten(d: Dashboard, id: int, erased: bool): (r: Report)
    ensures r == Done <==> d.sensorAvailable && !d.scan.active && IsTemplateId(id) && !erased
  {
    if !d.sensorAvailable then Refused(NoSensor)
    else if d.scan.active then Refused(ScanActive)
    else if id < 1 || id > 127 then Refused(InvalidId)
    else if !erased then Done
    else StepFailed(0)
  }

  /** `clearDatabase` as written, inverted in the same way. */
  function ClearDatabaseAsWritten(d: Dashboard, cleared: bool): (r: Report)
    ensures r == Done <==> d.sensorAvailable && !d.scan.active && !cleared
  {
    if !d.sensorAvailable then Refused(NoSensor)
    else if d.scan.active then Refused(ScanActive)
    else if !cleared then Done
    else StepFailed(0)
  }

  /** With a working sensor and a valid id, the handlers as written report
      the opposite of what the sensor did. */
  lemma DeleteAndClearInverted(d: Dashboard, id: int)
    requires d.sensorAvailable && !d.scan.active && IsTemplateId(id)
    ensures DeleteFingerprintAsWritten(d, id, true) == StepFailed(0)
    ensures DeleteFingerprintAsWritten(d, id, false) == Done
    ensures ClearDatabaseAsWritten(d, true) == StepFailed(0)
    ensures ClearDatabaseAsWritten(d, false) == Done
  {
  }

  /** `deleteFingerprint` as every other handler reads a sensor result:
      done exactly when the erase succeeded. */
  function DeleteFingerprint(d: Dashboard, id: int, erased: bool): (r: Report)
    ensures r == Done <==> d.sensorAvailable && !d.scan.active && IsTemplateId(id) && erased
    ensures r != Done ==> r.Refused? || r == StepFailed(0)
  {
    if !d.sensorAvailable then Refused(NoSensor)
    else if d.scan.active then Refused(ScanActive)
    else if id < 1 || id > 127 then Refused(InvalidId)
    else if erased then Done
    else StepFailed(0)
  }

  /** `clearDatabase`, done exactly when the sensor cleared its library. */
  function ClearDatabase(d: Dashboard, cleared: bool): (r: Report)
    ensures r == Done <==> d.sensorAvailable && !d.scan.active && cleared
    ensures r != Done ==> r.Refused? || r == StepFailed(0)
  {
    if !d.sensorAvailable then Refused(NoSensor)
    else if d.scan.active then Refused(ScanActive)
    else if cleared then Done
    else StepFailed(0)
  }

  /** The corrected handlers agree with the ones as written exactly on
      the refusals, and differ on every sensor outcome. */
  lemma CorrectedHandlersDiffer(d: Dashboard, id: int, ok: bool)
    ensures (DeleteFingerprint(d, id, ok) == DeleteFingerprintAsWritten(d, id, ok))
            <==> !(d.sensorAvailable && !d.scan.active && IsTemplateId(id))
    ensures (ClearDatabase(d, ok) == ClearDatabaseAsWritten(d, ok)) <==> !(d.sensorAvailable && !d.scan.active)
  {
  }
}

=== FILE: decimal.dfy ===
/** Decimal text of natural numbers: how `operator<<` on an integer prints
    it, and how `std::stoi`/`std::stoll` read a run of decimal digits back. */
module Decimal {

  predicate IsDigit(c: char) { '0' <= c <= '9' }

  predicate AllDigits(s: string) { forall i :: 0 <= i < |s| ==> IsDigit(s[i]) }

  function DigitChar(d: nat): (c: char)
    requires d < 10
    ensures IsDigit(c) && c as int - '0' as int == d
  {
    (d + '0' as int) as char
  }

  /** Shortest decimal representation, most significant digit first. */
  function NatToString(n: nat): (r: string)
    ensures |r| > 0 && AllDigits(r)
    decreases n
  {
    if n < 10 then [DigitChar(n)] else NatToString(n / 10) + [DigitChar(n % 10)]
  }

  /** Printing `10 * n + d` appends the digit `d` to the text of `n`. */
  lemma AppendDigit(n: nat, d: nat)
    requires 0 < n && d < 10
    ensures NatToString(10 * n + d) == NatToString(n) + [DigitChar(d)]
  {
    assert (10 * n + d) / 10 == n && (10 * n + d) % 10 == d;
  }

  /** Value of a run of decimal digits. */
  function DigitsValue(s: string): nat
    requires AllDigits(s)
  {
    if |s| == 0 then 0 else DigitsValue(s[..|s| - 1]) * 10 + (s[|s| - 1] as int - '0' as int)
  }

  /** Reading the printed text back yields the number printed. */
  lemma {:induction false} NatToStringRoundTrip(n: nat)
    ensures DigitsValue(NatToString(n)) == n
  {
    if n >= 10 {
      var s := NatToString(n);
      assert s[..|s| - 1] == NatToString(n / 10);
      NatToStringRoundTrip(n / 10);
    }
  }

  /** The printed text never starts with a redundant zero. */
  lemma {:induction false} NatToStringNoLeadingZero(n: nat)
    ensures NatToString(n)[0] == '0' ==> n == 0
  {
    if n >= 10 {
      NatToStringNoLeadingZero(n / 10);
    }
  }
}

=== FILE: endian.dfy ===
/** Byte-order helpers of `include/carbio/endian.h`.

    The C++ templates work on any unsigned integral type; here the width `w`
    (the `sizeof(T)` of the template argument, in bytes) is an explicit
    parameter and a value of that type is a natural number below `256^w`.
    The host byte order, a compile-time constant in C++, is a parameter too. */
module Endian {
  import opened Bytes
  import opened Wrappers
  import Seqs

  datatype ByteOrder = BigEndian | LittleEndian

  /** Widths of the unsigned integral types the templates accept. */
  predicate IsWidth(w: nat) { w == 1 || w == 2 || w == 4 || w == 8 }

  function Pow256(w: nat): (r: nat)
    ensures r > 0
  {
    if w == 0 then 1 else 0x100 * Pow256(w - 1)
  }

  /** A value of the unsigned type that is `w` bytes wide. */
  predicate Fits(w: nat, v: nat) { v < Pow256(w) }

  /** Reference meaning of a big-endian byte string: the first byte is the
      most significant. */
  function BeValue(s: bytes): nat
  {
    if |s| == 0 then 0 else BeValue(s[..|s| - 1]) * 0x100 + s[|s| - 1]
  }

  /** Reference meaning of a little-endian byte string. */
  function LeValue(s: bytes): nat
  {
    if |s| == 0 then 0 else s[0] + 0x100 * LeValue(s[1..])
  }

  /** The `w` low-order bytes of `v`, most significant first. */
  function BeBytes(w: nat, v: nat): (r: bytes)
    ensures |r| == w
  {
    if w == 0 then [] else BeBytes(w - 1, v / 0x100) + [v % 0x100]
  }

  /** The `w` low-order bytes of `v`, least significant first. */
  function LeBytes(w: nat, v: nat): (r: bytes)
    ensures |r| == w
  {
    if w == 0 then [] else [v % 0x100] + LeBytes(w - 1, v / 0x100)
  }

  function Reverse(s: bytes): (r: bytes)
    ensures |r| == |s|
    ensures forall i :: 0 <= i < |s| ==> r[i] == s[|s| - 1 - i]
  {
    if |s| == 0 then [] else Reverse(s[1..]) + [s[0]]
  }

  // ---------------------------------------------------------------------
  // byteswap, to/from_big_endian, to/from_little_endian

  /** `byteswap`: the value whose bytes are those of `v` in reverse order. */
  function Byteswap(w: nat, v: nat): (r: nat)
    requires IsWidth(w) && Fits(w, v)
    ensures Fits(w, r)
    ensures BeBytes(w, r) == Reverse(BeBytes(w, v))
  {
    ReverseFits(w, v);
    BeOfLe(w, v);
    BeValue(LeBytes(w, v))
  }

  function ToBigEndian(host: ByteOrder, w: nat, v: nat): (r: nat)
    requires IsWidth(w) && Fits(w, v)
    ensures host == BigEndian ==> r == v
    ensures host == LittleEndian ==> r == Byteswap(w, v)
  {
    if host == BigEndian then v else Byteswap(w, v)
  }

  function ToLittleEndian(host: ByteOrder, w: nat, v: nat): (r: nat)
    requires IsWidth(w) && Fits(w, v)
    ensures host == LittleEndian ==> r == v
    ensures host == BigEndian ==> r == Byteswap(w, v)
  {
    if host == LittleEndian then v else Byteswap(w, v)
  }

  /** `from_big_endian` is defined as `to_big_endian`. */
  function FromBigEndian(host: ByteOrder, w: nat, v: nat): (r: nat)
    requires IsWidth(w) && Fits(w, v)
    ensures r == ToBigEndian(host, w, v)
  {
    ToBigEndian(host, w, v)
  }

  /** `from_little_endian` is defined as `to_little_endian`. */
  function FromLittleEndian(host: ByteOrder, w: nat, v: nat): (r: nat)
    requires IsWidth(w) && Fits(w, v)
    ensures r == ToLittleEndian(host, w, v)
  {
    ToLittleEndian(host, w, v)
  }

  // ---------------------------------------------------------------------
  // read_be, read_le, write_be, write_le, to_bytes_be, to_bytes_le
  // `None` is the `ct_panic_msg` abort on a buffer shorter than sizeof(T).

  /** `read_be`: folds the first `w` bytes as `result = (result << 8) | b`. */
  method ReadBe(w: nat, buffer: bytes) returns (r: Option<nat>)
    requires IsWidth(w)
    ensures |buffer| < w <==> r.None?
    ensures r.Some? ==> r.value == BeValue(buffer[..w]) && Fits(w, r.value)
  {
    if |buffer| < w {
      return None;
    }
    var result: nat := 0;
    var i := 0;
    while i < w
      invariant 0 <= i <= w
      invariant result == BeValue(buffer[..i])
      invariant Fits(i, result)
    {
      assert buffer[..i + 1][..i] == buffer[..i];
      result := result * 0x100 + buffer[i];
      i := i + 1;
    }
    return Some(result);
  }

  /** `read_le`: or-s byte `i` in at bit position `8 * i`. */
  method ReadLe(w: nat, buffer: bytes) returns (r: Option<nat>)
    requires IsWidth(w)
    ensures |buffer| < w <==> r.None?
    ensures r.Some? ==> r.value == LeValue(buffer[..w]) && Fits(w, r.value)
  {
    if |buffer| < w {
      return None;
    }
    var result: nat := 0;
    var scale: nat := 1;
    var i := 0;
    while i < w
      invariant 0 <= i <= w
      invariant scale == Pow256(i)
      invariant result == LeValue(buffer[..i])
    {
      LeValueSnoc(buffer[..i], buffer[i]);
      assert buffer[..i] + [buffer[i]] == buffer[..i + 1];
      result := result + scale * buffer[i];
      scale := scale * 0x100;
      i := i + 1;
    }
    LeValueBound(buffer[..w]);
    return Some(result);
  }

  /** `write_be`: stores the low byte at index `w - 1 - i` and shifts. */
  method WriteBe(w: nat, buffer: bytes, value: nat) returns (r: Option<bytes>)
    requires IsWidth(w) && Fits(w, value)
    ensures |buffer| < w <==> r.None?
    ensures r.Some? ==>
      |r.value| == |buffer| && r.value[..w] == BeBytes(w, value) && r.value[w..] == buffer[w..]
  {
    if |buffer| < w {
      return None;
    }
    var out := StoreBe(w, buffer, value);
    return Some(out);
  }

  /** The loop of `write_be`, on a buffer known to be long enough. */
  method StoreBe(w: nat, buffer: bytes, value: nat) returns (out: bytes)
    requires w <= |buffer|
    ensures |out| == |buffer| && out[..w] == BeBytes(w, value) && out[w..] == buffer[w..]
  {
    out := buffer;
    var v := value;
    var i := 0;
    while i < w
      invariant 0 <= i <= w
      invariant |out| == |buffer|
      invariant v == Shift(value, i)
      invariant out[..w - i] == buffer[..w - i]
      invariant out[w - i..w] == BeBytes(i, value)
      invariant out[w..] == buffer[w..]
    {
      WriteBeStep(w, buffer, value, out, v, i);
      var b: uint8 := v % 0x100;
      out := out[w - 1 - i := b];
      v := v / 0x100;
      i := i + 1;
    }
    assert out[..w] == out[w - w..w];
  }

  /** One iteration of `write_be`: byte `w - 1 - i` receives the low byte of
      what is left of the value. */
  lemma WriteBeStep(w: nat, buffer: bytes, value: nat, out: bytes, v: nat, i: nat)
    requires i < w <= |buffer| && |out| == |buffer| && v == Shift(value, i)
    requires out[..w - i] == buffer[..w - i] && out[w - i..w] == BeBytes(i, value)
    requires out[w..] == buffer[w..]
    ensures var b: uint8 := v % 0x100; var o := out[w - 1 - i := b];
      o[..w - 1 - i] == buffer[..w - 1 - i] && o[w - 1 - i..w] == BeBytes(i + 1, value)
      && o[w..] == buffer[w..]
  {
    ShiftIsDiv(value, i);
    BeBytesStep(i, value);
    var b: uint8 := v % 0x100;
    Seqs.UpdateAt(out, w - 1 - i, b, w);
    assert out[..w - 1 - i] == out[..w - i][..w - 1 - i];
  }

  /** `write_le`: stores the low byte at index `i` and shifts. */
  method WriteLe(w: nat, buffer: bytes, value: nat) returns (r: Option<bytes>)
    requires IsWidth(w) && Fits(w, value)
    ensures |buffer| < w <==> r.None?
    ensures r.Some? ==>
      |r.value| == |buffer| && r.value[..w] == LeBytes(w, value) && r.value[w..] == buffer[w..]
  {
    if |buffer| < w {
      return None;
    }
    var out := StoreLe(w, buffer, value);
    return Some(out);
  }

  /** The loop of `write_le`, on a buffer known to be long enough. */
  method StoreLe(w: nat, buffer: bytes, value: nat) returns (out: bytes)
    requires w <= |buffer|
    ensures |out| == |buffer| && out[..w] == LeBytes(w, value) && out[w..] == buffer[w..]
  {
    out := buffer;
    var v := value;
    var i := 0;
    while i < w
      invariant 0 <= i <= w
      invariant |out| == |buffer|
      invariant v == Shift(value, i)
      invariant out[..i] == LeBytesPrefix(i, value)
      invariant out[i..] == buffer[i..]
    {
      WriteLeStep(w, buffer, value, out, v, i);
      var b: uint8 := v % 0x100;
      out := out[i := b];
      v := v / 0x100;
      i := i + 1;
    }
    LeBytesPrefixIsLeBytes(w, value);
  }

  /** One iteration of `write_le`: byte `i` receives the low byte of what
      is left of the value. */
  lemma WriteLeStep(w: nat, buffer: bytes, value: nat, out: bytes, v: nat, i: nat)
    requires i < w <= |buffer| && |out| == |buffer| && v == Shift(value, i)
    requires out[..i] == LeBytesPrefix(i, value) && out[i..] == buffer[i..]
    ensures var b: uint8 := v % 0x100; var o := out[i := b];
      o[..i + 1] == LeBytesPrefix(i + 1, value) && o[i + 1..] == buffer[i + 1..]
  {
    ShiftIsDiv(value, i);
    LeBytesPrefixStep(i, value);
    var b: uint8 := v % 0x100;
    Seqs.UpdateAt(out, i, b, i + 1);
    assert out[i + 1..] == out[i..][1..];
  }

  /** `to_bytes_be`: `write_be` into a fresh array of exactly `w` bytes. */
  function ToBytesBe(w: nat, value: nat): (r: bytes)
    requires IsWidth(w) && Fits(w, value)
    ensures |r| == w && BeValue(r) == value
    ensures r[0] == value / Pow256(w - 1) && r[w - 1] == value % 0x100
  {
    BeValueOfBytes(w, value);
    DivUnique(value, Pow256(w), 0, value);
    MostSignificant(w, value);
    LastByte(w, value);
    BeBytes(w, value)
  }

  /** `to_bytes_le`: `write_le` into a fresh array of exactly `w` bytes. */
  function ToBytesLe(w: nat, value: nat): (r: bytes)
    requires IsWidth(w) && Fits(w, value)
    ensures |r| == w && LeValue(r) == value
    ensures r == Reverse(ToBytesBe(w, value))
  {
    LittleEndianBytes(w, value);
    LeBytes(w, value)
  }

  // ---------------------------------------------------------------------
  // Properties relating the helpers

  /** byteswap is an involution. */
  lemma {:induction false} ByteswapInvolution(w: nat, v: nat)
    requires IsWidth(w) && Fits(w, v)
    ensures Byteswap(w, Byteswap(w, v)) == v
  {
    var s := BeBytes(w, v);
    var once := Byteswap(w, v);
    assert BeBytes(w, once) == Reverse(s);
    assert BeBytes(w, Byteswap(w, once)) == Reverse(Reverse(s));
    ReverseReverse(s);
    BeBytesInjective(w, Byteswap(w, once), v);
  }

  /** For 16-bit values byteswap exchanges the two bytes: `(v >> 8) | (v << 8)`
      truncated to 16 bits. */
  lemma Byteswap16(v: uint16)
    ensures Byteswap(2, v) == (v % 0x100) * 0x100 + v / 0x100
  {
    var lo: uint8 := v % 0x100;
    var hi: uint8 := (v / 0x100) % 0x100;
    assert LeBytes(2, v) == [lo, hi];
    BeValuePair(lo, hi);
  }

  /** A single-byte value is its own byteswap. */
  lemma Byteswap8(v: uint8)
    ensures Byteswap(1, v) == v
  {
    var r := Byteswap(1, v);
    assert BeBytes(1, r) == Reverse(BeBytes(1, v));
    BeBytesInjective(1, r, v);
  }

  /** Reading back what `write_be` stored yields the value written. */
  method WriteThenReadBe(w: nat, buffer: bytes, value: nat) returns (r: Option<nat>)
    requires IsWidth(w) && Fits(w, value) && |buffer| >= w
    ensures r == Some(value)
  {
    var written := WriteBe(w, buffer, value);
    r := ReadBe(w, written.value);
    BigEndianBytes(w, value);
  }

  /** Reading back what `write_le` stored yields the value written. */
  method WriteThenReadLe(w: nat, buffer: bytes, value: nat) returns (r: Option<nat>)
    requires IsWidth(w) && Fits(w, value) && |buffer| >= w
    ensures r == Some(value)
  {
    var written := WriteLe(w, buffer, value);
    r := ReadLe(w, written.value);
    LittleEndianBytes(w, value);
  }

  // ---------------------------------------------------------------------
  // Helper lemmas

  lemma {:induction false} ReverseReverse(s: bytes)
    ensures Reverse(Reverse(s)) == s
  {
  }

  /** `value` shifted right by `i` bytes, as the write loops shift it one
      byte per iteration. */
  function Shift(value: nat, i: nat): nat
  {
    if i == 0 then value else Shift(value, i - 1) / 0x100
  }

  lemma {:induction false} ShiftIsDiv(value: nat, i: nat)
    ensures Shift(value, i) == value / Pow256(i)
  {
    if i > 0 {
      ShiftIsDiv(value, i - 1);
      DivStep(value, i - 1);
    }
  }

  lemma {:induction false} DivStep(value: nat, i: nat)
    ensures value / Pow256(i) / 0x100 == value / Pow256(i + 1)
  {
    assert Pow256(i + 1) == Pow256(i) * 0x100;
    DivDiv(value, Pow256(i), 0x100);
  }

  lemma DivDiv(a: nat, b: nat, c: nat)
    requires b > 0 && c > 0
    ensures a / b / c == a / (b * c)
  {
    var q := a / b;
    var r := a % b;
    var q2 := q / c;
    var r2 := q % c;
    assert q == q2 * c + r2;
    assert a == q * b + r;
    assert q * b == q2 * (b * c) + r2 * b by {
      assert q * b == (q2 * c + r2) * b;
      assert (q2 * c + r2) * b == q2 * c * b + r2 * b;
      assert q2 * c * b == q2 * (b * c);
    }
    assert r2 * b + r < b * c by {
      assert r2 * b <= (c - 1) * b by { MulMonotone(r2, c - 1, b); }
      assert (c - 1) * b == c * b - b;
    }
    DivUnique(a, b * c, q2, r2 * b + r);
  }

  lemma MulMonotone(x: nat, y: nat, k: nat)
    requires x <= y
    ensures x * k <= y * k
  {
  }

  /** The first `i` little-endian bytes of `value`. */
  function LeBytesPrefix(i: nat, value: nat): (r: bytes)
    ensures |r| == i
  {
    if i == 0 then [] else LeBytesPrefix(i - 1, value) + [value / Pow256(i - 1) % 0x100]
  }

  lemma LeBytesPrefixStep(i: nat, value: nat)
    ensures LeBytesPrefix(i + 1, value) == LeBytesPrefix(i, value) + [value / Pow256(i) % 0x100]
  {
  }

  lemma {:induction false} LeBytesPrefixIsLeBytes(w: nat, value: nat)
    ensures LeBytesPrefix(w, value) == LeBytes(w, value)
  {
    if w > 0 {
      LeBytesPrefixIsLeBytes(w - 1, value / 0x100);
      LeBytesPrefixShift(w - 1, value);
    }
  }

  /** Dropping the first little-endian byte is the same as shifting right. */
  lemma {:induction false} LeBytesPrefixShift(i: nat, value: nat)
    ensures LeBytesPrefix(i + 1, value) == [value % 0x100] + LeBytesPrefix(i, value / 0x100)
  {
    if i > 0 {
      LeBytesPrefixShift(i - 1, value);
      DivStep(value, i - 1);
      DivDiv(value, 0x100, Pow256(i - 1));
      assert Pow256(i) == 0x100 * Pow256(i - 1);
    }
  }

  lemma {:induction false} BeBytesStep(i: nat, value: nat)
    ensures BeBytes(i + 1, value) == [value / Pow256(i) % 0x100] + BeBytes(i, value)
  {
    if i > 0 {
      BeBytesStep(i - 1, value / 0x100);
      DivDiv(value, 0x100, Pow256(i - 1));
      assert Pow256(i) == 0x100 * Pow256(i - 1);
    }
  }

  lemma {:induction false} BeValueOfBytes(w: nat, v: nat)
    ensures BeValue(BeBytes(w, v)) == v % Pow256(w)
  {
    if w > 0 {
      var s := BeBytes(w, v);
      assert s[..w - 1] == BeBytes(w - 1, v / 0x100);
      BeValueOfBytes(w - 1, v / 0x100);
      ModSplit(v, Pow256(w - 1));
    }
  }

  /** `(v / 256) % p * 256 + v % 256 == v % (256 * p)` */
  lemma ModSplit(v: nat, p: nat)
    requires p > 0
    ensures (v / 0x100) % p * 0x100 + v % 0x100 == v % (0x100 * p)
  {
    var q := v / 0x100;
    var r := v % 0x100;
    var q2 := q / p;
    var r2 := q % p;
    assert q == q2 * p + r2;
    assert v == q * 0x100 + r;
    assert q * 0x100 == q2 * (0x100 * p) + r2 * 0x100;
    assert r2 * 0x100 + r < 0x100 * p by {
      assert r2 * 0x100 <= (p - 1) * 0x100 by { MulMonotone(r2, p - 1, 0x100); }
    }
    DivUnique(v, 0x100 * p, q2, r2 * 0x100 + r);
  }

  lemma {:induction false} LeValueOfBytes(w: nat, v: nat)
    ensures LeValue(LeBytes(w, v)) == v % Pow256(w)
  {
    if w > 0 {
      var s := LeBytes(w, v);
      assert s[1..] == LeBytes(w - 1, v / 0x100);
      LeValueOfBytes(w - 1, v / 0x100);
      ModSplit(v, Pow256(w - 1));
    }
  }

  /** The big-endian bytes of a fitting value read back as the value. */
  lemma BigEndianBytes(w: nat, v: nat)
    requires Fits(w, v)
    ensures BeValue(BeBytes(w, v)) == v
  {
    BeValueOfBytes(w, v);
    DivUnique(v, Pow256(w), 0, v);
  }

  lemma BeValuePair(a: uint8, b: uint8)
    ensures BeValue([a, b]) == a * 0x100 + b
  {
    var s: bytes := [a, b];
    assert s[..1] == [a];
    assert [a][..0] == [];
    assert BeValue([a]) == BeValue([]) * 0x100 + a;
    assert BeValue(s) == BeValue(s[..1]) * 0x100 + b;
  }

  /** The little-endian bytes of a fitting value read back as the value and
      are the big-endian bytes reversed. */
  lemma LittleEndianBytes(w: nat, v: nat)
    requires Fits(w, v)
    ensures LeValue(LeBytes(w, v)) == v && LeBytes(w, v) == Reverse(BeBytes(w, v))
  {
    LeValueOfBytes(w, v);
    DivUnique(v, Pow256(w), 0, v);
    BeIsReverseLe(w, v);
    ReverseReverse(LeBytes(w, v));
  }

  lemma {:induction false} BeIsReverseLe(w: nat, v: nat)
    ensures BeBytes(w, v) == Reverse(LeBytes(w, v))
  {
    if w > 0 {
      BeIsReverseLe(w - 1, v / 0x100);
    }
  }

  lemma {:induction false} ReverseFits(w: nat, v: nat)
    ensures Fits(w, BeValue(LeBytes(w, v)))
  {
    BeValueOfBytes(w, BeValue(LeBytes(w, v)));
    BeValueBound(LeBytes(w, v));
  }

  lemma {:induction false} LeValueSnoc(s: bytes, b: uint8)
    ensures LeValue(s + [b]) == LeValue(s) + Pow256(|s|) * b
  {
    if |s| > 0 {
      assert (s + [b])[1..] == s[1..] + [b];
      LeValueSnoc(s[1..], b);
      assert Pow256(|s|) == 0x100 * Pow256(|s| - 1);
      assert 0x100 * (Pow256(|s| - 1) * b) == Pow256(|s|) * b;
    }
  }

  lemma {:induction false} LeValueBound(s: bytes)
    ensures LeValue(s) < Pow256(|s|)
  {
    if |s| > 0 {
      LeValueBound(s[1..]);
      assert LeValue(s[1..]) <= Pow256(|s| - 1) - 1;
      MulMonotone(LeValue(s[1..]), Pow256(|s| - 1) - 1, 0x100);
    }
  }

  lemma {:induction false} BeValueBound(s: bytes)
    ensures BeValue(s) < Pow256(|s|)
  {
    if |s| > 0 {
      BeValueBound(s[..|s| - 1]);
    }
  }

  /** The big-endian bytes of the byteswapped value are the reversed bytes. */
  lemma BeOfLe(w: nat, v: nat)
    ensures BeBytes(w, BeValue(LeBytes(w, v))) == Reverse(BeBytes(w, v))
  {
    BytesOfValue(LeBytes(w, v));
    BeIsReverseLe(w, v);
    ReverseReverse(LeBytes(w, v));
  }

  /** A byte string is the big-endian encoding of its own value. */
  lemma {:induction false} BytesOfValue(s: bytes)
    ensures BeBytes(|s|, BeValue(s)) == s
  {
    if |s| > 0 {
      var p := s[..|s| - 1];
      BytesOfValue(p);
      var v := BeValue(s);
      assert v / 0x100 == BeValue(p);
      assert v % 0x100 == s[|s| - 1];
      assert s == p + [s[|s| - 1]];
    }
  }

  lemma BeBytesInjective(w: nat, a: nat, b: nat)
    requires Fits(w, a) && Fits(w, b) && BeBytes(w, a) == BeBytes(w, b)
    ensures a == b
  {
    BeValueOfBytes(w, a);
    BeValueOfBytes(w, b);
  }

  lemma LastByte(w: nat, v: nat)
    requires w > 0
    ensures BeBytes(w, v)[w - 1] == v % 0x100
  {
  }

  lemma {:induction false} MostSignificant(w: nat, v: nat)
    requires w > 0 && Fits(w, v)
    ensures BeBytes(w, v)[0] == v / Pow256(w - 1)
  {
    if w > 1 {
      MostSignificant(w - 1, v / 0x100);
      DivDiv(v, 0x100, Pow256(w - 2));
      assert Pow256(w - 1) == 0x100 * Pow256(w - 2);
    } else {
      assert Pow256(1) == 0x100;
    }
  }
}

=== FILE: fingerprint_packet.dfy ===
/** The move-only, self-clearing packet of `include/carbio/fingerprint/packet.h`.

    Its `encode` and `decode` are the frame functions of module `Packet`;
    this module adds `secure_clear` and the two move operations.  A move
    returns the new state of both objects: the destination and the source. */
module FingerprintPacket {
  import opened Packet

  /** `secure_clear`: zero all 256 data bytes and the length. */
  function SecureClear(p: Packet): (r: Packet)
    ensures r.data == Zeros && forall i :: 0 <= i < |r.data| ==> r.data[i] == 0
    ensures r.length == 0
    ensures r.tag == p.tag && r.address == p.address && r.ptype == p.ptype
  {
    Packet(p.tag, p.address, p.ptype, 0, Zeros)
  }

  /** The objects after a move: the destination and the moved-from source. */
  datatype Moved = Moved(destination: Packet, source: Packet)

  /** The move constructor: the new packet takes every field of `source`,
      which is cleared afterwards. */
  function MoveConstruct(source: Packet): (r: Moved)
    ensures r.destination == source
    ensures r.source.length == 0 && r.source.data == Zeros
    ensures r.source.tag == source.tag && r.source.address == source.address
    ensures r.source.ptype == source.ptype
  {
    Moved(source, SecureClear(source))
  }

  /** The move assignment `destination = std::move(source)`.  `aliased`
      says whether both name the same object, in which case they are the
      same packet and nothing happens. */
  function MoveAssign(destination: Packet, source: Packet, aliased: bool): (r: Moved)
    requires aliased ==> destination == source
    ensures aliased ==> r == Moved(destination, source)
    ensures !aliased ==> r.destination == source
    ensures !aliased ==> r.source.length == 0 && r.source.data == Zeros
    ensures !aliased ==> r.source.tag == source.tag && r.source.address == source.address
    ensures !aliased ==> r.source.ptype == source.ptype
  {
    if aliased then
      Moved(destination, source)
    else
      // the destination is cleared first, then every field is overwritten
      Moved(Packet(source.tag, source.address, source.ptype, source.length, source.data),
            SecureClear(source))
  }

  /** Clearing is idempotent, and a cleared packet encodes an empty payload. */
  lemma SecureClearIdempotent(p: Packet)
    ensures SecureClear(SecureClear(p)) == SecureClear(p)
    ensures Payload(SecureClear(p)) == []
  {
  }

  /** A packet moved out of is indistinguishable from one cleared in place:
      a second move from it hands on only a cleared packet. */
  lemma MoveFromMovedIsCleared(p: Packet)
    ensures MoveConstruct(MoveConstruct(p).source).destination == SecureClear(p)
  {
  }
}

=== FILE: fingerprint_sensor.dfy ===
/** The Qt-era driver class `FingerprintSensor` (`src/fingerprint.cpp`): its
    own packet serialiser and receiver, the status extraction of
    `sendCommandWithData`, the parameter, search and template-count
    responses, the index-table walk of `fetchTemplates`, and the chunking of
    `sendDataPackets` with its receiving partner `receiveDataPackets`.

    The serial port is abstracted: what `receivePacket` reads is the prefix
    of a byte sequence `stream` (a read succeeds when enough bytes remain),
    whether `writePacket` succeeds is a parameter, and the sensor's replies
    are given as inputs. */
module FingerprintSensor {
  import opened Bytes
  import opened Wrappers
  import Seqs
  import Packet
  import CommandSerializer

  const StartCode: uint16 := 0xEF01
  const DefaultAddress: uint32 := 0xFFFF_FFFF
  const HeaderSize: nat := 9
  /** `receivePacket` first reads this many bytes: the size of the shortest
      acknowledgement. */
  const MinReadSize: nat := 12

  // Packet identifiers (`PacketId`).
  const CommandId: uint8 := 0x01
  const DataId: uint8 := 0x02
  const AcknowledgeId: uint8 := 0x07
  const EndDataId: uint8 := 0x08

  // The driver's own `StatusCode` values used here.
  const Success: uint8 := 0x00
  const PacketReceiveError: uint8 := 0x01
  const UploadFailed: uint8 := 0x0F
  const Timeout: uint8 := 0xFF

  function Max(a: int, b: int): int { if a < b then b else a }

  type Address = a: bytes | |a| == 4 witness [0xFF, 0xFF, 0xFF, 0xFF]

  /** `FingerprintSensor::Packet`: the payload is a vector of any size. */
  datatype SensorPacket = SensorPacket(startCode: uint16, address: Address, id: uint8, data: bytes)

  /** The length field: payload size plus the checksum, truncated to 16 bits
      by the `uint16_t` cast. */
  function LengthField(data: bytes): uint16
  {
    (|data| + 2) % 0x1_0000
  }

  /** `Packet::serialize`. */
  function Serialize(p: SensorPacket): (r: bytes)
    ensures |r| == 11 + |p.data|
  {
    var total := LengthField(p.data);
    Bytes16(p.startCode) + p.address + [p.id] + Bytes16(total) + p.data
    + Bytes16(Packet.Checksum(p.id, total, p.data))
  }

  /** Where each field of a serialised packet lies. */
  lemma SerializeLayout(p: SensorPacket, rest: bytes)
    ensures var s := Serialize(p) + rest; var n := |p.data|;
      Be16(s[0], s[1]) == p.startCode && s[2..6] == p.address && s[6] == p.id
      && Be16(s[7], s[8]) == LengthField(p.data) && s[9..9 + n] == p.data
      && Be16(s[9 + n], s[10 + n]) == Packet.Checksum(p.id, LengthField(p.data), p.data)
  {
    var total := LengthField(p.data);
    var c := Packet.Checksum(p.id, total, p.data);
    SerializeUnfold(p);
    Packet.FieldsAt(Bytes16(p.startCode), p.address, p.id, Bytes16(total), p.data, Bytes16(c), rest);
    Be16OfBytes(p.startCode);
    Be16OfBytes(total);
    Be16OfBytes(c);
  }

  /** For payloads of at most 256 bytes, `Packet::serialize` writes exactly
      the frame `packet::encode` writes for a packet with the same fields. */
  lemma SerializeAgreesWithEncode(p: SensorPacket, q: Packet.Packet, capacity: nat)
    requires q.length <= Packet.MaxDataSize && capacity >= 11 + q.length
    requires p.startCode == q.tag && p.address == Bytes32(q.address) && p.id == q.ptype
    requires p.data == Packet.Payload(q)
    ensures Serialize(p) == Packet.Encode(q, capacity).value
  {
    Mod16Small(q.length + 2);
    SerializeUnfold(p);
    EncodeIsFrame(q, capacity);
  }

  lemma EncodeIsFrame(q: Packet.Packet, capacity: nat)
    requires q.length <= Packet.MaxDataSize && capacity >= 11 + q.length
    ensures Packet.Encode(q, capacity).value
            == Bytes16(q.tag) + Bytes32(q.address) + [q.ptype] + Bytes16(q.length + 2)
               + Packet.Payload(q) + Bytes16(Packet.Checksum(q.ptype, q.length + 2, Packet.Payload(q)))
  {
  }

  // ---------------------------------------------------------------------
  // Receiving

  /** A received packet and the number of bytes `receivePacket` consumed. */
  datatype Received = Received(packet: SensorPacket, consumed: nat)

  /** `receivePacket`: read 12 bytes, check start code and address, read the
      rest of the frame if it is longer, and check the checksum. */
  function Receive(address: uint32, stream: bytes): (r: Option<Received>)
    ensures r.Some? ==> r.value.consumed == Max(MinReadSize, 11 + |r.value.packet.data|) <= |stream|
  {
    if |stream| < MinReadSize then None
    else if Be16(stream[0], stream[1]) != StartCode then None
    else if Be32(stream[2], stream[3], stream[4], stream[5]) != address then None
    else
      var length := Be16(stream[7], stream[8]);
      if length < 2 then None
      else if |stream| < HeaderSize + length then None
      else
        var n := length - 2;
        var data := stream[9..9 + n];
        if Be16(stream[9 + n], stream[10 + n]) != Packet.Checksum(stream[6], length, data) then None
        else Some(Received(SensorPacket(StartCode, stream[2..6], stream[6], data),
                           Max(MinReadSize, HeaderSize + length)))
  }

  /** Whatever `receivePacket` accepts is the serialisation of the packet it
      returns, sent to this driver's address. */
  lemma ReceivedIsSerialized(address: uint32, stream: bytes)
    requires Receive(address, stream).Some?
    ensures var p := Receive(address, stream).value.packet;
      p.startCode == StartCode && p.address == Bytes32(address)
      && |p.data| <= 0xFFFD
      && stream[..11 + |p.data|] == Serialize(p)
  {
    var n := Be16(stream[7], stream[8]) - 2;
    AcceptedFields(address, stream);
    FrameOfFields(address, stream, n);
  }

  /** The checks `receivePacket` passed. */
  lemma AcceptedFields(address: uint32, stream: bytes)
    requires Receive(address, stream).Some?
    ensures var n := Be16(stream[7], stream[8]) - 2;
      0 <= n && 11 + n <= |stream|
      && Be16(stream[0], stream[1]) == StartCode
      && Be32(stream[2], stream[3], stream[4], stream[5]) == address
      && Be16(stream[9 + n], stream[10 + n]) == Packet.Checksum(stream[6], n + 2, stream[9..9 + n])
      && Receive(address, stream).value.packet == SensorPacket(StartCode, stream[2..6], stream[6], stream[9..9 + n])
  {
  }

  /** A byte sequence whose fields pass those checks starts with the
      serialisation of the packet they describe. */
  lemma FrameOfFields(address: uint32, stream: bytes, n: nat)
    requires 11 + n <= |stream| && Be16(stream[7], stream[8]) == n + 2
    requires Be16(stream[0], stream[1]) == StartCode
    requires Be32(stream[2], stream[3], stream[4], stream[5]) == address
    requires Be16(stream[9 + n], stream[10 + n]) == Packet.Checksum(stream[6], n + 2, stream[9..9 + n])
    ensures stream[2..6] == Bytes32(address)
    ensures stream[..11 + n] == Serialize(SensorPacket(StartCode, stream[2..6], stream[6], stream[9..9 + n]))
  {
    var data := stream[9..9 + n];
    Packet.FieldBytes(stream, n);
    Packet.FramePieces(stream, n);
    Mod16Small(n + 2);
    assert LengthField(data) == n + 2;
    SerializeUnfold(SensorPacket(StartCode, stream[2..6], stream[6], data));
  }

  lemma SerializeUnfold(p: SensorPacket)
    ensures Serialize(p) == Bytes16(p.startCode) + p.address + [p.id] + Bytes16(LengthField(p.data)) + p.data
                            + Bytes16(Packet.Checksum(p.id, LengthField(p.data), p.data))
  {
  }

  /** A serialised packet addressed to the driver is received back, with
      anything after it left unread. */
  lemma ReceiveSerialized(address: uint32, p: SensorPacket, rest: bytes)
    requires p.startCode == StartCode && p.address == Bytes32(address)
    requires |p.data| <= 0xFFFD && |Serialize(p) + rest| >= MinReadSize
    ensures Receive(address, Serialize(p) + rest)
            == Some(Received(p, Max(MinReadSize, 11 + |p.data|)))
  {
    SerializeLayout(p, rest);
    Be32OfBytes(address);
    Mod16Small(|p.data| + 2);
    var s := Serialize(p) + rest;
    assert [s[2], s[3], s[4], s[5]] == s[2..6];
    AcceptFields(address, s, p);
  }

  /** `receivePacket` accepts a byte sequence that holds the fields of `p`
      where the frame format puts them. */
  lemma AcceptFields(address: uint32, s: bytes, p: SensorPacket)
    requires |s| >= MinReadSize && |s| >= 11 + |p.data| && |p.data| <= 0xFFFD
    requires p.startCode == StartCode && p.address == Bytes32(address)
    requires Be16(s[0], s[1]) == StartCode && s[2..6] == p.address && s[6] == p.id
    requires Be32(s[2], s[3], s[4], s[5]) == address
    requires Be16(s[7], s[8]) == |p.data| + 2 && s[9..9 + |p.data|] == p.data
    requires Be16(s[9 + |p.data|], s[10 + |p.data|]) == Packet.Checksum(p.id, |p.data| + 2, p.data)
    ensures Receive(address, s) == Some(Received(p, Max(MinReadSize, 11 + |p.data|)))
  {
  }

  /** A frame of 11 bytes (an empty payload) is shorter than the first read:
      `receivePacket` takes one byte of whatever follows it as well. */
  lemma EmptyPayloadConsumesNextByte(address: uint32, p: SensorPacket, rest: bytes)
    requires p.startCode == StartCode && p.address == Bytes32(address)
    requires |p.data| == 0 && |rest| >= 1
    ensures Receive(address, Serialize(p) + rest).Some?
    ensures Receive(address, Serialize(p) + rest).value.consumed == |Serialize(p)| + 1
  {
    ReceiveSerialized(address, p, rest);
  }

  // ---------------------------------------------------------------------
  // Commands

  /** `CommandResult`: the status and the whole acknowledgement payload,
      status byte included. */
  datatype CommandResult = CommandResult(status: uint8, data: bytes)

  /** The command packet `sendCommandWithData` writes. */
  function CommandPacket(address: uint32, cmd: uint8, params: bytes): SensorPacket
  {
    SensorPacket(StartCode, Bytes32(address), CommandId, [cmd] + params)
  }

  /** `sendCommandWithData`, given whether the write succeeded and the bytes
      the sensor sent back. */
  function SendCommandWithData(address: uint32, written: bool, reply: bytes): (r: CommandResult)
    ensures !written ==> r == CommandResult(Timeout, [])
    ensures written && Receive(address, reply).None? ==> r == CommandResult(PacketReceiveError, [])
    ensures r.data != [] ==> r.status == r.data[0]
  {
    if !written then CommandResult(Timeout, [])
    else
      match Receive(address, reply)
      case None => CommandResult(PacketReceiveError, [])
      case Some(rcv) =>
        if rcv.packet.id != AcknowledgeId || |rcv.packet.data| == 0 then CommandResult(PacketReceiveError, [])
        else CommandResult(rcv.packet.data[0], rcv.packet.data)
  }

  /** An acknowledgement with status `s` and body `body` yields `s` and the
      whole payload; any other packet type yields `PacketReceiveError`. */
  lemma SendCommandAcknowledged(address: uint32, id: uint8, s: uint8, body: bytes, rest: bytes)
    requires |body| <= 0xFFFC
    ensures var reply := Serialize(SensorPacket(StartCode, Bytes32(address), id, [s] + body)) + rest;
      SendCommandWithData(address, true, reply)
      == if id == AcknowledgeId then CommandResult(s, [s] + body)
         else CommandResult(PacketReceiveError, [])
  {
    ReceiveSerialized(address, SensorPacket(StartCode, Bytes32(address), id, [s] + body), rest);
  }

  /** `getParameters`: the sixteen parameter bytes follow the status byte. */
  function GetParameters(r: CommandResult): (info: Option<CommandSerializer.DeviceSettingInfo>)
    ensures info.Some? ==> r.status == Success && |r.data| >= 17
  {
    if r.status != Success || |r.data| < 17 then None
    else
      var d := r.data;
      Some(CommandSerializer.DeviceSettingInfo(
        Be16(d[1], d[2]), Be16(d[3], d[4]), Be16(d[5], d[6]), Be16(d[7], d[8]),
        Be32(d[9], d[10], d[11], d[12]), Be16(d[13], d[14]), Be16(d[15], d[16])))
  }

  /** The driver reads the parameters exactly as the `read_system_parameter`
      response decoder does, one byte further on. */
  lemma GetParametersAgreesWithDecoder(r: CommandResult)
    requires r.status == Success && |r.data| >= 1
    ensures var dec := CommandSerializer.DeserializeResponse(CommandSerializer.ReadSystemParameter, r.data[1..]);
      GetParameters(r).Some? <==> dec.Success?
    ensures GetParameters(r).Some? ==>
      CommandSerializer.DeserializeResponse(CommandSerializer.ReadSystemParameter, r.data[1..])
      == Wrappers.Success(CommandSerializer.Settings(GetParameters(r).value))
  {
  }

  /** The search request: a zero count means the cached capacity. */
  function SearchRequest(slot: uint8, startId: uint16, count: uint16, capacity: uint16): (payload: bytes)
  {
    var n := if count == 0 then capacity else count;
    [slot] + Bytes16(startId) + Bytes16(n)
  }

  /** The fast-search request: slot 1 from id 0 over the capacity, or 127
      ids when the capacity is unknown. */
  function FastSearchRequest(capacity: uint16): (payload: bytes)
  {
    var n := if capacity == 0 then 127 else capacity;
    [0x01, 0x00, 0x00] + Bytes16(n)
  }

  /** The search request is the one the command serialiser would build. */
  lemma SearchRequestParses(slot: uint8, startId: uint16, count: uint16, capacity: uint16)
    ensures CommandSerializer.ParseRequest(CommandSerializer.SearchModel, SearchRequest(slot, startId, count, capacity))
      == Some(CommandSerializer.BufferPageCount(CommandSerializer.SearchModel, slot, startId,
                                                if count == 0 then capacity else count))
  {
    var n := if count == 0 then capacity else count;
    var payload := SearchRequest(slot, startId, count, capacity);
    Be16OfBytes(startId);
    Be16OfBytes(n);
    assert Be16(payload[1], payload[2]) == startId;
    assert Be16(payload[3], payload[4]) == n;
  }

  /** The fast-search request asks for a positive number of ids from id 0
      in slot 1. */
  lemma FastSearchRequestParses(capacity: uint16)
    ensures var req := CommandSerializer.ParseRequest(CommandSerializer.FastSearchModel, FastSearchRequest(capacity));
      req.Some? && req.value.bufferId == 1 && req.value.pageId == 0 && req.value.count > 0
      && (capacity > 0 ==> req.value.count == capacity)
  {
    var n := if capacity == 0 then 127 else capacity;
    var payload := FastSearchRequest(capacity);
    Be16OfBytes(n);
    assert Be16(payload[3], payload[4]) == n;
  }

  datatype SearchResult = SearchResult(fingerId: uint16, confidence: uint16)

  /** The response handling of `search` and `fastSearch`. */
  function SearchResponse(r: CommandResult): (res: Option<SearchResult>)
    ensures res.Some? ==> r.status == Success && |r.data| >= 5
  {
    if r.status != Success || |r.data| < 5 then None
    else Some(SearchResult(Be16(r.data[1], r.data[2]), Be16(r.data[3], r.data[4])))
  }

  /** `getTemplateCount`. */
  function TemplateCount(r: CommandResult): (res: Option<uint16>)
    ensures res.Some? ==> r.status == Success && |r.data| >= 3
  {
    if r.status != Success || |r.data| < 3 then None
    else Some(Be16(r.data[1], r.data[2]))
  }

  /** Search and template count read the same fields as the serialiser's
      decoders, one byte further on, but need one more byte than they do. */
  lemma ResponsesAgreeWithDecoder(r: CommandResult)
    requires r.status == Success && |r.data| >= 1
    ensures SearchResponse(r).Some? <==> CommandSerializer.DeserializeResponse(CommandSerializer.SearchModel, r.data[1..]).Success?
    ensures SearchResponse(r).Some? ==>
      CommandSerializer.DeserializeResponse(CommandSerializer.SearchModel, r.data[1..])
      == Wrappers.Success(CommandSerializer.Search(SearchResponse(r).value.fingerId, SearchResponse(r).value.confidence))
    ensures TemplateCount(r).Some? <==> CommandSerializer.DeserializeResponse(CommandSerializer.CountModel, r.data[1..]).Success?
    ensures TemplateCount(r).Some? ==>
      CommandSerializer.DeserializeResponse(CommandSerializer.CountModel, r.data[1..])
      == Wrappers.Success(CommandSerializer.Count(TemplateCount(r).value))
  {
  }

  // ---------------------------------------------------------------------
  // Index table

  /** One index-table page per 256 slots, rounded up. */
  function NumPages(capacity: uint16): (n: nat)
    ensures n <= 256
  {
    (capacity + 255) / 256
  }

  /** Slot `k` is reported as used: it is below the capacity, its page was
      read in full, and its bit is set in byte `1 + (k mod 256) / 8` of the
      reply (byte 0 is the status). */
  predicate Listed(capacity: uint16, replies: seq<CommandResult>, k: nat)
  {
    var page := k / 256;
    k < capacity && page < |replies| && |replies[page].data| >= 33
    && BitSet(replies[page].data[1 + (k % 256) / 8], k % 8)
  }

  /** The listed slots below `n`, in increasing order: the reference for
      `fetchTemplates`. */
  function ListedBelow(capacity: uint16, replies: seq<CommandResult>, n: nat): (r: seq<uint16>)
  {
    if n == 0 then []
    else ListedBelow(capacity, replies, n - 1) + if Listed(capacity, replies, n - 1) then [n - 1] else []
  }

  /** The reference lists exactly the used slots below `n`. */
  lemma {:induction false} ListedBelowMembers(capacity: uint16, replies: seq<CommandResult>, n: nat)
    ensures forall k: nat :: k in ListedBelow(capacity, replies, n) <==> k < n && Listed(capacity, replies, k)
  {
    if n > 0 {
      ListedBelowMembers(capacity, replies, n - 1);
    }
  }

  predicate Increasing(s: seq<uint16>)
  {
    forall i, j :: 0 <= i < j < |s| ==> s[i] < s[j]
  }

  /** ... in strictly increasing order, so without duplicates. */
  lemma {:induction false} ListedBelowIncreasing(capacity: uint16, replies: seq<CommandResult>, n: nat)
    ensures Increasing(ListedBelow(capacity, replies, n))
  {
    if n > 0 {
      var prev := ListedBelow(capacity, replies, n - 1);
      ListedBelowIncreasing(capacity, replies, n - 1);
      ListedBelowBound(capacity, replies, n - 1);
      if Listed(capacity, replies, n - 1) {
        AppendIncreasing(prev, n - 1);
      }
    }
  }

  predicate Below(s: seq<uint16>, n: nat)
  {
    forall i :: 0 <= i < |s| ==> s[i] < n
  }

  lemma {:induction false} ListedBelowBound(capacity: uint16, replies: seq<CommandResult>, n: nat)
    ensures Below(ListedBelow(capacity, replies, n), n)
  {
    if n > 0 {
      ListedBelowBound(capacity, replies, n - 1);
    }
  }

  lemma AppendIncreasing(s: seq<uint16>, x: uint16)
    requires Increasing(s) && Below(s, x)
    ensures Increasing(s + [x])
  {
  }

  /** Slot `256 page + 8 j + bit` is bit `bit` of byte `j` of page `page`. */
  lemma SlotPosition(page: nat, j: nat, bit: nat)
    requires j < 32 && bit < 8
    ensures var k := 256 * page + 8 * j + bit;
      k / 256 == page && (k % 256) / 8 == j && k % 8 == bit
  {
    var k := 256 * page + 8 * j + bit;
    DivUnique(k, 256, page, 8 * j + bit);
    DivUnique(8 * j + bit, 8, j, bit);
    DivUnique(k, 8, 32 * page + j, bit);
  }

  /** A page whose reply is short lists nothing. */
  lemma {:induction false} SkippedPage(capacity: uint16, replies: seq<CommandResult>, page: nat, m: nat)
    requires page < |replies| && |replies[page].data| < 33 && m <= 256
    ensures ListedBelow(capacity, replies, 256 * page + m) == ListedBelow(capacity, replies, 256 * page)
  {
    if m > 0 {
      SkippedPage(capacity, replies, page, m - 1);
      DivUnique(256 * page + m - 1, 256, page, m - 1);
    }
  }

  /** `fetchTemplates`, given the sensor's reply to the index-table request
      of each page: any failed request aborts the walk, a short reply skips
      its page. */
  method FetchTemplates(capacity: uint16, replies: seq<CommandResult>) returns (r: Option<seq<uint16>>)
    requires |replies| == NumPages(capacity)
    ensures r.None? <==> exists p :: 0 <= p < |replies| && replies[p].status != Success
    ensures r.Some? ==> r.value == ListedBelow(capacity, replies, 256 * |replies|)
  {
    var templates: seq<uint16> := [];
    var page := 0;
    while page < |replies|
      invariant 0 <= page <= |replies|
      invariant forall q :: 0 <= q < page ==> replies[q].status == Success
      invariant templates == ListedBelow(capacity, replies, 256 * page)
    {
      var reply := replies[page];
      if reply.status != Success {
        return None;
      }
      if |reply.data| >= 33 {
        templates := ScanPage(capacity, replies, page, templates);
      } else {
        SkippedPage(capacity, replies, page, 256);
      }
      page := page + 1;
    }
    return Some(templates);
  }

  /** The bitmap walk over one fully read page: bytes 1 to 32, bits 0 to 7
      of each. */
  method ScanPage(capacity: uint16, replies: seq<CommandResult>, page: nat, templates: seq<uint16>)
    returns (r: seq<uint16>)
    requires page < |replies| && |replies[page].data| >= 33
    requires templates == ListedBelow(capacity, replies, 256 * page)
    ensures r == ListedBelow(capacity, replies, 256 * (page + 1))
  {
    r := templates;
    var i := 1;
    while i <= 32
      invariant 1 <= i <= 33
      invariant r == ListedBelow(capacity, replies, 256 * page + 8 * (i - 1))
    {
      r := ScanByte(capacity, replies, page, i - 1, r);
      i := i + 1;
    }
  }

  /** Bits 0 to 7 of bitmap byte `j + 1`. */
  method ScanByte(capacity: uint16, replies: seq<CommandResult>, page: nat, j: nat, templates: seq<uint16>)
    returns (r: seq<uint16>)
    requires page < |replies| && |replies[page].data| >= 33 && j < 32
    requires templates == ListedBelow(capacity, replies, 256 * page + 8 * j)
    ensures r == ListedBelow(capacity, replies, 256 * page + 8 * j + 8)
  {
    var b := replies[page].data[1 + j];
    var base := 256 * page + 8 * j;
    r := templates;
    var bit := 0;
    while bit < 8
      invariant 0 <= bit <= 8
      invariant r == ListedBelow(capacity, replies, base + bit)
    {
      var id := base + bit;
      ListedStep(capacity, replies, page, j, bit, id, b);
      if BitSet(b, bit) && id < capacity {
        r := r + [id];
      }
      bit := bit + 1;
    }
  }

  /** One step of the walk decides slot `k = 256 page + 8 j + bit`, whose
      bit is bit `bit` of byte `b`. */
  lemma ListedStep(capacity: uint16, replies: seq<CommandResult>, page: nat, j: nat, bit: nat, k: nat, b: uint8)
    requires page < |replies| && |replies[page].data| >= 33 && j < 32 && bit < 8
    requires k == 256 * page + 8 * j + bit && b == replies[page].data[1 + j]
    ensures ListedBelow(capacity, replies, k + 1)
            == ListedBelow(capacity, replies, k) + if BitSet(b, bit) && k < capacity then [k] else []
  {
    SlotPosition(page, j, bit);
  }

  /** What `fetchTemplates` returns: the used slots below the capacity, each
      once and in increasing order. */
  lemma FetchedTemplates(capacity: uint16, replies: seq<CommandResult>)
    requires |replies| == NumPages(capacity)
    ensures var ids := ListedBelow(capacity, replies, 256 * |replies|);
      Increasing(ids)
      && (forall k: nat :: k in ids <==> Listed(capacity, replies, k))
      && (forall k :: k in ids ==> k < capacity)
  {
    ListedBelowIncreasing(capacity, replies, 256 * |replies|);
    ListedBelowMembers(capacity, replies, 256 * |replies|);
    forall k: nat | Listed(capacity, replies, k)
      ensures k < 256 * |replies|
    {
      DivUnique(k, 256, k / 256, k % 256);
    }
  }

  // ---------------------------------------------------------------------
  // Data packets

  /** The chunk size of `sendDataPackets`: the stored packet length, or 128
      when it is zero. */
  function PacketSize(packetLength: uint16): (n: nat)
    ensures n > 0
    ensures packetLength > 0 ==> n == packetLength
  {
    if packetLength == 0 then 128 else packetLength
  }

  /** The packets `sendDataPackets` writes: chunks of `size` bytes, only the
      last one marked as the end of data. */
  function DataPackets(address: uint32, size: nat, data: bytes): (ps: seq<SensorPacket>)
    requires size > 0
    decreases |data|
  {
    if |data| == 0 then []
    else
      var n := Min(size, |data|);
      [SensorPacket(StartCode, Bytes32(address), if n >= |data| then EndDataId else DataId, data[..n])]
      + DataPackets(address, size, data[n..])
  }

  /** `sendDataPackets`, given how many packet writes succeed before the
      first failing one. */
  method SendDataPackets(packetLength: uint16, address: uint32, data: bytes, writable: nat)
    returns (ok: bool, written: seq<SensorPacket>)
    ensures var all := DataPackets(address, PacketSize(packetLength), data);
      (ok <==> |all| <= writable) && written == all[..Min(writable, |all|)]
  {
    var size := PacketSize(packetLength);
    ghost var all := DataPackets(address, size, data);
    var offset := 0;
    written := [];
    while offset < |data|
      invariant 0 <= offset <= |data|
      invariant |written| <= writable
      invariant written + DataPackets(address, size, data[offset..]) == all
    {
      var chunk := Min(size, |data| - offset);
      var p := ChunkPacket(address, size, data, offset);
      ghost var later := DataPackets(address, size, data[offset + chunk..]);
      DataPacketsStep(address, size, data, offset);
      if |written| == writable {
        Seqs.PrefixOf(written, [p] + later);
        return false, written;
      }
      Seqs.Regroup(written, p, later);
      written := written + [p];
      offset := offset + chunk;
    }
    assert data[offset..] == [];
    assert written + [] == written;
    return true, written;
  }

  /** The packet `sendDataPackets` builds for the chunk at `offset`. */
  function ChunkPacket(address: uint32, size: nat, data: bytes, offset: nat): SensorPacket
    requires size > 0 && offset < |data|
  {
    var chunk := Min(size, |data| - offset);
    SensorPacket(StartCode, Bytes32(address), if offset + chunk >= |data| then EndDataId else DataId,
                 data[offset..offset + chunk])
  }

  /** The packets still to send from `offset` on: one packet for the next
      chunk, then the rest. */
  lemma DataPacketsStep(address: uint32, size: nat, data: bytes, offset: nat)
    requires size > 0 && offset < |data|
    ensures DataPackets(address, size, data[offset..])
            == [ChunkPacket(address, size, data, offset)]
               + DataPackets(address, size, data[offset + Min(size, |data| - offset)..])
  {
    var chunk := Min(size, |data| - offset);
    assert data[offset..][..chunk] == data[offset..offset + chunk];
    assert data[offset..][chunk..] == data[offset + chunk..];
  }

  /** `receiveDataPackets`: receive packets until the end-of-data packet,
      concatenating their payloads; anything else fails. */
  function ReceiveDataPackets(address: uint32, stream: bytes): (r: Option<bytes>)
    decreases |stream|
  {
    match Receive(address, stream)
    case None => None
    case Some(rcv) =>
      var p := rcv.packet;
      if p.id != DataId && p.id != EndDataId then None
      else if p.id == EndDataId then Some(p.data)
      else
        match ReceiveDataPackets(address, stream[rcv.consumed..])
        case None => None
        case Some(rest) => Some(p.data + rest)
  }

  /** The bytes a sequence of packets puts on the wire. */
  function Wire(ps: seq<SensorPacket>): bytes
  {
    if |ps| == 0 then [] else Serialize(ps[0]) + Wire(ps[1..])
  }

  /** Received by the sensor's counterpart, the packets `sendDataPackets`
      writes give back the data, for chunk sizes the length field can
      hold. */
  lemma {:induction false} DataRoundTrip(address: uint32, size: nat, data: bytes, rest: bytes)
    requires 0 < size <= 0xFFFD && |data| > 0
    ensures ReceiveDataPackets(address, Wire(DataPackets(address, size, data)) + rest) == Some(data)
    decreases |data|
  {
    var n := Min(size, |data|);
    ReceiveChunk(address, size, data, rest);
    SplitJoin(data, n);
    if n < |data| {
      DataRoundTrip(address, size, data[n..], rest);
    }
  }

  /** The first packet of a data transfer is received and the rest of the
      stream is left for the following ones. */
  lemma ReceiveChunk(address: uint32, size: nat, data: bytes, rest: bytes)
    requires 0 < size <= 0xFFFD && |data| > 0
    ensures var n := Min(size, |data|);
      var received := ReceiveDataPackets(address, Wire(DataPackets(address, size, data)) + rest);
      if n >= |data| then received == Some(data)
      else received == match ReceiveDataPackets(address, Wire(DataPackets(address, size, data[n..])) + rest)
                       case None => None
                       case Some(more) => Some(data[..n] + more)
  {
    var n := Min(size, |data|);
    var p := SensorPacket(StartCode, Bytes32(address), if n >= |data| then EndDataId else DataId, data[..n]);
    var tail := Wire(DataPackets(address, size, data[n..])) + rest;
    var s := Wire(DataPackets(address, size, data)) + rest;
    WireUnfold(address, size, data, rest);
    SerializedFields(s, p, tail);
    ReceivePacketAt(address, s, p, tail);
    ReceiveFirst(address, s, p, tail);
    if n >= |data| {
      assert p.data == data;
    }
  }

  /** A packet whose fields sit where the frame format puts them, followed
      by `tail`, is received with `tail` left unread. */
  lemma ReceivePacketAt(address: uint32, s: bytes, p: SensorPacket, tail: bytes)
    requires p.startCode == StartCode && p.address == Bytes32(address)
    requires 0 < |p.data| <= 0xFFFD && |s| == 11 + |p.data| + |tail|
    requires Be16(s[0], s[1]) == StartCode && s[2..6] == p.address && s[6] == p.id
    requires Be16(s[7], s[8]) == LengthField(p.data) && s[9..9 + |p.data|] == p.data
    requires Be16(s[9 + |p.data|], s[10 + |p.data|]) == Packet.Checksum(p.id, LengthField(p.data), p.data)
    requires s[11 + |p.data|..] == tail
    ensures Receive(address, s) == Some(Received(p, 11 + |p.data|))
    ensures s[11 + |p.data|..] == tail
  {
    Mod16Small(|p.data| + 2);
    Be32At(s, address);
    AcceptFields(address, s, p);
  }

  /** The fields of a serialised packet at the head of a stream. */
  lemma SerializedFields(s: bytes, p: SensorPacket, tail: bytes)
    requires s == Serialize(p) + tail
    ensures |s| == 11 + |p.data| + |tail|
    ensures Be16(s[0], s[1]) == p.startCode && s[2..6] == p.address && s[6] == p.id
    ensures Be16(s[7], s[8]) == LengthField(p.data) && s[9..9 + |p.data|] == p.data
    ensures Be16(s[9 + |p.data|], s[10 + |p.data|]) == Packet.Checksum(p.id, LengthField(p.data), p.data)
    ensures s[11 + |p.data|..] == tail
  {
    SerializeLayout(p, tail);
    TailAfter(Serialize(p), tail);
  }

  lemma Be32At(s: bytes, address: uint32)
    requires |s| >= 6 && s[2..6] == Bytes32(address)
    ensures Be32(s[2], s[3], s[4], s[5]) == address
  {
    Be32OfBytes(address);
  }

  /** Receiving data packets from a stream whose first packet is a data or
      end-of-data packet. */
  lemma ReceiveFirst(address: uint32, s: bytes, p: SensorPacket, tail: bytes)
    requires p.id == DataId || p.id == EndDataId
    requires Receive(address, s) == Some(Received(p, 11 + |p.data|)) && s[11 + |p.data|..] == tail
    ensures p.id == EndDataId ==> ReceiveDataPackets(address, s) == Some(p.data)
    ensures p.id == DataId ==>
      ReceiveDataPackets(address, s)
      == match ReceiveDataPackets(address, tail)
         case None => None
         case Some(rest) => Some(p.data + rest)
  {
  }

  lemma WireUnfold(address: uint32, size: nat, data: bytes, rest: bytes)
    requires 0 < size && |data| > 0
    ensures var n := Min(size, |data|);
      var p := SensorPacket(StartCode, Bytes32(address), if n >= |data| then EndDataId else DataId, data[..n]);
      Wire(DataPackets(address, size, data)) + rest == Serialize(p) + (Wire(DataPackets(address, size, data[n..])) + rest)
  {
    var n := Min(size, |data|);
    var ps := DataPackets(address, size, data);
    assert ps[1..] == DataPackets(address, size, data[n..]);
  }

  lemma TailAfter(a: bytes, b: bytes)
    ensures (a + b)[|a|..] == b
  {
  }

  lemma SplitJoin(data: bytes, n: nat)
    requires n <= |data|
    ensures data[..n] + data[n..] == data
  {
  }
}

=== FILE: id_allocation.dfy ===
/** Template-id allocation as both profile registries do it: scan the ids
    0..127 in order and take the first one no profile uses. */
module IdAllocation {
  import opened Bytes
  import Seqs

  /** The sensor's template slots are the ids below this. */
  const SlotCount: nat := 128

  /** The scan from `id` on: the first free id, or `SlotCount` when every
      remaining id is taken. */
  function FirstFreeFrom(used: set<uint16>, id: nat): (r: nat)
    requires id <= SlotCount
    ensures id <= r <= SlotCount
    ensures r < SlotCount ==> r !in used
    ensures forall k: uint16 :: id <= k < r ==> k in used
    decreases SlotCount - id
  {
    if id == SlotCount then SlotCount
    else if id in used then FirstFreeFrom(used, id + 1)
    else id
  }

  /** The least free slot, or `SlotCount` when all are taken. */
  function FirstFree(used: set<uint16>): (r: nat)
    ensures r <= SlotCount
    ensures r < SlotCount ==> r !in used
    ensures forall k: uint16 :: k < r ==> k in used
  {
    FirstFreeFrom(used, 0)
  }

  /** Every slot is taken only when at least `SlotCount` ids are in use. */
  lemma AllTakenNeedsAllSlots(used: set<uint16>)
    requires FirstFree(used) == SlotCount
    ensures |used| >= SlotCount
  {
    var slots := Slots(SlotCount);
    forall k | k in slots
      ensures k in used
    {
    }
    Seqs.SubsetCard(slots, used);
  }

  /** The ids below `n`. */
  function Slots(n: nat): (r: set<uint16>)
    requires n <= 0x1_0000
    ensures |r| == n
    ensures forall k: uint16 :: k in r <==> k < n
  {
    if n == 0 then {}
    else
      var below := Slots(n - 1);
      assert n - 1 !in below;
      below + {n - 1}
  }
}

=== FILE: locked_buffer.dfy ===
/** `include/carbio/locked_buffer.h`: a move-only buffer of `T` for keys and
    other secrets, whose storage is locked in memory and zeroed before it
    is released.

    The value-initialised element `T{}` is the parameter `zero`. Whether
    `new (std::nothrow)` and `mlock` succeed are parameters. The zeroing
    and unlocking of released storage happen after the buffer no longer
    owns it and are not observable through it. */
module LockedBuffer {
  import opened Wrappers
  import Seqs

  /** An owned allocation: its elements and whether `mlock` succeeded. */
  datatype Storage<T> = Storage(elems: seq<T>, locked: bool)

  datatype Buffer<T> = Buffer(storage: Option<Storage<T>>, size: nat)

  /** What every constructor and operation keeps: there is storage exactly
      when the size is positive, and it holds `size` elements. */
  predicate Valid<T>(b: Buffer<T>)
  {
    (b.storage.None? <==> b.size == 0) && (b.storage.Some? ==> |b.storage.value.elems| == b.size)
  }

  /** The elements from `begin()` to `end()`. */
  function Contents<T>(b: Buffer<T>): seq<T>
  {
    if b.storage.Some? then b.storage.value.elems else []
  }

  /** `empty()`. */
  predicate Empty<T>(b: Buffer<T>)
  {
    b.size == 0 || b.storage.None?
  }

  /** `is_locked()`. */
  predicate IsLocked<T>(b: Buffer<T>)
  {
    b.storage.Some? && b.storage.value.locked
  }

  /** For a valid buffer `empty()` is the same as having no elements. */
  lemma EmptyMeansNoElements<T>(b: Buffer<T>)
    requires Valid(b)
    ensures Empty(b) <==> |Contents(b)| == 0
    ensures |Contents(b)| == b.size
  {
  }

  /** The default constructor. */
  function Default<T>(): (r: Buffer<T>)
    ensures Valid(r) && r.size == 0 && Empty(r) && Contents(r) == [] && !IsLocked(r)
  {
    Buffer(None, 0)
  }

  /** `locked_buffer(size)`: `n` value-initialised elements, or an empty
      buffer when `n` is zero or the allocation fails. */
  function Sized<T>(n: nat, zero: T, granted: bool, locked: bool): (r: Buffer<T>)
    ensures Valid(r)
    ensures n > 0 && granted ==> r.size == n && Contents(r) == Seqs.Repeat(zero, n) && IsLocked(r) == locked
    ensures n == 0 || !granted ==> r.size == 0 && Empty(r)
  {
    if n > 0 && granted then Buffer(Some(Storage(Seqs.Repeat(zero, n), locked)), n) else Buffer(None, 0)
  }

  /** The move constructor and move assignment: the destination (first)
      takes the source's storage and size, the source (second) is left
      empty. */
  function Move<T>(src: Buffer<T>): (r: (Buffer<T>, Buffer<T>))
    ensures r.0.size == src.size && Contents(r.0) == Contents(src) && IsLocked(r.0) == IsLocked(src)
    ensures r.1.size == 0 && Empty(r.1) && Valid(r.1)
    ensures Valid(src) ==> Valid(r.0)
  {
    (src, Buffer(None, 0))
  }

  /** Moving a buffer away and back gives the original back and leaves
      the intermediate one empty. */
  lemma MoveBack<T>(b: Buffer<T>)
    ensures var m := Move(b); var back := Move(m.0); back.0 == b && Empty(back.1) && Empty(m.1)
  {
  }

  /** `resize`: the old contents are dropped whatever happens; then
      `newSize` value-initialised elements with `true`, or an empty buffer
      with `false` when the allocation fails. A size of zero succeeds. */
  function Resize<T>(b: Buffer<T>, newSize: nat, zero: T, granted: bool, locked: bool): (r: (Buffer<T>, bool))
    ensures r.1 <==> newSize == 0 || granted
    ensures r.1 ==> r.0.size == newSize && Contents(r.0) == Seqs.Repeat(zero, newSize)
    ensures !r.1 ==> r.0.size == 0 && Empty(r.0)
    ensures Valid(r.0)
  {
    if newSize == 0 then (Buffer(None, 0), true)
    else if granted then (Buffer(Some(Storage(Seqs.Repeat(zero, newSize), locked)), newSize), true)
    else (Buffer(None, 0), false)
  }

  /** A resized buffer is exactly a freshly constructed one of the new
      size: nothing of the old buffer survives. */
  lemma ResizeIsFresh<T>(b: Buffer<T>, c: Buffer<T>, newSize: nat, zero: T, granted: bool, locked: bool)
    ensures Resize(b, newSize, zero, granted, locked).0 == Sized(newSize, zero, granted, locked)
    ensures Resize(b, newSize, zero, granted, locked) == Resize(c, newSize, zero, granted, locked)
  {
  }

  /** `clear`: every element becomes `T{}`; size and storage stay. */
  function Clear<T>(b: Buffer<T>, zero: T): (r: Buffer<T>)
    requires Valid(b)
    ensures Valid(r) && r.size == b.size && IsLocked(r) == IsLocked(b)
    ensures Contents(r) == Seqs.Repeat(zero, b.size)
  {
    if b.storage.Some? && b.size > 0 then b.(storage := Some(b.storage.value.(elems := Seqs.Repeat(zero, b.size))))
    else b
  }

  /** `fill`: every element becomes `v`; size and storage stay. */
  function Fill<T>(b: Buffer<T>, v: T): (r: Buffer<T>)
    requires Valid(b)
    ensures Valid(r) && r.size == b.size && IsLocked(r) == IsLocked(b)
    ensures forall i :: 0 <= i < |Contents(r)| ==> Contents(r)[i] == v
  {
    if b.storage.Some? && b.size > 0 then b.(storage := Some(b.storage.value.(elems := Seqs.Repeat(v, b.size))))
    else b
  }

  /** Clearing is filling with `T{}`, and clearing twice is clearing once. */
  lemma ClearIsFillWithZero<T>(b: Buffer<T>, zero: T)
    requires Valid(b)
    ensures Clear(b, zero) == Fill(b, zero)
    ensures Clear(Clear(b, zero), zero) == Clear(b, zero)
  {
  }

  /** `copy_from`: with storage, a source and `count` no larger than the
      size, the first `count` elements become the source's and the rest
      stay; otherwise nothing changes. `src` is `None` for a null pointer;
      `memcpy` reads `count` elements of it. */
  function CopyFrom<T>(b: Buffer<T>, src: Option<seq<T>>, count: nat): (r: Buffer<T>)
    requires Valid(b)
    requires src.Some? ==> count <= |src.value|
    ensures Valid(r) && r.size == b.size && IsLocked(r) == IsLocked(b)
    ensures !(b.storage.Some? && src.Some? && count <= b.size) ==> r == b
    ensures b.storage.Some? && src.Some? && count <= b.size ==>
      Contents(r)[..count] == src.value[..count] && Contents(r)[count..] == Contents(b)[count..]
  {
    if b.storage.Some? && src.Some? && count <= b.size then
      var s := b.storage.value;
      b.(storage := Some(s.(elems := src.value[..count] + s.elems[count..])))
    else b
  }

  /** Copying a full buffer's worth replaces all the contents. */
  lemma CopyWholeBuffer<T>(b: Buffer<T>, src: seq<T>)
    requires Valid(b) && b.storage.Some? && b.size <= |src|
    ensures Contents(CopyFrom(b, Some(src), b.size)) == src[..b.size]
  {
    var r := CopyFrom(b, Some(src), b.size);
    assert Contents(r) == Contents(r)[..b.size];
  }
}

=== FILE: packet.dfy ===
/** The sensor frame of `src/packet.cpp` (carbio::packet) and
    `src/fingerprint/packet.cpp` (carbio::fingerprint::packet), which run the
    same encoder and decoder over the same five fields.

    A frame is the start code (2 bytes, big-endian), the device address
    (4 bytes, big-endian), the packet type, the payload length plus two
    (2 bytes, big-endian), the payload, and a 16-bit additive checksum over
    the type, both length bytes and the payload (2 bytes, big-endian). */
module Packet {
  import opened Bytes
  import opened Wrappers
  import StatusCodes

  const BuiltinTag: uint16 := 0xEF01
  const MaxHeaderSize: nat := 9
  const MaxDataSize: nat := 256
  const MaxPacketSize: nat := MaxHeaderSize + MaxDataSize + 2

  /** The fixed 256-byte payload array of the packet structure. */
  type Data = s: bytes | |s| == 256 witness ZeroBytes(256)

  const Zeros: Data := ZeroBytes(256)

  datatype Packet = Packet(tag: uint16, address: uint32, ptype: uint8, length: uint16, data: Data)

  /** A default-constructed packet. */
  const Default: Packet := Packet(BuiltinTag, 0xFFFF_FFFF, 0x01, 0, Zeros)

  /** The outcome of `decode`: the packet after the call (decode assigns the
      fields it has read even when it then fails) and the returned result. */
  datatype Decoded = Decoded(packet: Packet, result: Result<nat, StatusCodes.Status>)

  /** The payload bytes actually in use. */
  function Payload(p: Packet): bytes
    requires p.length <= MaxDataSize
  {
    p.data[..p.length]
  }

  /** The 16-bit additive checksum: the sum is kept in a `uint16_t`, so it
      wraps modulo 2^16. */
  function Checksum(ptype: uint8, lengthWithChecksum: uint16, payload: bytes): uint16
  {
    (ptype + Hi(lengthWithChecksum) + Lo(lengthWithChecksum) + Sum(payload)) % 0x1_0000
  }

  /** The length field of a buffer holding at least a header. */
  function LengthField(buffer: bytes): uint16
    requires |buffer| >= MaxHeaderSize
  {
    Be16(buffer[7], buffer[8])
  }

  /** `packet::encode` into a caller buffer of `capacity` bytes: the bytes it
      writes to the front of that buffer, whose count it returns.  Reading
      `length` bytes of the 256-byte array requires `length <= 256`. */
  function Encode(p: Packet, capacity: nat): (r: Result<bytes, StatusCodes.Status>)
    requires p.length <= MaxDataSize
    ensures r.Success? <==> capacity >= MaxHeaderSize + p.length + 2
    ensures r.Failure? ==> r.error == StatusCodes.BadPacket
    ensures r.Success? ==> |r.value| == 11 + p.length
  {
    if capacity < MaxHeaderSize + p.length + 2 then
      Failure(StatusCodes.BadPacket)
    else
      Success(Frame(p))
  }

  /** The frame bytes of a packet whose payload fits the array. */
  function Frame(p: Packet): bytes
    requires p.length <= MaxDataSize
  {
    var lwc := p.length + 2;
    Bytes16(p.tag) + Bytes32(p.address) + [p.ptype] + Bytes16(lwc)
    + Payload(p) + Bytes16(Checksum(p.ptype, lwc, Payload(p)))
  }

  /** The byte layout of an encoded frame: header fields big-endian, the
      payload in use, then the checksum big-endian in the last two bytes. */
  lemma EncodeLayout(p: Packet, capacity: nat)
    requires p.length <= MaxDataSize && capacity >= MaxHeaderSize + p.length + 2
    ensures var f := Encode(p, capacity).value;
      |f| == 11 + p.length
      && Be16(f[0], f[1]) == p.tag
      && Be32(f[2], f[3], f[4], f[5]) == p.address
      && f[6] == p.ptype && Be16(f[7], f[8]) == p.length + 2
      && f[MaxHeaderSize..MaxHeaderSize + p.length] == Payload(p)
      && Be16(f[9 + p.length], f[10 + p.length]) == Checksum(p.ptype, p.length + 2, Payload(p))
  {
    var f := Encode(p, capacity).value;
    assert f + [] == f;
    assert f == Frame(p);
    FrameLayout(p, []);
  }

  /** Where each field of a frame lies, whatever follows it. */
  lemma FrameLayout(p: Packet, rest: bytes)
    requires p.length <= MaxDataSize
    ensures var f := Frame(p) + rest; var n := p.length;
      |f| == 11 + n + |rest|
      && Be16(f[0], f[1]) == p.tag
      && Be32(f[2], f[3], f[4], f[5]) == p.address
      && f[6] == p.ptype && LengthField(f) == n + 2
      && f[MaxHeaderSize..MaxHeaderSize + n] == Payload(p)
      && Be16(f[9 + n], f[10 + n]) == Checksum(p.ptype, n + 2, Payload(p))
      && f[11 + n..] == rest
  {
    var lwc := p.length + 2;
    var c := Checksum(p.ptype, lwc, Payload(p));
    FrameUnfold(p);
    FieldsAt(Bytes16(p.tag), Bytes32(p.address), p.ptype, Bytes16(lwc), Payload(p), Bytes16(c), rest);
    Be16OfBytes(p.tag);
    Be32OfBytes(p.address);
    Be16OfBytes(lwc);
    Be16OfBytes(c);
  }

  lemma FrameUnfold(p: Packet)
    requires p.length <= MaxDataSize
    ensures Frame(p) == Bytes16(p.tag) + Bytes32(p.address) + [p.ptype] + Bytes16(p.length + 2)
                        + Payload(p) + Bytes16(Checksum(p.ptype, p.length + 2, Payload(p)))
  {
  }

  /** Positions in a concatenation shaped like a frame: a 2-byte tag, a
      4-byte address, the type, a 2-byte length, the payload and a 2-byte
      checksum, followed by anything. */
  lemma FieldsAt(tag: bytes, address: bytes, ptype: uint8, length: bytes, payload: bytes, sum: bytes, rest: bytes)
    requires |tag| == 2 && |address| == 4 && |length| == 2 && |sum| == 2
    ensures var s := tag + address + [ptype] + length + payload + sum + rest; var n := |payload|;
      |s| == 11 + n + |rest|
      && s[0] == tag[0] && s[1] == tag[1] && s[2..6] == address
      && s[2] == address[0] && s[3] == address[1] && s[4] == address[2] && s[5] == address[3]
      && s[6] == ptype && s[7] == length[0] && s[8] == length[1] && s[9..9 + n] == payload
      && s[9 + n] == sum[0] && s[10 + n] == sum[1] && s[11 + n..] == rest
  {
    var s := tag + address + [ptype] + length + payload + sum + rest;
    var n := |payload|;
    assert s[9..9 + n] == payload by {
      assert forall i | 0 <= i < n :: s[9 + i] == payload[i];
    }
    assert s[11 + n..] == rest by {
      assert forall i | 0 <= i < |rest| :: s[11 + n + i] == rest[i];
    }
  }

  /** `packet::decode`, checking the buffer against `expected` address. */
  function Decode(p: Packet, buffer: bytes, expected: uint32): (r: Decoded)
    ensures |buffer| < MaxHeaderSize + 2 <==> r.result == Failure(StatusCodes.FrameError)
    ensures |buffer| < MaxHeaderSize + 2 ==> r.packet == p
    ensures r.result.Success? ==>
      r.result.value == MaxHeaderSize + LengthField(buffer) && |buffer| >= r.result.value
      && r.packet.tag == BuiltinTag && r.packet.address == expected && r.packet.ptype == buffer[6]
      && r.packet.length == LengthField(buffer) - 2 && r.packet.length <= MaxDataSize
      && r.packet.data == buffer[MaxHeaderSize..MaxHeaderSize + r.packet.length] + p.data[r.packet.length..]
  {
    if |buffer| < MaxHeaderSize + 2 then
      Decoded(p, Failure(StatusCodes.FrameError))
    else
      var tag := Be16(buffer[0], buffer[1]);
      var p1 := p.(tag := tag);
      if tag != BuiltinTag then
        Decoded(p1, Failure(StatusCodes.BadPacket))
      else
        var address := Be32(buffer[2], buffer[3], buffer[4], buffer[5]);
        var p2 := p1.(address := address, ptype := buffer[6]);
        var lwc := LengthField(buffer);
        if address != expected then
          Decoded(p1.(address := address), Failure(StatusCodes.BadPacket))
        else if lwc < 2 then
          Decoded(p2, Failure(StatusCodes.BadPacket))
        else
          var length := lwc - 2;
          var p3 := p2.(length := length);
          if length > MaxDataSize || |buffer| < MaxHeaderSize + lwc then
            Decoded(p3, Failure(StatusCodes.BadPacket))
          else
            var payload := buffer[MaxHeaderSize..MaxHeaderSize + length];
            var p4 := p3.(data := payload + p.data[length..]);
            var received := Be16(buffer[MaxHeaderSize + length], buffer[MaxHeaderSize + length + 1]);
            if received != Checksum(buffer[6], lwc, payload) then
              Decoded(p4, Failure(StatusCodes.BadPacket))
            else
              Decoded(p4, Success(MaxHeaderSize + lwc))
  }

  /** The rejections of `decode` after the size check, and the exact
      condition under which it succeeds. */
  lemma DecodeRejects(p: Packet, buffer: bytes, expected: uint32)
    ensures |buffer| >= MaxHeaderSize + 2 && Be16(buffer[0], buffer[1]) != BuiltinTag
            ==> Decode(p, buffer, expected).result == Failure(StatusCodes.BadPacket)
    ensures |buffer| >= MaxHeaderSize + 2 && Be32(buffer[2], buffer[3], buffer[4], buffer[5]) != expected
            ==> Decode(p, buffer, expected).result == Failure(StatusCodes.BadPacket)
    ensures |buffer| >= MaxHeaderSize + 2 && LengthField(buffer) < 2
            ==> Decode(p, buffer, expected).result == Failure(StatusCodes.BadPacket)
    ensures |buffer| >= MaxHeaderSize + 2 && LengthField(buffer) > MaxDataSize + 2
            ==> Decode(p, buffer, expected).result == Failure(StatusCodes.BadPacket)
    ensures |buffer| >= MaxHeaderSize + 2 && |buffer| < MaxHeaderSize + LengthField(buffer)
            ==> Decode(p, buffer, expected).result == Failure(StatusCodes.BadPacket)
    ensures Decode(p, buffer, expected).result.Success?
            <==> WellFormed(buffer, expected) && ChecksumMatches(buffer)
    ensures WellFormed(buffer, expected) && !ChecksumMatches(buffer)
            ==> Decode(p, buffer, expected).result == Failure(StatusCodes.BadPacket)
  {
  }

  /** A buffer whose header passes every check `decode` makes before the
      checksum. */
  predicate WellFormed(buffer: bytes, expected: uint32)
  {
    |buffer| >= MaxHeaderSize + 2
    && Be16(buffer[0], buffer[1]) == BuiltinTag
    && Be32(buffer[2], buffer[3], buffer[4], buffer[5]) == expected
    && 2 <= LengthField(buffer) <= MaxDataSize + 2
    && |buffer| >= MaxHeaderSize + LengthField(buffer)
  }

  /** The checksum stored after the payload of a well-formed buffer agrees
      with the one recomputed from its type, length field and payload. */
  predicate ChecksumMatches(buffer: bytes)
  {
    |buffer| >= MaxHeaderSize && 2 <= LengthField(buffer) && |buffer| >= MaxHeaderSize + LengthField(buffer)
    && var n := LengthField(buffer) - 2;
       Be16(buffer[MaxHeaderSize + n], buffer[MaxHeaderSize + n + 1])
       == Checksum(buffer[6], LengthField(buffer), buffer[MaxHeaderSize..MaxHeaderSize + n])
  }

  /** Decoding an encoded packet, followed by any further bytes, succeeds
      and restores the header fields and the payload in use; the unused
      tail of the receiving packet's array keeps its old contents. */
  lemma EncodeDecodeRoundTrip(p: Packet, capacity: nat, rest: bytes, q: Packet)
    requires p.tag == BuiltinTag && p.length <= MaxDataSize
    requires capacity >= MaxHeaderSize + p.length + 2
    ensures var d := Decode(q, Encode(p, capacity).value + rest, p.address);
      d.result == Success(MaxHeaderSize + p.length + 2)
      && d.packet.tag == p.tag && d.packet.address == p.address
      && d.packet.ptype == p.ptype && d.packet.length == p.length
      && d.packet.data[..p.length] == p.data[..p.length]
      && d.packet.data[p.length..] == q.data[p.length..]
  {
    var b := Encode(p, capacity).value + rest;
    EncodedIsWellFormed(p, capacity, rest);
    DecodeRejects(q, b, p.address);
  }

  lemma EncodedIsWellFormed(p: Packet, capacity: nat, rest: bytes)
    requires p.tag == BuiltinTag && p.length <= MaxDataSize
    requires capacity >= MaxHeaderSize + p.length + 2
    ensures var b := Encode(p, capacity).value + rest;
      WellFormed(b, p.address) && ChecksumMatches(b)
      && LengthField(b) == p.length + 2 && b[6] == p.ptype
      && b[MaxHeaderSize..MaxHeaderSize + p.length] == p.data[..p.length]
  {
    FrameLayout(p, rest);
  }

  /** Conversely, a successfully decoded buffer is exactly the encoding of
      the decoded packet, up to the returned size. */
  lemma DecodeEncodeRoundTrip(p: Packet, buffer: bytes, expected: uint32)
    requires Decode(p, buffer, expected).result.Success?
    ensures var d := Decode(p, buffer, expected);
      d.packet.length <= MaxDataSize
      && Encode(d.packet, d.result.value) == Success(buffer[..d.result.value])
  {
    var d := Decode(p, buffer, expected);
    assert d.packet.data[..d.packet.length] == buffer[MaxHeaderSize..MaxHeaderSize + d.packet.length];
    FrameOfWellFormed(buffer, expected, d.packet);
  }

  lemma FrameOfWellFormed(buffer: bytes, expected: uint32, q: Packet)
    requires WellFormed(buffer, expected) && ChecksumMatches(buffer)
    requires q.tag == BuiltinTag && q.address == expected && q.ptype == buffer[6]
    requires q.length == LengthField(buffer) - 2
    requires q.data[..q.length] == buffer[MaxHeaderSize..MaxHeaderSize + q.length]
    ensures q.length <= MaxDataSize
    ensures Frame(q) == buffer[..MaxHeaderSize + LengthField(buffer)]
  {
    FieldBytes(buffer, q.length);
    FramePieces(buffer, q.length);
    FrameUnfold(q);
  }

  /** The header and checksum fields of a buffer holding a frame with an
      `n`-byte payload, re-encoded from the values they hold. */
  lemma FieldBytes(s: bytes, n: nat)
    requires 11 + n <= |s|
    ensures s[0..2] == Bytes16(Be16(s[0], s[1]))
    ensures s[2..6] == Bytes32(Be32(s[2], s[3], s[4], s[5]))
    ensures s[7..9] == Bytes16(Be16(s[7], s[8]))
    ensures s[9 + n..11 + n] == Bytes16(Be16(s[9 + n], s[10 + n]))
  {
    Bytes16OfBe16(s[0], s[1]);
    Bytes32OfBe32(s[2], s[3], s[4], s[5]);
    Bytes16OfBe16(s[7], s[8]);
    Bytes16OfBe16(s[9 + n], s[10 + n]);
  }

  /** A frame with an `n`-byte payload, cut into its fields. */
  lemma FramePieces(s: bytes, n: nat)
    requires 11 + n <= |s|
    ensures s[..11 + n] == s[0..2] + s[2..6] + [s[6]] + s[7..9] + s[9..9 + n] + s[9 + n..11 + n]
  {
  }

  /** The packet constants and default field values. */
  lemma Constants()
    ensures MaxPacketSize == 267
    ensures Default.tag == 0xEF01 && Default.address == 0xFFFF_FFFF
    ensures Default.ptype == 0x01 && Default.length == 0
    ensures forall i :: 0 <= i < |Default.data| ==> Default.data[i] == 0
  {
  }
}

=== FILE: profile_json.dfy ===
/** The profile file text of `src/profile_store.cpp`: `serialize_profiles`
    writes the profile list as a small JSON document, and
    `deserialize_profiles` reads it back with `std::string::find` and
    `std::stoi`/`std::stoll` instead of a JSON parser.

    The byte vector both functions exchange holds the characters of the
    text, so the text is a `string` here. `std::string::npos` is `None`.
    Both functions are `noexcept`: an exception thrown inside them ends the
    program through `std::terminate`, which the load result `Terminated`
    stands for. */
module ProfileJson {
  import opened Wrappers
  import opened Decimal
  import ProfileStore
  import Seqs

  type Profile = ProfileStore.Profile

  /** `system_clock` ticks per second, fixed by the standard library. */
  type TicksPerSecond = n: nat | n > 0 witness 1

  const IntMax: nat := 0x7fff_ffff
  const LongMax: nat := 0x7fff_ffff_ffff_ffff

  // The text around and between the records.
  const Header: string := "{\n  \"version\": 1,\n  \"profiles\": [\n"
  const Footer: string := "  ]\n}\n"
  const Open: string := "    {\n      "
  const Close: string := "\n    }"
  const FieldBreak: string := ",\n      "
  const QuoteBreak: string := "\",\n      "

  // The keys the reader looks for; the writer follows each by a space,
  // except the name key, which already ends with the opening quote.
  const TemplateKey: string := "\"template_id\":"
  const NameKey: string := "\"name\": \""
  const NameLead: string := "\"name\": "
  const AdminKey: string := "\"is_admin\":"
  const CreatedKey: string := "\"created_at\":"
  const ModifiedKey: string := "\"modified_at\":"

  // ---------------------------------------------------------------------
  // serialize_profiles

  /** `operator<<` on a 64-bit count. */
  function IntText(n: int): string
  {
    if n < 0 then "-" + NatToString(-n) else NatToString(n)
  }

  /** `duration_cast<seconds>`: ticks to whole seconds, rounding toward zero. */
  function Seconds(t: int, tick: TicksPerSecond): int
  {
    if t >= 0 then Whole(t, tick) else -(Whole(-t, tick) as int)
  }

  /** How many whole seconds of `tick` ticks fit in `n` ticks. */
  function Whole(n: nat, tick: TicksPerSecond): nat
    decreases n
  {
    if n < tick then 0 else 1 + Whole(n - tick, tick)
  }

  /** `Whole` is the quotient of `n` by `tick`: whole seconds, the rest
      cut off. */
  lemma {:induction false} WholeIsQuotient(n: nat, tick: TicksPerSecond)
    ensures Whole(n, tick) * tick <= n < (Whole(n, tick) + 1) * tick
    ensures Whole(n, tick) <= n
    decreases n
  {
    if n >= tick {
      var w := Whole(n - tick, tick);
      WholeIsQuotient(n - tick, tick);
      assert (w + 1) * tick == w * tick + tick;
      assert (w + 2) * tick == (w + 1) * tick + tick;
    }
  }

  function IdText(p: Profile): string { NatToString(p.templateId) }

  function BoolText(b: bool): string { if b then "true" else "false" }

  function CreatedText(p: Profile, tick: TicksPerSecond): string { IntText(Seconds(p.createdAt, tick)) }

  function ModifiedText(p: Profile, tick: TicksPerSecond): string { IntText(Seconds(p.modifiedAt, tick)) }

  /** A key, the space the writer puts after it, and a value. */
  function Keyed(key: string, value: string): string
  {
    key + " " + value
  }

  /** A line holding a keyed value, up to where the next key starts. */
  function Line(key: string, value: string): string
  {
    Keyed(key, value) + FieldBreak
  }

  /** The name line: the name goes between quotes, without escaping. */
  function NameLine(name: string): string
  {
    NameKey + name + QuoteBreak
  }


  /** The records in order, each followed by a comma unless it is the last. */
  function Records(ps: seq<Profile>, tick: TicksPerSecond): string
    decreases |ps|
  {
    if |ps| == 0 then ""
    else Open + Fields(ps[0], tick) + Close + (if |ps| > 1 then "," else "") + "\n" + Records(ps[1..], tick)
  }

  function Serialize(ps: seq<Profile>, tick: TicksPerSecond): string
  {
    Header + Records(ps, tick) + Footer
  }

  // ---------------------------------------------------------------------
  // std::string searching

  /** `piece` occurs in `s` starting at `i`. */
  predicate At(s: string, i: nat, piece: string)
  {
    i + |piece| <= |s| && s[i..i + |piece|] == piece
  }

  /** `pat` starts nowhere in `[lo, hi)`. */
  predicate NoMatchIn(s: string, pat: string, lo: nat, hi: nat)
  {
    forall j :: lo <= j < hi ==> !At(s, j, pat)
  }

  predicate Lacks(t: string, c: char)
  {
    forall j :: 0 <= j < |t| ==> t[j] != c
  }

  /** `s.find(pat, from)`: the first position at or after `from` where
      `pat` occurs. */
  function Find(s: string, pat: string, from: nat): (r: Option<nat>)
    ensures r.Some? ==> from <= r.value && r.value + |pat| <= |s|
    decreases |s| - from
  {
    if from + |pat| > |s| then None
    else if s[from..from + |pat|] == pat then Some(from)
    else Find(s, pat, from + 1)
  }

  /** `s.find_first_of("0123456789", from)`. */
  function FirstDigit(s: string, from: nat): (r: Option<nat>)
    ensures r.Some? ==> from <= r.value < |s| && IsDigit(s[r.value])
    decreases |s| - from
  {
    if from >= |s| then None
    else if IsDigit(s[from]) then Some(from)
    else FirstDigit(s, from + 1)
  }

  /** `s.find_first_not_of("0123456789", from)`. */
  function FirstNonDigit(s: string, from: nat): (r: Option<nat>)
    ensures r.Some? ==> from <= r.value < |s| && !IsDigit(s[r.value])
    decreases |s| - from
  {
    if from >= |s| then None
    else if !IsDigit(s[from]) then Some(from)
    else FirstNonDigit(s, from + 1)
  }

  /** `s.find(key, pos) + k` in `std::size_t`: `npos + k` wraps round to
      `k - 1`. */
  type Skip = k: nat | k > 0 witness 1

  function Past(found: Option<nat>, k: Skip): nat
  {
    if found.Some? then found.value + k else k - 1
  }

  /** `npos` compares above every position. */
  predicate Before(a: Option<nat>, b: Option<nat>)
  {
    a.Some? && (b.None? || a.value < b.value)
  }

  // ---------------------------------------------------------------------
  // deserialize_profiles

  /** The digits before `FirstNonDigit`. */
  lemma {:induction false} DigitsBefore(s: string, from: nat)
    ensures var r := FirstNonDigit(s, from);
      forall j :: from <= j < (if r.Some? then r.value else |s|) ==> IsDigit(s[j])
    decreases |s| - from
  {
    if from < |s| && IsDigit(s[from]) {
      DigitsBefore(s, from + 1);
    }
  }

  /** `s.substr(from, s.find_first_not_of(digits, from) - from)`: the run of
      digits starting at `from`, or `None` when `from` is past the end and
      `substr` throws `std::out_of_range`. */
  function DigitRun(s: string, from: nat): (r: Option<string>)
    ensures r.None? <==> from > |s|
    ensures r.Some? ==> AllDigits(r.value) && At(s, from, r.value)
    ensures r.Some? ==> from + |r.value| == |s| || !IsDigit(s[from + |r.value|])
  {
    if from > |s| then None
    else
      var e := FirstNonDigit(s, from);
      DigitsBefore(s, from);
      Some(s[from..if e.Some? then e.value else |s|])
  }

  /** `std::stoi` (`max` = `IntMax`) or `std::stoll` (`LongMax`) of a run of
      digits: an empty run throws `std::invalid_argument`, a value above
      `max` throws `std::out_of_range`. Every string these functions are
      given here is such a run, so leading blanks and signs never arise. */
  function ParseRun(t: string, max: nat): Option<nat>
    requires AllDigits(t)
  {
    if |t| == 0 || DigitsValue(t) > max then None else Some(DigitsValue(t))
  }

  function ReadNumber(s: string, from: nat, max: nat): Option<nat>
  {
    var run := DigitRun(s, from);
    if run.None? then None else ParseRun(run.value, max)
  }

  /** The template id: the first run of digits after `pos`. */
  function ReadId(s: string, pos: nat): Option<nat>
  {
    var start := FirstDigit(s, pos);
    if start.None? then None else ReadNumber(s, start.value, IntMax)
  }

  /** The name: from `start` up to the next quote or the end. */
  function ReadName(s: string, start: nat): string
    requires start <= |s|
  {
    var e := Find(s, "\"", start);
    s[start..if e.Some? then e.value else |s|]
  }

  /** The admin flag: whether `true` comes before `false` after the key. */
  predicate ReadAdmin(s: string, pos: nat)
  {
    var a := Find(s, AdminKey, pos);
    a.Some? && Before(Find(s, "true", a.value), Find(s, "false", a.value))
  }

  /** How far past the start of its key each timestamp is taken to begin. */
  datatype Offsets = Offsets(created: Skip, modified: Skip)

  /** As written: the lengths of the two keys, which leave the reader on
      the space the writer puts before each value. */
  const AsWritten := Offsets(13, 14)

  /** Corrected: past the key and that space. */
  const Corrected := Offsets(14, 15)

  datatype Parsed = Parsed(profile: Profile, next: Option<nat>)

  /** One pass of the loop, with `pos` just past a `"template_id":` key;
      `None` when one of the conversions throws. */
  function ParseRecord(s: string, pos: nat, off: Offsets, tick: TicksPerSecond): Option<Parsed>
  {
    var id := ReadId(s, pos);
    var nameStart := Past(Find(s, NameKey, pos), 9);
    var created := ReadNumber(s, Past(Find(s, CreatedKey, pos), off.created), LongMax);
    var modifiedPos := Past(Find(s, ModifiedKey, pos), off.modified);
    var modified := ReadNumber(s, modifiedPos, LongMax);
    if id.None? || nameStart > |s| || created.None? || modified.None? then None
    else
      var profile := ProfileStore.Profile(id.value % 0x10000, ReadName(s, nameStart), ReadAdmin(s, pos),
                                          created.value * tick, modified.value * tick);
      Some(Parsed(profile, FirstNonDigit(s, modifiedPos)))
  }

  datatype Load = Terminated | Loaded(profiles: seq<Profile>) | OutOfFuel

  /** The loop: read a record at every `"template_id":` key from `pos` on,
      continuing where the last timestamp ended. `fuel` bounds the number
      of passes; a malformed text can send the loop back to a key it has
      already read. */
  function LoadFrom(s: string, pos: Option<nat>, off: Offsets, tick: TicksPerSecond, fuel: nat): Load
    decreases fuel, 0
  {
    var key := if pos.Some? then Find(s, TemplateKey, pos.value) else None;
    if key.None? then Loaded([])
    else if fuel == 0 then OutOfFuel
    else AfterPass(s, ParseRecord(s, key.value + 14, off, tick), off, tick, fuel - 1)
  }

  /** The rest of a pass, given what its conversions yield, with `fuel`
      passes left: a throw ends the load, otherwise the profile is kept
      and the loop goes on from where the last timestamp ended. */
  function AfterPass(s: string, parsed: Option<Parsed>, off: Offsets, tick: TicksPerSecond, fuel: nat): Load
    decreases fuel, 1
  {
    match parsed
    case None => Terminated
    case Some(r) =>
      match LoadFrom(s, r.next, off, tick, fuel)
      case Loaded(rest) => Loaded([r.profile] + rest)
      case other => other
  }

  /** `deserialize_profiles` as written. */
  function DeserializeAsWritten(s: string, tick: TicksPerSecond, fuel: nat): Load
  {
    LoadFrom(s, Some(0), AsWritten, tick, fuel)
  }

  /** `deserialize_profiles` with the timestamp offsets corrected. */
  function Deserialize(s: string, tick: TicksPerSecond, fuel: nat): Load
  {
    LoadFrom(s, Some(0), Corrected, tick, fuel)
  }

  // ---------------------------------------------------------------------
  // What survives a round trip

  /** A profile the text format can carry: a name without quotes and
      timestamps from the epoch up to the 64-bit maximum. */
  predicate Writable(p: Profile)
  {
    Lacks(p.name, '"') && 0 <= p.createdAt <= LongMax && 0 <= p.modifiedAt <= LongMax
  }

  /** The profile with its timestamps cut to whole seconds. */
  function Truncated(p: Profile, tick: TicksPerSecond): Profile
  {
    p.(createdAt := Seconds(p.createdAt, tick) * tick, modifiedAt := Seconds(p.modifiedAt, tick) * tick)
  }

  function TruncateAll(ps: seq<Profile>, tick: TicksPerSecond): (r: seq<Profile>)
    ensures |r| == |ps|
    decreases |ps|
  {
    if |ps| == 0 then [] else [Truncated(ps[0], tick)] + TruncateAll(ps[1..], tick)
  }

  // ---------------------------------------------------------------------
  // The texts of one record

  /** The texts a record is made of. */
  datatype Texts = Texts(id: string, name: string, admin: string, created: string, modified: string)

  /** The record holding the given texts. */
  function Record(t: Texts): string
  {
    Line(TemplateKey, t.id) + NameLine(t.name) + Line(AdminKey, t.admin)
    + Line(CreatedKey, t.created) + Keyed(ModifiedKey, t.modified)
  }

  function TextsOf(p: Profile, tick: TicksPerSecond): Texts
  {
    Texts(IdText(p), p.name, BoolText(p.isAdmin), CreatedText(p, tick), ModifiedText(p, tick))
  }

  /** The lines of one record between its opening and closing brace. */
  function Fields(p: Profile, tick: TicksPerSecond): string
  {
    Record(TextsOf(p, tick))
  }
}

=== FILE: profile_json_proofs.dfy ===
/** What `serialize_profiles` and `deserialize_profiles` in
    `src/profile_store.cpp` do to each other: the corrected reader reads
    back every written profile, and the reader as written ends the program
    on the first record. */
module ProfileJsonProofs {
  import opened Wrappers
  import opened Decimal
  import opened ProfileJson
  import opened ProfileLayout
  import ProfileStore
  import Seqs

  // ---------------------------------------------------------------------
  // Search lemmas

  lemma AtSplit(s: string, i: nat, x: string, y: string)
    requires At(s, i, x + y)
    ensures At(s, i, x) && At(s, i + |x|, y)
  {
    assert s[i..i + |x|] == (x + y)[..|x|];
    assert s[i + |x|..i + |x| + |y|] == (x + y)[|x|..];
  }

  lemma SuffixSplit(s: string, i: nat, x: string, y: string)
    requires i <= |s| && s[i..] == x + y
    ensures At(s, i, x) && i + |x| <= |s| && s[i + |x|..] == y
  {
    assert s[i..i + |x|] == (x + y)[..|x|];
    assert s[i + |x|..] == (x + y)[|x|..];
  }

  /** Finding the first occurrence after a stretch without one. */
  lemma {:induction false} FoundAt(s: string, pat: string, from: nat, t: nat)
    requires from <= t && NoMatchIn(s, pat, from, t) && At(s, t, pat)
    ensures Find(s, pat, from) == Some(t)
    decreases t - from
  {
    if from < t {
      assert !At(s, from, pat);
      FoundAt(s, pat, from + 1, t);
    }
  }

  lemma {:induction false} NotFound(s: string, pat: string, from: nat)
    requires |pat| > 0 && NoMatchIn(s, pat, from, |s|)
    ensures Find(s, pat, from) == None
    decreases |s| - from
  {
    if from + |pat| <= |s| {
      assert !At(s, from, pat);
      NotFound(s, pat, from + 1);
    }
  }

  /** A stretch without `pat` is skipped. */
  lemma {:induction false} NotFoundBefore(s: string, pat: string, from: nat, hi: nat)
    requires from <= hi && NoMatchIn(s, pat, from, hi)
    ensures Find(s, pat, from).None? || Find(s, pat, from).value >= hi
    decreases hi - from
  {
    if from < hi && from + |pat| <= |s| {
      assert !At(s, from, pat);
      NotFoundBefore(s, pat, from + 1, hi);
    }
  }

  /** `Find` returns an occurrence, and the first one. */
  lemma {:induction false} FindIsFirst(s: string, pat: string, from: nat)
    ensures var r := Find(s, pat, from);
      && (r.Some? ==> At(s, r.value, pat))
      && forall j :: from <= j && (r.None? || j < r.value) ==> !At(s, j, pat)
    decreases |s| - from
  {
    if from + |pat| <= |s| && s[from..from + |pat|] != pat {
      FindIsFirst(s, pat, from + 1);
    }
  }

  /** The first non-digit after a run of digits. */
  lemma {:induction false} NonDigitAt(s: string, from: nat, e: nat)
    requires from <= e < |s| && !IsDigit(s[e])
    requires forall j :: from <= j < e ==> IsDigit(s[j])
    ensures FirstNonDigit(s, from) == Some(e)
    decreases e - from
  {
    if from < e {
      NonDigitAt(s, from + 1, e);
    }
  }

  /** `pat` starts nowhere inside a piece in which every position differs
      from `pat` in its first or its second character. */
  lemma ScanPiece(s: string, pat: string, i: nat, piece: string)
    requires |pat| > 0 && At(s, i, piece)
    requires forall j :: 0 <= j < |piece| ==>
      piece[j] != pat[0] || (j + 1 < |piece| && 1 < |pat| && piece[j + 1] != pat[1])
    ensures NoMatchIn(s, pat, i, i + |piece|)
  {
    forall j | i <= j < i + |piece|
      ensures !At(s, j, pat)
    {
      var v := s[i..i + |piece|];
      assert v[j - i] == s[j];
      if j + |pat| <= |s| {
        var w := s[j..j + |pat|];
        assert w[0] == s[j];
        if piece[j - i] == pat[0] {
          assert v[j + 1 - i] == s[j + 1];
          assert w[1] == s[j + 1];
        }
      }
    }
  }

  lemma ScanChar(s: string, pat: string, j: nat)
    requires |pat| > 0 && j < |s| && s[j] != pat[0]
    ensures NoMatchIn(s, pat, j, j + 1)
  {
    if j + |pat| <= |s| {
      assert s[j..j + |pat|][0] == s[j];
    }
  }

  /** A key `"k":` does not start at the quote that opens a quoted value
      without quotes inside: the closing quote is followed by a comma, not
      a colon. */
  lemma NotAtQuotedValue(s: string, pat: string, i: nat, value: string)
    requires QuotedKey(pat) && Lacks(value, '"')
    requires i < |s| && s[i] == '"' && At(s, i + 1, value) && At(s, i + 1 + |value|, QuoteBreak)
    ensures !At(s, i, pat)
  {
    var n := |pat| - 3;
    var e := i + 1 + |value|;
    assert s[e] == s[e..e + 9][0] == '"';
    assert s[e + 1] == s[e..e + 9][1] == ',';
    if i + |pat| <= |s| {
      var w := s[i..i + |pat|];
      if |value| < n {
        assert w[1 + |value|] == s[e];
        assert pat[1 + |value|] != '"';
      } else if |value| > n {
        assert w[n + 1] == s[i + 1..e][n] == value[n];
        assert value[n] != '"';
      } else {
        assert w[n + 2] == s[e + 1];
      }
    }
  }

  lemma DigitsLackQuote(t: string)
    requires AllDigits(t)
    ensures Lacks(t, '"')
  {
  }

  lemma IntTextLacksQuote(n: int)
    ensures Lacks(IntText(n), '"')
  {
    if n < 0 {
      var d := NatToString(-n);
      assert forall j :: 0 < j < |IntText(n)| ==> IntText(n)[j] == d[j - 1];
    }
  }

  // ---------------------------------------------------------------------
  // Where the parts of a record lie

  lemma SpaceAt(s: string, i: nat, x: string)
    requires At(s, i, x + " ")
    ensures At(s, i, x) && i + |x| < |s| && s[i + |x|] == ' '
  {
    AtSplit(s, i, x, " ");
    assert s[i + |x|] == s[i + |x|..i + |x| + 1][0];
  }

  lemma KeyedAt(s: string, x: nat, key: string, value: string)
    requires At(s, x, Keyed(key, value))
    ensures At(s, x, key) && x + |key| < |s| && s[x + |key|] == ' ' && At(s, x + |key| + 1, value)
  {
    AtSplit(s, x, key + " ", value);
    SpaceAt(s, x, key);
  }

  lemma LineAt(s: string, x: nat, key: string, value: string)
    requires At(s, x, Line(key, value))
    ensures At(s, x, key) && x + |key| < |s| && s[x + |key|] == ' ' && At(s, x + |key| + 1, value)
    ensures At(s, x + |key| + 1 + |value|, FieldBreak)
    ensures x + |key| + 1 + |value| < |s| && s[x + |key| + 1 + |value|] == ','
  {
    AtSplit(s, x, Keyed(key, value), FieldBreak);
    KeyedAt(s, x, key, value);
    var e := x + |key| + 1 + |value|;
    assert s[e] == s[e..e + 8][0];
  }

  lemma Split5(s: string, k: nat, a: string, b: string, c: string, d: string, e: string)
    requires At(s, k, a + b + c + d + e)
    ensures At(s, k, a) && At(s, k + |a|, b) && At(s, k + |a| + |b|, c)
    ensures At(s, k + |a| + |b| + |c|, d) && At(s, k + |a| + |b| + |c| + |d|, e)
  {
    AtSplit(s, k, a + b + c + d, e);
    AtSplit(s, k, a + b + c, d);
    AtSplit(s, k, a + b, c);
    AtSplit(s, k, a, b);
  }

  lemma RecordAt(s: string, k: nat, t: Texts)
    requires At(s, k, Record(t))
    ensures Laid(s, k, t) && MarksOf(t).modified + |Keyed(ModifiedKey, t.modified)| == |Record(t)|
  {
    Split5(s, k, Line(TemplateKey, t.id), NameLine(t.name), Line(AdminKey, t.admin),
           Line(CreatedKey, t.created), Keyed(ModifiedKey, t.modified));
  }

  // ---------------------------------------------------------------------
  // Where each search of one pass lands

  /** The shapes of the keys the scans compare. */
  lemma KeyShapes()
    ensures QuotedKey(TemplateKey) && QuotedKey(AdminKey) && QuotedKey(CreatedKey)
    ensures QuotedKey(ModifiedKey)
    ensures OpensKey(NameKey) && OpensKey(AdminKey) && OpensKey(CreatedKey) && OpensKey(ModifiedKey)
    ensures TemplateKey[1] == 't' && NameKey[1] == 'n' && AdminKey[1] == 'i'
    ensures CreatedKey[1] == 'c' && ModifiedKey[1] == 'm'
  {
  }


  /** A key starts nowhere in the line of another key whose value has no
      quotes. */
  lemma ScanLine(s: string, pat: string, x: nat, key: string, value: string)
    requires At(s, x, Line(key, value)) && Lacks(value, '"')
    requires OpensKey(pat) && QuotedKey(key) && pat[1] != key[1]
    ensures NoMatchIn(s, pat, x, x + |Line(key, value)|)
  {
    LineAt(s, x, key, value);
    ScanPiece(s, pat, x, key);
    ScanChar(s, pat, x + |key|);
    ScanPiece(s, pat, x + |key| + 1, value);
    ScanPiece(s, pat, x + |key| + 1 + |value|, FieldBreak);
  }

  /** A quoted key other than the name's starts nowhere in the name line
      of a name without quotes. */
  lemma ScanNameLine(s: string, pat: string, x: nat, name: string)
    requires At(s, x, NameLine(name)) && Lacks(name, '"')
    requires QuotedKey(pat) && OpensKey(pat) && pat[1] != 'n' && pat[1] != ','
    ensures NoMatchIn(s, pat, x, x + |NameLine(name)|)
  {
    AtSplit(s, x, NameKey + name, QuoteBreak);
    AtSplit(s, x, NameKey, name);
    assert NameLead + "\"" == NameKey;
    AtSplit(s, x, NameLead, "\"");
    ScanPiece(s, pat, x, NameLead);
    assert s[x + 8..x + 9][0] == s[x + 8];
    NotAtQuotedValue(s, pat, x + 8, name);
    ScanPiece(s, pat, x + 9, name);
    ScanPiece(s, pat, x + 9 + |name|, QuoteBreak);
  }

  lemma {:induction false} FindsName(s: string, k: nat, t: Texts)
    requires At(s, k, Line(TemplateKey, t.id)) && At(s, k + MarksOf(t).name, NameLine(t.name))
    requires Lacks(t.id, '"')
    ensures Find(s, NameKey, k + 14) == Some(k + MarksOf(t).name)
  {
    var x := k + MarksOf(t).name;
    KeyShapes();
    ScanLine(s, NameKey, k, TemplateKey, t.id);
    AtSplit(s, x, NameKey + t.name, QuoteBreak);
    AtSplit(s, x, NameKey, t.name);
    FoundAt(s, NameKey, k + 14, x);
  }

  lemma {:induction false} FindsAdmin(s: string, k: nat, t: Texts)
    requires Laid(s, k, t) && Quoteless(t)
    ensures Find(s, AdminKey, k + 14) == Some(k + MarksOf(t).admin)
  {
    hide Find, Record, At;
    var m := MarksOf(t);
    KeyShapes();
    ScanLine(s, AdminKey, k, TemplateKey, t.id);
    ScanNameLine(s, AdminKey, k + m.name, t.name);
    LineAt(s, k + m.admin, AdminKey, t.admin);
    FoundAt(s, AdminKey, k + 14, k + m.admin);
  }

  /** Two adjacent stretches without a match make one. */
  lemma NoMatchJoin(s: string, pat: string, lo: nat, mid: nat, hi: nat)
    requires lo <= mid <= hi && NoMatchIn(s, pat, lo, mid) && NoMatchIn(s, pat, mid, hi)
    ensures NoMatchIn(s, pat, lo, hi)
  {
  }

  /** A timestamp key starts nowhere in the id, name and admin lines. */
  lemma {:induction false} ScanFront(s: string, pat: string, k: nat, t: Texts)
    requires Laid(s, k, t) && Quoteless(t) && pat in {CreatedKey, ModifiedKey}
    ensures NoMatchIn(s, pat, k, k + MarksOf(t).created)
  {
    hide NoMatchIn, Find, Record, At;
    var m := MarksOf(t);
    KeyShapes();
    ScanLine(s, pat, k, TemplateKey, t.id);
    ScanNameLine(s, pat, k + m.name, t.name);
    ScanLine(s, pat, k + m.admin, AdminKey, t.admin);
    NoMatchJoin(s, pat, k, k + m.name, k + m.admin);
    NoMatchJoin(s, pat, k, k + m.admin, k + m.created);
  }

  lemma {:induction false} FindsCreated(s: string, k: nat, t: Texts)
    requires Laid(s, k, t) && Quoteless(t)
    ensures Find(s, CreatedKey, k + 14) == Some(k + MarksOf(t).created)
  {
    var m := MarksOf(t);
    ScanFront(s, CreatedKey, k, t);
    LineAt(s, k + m.created, CreatedKey, t.created);
    FoundAt(s, CreatedKey, k + 14, k + m.created);
  }

  lemma {:induction false} FindsModified(s: string, k: nat, t: Texts)
    requires Laid(s, k, t) && Quoteless(t)
    ensures Find(s, ModifiedKey, k + 14) == Some(k + MarksOf(t).modified)
  {
    var m := MarksOf(t);
    ScanFront(s, ModifiedKey, k, t);
    KeyShapes();
    ScanLine(s, ModifiedKey, k + m.created, CreatedKey, t.created);
    NoMatchJoin(s, ModifiedKey, k, k + m.created, k + m.modified);
    KeyedAt(s, k + m.modified, ModifiedKey, t.modified);
    FoundAt(s, ModifiedKey, k + 14, k + m.modified);
  }

  // ---------------------------------------------------------------------
  // What each conversion of one pass reads

  /** A printed number followed by a non-digit reads back as itself. */
  lemma ReadsNumber(s: string, x: nat, n: nat, max: nat, e: nat)
    requires At(s, x, NatToString(n)) && e == x + |NatToString(n)| && e < |s| && !IsDigit(s[e])
    requires n <= max
    ensures FirstNonDigit(s, x) == Some(e)
    ensures ReadNumber(s, x, max) == Some(n)
  {
    var t := NatToString(n);
    forall j | x <= j < x + |t|
      ensures IsDigit(s[j])
    {
      assert s[j] == s[x..x + |t|][j - x] == t[j - x];
    }
    NonDigitAt(s, x, x + |t|);
    NatToStringRoundTrip(n);
  }

  lemma {:induction false} ReadsId(s: string, k: nat, t: Texts, id: nat)
    requires Laid(s, k, t) && t.id == NatToString(id) && id <= IntMax
    ensures ReadId(s, k + 14) == Some(id)
  {
    LineAt(s, k, TemplateKey, t.id);
    assert s[k + 15] == s[k + 15..k + 15 + |t.id|][0] == t.id[0];
    assert FirstDigit(s, k + 14) == Some(k + 15) by {
      assert !IsDigit(s[k + 14]);
    }
    ReadsNumber(s, k + 15, id, IntMax, k + 15 + |t.id|);
  }

  /** The name of a name line runs up to the closing quote. */
  lemma ReadsNameAt(s: string, x: nat, name: string)
    requires At(s, x, NameLine(name)) && Lacks(name, '"')
    ensures x + 9 <= |s| && ReadName(s, x + 9) == name
  {
    var e := x + 9 + |name|;
    AtSplit(s, x, NameKey + name, QuoteBreak);
    AtSplit(s, x, NameKey, name);
    ScanPiece(s, "\"", x + 9, name);
    assert s[e] == s[e..e + 9][0] == QuoteBreak[0];
    assert At(s, e, "\"") by {
      assert s[e..e + 1] == [s[e]];
    }
    FoundAt(s, "\"", x + 9, e);
  }

  /** The flag is read from the admin line the search for its key finds. */
  lemma {:induction false} ReadsAdmin(s: string, pos: nat, a: nat, admin: bool)
    requires Find(s, AdminKey, pos) == Some(a) && At(s, a, Line(AdminKey, BoolText(admin)))
    ensures ReadAdmin(s, pos) == admin
  {
    AtSplit(s, a, Keyed(AdminKey, BoolText(admin)), FieldBreak);
    if admin {
      FlagAt(s, a, "true", "false");
    } else {
      FlagAt(s, a, "false", "true");
    }
  }

  /** After an admin key followed by `word`, `word` is found before
      `other`. */
  lemma {:induction false} FlagAt(s: string, a: nat, word: string, other: string)
    requires word in {"true", "false"} && other in {"true", "false"} && word != other
    requires At(s, a, Keyed(AdminKey, word))
    ensures Before(Find(s, word, a), Find(s, other, a))
  {
    KeyedAt(s, a, AdminKey, word);
    ScanPiece(s, word, a, AdminKey);
    ScanChar(s, word, a + 11);
    ScanPiece(s, other, a, AdminKey);
    ScanChar(s, other, a + 11);
    ScanPiece(s, other, a + 12, word);
    FoundAt(s, word, a, a + 12);
    NotFoundBefore(s, other, a, a + 13);
  }

  lemma {:induction false} ReadsCreated(s: string, k: nat, t: Texts, c: nat)
    requires Laid(s, k, t) && Quoteless(t) && t.created == NatToString(c) && c <= LongMax
    ensures ReadNumber(s, Past(Find(s, CreatedKey, k + 14), Corrected.created), LongMax) == Some(c)
  {
    FindsCreated(s, k, t);
    ReadsCreatedAt(s, k + 14, k + MarksOf(t).created, t.created, c);
  }

  /** The number after the creation key the search finds. */
  lemma ReadsCreatedAt(s: string, pos: nat, x: nat, v: string, c: nat)
    requires Find(s, CreatedKey, pos) == Some(x) && At(s, x, Line(CreatedKey, v))
    requires v == NatToString(c) && c <= LongMax
    ensures ReadNumber(s, Past(Find(s, CreatedKey, pos), Corrected.created), LongMax) == Some(c)
  {
    assert Past(Find(s, CreatedKey, pos), Corrected.created) == x + 14;
    LineAt(s, x, CreatedKey, v);
    ReadsNumber(s, x + 14, c, LongMax, x + 14 + |v|);
  }

  lemma ReadsModified(s: string, k: nat, t: Texts, d: nat, e: nat)
    requires Laid(s, k, t) && Quoteless(t) && t.modified == NatToString(d) && d <= LongMax
    requires e == k + MarksOf(t).modified + |Keyed(ModifiedKey, t.modified)| && e < |s| && !IsDigit(s[e])
    ensures var x := Past(Find(s, ModifiedKey, k + 14), Corrected.modified);
      ReadNumber(s, x, LongMax) == Some(d) && FirstNonDigit(s, x) == Some(e)
  {
    hide Find, ReadNumber, FirstNonDigit;
    FindsModified(s, k, t);
    ReadsModifiedAt(s, k + 14, k + MarksOf(t).modified, t.modified, d, e);
  }

  /** The number after the modification key the search finds. */
  lemma ReadsModifiedAt(s: string, pos: nat, x: nat, v: string, d: nat, e: nat)
    requires Find(s, ModifiedKey, pos) == Some(x) && At(s, x, Keyed(ModifiedKey, v))
    requires v == NatToString(d) && d <= LongMax
    requires e == x + |Keyed(ModifiedKey, v)| && e < |s| && !IsDigit(s[e])
    ensures var y := Past(Find(s, ModifiedKey, pos), Corrected.modified);
      ReadNumber(s, y, LongMax) == Some(d) && FirstNonDigit(s, y) == Some(e)
  {
    assert Past(Find(s, ModifiedKey, pos), Corrected.modified) == x + 15;
    KeyedAt(s, x, ModifiedKey, v);
    ReadsNumber(s, x + 15, d, LongMax, e);
  }

  // ---------------------------------------------------------------------
  // One pass over a written record

  lemma ParsesYield(s: string, pos: nat, tick: TicksPerSecond, id: nat, name: string, admin: bool, c: nat, d: nat, e: nat)
    requires YieldsFront(s, pos, id, name, admin) && YieldsTimes(s, pos, c, d, e)
    ensures ParseRecord(s, pos, Corrected, tick)
         == Some(Parsed(ProfileStore.Profile(id % 0x10000, name, admin, c * tick, d * tick), Some(e)))
  {
  }

  /** The name search lands on the name line and the name is read up to
      its closing quote. */
  lemma {:induction false} FindsAndReadsName(s: string, k: nat, t: Texts)
    requires At(s, k, Record(t)) && Quoteless(t)
    ensures var x := Past(Find(s, NameKey, k + 14), 9); x <= |s| && ReadName(s, x) == t.name
  {
    hide Record, ReadName, Find, Line, NameLine, MarksOf, At;
    RecordAt(s, k, t);
    FindsName(s, k, t);
    var x := k + MarksOf(t).name;
    ReadsNameAt(s, x, t.name);
    assert Past(Find(s, NameKey, k + 14), 9) == x + 9;
  }

  /** The admin search lands on the admin line and its flag is read. */
  lemma FindsAndReadsAdmin(s: string, k: nat, t: Texts, admin: bool)
    requires At(s, k, Record(t)) && Quoteless(t) && t.admin == BoolText(admin)
    ensures ReadAdmin(s, k + 14) == admin
  {
    RecordAt(s, k, t);
    FindsAdmin(s, k, t);
    ReadsAdmin(s, k + 14, k + MarksOf(t).admin, admin);
  }

  /** The id is read from the first line. */
  lemma {:induction false} FindsAndReadsId(s: string, k: nat, t: Texts, id: nat)
    requires At(s, k, Record(t)) && t.id == NatToString(id) && id <= IntMax
    ensures ReadId(s, k + 14) == Some(id)
  {
    RecordAt(s, k, t);
    ReadsId(s, k, t, id);
  }

  /** The two timestamps are read from their lines and the pass ends at
      `e`, the first non-digit after the record. */
  lemma {:induction false} ReadsTimes(s: string, k: nat, t: Texts, c: nat, d: nat, e: nat)
    requires At(s, k, Record(t)) && Quoteless(t)
    requires e == k + |Record(t)| && e < |s| && !IsDigit(s[e])
    requires t.created == NatToString(c) && t.modified == NatToString(d) && c <= LongMax && d <= LongMax
    ensures YieldsTimes(s, k + 14, c, d, e)
  {
    RecordAt(s, k, t);
    ReadsCreated(s, k, t, c);
    ReadsModified(s, k, t, d, e);
  }

  // ---------------------------------------------------------------------
  // Rows: what one pass recovers from a record

  lemma RowQuoteless(r: Row)
    requires Readable(r)
    ensures Quoteless(RowTexts(r))
  {
    DigitsLackQuote(NatToString(r.id));
    DigitsLackQuote(NatToString(r.created));
    assert Lacks(BoolText(r.admin), '"');
  }

  /** The id, name and flag of a row are read back from its record. */
  lemma ReadsFront(s: string, k: nat, r: Row)
    requires At(s, k, Record(RowTexts(r))) && Readable(r)
    ensures YieldsFront(s, k + 14, r.id, r.name, r.admin)
  {
    var t := RowTexts(r);
    RowQuoteless(r);
    FindsAndReadsId(s, k, t, r.id);
    FindsAndReadsName(s, k, t);
    FindsAndReadsAdmin(s, k, t, r.admin);
  }

  /** Corrected: one pass over the record of a row reads the row back and
      continues at the end of the record. */
  lemma ReadsRow(s: string, k: nat, t: Texts, r: Row, tick: TicksPerSecond, e: nat)
    requires At(s, k, Record(t)) && t == RowTexts(r) && Readable(r)
    requires e == k + |Record(t)| && e < |s| && !IsDigit(s[e])
    ensures ParseRecord(s, k + 14, Corrected, tick) == Some(Parsed(RowProfile(r, tick), Some(e)))
  {
    RowQuoteless(r);
    ReadsFront(s, k, r);
    ReadsTimes(s, k, t, r.created, r.modified, e);
    ParsesYield(s, k + 14, tick, r.id, r.name, r.admin, r.created, r.modified, e);
  }

  /** As written: the creation time is read from the space before its
      value, an empty run, so `std::stoll` throws. */
  lemma AsWrittenRecordThrows(s: string, k: nat, t: Texts, tick: TicksPerSecond)
    requires Laid(s, k, t) && Quoteless(t)
    ensures ParseRecord(s, k + 14, AsWritten, tick) == None
  {
    hide ReadId, ReadName, ReadAdmin;
    var x := k + MarksOf(t).created;
    FindsCreated(s, k, t);
    LineAt(s, x, CreatedKey, t.created);
    assert FirstNonDigit(s, x + 13) == Some(x + 13);
    assert DigitRun(s, x + 13) == Some([]);
  }

  // ---------------------------------------------------------------------
  // What a writable profile prints

  /** A writable profile prints the texts of its row, which reads back as
      the profile with its timestamps cut to whole seconds. */
  lemma WritableRow(p: Profile, tick: TicksPerSecond)
    requires Writable(p)
    ensures Readable(RowOf(p, tick))
    ensures TextsOf(p, tick) == RowTexts(RowOf(p, tick))
    ensures Truncated(p, tick) == RowProfile(RowOf(p, tick), tick)
  {
    WholeIsQuotient(p.createdAt, tick);
    WholeIsQuotient(p.modifiedAt, tick);
  }

  lemma PrintsTail(ts: seq<Texts>, rs: seq<Row>)
    requires Prints(ts, rs) && |ts| > 0
    ensures Prints(ts[1..], rs[1..])
  {
    forall i | 0 <= i < |rs| - 1
      ensures ts[1..][i] == RowTexts(rs[1..][i]) && Readable(rs[1..][i])
    {
      assert rs[1..][i] == rs[i + 1];
      assert ts[i + 1] == RowTexts(rs[i + 1]);
    }
  }

  lemma {:induction false} WritableRows(ps: seq<Profile>, tick: TicksPerSecond)
    requires AllWritable(ps)
    ensures Prints(TextsAll(ps, tick), RowsOf(ps, tick))
    ensures TruncateAll(ps, tick) == RowProfiles(RowsOf(ps, tick), tick)
    decreases |ps|
  {
    if |ps| > 0 {
      var ts := TextsAll(ps, tick);
      var rs := RowsOf(ps, tick);
      WritableRow(ps[0], tick);
      WritableRows(ps[1..], tick);
      assert ts[1..] == TextsAll(ps[1..], tick);
      assert rs[1..] == RowsOf(ps[1..], tick);
      forall i | 0 <= i < |rs|
        ensures ts[i] == RowTexts(rs[i]) && Readable(rs[i])
      {
        if i > 0 {
          assert ts[i] == ts[1..][i - 1] && rs[i] == rs[1..][i - 1];
          assert RowTexts(rs[1..][i - 1]) == RowTexts(rs[i]);
        }
      }
    }
  }

  // ---------------------------------------------------------------------
  // The whole document

  lemma LastRecordText(x: string, close: string, footer: string)
    ensures x + close + "" + "\n" + "" + footer == x + (close + "\n" + footer)
  {
    assert x + close + "" + "\n" + "" == x + close + "\n";
    Seqs.Assoc(x + close, "\n", footer);
    Seqs.Assoc(x, close, "\n" + footer);
    Seqs.Assoc(close, "\n", footer);
  }

  lemma NextRecordText(x: string, close: string, r: string, footer: string, open: string, f: string, z: string)
    requires r + footer == open + f + z
    ensures x + close + "," + "\n" + r + footer == x + (close + ",\n" + open + f + z)
  {
    assert "," + "\n" == ",\n";
    Seqs.Assoc(x + close + ",\n", r, footer);
    Seqs.Assoc(x + close, ",", "\n");
    Seqs.Assoc(x, close, ",\n");
    Seqs.Assoc(x + (close + ",\n"), open + f, z);
    Seqs.Assoc(x, close + ",\n", open + f);
    Seqs.Assoc(x, close + ",\n" + open + f, z);
    Seqs.Assoc(close + ",\n", open, f);
  }

  /** The records of a non-empty profile list and the footer: the first
      record, then what follows it. */
  lemma {:induction false} RecordsShape(p: Profile, qs: seq<Profile>, tick: TicksPerSecond)
    ensures Records([p] + qs, tick) + Footer == Open + Record(TextsOf(p, tick)) + After(TextsAll(qs, tick))
    decreases |qs|
  {
    hide Record, TextsOf;
    var x := Open + Fields(p, tick);
    assert ([p] + qs)[0] == p && ([p] + qs)[1..] == qs;
    if |qs| == 0 {
      assert Records([p] + qs, tick) == x + Close + "" + "\n" + "";
      LastRecordText(x, Close, Footer);
    } else {
      var q := qs[0];
      RecordsShape(q, qs[1..], tick);
      assert [q] + qs[1..] == qs;
      assert TextsAll(qs, tick)[0] == TextsOf(q, tick) && TextsAll(qs, tick)[1..] == TextsAll(qs[1..], tick);
      assert Records([p] + qs, tick) == x + Close + "," + "\n" + Records(qs, tick);
      NextRecordText(x, Close, Records(qs, tick), Footer, Open, Record(TextsOf(q, tick)), After(TextsAll(qs[1..], tick)));
    }
  }

  /** Where a document with at least one record splits. */
  lemma Opening(s: string, h: string, r: string, footer: string, open: string, f: string, z: string)
    requires s == h + r + footer && r + footer == open + f + z
    ensures At(s, 0, h + open) && |h + open| <= |s| && s[|h + open|..] == f + z
  {
    Seqs.Assoc(h, r, footer);
    Seqs.Assoc(h + open, f, z);
    Seqs.Assoc(h, open, f + z);
    Seqs.Assoc(open, f, z);
    SuffixSplit(s, 0, h + open, f + z);
  }

  /** No key starts in the header and the first opening brace. */
  lemma ScanHead(s: string)
    requires At(s, 0, Header + Open)
    ensures NoMatchIn(s, TemplateKey, 0, |Header + Open|)
  {
    ScanPiece(s, TemplateKey, 0, Header + Open);
  }

  /** The first serialized profile and what follows it. */
  lemma {:induction false} FirstRecord(ps: seq<Profile>, tick: TicksPerSecond)
    requires |ps| > 0
    ensures var s := Serialize(ps, tick);
      var ts := TextsAll(ps, tick);
      var k := |Header + Open|;
      && k <= |s| && s[k..] == Record(ts[0]) + After(ts[1..])
      && NoMatchIn(s, TemplateKey, 0, k)
  {
    var s := Serialize(ps, tick);
    var ts := TextsAll(ps, tick);
    RecordsShape(ps[0], ps[1..], tick);
    Seqs.HeadTail(ps);
    Opening(s, Header, Records(ps, tick), Footer, Open, Record(ts[0]), After(ts[1..]));
    ScanHead(s);
  }

  /** What follows a record starts with a line break. */
  lemma {:induction false} AfterStarts(ts: seq<Texts>)
    ensures |After(ts)| > 0 && After(ts)[0] == '\n'
  {
    if |ts| > 0 {
      assert After(ts) == Gap + (Record(ts[0]) + After(ts[1..])) by {
        Seqs.Assoc(Gap, Record(ts[0]), After(ts[1..]));
      }
    }
  }

  lemma WrittenAt(s: string, k: nat, ts: seq<Texts>)
    requires Written(s, k, ts)
    ensures var e := k + |Record(ts[0])|;
      At(s, k, Record(ts[0])) && e < |s| && s[e] == '\n' && s[e..] == After(ts[1..])
  {
    var e := k + |Record(ts[0])|;
    SuffixSplit(s, k, Record(ts[0]), After(ts[1..]));
    AfterStarts(ts[1..]);
    assert s[e] == s[e..][0];
  }

  lemma WrittenNext(s: string, k: nat, ts: seq<Texts>)
    requires Written(s, k, ts) && |ts| > 1
    ensures var e := k + |Record(ts[0])|; At(s, e, Gap) && Written(s, e + |Gap|, ts[1..])
  {
    var e := k + |Record(ts[0])|;
    var rest := ts[1..];
    SuffixSplit(s, k, Record(ts[0]), After(rest));
    assert After(rest) == Gap + (Record(rest[0]) + After(rest[1..])) by {
      Seqs.Assoc(Gap, Record(rest[0]), After(rest[1..]));
    }
    SuffixSplit(s, e, Gap, Record(rest[0]) + After(rest[1..]));
  }

  lemma WrittenLast(s: string, k: nat, ts: seq<Texts>)
    requires Written(s, k, ts) && |ts| == 1
    ensures var e := k + |Record(ts[0])|; e <= |s| && s[e..] == Last
  {
    SuffixSplit(s, k, Record(ts[0]), After(ts[1..]));
  }

  /** A record begins with the template id key. */
  lemma RecordKey(s: string, k: nat, t: Texts)
    requires At(s, k, Record(t))
    ensures At(s, k, TemplateKey)
  {
    RecordAt(s, k, t);
    LineAt(s, k, TemplateKey, t.id);
  }

  /** No key starts between two records. */
  lemma ScanGap(s: string, e: nat)
    requires At(s, e, Gap)
    ensures NoMatchIn(s, TemplateKey, e, e + |Gap|)
  {
    ScanPiece(s, TemplateKey, e, Gap);
  }

  /** No key follows the last record. */
  lemma {:induction false} NoKeyAfter(s: string, e: nat)
    requires e <= |s| && s[e..] == Last
    ensures Find(s, TemplateKey, e) == None
  {
    assert Last + [] == Last;
    SuffixSplit(s, e, Last, []);
    ScanPiece(s, TemplateKey, e, Last);
    NotFound(s, TemplateKey, e);
  }

  /** Corrected: one pass over the first of the written records finds its
      key, reads its row back and continues at its end. */
  lemma {:induction false} PassOver(s: string, pos: nat, k: nat, ts: seq<Texts>, rs: seq<Row>, tick: TicksPerSecond, e: nat)
    requires pos <= k && NoMatchIn(s, TemplateKey, pos, k) && Written(s, k, ts) && Prints(ts, rs)
    requires e == k + |Record(ts[0])|
    ensures Find(s, TemplateKey, pos) == Some(k)
    ensures ParseRecord(s, k + 14, Corrected, tick) == Some(Parsed(RowProfile(rs[0], tick), Some(e)))
  {
    WrittenAt(s, k, ts);
    RecordKey(s, k, ts[0]);
    FoundAt(s, TemplateKey, pos, k);
    assert ts[0] == RowTexts(rs[0]) && Readable(rs[0]);
    ReadsRow(s, k, ts[0], rs[0], tick, e);
  }

  // ---------------------------------------------------------------------
  // The loop over a chain of records

  /** A pass that reads `p` and continues at `e`. */
  /** One pass of the loop from `pos`, whose search finds a key at `k`. */
  lemma PassStep(s: string, pos: nat, k: nat, off: Offsets, tick: TicksPerSecond, fuel: nat)
    requires Find(s, TemplateKey, pos) == Some(k) && fuel > 0
    ensures LoadFrom(s, Some(pos), off, tick, fuel)
      == AfterPass(s, ParseRecord(s, k + 14, off, tick), off, tick, fuel - 1)
  {
    hide ParseRecord;
  }

  lemma {:induction false} LoadStep(s: string, pos: nat, k: nat, p: Profile, e: nat, tick: TicksPerSecond, fuel: nat, rest: seq<Profile>)
    requires Find(s, TemplateKey, pos) == Some(k) && fuel > 0
    requires ParseRecord(s, k + 14, Corrected, tick) == Some(Parsed(p, Some(e)))
    requires LoadFrom(s, Some(e), Corrected, tick, fuel - 1) == Loaded(rest)
    ensures LoadFrom(s, Some(pos), Corrected, tick, fuel) == Loaded([p] + rest)
  {
    PassStep(s, pos, k, Corrected, tick, fuel);
  }

  /** A chain with no links: no further key, so any fuel reads nothing more. */
  lemma ChainEnds(s: string, pos: nat, tick: TicksPerSecond)
    requires Find(s, TemplateKey, pos) == None
    ensures forall fuel: nat :: LoadFrom(s, Some(pos), Corrected, tick, fuel) == Loaded([])
  {
  }

  /** One link in front of a chain that loads: the longer chain loads too. */
  lemma ChainLinks(s: string, pos: nat, k: nat, p: Profile, e: nat, tick: TicksPerSecond, rest: seq<Profile>)
    requires Link(s, pos, k, e, p, tick)
    requires forall fuel: nat :: fuel >= |rest| ==> LoadFrom(s, Some(e), Corrected, tick, fuel) == Loaded(rest)
    ensures forall fuel: nat :: fuel > |rest| ==> LoadFrom(s, Some(pos), Corrected, tick, fuel) == Loaded([p] + rest)
  {
    forall fuel: nat | fuel > |rest|
      ensures LoadFrom(s, Some(pos), Corrected, tick, fuel) == Loaded([p] + rest)
    {
      LoadStep(s, pos, k, p, e, tick, fuel, rest);
    }
  }

  /** The first link of a non-empty chain, and the chain that follows it. */
  lemma ChainHead(s: string, pos: nat, steps: seq<Step>, ps: seq<Profile>, tick: TicksPerSecond)
    returns (k: nat, e: nat, p: Profile, more: seq<Step>, rest: seq<Profile>)
    requires Chain(s, pos, steps, ps, tick) && |ps| > 0
    ensures Link(s, pos, k, e, p, tick) && Chain(s, e, more, rest, tick) && ps == [p] + rest
  {
    k, e, p, more, rest := steps[0].key, steps[0].next, ps[0], steps[1..], ps[1..];
    Seqs.HeadTail(ps);
  }

  /** With enough fuel the loop reads exactly the profiles of a chain. */
  lemma {:induction false} ChainLoads(s: string, pos: nat, steps: seq<Step>, ps: seq<Profile>, tick: TicksPerSecond)
    requires Chain(s, pos, steps, ps, tick)
    ensures forall fuel: nat :: fuel >= |ps| ==> LoadFrom(s, Some(pos), Corrected, tick, fuel) == Loaded(ps)
    decreases |ps|
  {
    if |ps| == 0 {
      ChainEnds(s, pos, tick);
    } else {
      var k, e, p, more, rest := ChainHead(s, pos, steps, ps, tick);
      ChainLoads(s, e, more, rest, tick);
      ChainLinks(s, pos, k, p, e, tick, rest);
    }
  }

  /** A link in front of a chain makes a longer chain. */
  lemma ChainCons(s: string, pos: nat, k: nat, p: Profile, e: nat, more: seq<Step>, rest: seq<Profile>, tick: TicksPerSecond)
    requires Link(s, pos, k, e, p, tick) && Chain(s, e, more, rest, tick)
    ensures Chain(s, pos, [Step(k, e)] + more, [p] + rest, tick)
  {
    assert ([Step(k, e)] + more)[0] == Step(k, e);
    assert ([Step(k, e)] + more)[1..] == more;
    assert ([p] + rest)[1..] == rest;
  }

  /** No key follows the last written record. */
  lemma LastLink(s: string, k: nat, ts: seq<Texts>, e: nat)
    requires Written(s, k, ts) && |ts| == 1 && e == k + |Record(ts[0])|
    ensures Find(s, TemplateKey, e) == None
  {
    WrittenLast(s, k, ts);
    NoKeyAfter(s, e);
  }

  /** After a written record that is not the last: a gap without a key,
      then the remaining written records. */
  lemma NextLink(s: string, k: nat, ts: seq<Texts>, rs: seq<Row>, e: nat)
    requires Written(s, k, ts) && |ts| > 1 && Prints(ts, rs) && e == k + |Record(ts[0])|
    ensures NoMatchIn(s, TemplateKey, e, e + |Gap|) && Written(s, e + |Gap|, ts[1..]) && Prints(ts[1..], rs[1..])
  {
    hide NoMatchIn, Find, After, Record;
    WrittenNext(s, k, ts);
    ScanGap(s, e);
    PrintsTail(ts, rs);
  }

  lemma RowProfilesCons(rs: seq<Row>, tick: TicksPerSecond)
    requires |rs| > 0
    ensures RowProfiles(rs, tick) == [RowProfile(rs[0], tick)] + RowProfiles(rs[1..], tick)
  {
  }

  /** Corrected: the first written record, read back, links in front of
      the chain of the records after it. */
  lemma WrittenLink(s: string, pos: nat, k: nat, ts: seq<Texts>, rs: seq<Row>, tick: TicksPerSecond, e: nat, more: seq<Step>)
    requires pos <= k && NoMatchIn(s, TemplateKey, pos, k) && Written(s, k, ts) && Prints(ts, rs)
    requires e == k + |Record(ts[0])|
    requires Chain(s, e, more, RowProfiles(rs[1..], tick), tick)
    ensures Chain(s, pos, [Step(k, e)] + more, RowProfiles(rs, tick), tick)
  {
    PassOver(s, pos, k, ts, rs, tick, e);
    assert Link(s, pos, k, e, RowProfile(rs[0], tick), tick);
    RowProfilesCons(rs, tick);
    ChainCons(s, pos, k, RowProfile(rs[0], tick), e, more, RowProfiles(rs[1..], tick), tick);
  }

  /** Corrected: the written records form a chain that reads every row
      back. */
  lemma {:induction false} WrittenChain(s: string, pos: nat, k: nat, ts: seq<Texts>, rs: seq<Row>, tick: TicksPerSecond)
    returns (steps: seq<Step>)
    requires pos <= k && NoMatchIn(s, TemplateKey, pos, k) && Written(s, k, ts) && Prints(ts, rs)
    ensures Chain(s, pos, steps, RowProfiles(rs, tick), tick)
    decreases |rs|
  {
    hide Chain, RowProfiles, NoMatchIn, Find, ParseRecord, After;
    var e := k + |Record(ts[0])|;
    var more: seq<Step> := [];
    if |rs| > 1 {
      NextLink(s, k, ts, rs, e);
      more := WrittenChain(s, e, e + |Gap|, ts[1..], rs[1..], tick);
    } else {
      LastLink(s, k, ts, e);
    }
    WrittenLink(s, pos, k, ts, rs, tick, e, more);
    steps := [Step(k, e)] + more;
  }

  /** An empty list is written as a document without any key. */
  lemma EmptyHasNoKey(tick: TicksPerSecond)
    ensures Find(Serialize([], tick), TemplateKey, 0) == None
  {
    var s := Serialize([], tick);
    assert s == Header + Footer;
    assert At(s, 0, s);
    ScanPiece(s, TemplateKey, 0, s);
    NotFound(s, TemplateKey, 0);
  }

  /** Corrected: the loop over a written document passes through one link
      per profile, reading the profile cut to whole seconds. */
  lemma SerializedChain(ps: seq<Profile>, tick: TicksPerSecond) returns (steps: seq<Step>)
    requires AllWritable(ps)
    ensures Chain(Serialize(ps, tick), 0, steps, TruncateAll(ps, tick), tick)
  {
    if |ps| == 0 {
      EmptyHasNoKey(tick);
      steps := [];
    } else {
      var rs := RowsOf(ps, tick);
      FirstRecord(ps, tick);
      WritableRows(ps, tick);
      steps := WrittenChain(Serialize(ps, tick), 0, |Header + Open|, TextsAll(ps, tick), rs, tick);
    }
  }

  /** Corrected: reading back what `serialize_profiles` wrote restores
      every profile in order, its id, name and admin flag exactly and its
      timestamps cut to whole seconds. */
  lemma {:induction false} RoundTrip(ps: seq<Profile>, tick: TicksPerSecond, fuel: nat)
    requires AllWritable(ps)
    requires fuel >= |ps|
    ensures Deserialize(Serialize(ps, tick), tick, fuel) == Loaded(TruncateAll(ps, tick))
  {
    var steps := SerializedChain(ps, tick);
    ChainLoads(Serialize(ps, tick), 0, steps, TruncateAll(ps, tick), tick);
  }

  /** A pass that throws ends the loop. */
  lemma {:induction false} ThrowStep(s: string, pos: nat, k: nat, tick: TicksPerSecond, fuel: nat)
    requires Find(s, TemplateKey, pos) == Some(k) && fuel > 0
    requires ParseRecord(s, k + 14, AsWritten, tick) == None
    ensures LoadFrom(s, Some(pos), AsWritten, tick, fuel) == Terminated
  {
    PassStep(s, pos, k, AsWritten, tick, fuel);
  }

  /** As written: the first record of a text read with the as-written
      offsets throws. */
  lemma FirstThrows(s: string, k: nat, t: Texts, tick: TicksPerSecond)
    requires At(s, k, Record(t)) && Quoteless(t)
    ensures ParseRecord(s, k + 14, AsWritten, tick) == None
  {
    RecordAt(s, k, t);
    AsWrittenRecordThrows(s, k, t, tick);
  }

  /** Only a name can bring a quote into the texts of a record. */
  lemma QuotelessText(p: Profile, tick: TicksPerSecond)
    requires Lacks(p.name, '"')
    ensures Quoteless(TextsOf(p, tick))
  {
    var t := TextsOf(p, tick);
    DigitsLackQuote(t.id);
    IntTextLacksQuote(Seconds(p.createdAt, tick));
    assert Lacks(t.admin, '"');
  }

  /** As written: reading back any non-empty profile list whose first name
      has no quote ends the program on the first record. */
  lemma AsWrittenTerminates(ps: seq<Profile>, tick: TicksPerSecond, fuel: nat)
    requires |ps| > 0 && Lacks(ps[0].name, '"') && fuel > 0
    ensures DeserializeAsWritten(Serialize(ps, tick), tick, fuel) == Terminated
  {
    var s := Serialize(ps, tick);
    var ts := TextsAll(ps, tick);
    var t := ts[0];
    var k := |Header + Open|;
    FirstRecord(ps, tick);
    WrittenAt(s, k, ts);
    RecordKey(s, k, t);
    FoundAt(s, TemplateKey, 0, k);
    QuotelessText(ps[0], tick);
    FirstThrows(s, k, t, tick);
    ThrowStep(s, 0, k, tick, fuel);
  }
}

=== FILE: profile_layout.dfy ===
/** The vocabulary the proofs about the profile file text use: where the
    lines of a record lie in a text, the rows one pass of the reader
    recovers, and the chain of passes the reading loop makes. */
module ProfileLayout {
  import opened Wrappers
  import opened Decimal
  import opened ProfileJson
  import ProfileStore

  // ---------------------------------------------------------------------
  // The lines of a record

  /** A key of the form `"k":`. */
  predicate QuotedKey(pat: string)
  {
    |pat| >= 3 && pat[0] == '"' && pat[|pat| - 2] == '"' && pat[|pat| - 1] == ':'
    && forall j :: 0 < j < |pat| - 2 ==> pat[j] != '"'
  }

  /** No text except perhaps the last has a quote in it. */
  predicate Quoteless(t: Texts)
  {
    Lacks(t.id, '"') && Lacks(t.name, '"') && Lacks(t.admin, '"') && Lacks(t.created, '"')
  }

  /** Offsets, from the start of a record, of the name, admin, creation
      time and modification time lines. */
  datatype Marks = Marks(name: nat, admin: nat, created: nat, modified: nat)

  function MarksOf(t: Texts): Marks
  {
    var name := |Line(TemplateKey, t.id)|;
    var admin := name + |NameLine(t.name)|;
    var created := admin + |Line(AdminKey, t.admin)|;
    Marks(name, admin, created, created + |Line(CreatedKey, t.created)|)
  }

  /** The lines of the record `t` lie in `s` from `k` on. */
  predicate Laid(s: string, k: nat, t: Texts)
  {
    && At(s, k, Line(TemplateKey, t.id))
    && At(s, k + MarksOf(t).name, NameLine(t.name))
    && At(s, k + MarksOf(t).admin, Line(AdminKey, t.admin))
    && At(s, k + MarksOf(t).created, Line(CreatedKey, t.created))
    && At(s, k + MarksOf(t).modified, Keyed(ModifiedKey, t.modified))
  }

  // ---------------------------------------------------------------------
  // Where each search of one pass lands

  /** `pat` starts with a quote and is not the quote before a colon. */
  predicate OpensKey(pat: string)
  {
    |pat| >= 2 && pat[0] == '"' && pat[1] != ':'
  }

  // ---------------------------------------------------------------------
  // One pass over a written record

  /** What the conversions of one pass from `pos` yield for the template
      id, the name and the admin flag. */
  predicate YieldsFront(s: string, pos: nat, id: nat, name: string, admin: bool)
  {
    var nameStart := Past(Find(s, NameKey, pos), 9);
    && ReadId(s, pos) == Some(id)
    && nameStart <= |s| && ReadName(s, nameStart) == name
    && ReadAdmin(s, pos) == admin
  }

  /** What the conversions of one pass from `pos` yield for the two
      timestamps, with the corrected offsets, and where the pass ends. */
  predicate YieldsTimes(s: string, pos: nat, c: nat, d: nat, e: nat)
  {
    var modifiedPos := Past(Find(s, ModifiedKey, pos), Corrected.modified);
    && ReadNumber(s, Past(Find(s, CreatedKey, pos), Corrected.created), LongMax) == Some(c)
    && ReadNumber(s, modifiedPos, LongMax) == Some(d)
    && FirstNonDigit(s, modifiedPos) == Some(e)
  }

  // ---------------------------------------------------------------------
  // Rows: what one pass recovers from a record

  /** The numbers one pass converts and the name and flag it copies. */
  datatype Row = Row(id: nat, name: string, admin: bool, created: nat, modified: nat)

  /** The texts the writer prints for a row. */
  function RowTexts(r: Row): Texts
  {
    Texts(NatToString(r.id), r.name, BoolText(r.admin), NatToString(r.created), NatToString(r.modified))
  }

  /** A row every conversion accepts, with a name the name search ends
      after. */
  predicate Readable(r: Row)
  {
    r.id <= IntMax && Lacks(r.name, '"') && r.created <= LongMax && r.modified <= LongMax
  }

  /** The profile one pass builds from a row: the id cut to 16 bits and
      the seconds turned back into ticks. */
  function RowProfile(r: Row, tick: TicksPerSecond): Profile
  {
    ProfileStore.Profile(r.id % 0x10000, r.name, r.admin, r.created * tick, r.modified * tick)
  }

  function RowProfiles(rs: seq<Row>, tick: TicksPerSecond): (r: seq<Profile>)
    ensures |r| == |rs|
    decreases |rs|
  {
    if |rs| == 0 then [] else [RowProfile(rs[0], tick)] + RowProfiles(rs[1..], tick)
  }

  // ---------------------------------------------------------------------
  // What a writable profile prints

  predicate AllWritable(ps: seq<Profile>)
  {
    forall i :: 0 <= i < |ps| ==> Writable(ps[i])
  }

  /** The row `serialize_profiles` prints for a writable profile. */
  function RowOf(p: Profile, tick: TicksPerSecond): Row
    requires Writable(p)
  {
    Row(p.templateId as nat, p.name, p.isAdmin, Whole(p.createdAt, tick), Whole(p.modifiedAt, tick))
  }

  function RowsOf(ps: seq<Profile>, tick: TicksPerSecond): (r: seq<Row>)
    requires AllWritable(ps)
    ensures |r| == |ps|
    decreases |ps|
  {
    if |ps| == 0 then [] else [RowOf(ps[0], tick)] + RowsOf(ps[1..], tick)
  }

  /** Each text is printed from the row beside it, and the row reads back. */
  predicate Prints(ts: seq<Texts>, rs: seq<Row>)
  {
    |ts| == |rs| && forall i {:trigger RowTexts(rs[i])} :: 0 <= i < |rs| ==> ts[i] == RowTexts(rs[i]) && Readable(rs[i])
  }

  // ---------------------------------------------------------------------
  // The whole document

  /** Between two records. */
  const Gap: string := Close + ",\n" + Open

  /** After the last record. */
  const Last: string := Close + "\n" + Footer

  /** The texts of each profile, in order. */
  function TextsAll(ps: seq<Profile>, tick: TicksPerSecond): (r: seq<Texts>)
    ensures |r| == |ps|
    decreases |ps|
  {
    if |ps| == 0 then [] else [TextsOf(ps[0], tick)] + TextsAll(ps[1..], tick)
  }

  /** What follows the first record: the other records, each after a
      `Gap`, then `Last`. */
  function After(ts: seq<Texts>): string
    decreases |ts|
  {
    if |ts| == 0 then Last else Gap + Record(ts[0]) + After(ts[1..])
  }

  /** The records `ts` follow one another in `s` from `k` on, separated by
      `Gap`, the last one followed by `Last`. */
  predicate Written(s: string, k: nat, ts: seq<Texts>)
  {
    |ts| > 0 && k <= |s| && s[k..] == Record(ts[0]) + After(ts[1..])
  }

  // ---------------------------------------------------------------------
  // The loop over a chain of records

  /** Where one pass finds its key and where the next pass starts. */
  datatype Step = Step(key: nat, next: nat)

  /** One pass from `pos` finds its key at `k`, reads `p` there and
      continues at `e`. */
  predicate Link(s: string, pos: nat, k: nat, e: nat, p: Profile, tick: TicksPerSecond)
  {
    && Find(s, TemplateKey, pos) == Some(k)
    && ParseRecord(s, k + 14, Corrected, tick) == Some(Parsed(p, Some(e)))
  }

  /** The loop from `pos` passes through the links `steps`, reading `ps`,
      and after the last record finds no key. */
  predicate Chain(s: string, pos: nat, steps: seq<Step>, ps: seq<Profile>, tick: TicksPerSecond)
    decreases |ps|
  {
    && |steps| == |ps|
    && if |ps| == 0 then Find(s, TemplateKey, pos) == None
       else Link(s, pos, steps[0].key, steps[0].next, ps[0], tick) && Chain(s, steps[0].next, steps[1..], ps[1..], tick)
  }
}

=== FILE: profile_manager.dfy ===
/** The Qt-side driver-profile registry of `cli/profile_manager.cpp`.

    Unlike the library's profile store it trims names instead of bounding
    their length, returns plain booleans, reports a full table through the
    out-of-range id 128, and never checks the name on update. Every
    mutating call ends in `saveProfiles()` (serialise, encrypt, write the
    file); that save is I/O and is the parameter `saved` here, and the clock
    reading `now` is a parameter too. */
module ProfileManager {
  import opened Bytes
  import opened Wrappers
  import Decimal
  import Seqs
  import IdAllocation

  const MinId: uint16 := 0
  const MaxId: uint16 := 127

  /** A `QDateTime`: invalid, or an instant in milliseconds since the epoch. */
  datatype DateTime = Invalid | At(msecs: nat)

  /** `ProfileManager::Profile`. */
  datatype Profile = Profile(id: uint16, name: string, isAdmin: bool, createdAt: DateTime, modifiedAt: DateTime)

  /** The profile list after a call and the boolean the call returned. */
  datatype Outcome = Outcome(profiles: seq<Profile>, ok: bool)

  /** `addProfile` also writes the assigned id through its out-pointer. */
  datatype Added = Added(profiles: seq<Profile>, ok: bool, assignedId: Option<uint16>)

  /** `isValidId`. */
  predicate IsValidId(id: uint16) { MinId <= id <= MaxId }

  /** `profileExists`. */
  predicate Exists(ps: seq<Profile>, id: uint16)
  {
    exists i :: 0 <= i < |ps| && ps[i].id == id
  }

  /** No two profiles share an id. Loading a file does not check this, so
      it is a property the add, delete and update calls keep rather than
      one the registry always has. */
  predicate Unique(ps: seq<Profile>)
  {
    forall i, j :: 0 <= i < j < |ps| ==> ps[i].id != ps[j].id
  }

  // ---------------------------------------------------------------------
  // QString::trimmed

  /** `QChar::isSpace`: the ASCII controls 9..13, the space, U+0085 and the
      Unicode separators (categories Zs, Zl and Zp). */
  predicate IsSpace(c: char)
  {
    c == ' ' || '\t' <= c <= '\r' || c == '\U{0085}' || c == '\U{00A0}' || c == '\U{1680}'
    || '\U{2000}' <= c <= '\U{200A}' || c == '\U{2028}' || c == '\U{2029}' || c == '\U{202F}'
    || c == '\U{205F}' || c == '\U{3000}'
  }

  predicate AllSpace(s: string) { forall i :: 0 <= i < |s| ==> IsSpace(s[i]) }

  /** The length of the whitespace run `s` starts with. */
  function LeadingSpaces(s: string): (k: nat)
    ensures k <= |s| && AllSpace(s[..k])
    ensures k < |s| ==> !IsSpace(s[k])
  {
    if |s| > 0 && IsSpace(s[0]) then
      var k := 1 + LeadingSpaces(s[1..]);
      assert s[..k] == [s[0]] + s[1..][..k - 1];
      k
    else 0
  }

  /** The length of the whitespace run `s` ends with. */
  function TrailingSpaces(s: string): (k: nat)
    ensures k <= |s| && AllSpace(s[|s| - k..])
    ensures k < |s| ==> !IsSpace(s[|s| - 1 - k])
  {
    if |s| > 0 && IsSpace(s[|s| - 1]) then
      var k := 1 + TrailingSpaces(s[..|s| - 1]);
      assert s[|s| - k..] == s[..|s| - 1][|s| - k..] + [s[|s| - 1]];
      k
    else 0
  }

  /** `QString::trimmed`: `s` without its leading and trailing whitespace. */
  function Trimmed(s: string): (r: string)
    ensures |r| == 0 <==> AllSpace(s)
    ensures |r| > 0 ==> !IsSpace(r[0]) && !IsSpace(r[|r| - 1])
  {
    var t := s[LeadingSpaces(s)..];
    t[..|t| - TrailingSpaces(t)]
  }

  /** Trimming `a + m + b` gives `m` whenever `a` and `b` are whitespace and
      `m` neither starts nor ends with it: the trimmed text is the unique
      such core. */
  lemma TrimmedCore(a: string, m: string, b: string)
    requires AllSpace(a) && AllSpace(b)
    requires |m| > 0 ==> !IsSpace(m[0]) && !IsSpace(m[|m| - 1])
    ensures Trimmed(a + m + b) == m
  {
    var s := a + m + b;
    var k := LeadingSpaces(s);
    if |m| > 0 {
      assert s[|a|] == m[0];
      assert k == |a|;
      var t := s[k..];
      assert t == m + b;
      var j := TrailingSpaces(t);
      assert t[|t| - 1 - |b|] == m[|m| - 1];
      assert j == |b|;
    } else {
      assert s == a + b;
    }
  }

  /** Trimming twice is trimming once. */
  lemma TrimmedIdempotent(s: string)
    ensures Trimmed(Trimmed(s)) == Trimmed(s)
  {
    var r := Trimmed(s);
    assert [] + r + [] == r;
    TrimmedCore([], r, []);
  }

  // ---------------------------------------------------------------------
  // Lookup and id allocation

  /** The position of the first profile with the id, as the loops of the
      lookups and of delete and update find it. */
  function Find(ps: seq<Profile>, id: uint16): (r: Option<nat>)
    ensures r.None? <==> !Exists(ps, id)
    ensures r.Some? ==> r.value < |ps| && ps[r.value].id == id
    ensures r.Some? ==> forall j :: 0 <= j < r.value ==> ps[j].id != id
  {
    if |ps| == 0 then None
    else if ps[0].id == id then Some(0)
    else
      match Find(ps[1..], id)
      case None =>
        assert forall i :: 1 <= i < |ps| ==> ps[i] == ps[1..][i - 1];
        None
      case Some(k) => Some(k + 1)
  }

  /** The `QSet` of used ids that `getNextAvailableId` builds. */
  function UsedIds(ps: seq<Profile>): (r: set<uint16>)
    ensures forall id :: id in r <==> Exists(ps, id)
  {
    if |ps| == 0 then {}
    else
      assert forall i :: 1 <= i < |ps| ==> ps[i] == ps[1..][i - 1];
      {ps[0].id} + UsedIds(ps[1..])
  }

  lemma {:induction false} UsedIdsBound(ps: seq<Profile>)
    ensures |UsedIds(ps)| <= |ps|
  {
    if |ps| > 0 {
      UsedIdsBound(ps[1..]);
    }
  }

  /** `getNextAvailableId`: the least id in 0..127 no profile uses, or
      `MaxId + 1` when all are taken. */
  function NextAvailableId(ps: seq<Profile>): (r: uint16)
    ensures r <= MaxId + 1
    ensures IsValidId(r) ==> !Exists(ps, r)
    ensures forall k: uint16 :: k < r ==> Exists(ps, k)
    ensures r == MaxId + 1 <==> forall k: uint16 :: IsValidId(k) ==> Exists(ps, k)
  {
    IdAllocation.FirstFree(UsedIds(ps)) as uint16
  }

  /** The table reports itself full only when it holds at least 128
      profiles. */
  lemma FullNeedsAllSlots(ps: seq<Profile>)
    requires NextAvailableId(ps) == MaxId + 1
    ensures |ps| >= MaxId as nat + 1
  {
    IdAllocation.AllTakenNeedsAllSlots(UsedIds(ps));
    UsedIdsBound(ps);
  }

  // ---------------------------------------------------------------------
  // addProfile, deleteProfile, updateProfile

  /** `addProfile`: refuses a name that is empty after trimming and a full
      table; otherwise appends the trimmed name under the next free id,
      reports that id, and returns what the save returns. */
  function AddProfile(ps: seq<Profile>, name: string, isAdmin: bool, now: nat, saved: bool): (r: Added)
    ensures r.assignedId.None? ==> r.profiles == ps && !r.ok
    ensures r.assignedId.None? <==> AllSpace(name) || forall k: uint16 :: IsValidId(k) ==> Exists(ps, k)
    ensures r.assignedId.Some? ==>
      var id := r.assignedId.value;
      IsValidId(id) && !Exists(ps, id) && (forall k: uint16 :: k < id ==> Exists(ps, k))
      && r.profiles == ps + [Profile(id, Trimmed(name), isAdmin, At(now), At(now))]
      && r.ok == saved
  {
    var trimmed := Trimmed(name);
    if |trimmed| == 0 then Added(ps, false, None)
    else
      var id := NextAvailableId(ps);
      if id > MaxId then Added(ps, false, None)
      else Added(ps + [Profile(id, trimmed, isAdmin, At(now), At(now))], saved, Some(id))
  }

  /** `deleteProfile`: removes the first profile with the id. */
  function DeleteProfile(ps: seq<Profile>, id: uint16, saved: bool): (r: Outcome)
    ensures !Exists(ps, id) ==> r == Outcome(ps, false)
    ensures Exists(ps, id) ==> |r.profiles| == |ps| - 1 && r.ok == saved
  {
    match Find(ps, id)
    case None => Outcome(ps, false)
    case Some(k) => Outcome(ps[..k] + ps[k + 1..], saved)
  }

  /** `updateProfile`: sets the trimmed new name, the admin flag and the
      modification time of the first profile with the id. The new name is
      not checked, so it may be empty after trimming. */
  function UpdateProfile(ps: seq<Profile>, id: uint16, newName: string, isAdmin: bool, now: nat, saved: bool)
    : (r: Outcome)
    ensures !Exists(ps, id) ==> r == Outcome(ps, false)
    ensures Exists(ps, id) ==> r.ok == saved
    ensures |r.profiles| == |ps|
    ensures forall i :: 0 <= i < |ps| ==> r.profiles[i].id == ps[i].id
  {
    match Find(ps, id)
    case None => Outcome(ps, false)
    case Some(k) =>
      Outcome(ps[k := ps[k].(name := Trimmed(newName), isAdmin := isAdmin, modifiedAt := At(now))], saved)
  }

  // ---------------------------------------------------------------------
  // Queries

  /** `getProfile`: the first profile with the id. */
  function GetProfile(ps: seq<Profile>, id: uint16): (r: Option<Profile>)
    ensures r.None? <==> !Exists(ps, id)
    ensures r.Some? ==> r.value in ps && r.value.id == id
  {
    match Find(ps, id)
    case None => None
    case Some(k) => Some(ps[k])
  }

  /** `getDriverName`: the profile's name, or "Unknown (ID n)". */
  function GetDriverName(ps: seq<Profile>, id: uint16): (r: string)
    ensures !Exists(ps, id) ==> r == "Unknown (ID " + Decimal.NatToString(id) + ")"
    ensures Exists(ps, id) ==> r == GetProfile(ps, id).value.name
  {
    match GetProfile(ps, id)
    case None => "Unknown (ID " + Decimal.NatToString(id) + ")"
    case Some(p) => p.name
  }

  /** `isAdminId`: false when no profile has the id. */
  function IsAdminId(ps: seq<Profile>, id: uint16): (r: bool)
    ensures r <==> Exists(ps, id) && GetProfile(ps, id).value.isAdmin
  {
    match GetProfile(ps, id)
    case None => false
    case Some(p) => p.isAdmin
  }

  // ---------------------------------------------------------------------
  // What the mutating calls keep

  /** With unique ids the lookups find the one profile with the id. */
  lemma LookupFindsOwner(ps: seq<Profile>, i: nat)
    requires Unique(ps) && i < |ps|
    ensures GetProfile(ps, ps[i].id) == Some(ps[i])
    ensures GetDriverName(ps, ps[i].id) == ps[i].name
    ensures IsAdminId(ps, ps[i].id) == ps[i].isAdmin
  {
    var k := Find(ps, ps[i].id).value;
    assert ps[k].id == ps[i].id;
  }

  /** Adding keeps ids unique and within 0..127 when they were. */
  lemma AddKeepsUnique(ps: seq<Profile>, name: string, isAdmin: bool, now: nat, saved: bool)
    requires Unique(ps)
    ensures var q := AddProfile(ps, name, isAdmin, now, saved).profiles;
      Unique(q) && ((forall i :: 0 <= i < |ps| ==> IsValidId(ps[i].id)) ==> forall i :: 0 <= i < |q| ==> IsValidId(q[i].id))
  {
    var r := AddProfile(ps, name, isAdmin, now, saved);
    if r.assignedId.Some? {
      var q := r.profiles;
      forall i, j | 0 <= i < j < |q|
        ensures q[i].id != q[j].id
      {
        if j == |ps| {
          assert q[i] == ps[i];
        }
      }
    }
  }

  /** Deleting keeps every profile that does not have the id, adds none,
      and with unique ids leaves none that has it. */
  lemma DeleteRemovesOnlyTarget(ps: seq<Profile>, id: uint16, saved: bool)
    ensures var q := DeleteProfile(ps, id, saved).profiles;
      (forall p :: p in ps && p.id != id ==> p in q)
      && (forall p :: p in q ==> p in ps)
      && (Unique(ps) ==> Unique(q) && !Exists(q, id))
  {
    match Find(ps, id)
    case None =>
    case Some(k) =>
      var q := ps[..k] + ps[k + 1..];
      Seqs.RemoveAt(ps, k);
      RemovedKeepsOthers(ps, q, k);
  }

  lemma RemovedKeepsOthers(ps: seq<Profile>, q: seq<Profile>, k: nat)
    requires k < |ps| && |q| == |ps| - 1
    requires forall i :: 0 <= i < k ==> q[i] == ps[i]
    requires forall i :: k <= i < |q| ==> q[i] == ps[i + 1]
    ensures forall p :: p in ps && p.id != ps[k].id ==> p in q
    ensures forall p :: p in q ==> p in ps
    ensures Unique(ps) ==> Unique(q) && !Exists(q, ps[k].id)
  {
    forall p | p in ps && p.id != ps[k].id
      ensures p in q
    {
      var i :| 0 <= i < |ps| && ps[i] == p;
      if i < k { assert q[i] == p; } else { assert q[i - 1] == p; }
    }
    forall p | p in q
      ensures p in ps
    {
      var i :| 0 <= i < |q| && q[i] == p;
      if i < k { assert ps[i] == p; } else { assert ps[i + 1] == p; }
    }
    if Unique(ps) {
      forall i, j | 0 <= i < j < |q|
        ensures q[i].id != q[j].id
      {
        var i' := if i < k then i else i + 1;
        var j' := if j < k then j else j + 1;
        assert q[i] == ps[i'] && q[j] == ps[j'] && i' < j';
      }
      forall i | 0 <= i < |q|
        ensures q[i].id != ps[k].id
      {
        var i' := if i < k then i else i + 1;
        assert q[i] == ps[i'] && i' != k;
      }
    }
  }

  /** Updating changes only the first profile with the id, and only its
      name, admin flag and modification time; with unique ids that is the
      one profile with the id. */
  lemma UpdateChangesOnlyTarget(ps: seq<Profile>, id: uint16, newName: string, isAdmin: bool, now: nat, saved: bool)
    requires Exists(ps, id)
    ensures var q := UpdateProfile(ps, id, newName, isAdmin, now, saved).profiles;
      var k := Find(ps, id).value;
      q[k] == ps[k].(name := Trimmed(newName), isAdmin := isAdmin, modifiedAt := At(now))
      && (forall i :: 0 <= i < |ps| && i != k ==> q[i] == ps[i])
      && (Unique(ps) ==> Unique(q) && forall i :: 0 <= i < |ps| && ps[i].id != id ==> q[i] == ps[i])
  {
  }

  // ---------------------------------------------------------------------
  // serializeProfiles / deserializeProfiles

  /** A JSON value as `QJsonValue` holds it. Numbers are kept integral: the
      profile file holds no other kind. */
  datatype Json = Undefined | Null | Bool(b: bool) | Number(n: int) | Str(text: string)
                | Array(items: seq<Json>) | Object(fields: map<string, Json>)

  const MinInt32: int := -0x8000_0000
  const MaxInt32: int := 0x7FFF_FFFF

  /** `QJsonObject::operator[]` on a const object: undefined when absent. */
  function Field(fields: map<string, Json>, key: string): Json
  {
    if key in fields then fields[key] else Undefined
  }

  /** The `QJsonValue` conversions with their default results. */
  function ToInt(v: Json): int { if v.Number? && MinInt32 <= v.n <= MaxInt32 then v.n else 0 }
  function ToBool(v: Json): bool { if v.Bool? then v.b else false }
  function ToText(v: Json): string { if v.Str? then v.text else "" }
  function ToArray(v: Json): seq<Json> { if v.Array? then v.items else [] }
  function ToObject(v: Json): map<string, Json> { if v.Object? then v.fields else map[] }

  /** `QDateTime::toString(Qt::ISODate)`: empty for an invalid time, and
      otherwise the instant to the whole second. */
  function IsoText(t: DateTime): string
  {
    match t
    case Invalid => ""
    case At(ms) => Decimal.NatToString(ms / 1000)
  }

  /** `QDateTime::fromString(_, Qt::ISODate)`: invalid for text it cannot
      read. */
  function FromIsoText(s: string): DateTime
  {
    if 0 < |s| && Decimal.AllDigits(s) then At(Decimal.DigitsValue(s) * 1000) else Invalid
  }

  /** A time with its milliseconds dropped. */
  function WholeSeconds(t: DateTime): DateTime
  {
    match t
    case Invalid => Invalid
    case At(ms) => At(ms / 1000 * 1000)
  }

  /** Writing a time as ISO text and reading it back keeps it to the second. */
  lemma IsoTextRoundTrip(t: DateTime)
    ensures FromIsoText(IsoText(t)) == WholeSeconds(t)
  {
    if t.At? {
      Decimal.NatToStringRoundTrip(t.msecs / 1000);
    }
  }

  /** The object `serializeProfiles` writes for one profile. */
  function ProfileJson(p: Profile): Json
  {
    Object(map[
      "id" := Number(p.id as int), "name" := Str(p.name), "isAdmin" := Bool(p.isAdmin),
      "createdAt" := Str(IsoText(p.createdAt)), "modifiedAt" := Str(IsoText(p.modifiedAt))])
  }

  function ProfilesJson(ps: seq<Profile>): seq<Json>
  {
    if |ps| == 0 then [] else [ProfileJson(ps[0])] + ProfilesJson(ps[1..])
  }

  /** `serializeProfiles`, as the document before it is printed. */
  function Serialize(ps: seq<Profile>): Json
  {
    Object(map["version" := Number(1), "profiles" := Array(ProfilesJson(ps))])
  }

  /** One record as `deserializeProfiles` reads it; the id goes through
      `toInt` and is then cut to 16 bits. */
  function ProfileOf(v: Json): Profile
  {
    var o := ToObject(v);
    Profile(ToInt(Field(o, "id")) % 0x1_0000, ToText(Field(o, "name")), ToBool(Field(o, "isAdmin")),
            FromIsoText(ToText(Field(o, "createdAt"))), FromIsoText(ToText(Field(o, "modifiedAt"))))
  }

  function ProfilesOf(vs: seq<Json>): (r: seq<Profile>)
    ensures |r| == |vs|
  {
    if |vs| == 0 then [] else [ProfileOf(vs[0])] + ProfilesOf(vs[1..])
  }

  /** `deserializeProfiles` given the parsed document, `None` when the text
      is not JSON at all. A rejected document leaves the list as it was;
      an accepted one replaces it with one profile per array element. */
  function Deserialize(ps: seq<Profile>, doc: Option<Json>): (r: Outcome)
    ensures doc.None? || !doc.value.Object? ==> r == Outcome(ps, false)
    ensures doc.Some? && doc.value.Object? && ToInt(Field(doc.value.fields, "version")) != 1 ==> r == Outcome(ps, false)
    ensures r.ok <==> doc.Some? && doc.value.Object? && ToInt(Field(doc.value.fields, "version")) == 1
    ensures r.ok ==> |r.profiles| == |ToArray(Field(doc.value.fields, "profiles"))|
  {
    if doc.None? || !doc.value.Object? then Outcome(ps, false)
    else
      var root := doc.value.fields;
      if ToInt(Field(root, "version")) != 1 then Outcome(ps, false)
      else Outcome(ProfilesOf(ToArray(Field(root, "profiles"))), true)
  }

  /** The profiles as they come back from a save: every time cut to the
      second. */
  function Reloaded(ps: seq<Profile>): seq<Profile>
  {
    if |ps| == 0 then []
    else
      var p := ps[0];
      [p.(createdAt := WholeSeconds(p.createdAt), modifiedAt := WholeSeconds(p.modifiedAt))] + Reloaded(ps[1..])
  }

  lemma ProfileRoundTrip(p: Profile)
    ensures ProfileOf(ProfileJson(p)) == p.(createdAt := WholeSeconds(p.createdAt), modifiedAt := WholeSeconds(p.modifiedAt))
  {
    IsoTextRoundTrip(p.createdAt);
    IsoTextRoundTrip(p.modifiedAt);
  }

  /** Loading what `serializeProfiles` wrote restores every id, name and
      admin flag, with the times cut to the second, whatever was loaded
      before. */
  lemma {:induction false} SerializeRoundTrip(ps: seq<Profile>, before: seq<Profile>)
    ensures Deserialize(before, Some(Serialize(ps))) == Outcome(Reloaded(ps), true)
  {
    ProfilesRoundTrip(ps);
  }

  lemma {:induction false} ProfilesRoundTrip(ps: seq<Profile>)
    ensures ProfilesOf(ProfilesJson(ps)) == Reloaded(ps)
  {
    if |ps| > 0 {
      ProfileRoundTrip(ps[0]);
      ProfilesRoundTrip(ps[1..]);
    }
  }
}

=== FILE: profile_store.dfy ===
/** The driver-profile registry of `src/profile_store.cpp`: an in-memory list
    of profiles keyed by fingerprint template id.

    Every mutating call saves the whole list afterwards (serialise, derive the
    key, encrypt, write the file). That save is I/O and is a parameter here:
    `saved` tells whether it succeeded, and a failed save is reported as
    `database_access_error` while the change stays in memory, as in the
    source. The clock reading `now` is a parameter too. */
module ProfileStore {
  import opened Bytes
  import opened Wrappers
  import StatusCodes
  import Seqs
  import IdAllocation

  const MinTemplateId: uint16 := 0
  const MaxTemplateId: uint16 := 127
  const MaxNameLength: nat := 64

  /** `driver_profile`; the timestamps are `system_clock` ticks. */
  datatype Profile = Profile(templateId: uint16, name: string, isAdmin: bool, createdAt: int, modifiedAt: int)

  /** The profile list after a call, and what the call returned. */
  datatype Outcome<T> = Outcome(profiles: seq<Profile>, result: Result<T, StatusCodes.Status>)

  /** `is_valid_template_id`. */
  predicate IsValidTemplateId(id: uint16) { MinTemplateId <= id <= MaxTemplateId }

  /** The bytes one character takes in UTF-8. */
  function CharUtf8Size(c: char): (n: nat)
    ensures 1 <= n <= 4
    ensures n == 1 <==> (c as int) < 0x80
  {
    if (c as int) < 0x80 then 1
    else if (c as int) < 0x800 then 2
    else if (c as int) < 0x1_0000 then 3
    else 4
  }

  /** The length of a name's UTF-8 encoding, which is what
      `std::string_view::length` counts. */
  function Utf8Size(s: string): (n: nat)
    ensures |s| <= n <= 4 * |s|
    ensures n == 0 <==> |s| == 0
  {
    if |s| == 0 then 0 else Utf8Size(s[..|s| - 1]) + CharUtf8Size(s[|s| - 1])
  }

  /** A string whose characters all take k bytes takes k bytes per
      character; in particular an ASCII string's size is its length. */
  lemma {:induction false} Utf8SizeUniform(s: string, k: nat)
    requires forall i :: 0 <= i < |s| ==> CharUtf8Size(s[i]) == k
    ensures Utf8Size(s) == k * |s|
  {
    if |s| > 0 {
      Utf8SizeUniform(s[..|s| - 1], k);
    }
  }

  /** The name check every add and update makes first: not empty and at
      most 64 bytes of UTF-8. */
  predicate IsValidName(name: string) { 0 < |name| && Utf8Size(name) <= MaxNameLength }

  /** The limit counts bytes, not characters: 33 copies of 'é' are 33
      characters but 66 bytes, and are refused, while 64 ASCII letters
      pass. */
  lemma NameLimitCountsBytes()
    ensures !IsValidName(seq(33, _ => 'é'))
    ensures IsValidName(seq(64, _ => 'a'))
  {
    Utf8SizeUniform(seq(33, _ => 'é'), 2);
    Utf8SizeUniform(seq(64, _ => 'a'), 1);
  }

  /** `profile_exists`. */
  predicate Exists(ps: seq<Profile>, id: uint16)
  {
    exists i :: 0 <= i < |ps| && ps[i].templateId == id
  }

  /** What the registry keeps true: every id is a valid template id and
      appears once, and every name passed the name check. */
  predicate Valid(ps: seq<Profile>)
  {
    (forall i :: 0 <= i < |ps| ==> IsValidTemplateId(ps[i].templateId) && IsValidName(ps[i].name))
    && (forall i, j :: 0 <= i < j < |ps| ==> ps[i].templateId != ps[j].templateId)
  }

  /** The save that ends every mutating call. */
  function Save(saved: bool): (r: Result<(), StatusCodes.Status>)
    ensures r.Success? <==> saved
    ensures r.Failure? ==> r.error == StatusCodes.DatabaseAccessError
  {
    if saved then Success(()) else Failure(StatusCodes.DatabaseAccessError)
  }

  /** The position of the first profile with the id, as `find_if` finds it. */
  function Find(ps: seq<Profile>, id: uint16): (r: Option<nat>)
    ensures r.None? <==> !Exists(ps, id)
    ensures r.Some? ==> r.value < |ps| && ps[r.value].templateId == id
    ensures r.Some? ==> forall j :: 0 <= j < r.value ==> ps[j].templateId != id
  {
    if |ps| == 0 then None
    else if ps[0].templateId == id then Some(0)
    else
      match Find(ps[1..], id)
      case None =>
        assert forall i :: 1 <= i < |ps| ==> ps[i] == ps[1..][i - 1];
        None
      case Some(k) => Some(k + 1)
  }

  // ---------------------------------------------------------------------
  // Id allocation

  /** The ids in use. */
  function Ids(ps: seq<Profile>): (r: set<uint16>)
    ensures forall id :: id in r <==> Exists(ps, id)
  {
    if |ps| == 0 then {}
    else
      assert forall i :: 1 <= i < |ps| ==> ps[i] == ps[1..][i - 1];
      {ps[0].templateId} + Ids(ps[1..])
  }

  lemma {:induction false} IdsBound(ps: seq<Profile>)
    ensures |Ids(ps)| <= |ps|
  {
    if |ps| > 0 {
      IdsBound(ps[1..]);
    }
  }

  /** `get_next_available_id`: the least template id no profile uses, or
      none when all 128 are taken. */
  function GetNextAvailableId(ps: seq<Profile>): (r: Option<uint16>)
    ensures r.Some? ==> IsValidTemplateId(r.value) && !Exists(ps, r.value)
    ensures r.Some? ==> forall k: uint16 :: k < r.value ==> Exists(ps, k)
    ensures r.None? <==> forall k: uint16 :: IsValidTemplateId(k) ==> Exists(ps, k)
  {
    var id := IdAllocation.FirstFree(Ids(ps));
    if id < IdAllocation.SlotCount then Some(id as uint16) else None
  }

  /** The allocator reports a full database only when the store holds at
      least 128 profiles: each of the 128 ids needs a profile of its own. */
  lemma FullNeedsAllSlots(ps: seq<Profile>)
    requires GetNextAvailableId(ps).None?
    ensures |ps| >= MaxTemplateId as nat + 1
  {
    IdAllocation.AllTakenNeedsAllSlots(Ids(ps));
    IdsBound(ps);
  }

  // ---------------------------------------------------------------------
  // add_profile, add_profile_with_id, delete_profile, update_profile

  /** `add_profile_with_id`: checks the id range, then the name, then that
      the id is free; an accepted profile is appended with equal creation
      and modification times before the save. */
  function AddProfileWithId(ps: seq<Profile>, name: string, id: uint16, isAdmin: bool, now: int, saved: bool)
    : (r: Outcome<()>)
    ensures !IsValidTemplateId(id) ==> r == Outcome(ps, Failure(StatusCodes.IndexOutOfRange))
    ensures IsValidTemplateId(id) && !IsValidName(name) ==> r == Outcome(ps, Failure(StatusCodes.PermissionDenied))
    ensures Exists(ps, id) ==> r.profiles == ps && r.result.Failure?
    ensures r.profiles != ps <==> IsValidTemplateId(id) && IsValidName(name) && !Exists(ps, id)
    ensures r.profiles != ps ==> r.profiles == ps + [Profile(id, name, isAdmin, now, now)] && r.result == Save(saved)
  {
    if !IsValidTemplateId(id) then Outcome(ps, Failure(StatusCodes.IndexOutOfRange))
    else if !IsValidName(name) then Outcome(ps, Failure(StatusCodes.PermissionDenied))
    else if Exists(ps, id) then Outcome(ps, Failure(StatusCodes.PermissionDenied))
    else Outcome(ps + [Profile(id, name, isAdmin, now, now)], Save(saved))
  }

  /** `add_profile`: checks the name, takes the least free id and adds the
      profile under it; the id is returned when the save succeeds. */
  function AddProfile(ps: seq<Profile>, name: string, isAdmin: bool, now: int, saved: bool): (r: Outcome<uint16>)
    ensures !IsValidName(name) ==> r == Outcome(ps, Failure(StatusCodes.PermissionDenied))
    ensures IsValidName(name) && |ps| <= MaxTemplateId as nat ==> r.profiles != ps
    ensures r.profiles == ps ==>
      r.result.Failure? && r.result.error in {StatusCodes.PermissionDenied, StatusCodes.DatabaseFull}
    ensures r.profiles != ps ==> exists id: uint16 ::
      GetNextAvailableId(ps) == Some(id) && r.profiles == ps + [Profile(id, name, isAdmin, now, now)]
      && (r.result.Success? <==> saved) && (saved ==> r.result.value == id)
  {
    if !IsValidName(name) then Outcome(ps, Failure(StatusCodes.PermissionDenied))
    else
      match GetNextAvailableId(ps)
      case None =>
        FullNeedsAllSlots(ps);
        Outcome(ps, Failure(StatusCodes.DatabaseFull))
      case Some(id) =>
        var added := AddProfileWithId(ps, name, id, isAdmin, now, saved);
        if added.result.Failure? then Outcome(added.profiles, Failure(added.result.error))
        else Outcome(added.profiles, Success(id))
  }

  /** `delete_profile`: removes the first profile with the id. */
  function DeleteProfile(ps: seq<Profile>, id: uint16, saved: bool): (r: Outcome<()>)
    ensures !Exists(ps, id) <==> r.result == Failure(StatusCodes.NotFound)
    ensures !Exists(ps, id) ==> r.profiles == ps
    ensures Exists(ps, id) ==> |r.profiles| == |ps| - 1 && r.result == Save(saved)
  {
    match Find(ps, id)
    case None => Outcome(ps, Failure(StatusCodes.NotFound))
    case Some(k) => Outcome(ps[..k] + ps[k + 1..], Save(saved))
  }

  /** `update_profile`: checks the new name, then replaces name, admin flag
      and modification time of the first profile with the id. */
  function UpdateProfile(ps: seq<Profile>, id: uint16, newName: string, isAdmin: bool, now: int, saved: bool)
    : (r: Outcome<()>)
    ensures !IsValidName(newName) ==> r == Outcome(ps, Failure(StatusCodes.PermissionDenied))
    ensures IsValidName(newName) && !Exists(ps, id) ==> r == Outcome(ps, Failure(StatusCodes.NotFound))
    ensures |r.profiles| == |ps|
    ensures IsValidName(newName) && Exists(ps, id) ==> r.result == Save(saved)
  {
    if !IsValidName(newName) then Outcome(ps, Failure(StatusCodes.PermissionDenied))
    else
      match Find(ps, id)
      case None => Outcome(ps, Failure(StatusCodes.NotFound))
      case Some(k) => Outcome(ps[k := ps[k].(name := newName, isAdmin := isAdmin, modifiedAt := now)], Save(saved))
  }

  // ---------------------------------------------------------------------
  // Queries

  /** `get_profile`. */
  function GetProfile(ps: seq<Profile>, id: uint16): (r: Option<Profile>)
    ensures r.None? <==> !Exists(ps, id)
    ensures r.Some? ==> r.value in ps && r.value.templateId == id
  {
    match Find(ps, id)
    case None => None
    case Some(k) => Some(ps[k])
  }

  /** `get_driver_name`: "Unknown" when no profile has the id. */
  function GetDriverName(ps: seq<Profile>, id: uint16): (r: string)
    ensures !Exists(ps, id) ==> r == "Unknown"
    ensures Exists(ps, id) ==> r == GetProfile(ps, id).value.name
  {
    match GetProfile(ps, id)
    case None => "Unknown"
    case Some(p) => p.name
  }

  /** `is_admin_id`: false when no profile has the id. */
  function IsAdminId(ps: seq<Profile>, id: uint16): (r: bool)
    ensures r <==> Exists(ps, id) && GetProfile(ps, id).value.isAdmin
  {
    match GetProfile(ps, id)
    case None => false
    case Some(p) => p.isAdmin
  }

  /** `clear_all_profiles`: forget every profile, then save. */
  function ClearAllProfiles(ps: seq<Profile>, saved: bool): (r: Outcome<()>)
    ensures Valid(r.profiles) && forall id: uint16 :: !Exists(r.profiles, id)
    ensures r.result.Success? <==> saved
  {
    Outcome([], Save(saved))
  }

  // ---------------------------------------------------------------------
  // The registry invariant

  /** In a valid registry the lookup finds the one profile with the id. */
  lemma LookupFindsOwner(ps: seq<Profile>, i: nat)
    requires Valid(ps) && i < |ps|
    ensures GetProfile(ps, ps[i].templateId) == Some(ps[i])
    ensures GetDriverName(ps, ps[i].templateId) == ps[i].name
    ensures IsAdminId(ps, ps[i].templateId) == ps[i].isAdmin
  {
    var k := Find(ps, ps[i].templateId).value;
    assert ps[k].templateId == ps[i].templateId;
  }

  /** Adding with an explicit id keeps ids valid and unique. */
  lemma AddWithIdKeepsValid(ps: seq<Profile>, name: string, id: uint16, isAdmin: bool, now: int, saved: bool)
    requires Valid(ps)
    ensures Valid(AddProfileWithId(ps, name, id, isAdmin, now, saved).profiles)
  {
    var r := AddProfileWithId(ps, name, id, isAdmin, now, saved);
    if r.profiles != ps {
      var q := r.profiles;
      forall i, j | 0 <= i < j < |q|
        ensures q[i].templateId != q[j].templateId
      {
        if j == |ps| {
          assert q[i] == ps[i];
        }
      }
    }
  }

  /** Adding under the next free id keeps ids valid and unique. */
  lemma AddKeepsValid(ps: seq<Profile>, name: string, isAdmin: bool, now: int, saved: bool)
    requires Valid(ps)
    ensures Valid(AddProfile(ps, name, isAdmin, now, saved).profiles)
  {
    match GetNextAvailableId(ps)
    case None =>
    case Some(id) => AddWithIdKeepsValid(ps, name, id, isAdmin, now, saved);
  }

  /** Deleting removes the profile with the id and keeps every other one. */
  lemma DeleteRemovesOnlyTarget(ps: seq<Profile>, id: uint16, saved: bool)
    requires Valid(ps)
    ensures var q := DeleteProfile(ps, id, saved).profiles;
      Valid(q) && !Exists(q, id) && forall p :: p in q <==> p in ps && p.templateId != id
  {
    match Find(ps, id)
    case None =>
    case Some(k) =>
      var q := ps[..k] + ps[k + 1..];
      Seqs.RemoveAt(ps, k);
      RemovedKeepsOthers(ps, q, k);
  }

  lemma RemovedKeepsOthers(ps: seq<Profile>, q: seq<Profile>, k: nat)
    requires Valid(ps) && k < |ps| && |q| == |ps| - 1
    requires forall i :: 0 <= i < k ==> q[i] == ps[i]
    requires forall i :: k <= i < |q| ==> q[i] == ps[i + 1]
    ensures Valid(q) && !Exists(q, ps[k].templateId)
    ensures forall p :: p in q <==> p in ps && p.templateId != ps[k].templateId
  {
    forall p | p in ps && p.templateId != ps[k].templateId
      ensures p in q
    {
      var i :| 0 <= i < |ps| && ps[i] == p;
      if i < k { assert q[i] == p; } else { assert q[i - 1] == p; }
    }
    forall i, j | 0 <= i < j < |q|
      ensures q[i].templateId != q[j].templateId
    {
      var i' := if i < k then i else i + 1;
      var j' := if j < k then j else j + 1;
      assert q[i] == ps[i'] && q[j] == ps[j'] && i' < j';
    }
    forall i | 0 <= i < |q|
      ensures q[i].templateId != ps[k].templateId
    {
      var i' := if i < k then i else i + 1;
      assert q[i] == ps[i'] && i' != k;
    }
  }

  /** Updating a valid registry with a valid name changes only name, admin
      flag and modification time of the profile with the id. */
  lemma UpdateChangesOnlyTarget(ps: seq<Profile>, id: uint16, newName: string, isAdmin: bool, now: int, saved: bool)
    requires Valid(ps)
    ensures var q := UpdateProfile(ps, id, newName, isAdmin, now, saved).profiles;
      Valid(q) && forall i :: 0 <= i < |ps| ==>
        (ps[i].templateId != id ==> q[i] == ps[i])
        && (ps[i].templateId == id && IsValidName(newName) ==>
              q[i] == ps[i].(name := newName, isAdmin := isAdmin, modifiedAt := now))
  {
    if IsValidName(newName) {
      match Find(ps, id)
      case None =>
      case Some(k) =>
        forall i | 0 <= i < |ps| && ps[i].templateId == id
          ensures i == k
        {
          assert ps[i].templateId == ps[k].templateId;
        }
    }
  }
}

=== FILE: protocol_handler.dfy ===
/** Command, acknowledge and data-chunk framing of `protocol_handler`
    (`src/protocol_handler.cpp`, and the same four functions over secure
    buffers in `src/fingerprint/protocol_handler.cpp`).

    A handler holds the device address and the data-packet length
    (`length_`, 128 by default).  Frames are built and read with the packet
    encoder and decoder of module `Packet`. */
module ProtocolHandler {
  import opened Bytes
  import opened Wrappers
  import Seqs
  import StatusCodes
  import opened Packet

  /** Packet identifiers (`packet_id`). */
  const CommandId: uint8 := 0x01
  const DataId: uint8 := 0x02
  const AcknowledgeId: uint8 := 0x07
  const EndDataId: uint8 := 0x08

  /** Parameters beyond the first 255 are dropped: the command code takes
      the first of the 256 payload bytes. */
  const MaxParams: nat := MaxDataSize - 1

  datatype Handler = Handler(address: uint32, chunkLength: uint16)

  const DefaultHandler: Handler := Handler(0xFFFF_FFFF, 128)


  /** The buffer `encode` is given is exactly as large as the frame, so
      encoding always succeeds. */
  function EncodeExact(p: Packet): (r: bytes)
    requires p.length <= MaxDataSize
    ensures |r| == MaxHeaderSize + p.length + 2
  {
    Encode(p, MaxHeaderSize + p.length + 2).value
  }

  /** Decoding an exactly encoded packet into a default packet. */
  lemma DecodeEncodeExact(p: Packet)
    requires p.tag == BuiltinTag && p.length <= MaxDataSize
    ensures var d := Decode(Default, EncodeExact(p), p.address);
      d.result == Success(MaxHeaderSize + p.length + 2)
      && d.packet.ptype == p.ptype && d.packet.length == p.length
      && Payload(d.packet) == Payload(p)
  {
    EncodeDecodeRoundTrip(p, MaxHeaderSize + p.length + 2, [], Default);
    assert EncodeExact(p) + [] == EncodeExact(p);
  }

  // ---------------------------------------------------------------------
  // Command packets

  /** The packet `construct_command_packet` fills: the command code, then at
      most 255 parameter bytes. */
  function CommandPacket(h: Handler, code: uint8, params: bytes): (p: Packet)
    ensures p.length <= MaxDataSize
  {
    var n := Min(|params|, MaxParams);
    Packet(BuiltinTag, h.address, CommandId, 1 + n, [code] + params[..n] + ZeroBytes(MaxParams - n))
  }

  function ConstructCommandPacket(h: Handler, code: uint8, params: bytes): (r: Result<bytes, StatusCodes.Status>)
    ensures r.Success?
    ensures |r.value| == 12 + Min(|params|, MaxParams)
    ensures var d := Decode(Default, r.value, h.address);
      d.result.Success? && d.packet.ptype == CommandId && d.packet.address == h.address
      && Payload(d.packet) == [code] + params[..Min(|params|, MaxParams)]
  {
    var p := CommandPacket(h, code, params);
    var n := Min(|params|, MaxParams);
    DecodeEncodeExact(p);
    assert Payload(p) == [code] + params[..n];
    match Encode(p, MaxHeaderSize + p.length + 2)
    case Failure(_) => Failure(StatusCodes.NoFrame)
    case Success(frame) => Success(frame)
  }

  // ---------------------------------------------------------------------
  // Acknowledge packets

  function ParseAcknowledgePacket(h: Handler, frame: bytes): (r: Result<bytes, StatusCodes.Status>)
    ensures var d := Decode(Default, frame, h.address);
      r.Success? <==> d.result.Success? && d.packet.ptype == AcknowledgeId && d.packet.length >= 1
                      && d.packet.data[0] == StatusCodes.Success
    ensures var d := Decode(Default, frame, h.address);
      d.result.Failure? || d.packet.ptype != AcknowledgeId || d.packet.length == 0
      ==> r == Failure(StatusCodes.NoFrame)
    ensures var d := Decode(Default, frame, h.address);
      d.result.Success? && d.packet.ptype == AcknowledgeId && d.packet.length >= 1
      ==> if d.packet.data[0] == StatusCodes.Success then r == Success(d.packet.data[1..d.packet.length])
          else r == Failure(d.packet.data[0])
  {
    var d := Decode(Default, frame, h.address);
    if d.result.Failure? then Failure(StatusCodes.NoFrame)
    else if AcknowledgeId != d.packet.ptype then Failure(StatusCodes.NoFrame)
    else if d.packet.length == 0 then Failure(StatusCodes.NoFrame)
    else
      var status := d.packet.data[0];
      if StatusCodes.IsError(status) then Failure(status)
      else if 1 < d.packet.length then Success(d.packet.data[1..d.packet.length])
      else
        assert d.packet.data[1..d.packet.length] == [];
        Success([])
  }

  /** An acknowledge packet whose payload is a status byte and a body. */
  function AcknowledgePacket(h: Handler, status: uint8, body: bytes): (p: Packet)
    requires |body| <= MaxParams
    ensures p.length <= MaxDataSize
  {
    Packet(BuiltinTag, h.address, AcknowledgeId, 1 + |body|, [status] + body + ZeroBytes(MaxParams - |body|))
  }

  /** Parsing an encoded acknowledge returns its body on success and its
      status byte otherwise. */
  lemma AcknowledgeRoundTrip(h: Handler, status: uint8, body: bytes)
    requires |body| <= MaxParams
    ensures ParseAcknowledgePacket(h, EncodeExact(AcknowledgePacket(h, status, body)))
            == if status == StatusCodes.Success then Success(body) else Failure(status)
  {
    var p := AcknowledgePacket(h, status, body);
    DecodeEncodeExact(p);
    var d := Decode(Default, EncodeExact(p), h.address);
    assert Payload(p) == [status] + body;
    assert d.packet.data[..d.packet.length] == [status] + body;
    assert d.packet.data[0] == status;
    assert d.packet.data[1..d.packet.length] == body;
  }

  // ---------------------------------------------------------------------
  // Data packets

  /** The number of bytes one iteration of `construct_data_packet` takes:
      the least of `length_`, what remains and the payload capacity. */
  function ChunkSize(h: Handler, remaining: nat): nat
  {
    Min(Min(h.chunkLength, remaining), MaxDataSize)
  }

  /** The data packet carrying `chunk`, marked as the last one or not. */
  function DataPacket(h: Handler, chunk: bytes, last: bool): (p: Packet)
    requires |chunk| <= MaxDataSize
    ensures p.length <= MaxDataSize
  {
    Packet(BuiltinTag, h.address, if last then EndDataId else DataId, |chunk|,
           chunk + ZeroBytes(MaxDataSize - |chunk|))
  }

  /** The packets `construct_data_packet` encodes, as a recursive
      reference: chunks of `ChunkSize` bytes, only the last one marked as
      the end of data.  It terminates only when `length_` is positive or
      there is no data. */
  function DataPackets(h: Handler, data: bytes): (r: seq<Packet>)
    requires h.chunkLength > 0 || |data| == 0
    ensures forall i :: 0 <= i < |r| ==> r[i].length <= MaxDataSize
    decreases |data|
  {
    if |data| == 0 then []
    else
      var n := ChunkSize(h, |data|);
      [DataPacket(h, data[..n], n >= |data|)] + DataPackets(h, data[n..])
  }

  /** Exact encodings of a sequence of packets, in order. */
  function EncodeAll(ps: seq<Packet>): (r: seq<bytes>)
    requires forall i :: 0 <= i < |ps| ==> ps[i].length <= MaxDataSize
    ensures |r| == |ps|
  {
    if |ps| == 0 then [] else [EncodeExact(ps[0])] + EncodeAll(ps[1..])
  }

  /** The frames `construct_data_packet` returns. */
  function DataFrames(h: Handler, data: bytes): (r: seq<bytes>)
    requires h.chunkLength > 0 || |data| == 0
  {
    EncodeAll(DataPackets(h, data))
  }

  /** `construct_data_packet`, as the loop of the source; `remaining` is
      the data from `offset` on. */
  method ConstructDataPacket(h: Handler, data: bytes) returns (frames: seq<bytes>)
    requires h.chunkLength > 0 || |data| == 0
    ensures frames == DataFrames(h, data)
  {
    ghost var total := DataFrames(h, data);
    frames := [];
    var offset := 0;
    var remaining := data;
    while offset < |data|
      invariant 0 <= offset <= |data| && remaining == data[offset..]
      invariant frames + DataFrames(h, remaining) == total
      decreases |data| - offset
    {
      var frame, n := EncodeChunk(h, remaining);
      if frame.Success? {
        Seqs.Regroup(frames, frame.value, DataFrames(h, remaining[n..]));
        frames := frames + [frame.value];
      }
      Seqs.SuffixSlices(data, offset, n);
      offset := offset + n;
      remaining := remaining[n..];
    }
    assert frames + [] == frames;
  }

  /** One iteration of the loop: the next chunk, its packet, and the result
      of encoding it into a buffer of exactly the frame's size. */
  method EncodeChunk(h: Handler, remaining: bytes) returns (frame: Result<bytes, StatusCodes.Status>, n: nat)
    requires h.chunkLength > 0 && 0 < |remaining|
    ensures 0 < n <= |remaining|
    ensures frame.Success? && DataFrames(h, remaining) == [frame.value] + DataFrames(h, remaining[n..])
  {
    n := ChunkSize(h, |remaining|);
    var isLast := n >= |remaining|;
    var p := DataPacket(h, remaining[..n], isLast);
    frame := Encode(p, MaxHeaderSize + p.length + 2);
    DataFramesUnfold(h, remaining);
  }

  /** `parse_data_packet`: decode each frame into a fresh packet, append its
      payload, and stop after the first end-of-data packet. */
  function ParseDataPacket(h: Handler, frames: seq<bytes>): (r: Result<bytes, StatusCodes.Status>)
    ensures |frames| == 0 ==> r == Success([])
    ensures r.Failure? ==> r.error == StatusCodes.NoFrame
    ensures |frames| > 0 && Decode(Default, frames[0], h.address).result.Failure? ==> r.Failure?
    ensures |frames| > 0 ==>
      var d := Decode(Default, frames[0], h.address);
      d.result.Success? && d.packet.ptype != DataId && d.packet.ptype != EndDataId ==> r == Failure(StatusCodes.NoFrame)
    ensures |frames| > 0 ==>
      var d := Decode(Default, frames[0], h.address);
      d.result.Success? && d.packet.ptype == EndDataId ==> r.Success? && r.value == d.packet.data[..d.packet.length]
    ensures |frames| > 0 ==>
      var d := Decode(Default, frames[0], h.address);
      d.result.Success? && d.packet.ptype == DataId ==>
        (r.Success? <==> ParseDataPacket(h, frames[1..]).Success?)
        && (r.Success? ==> r.value == d.packet.data[..d.packet.length] + ParseDataPacket(h, frames[1..]).value)
  {
    if |frames| == 0 then Success([])
    else
      var d := Decode(Default, frames[0], h.address);
      if d.result.Failure? then Failure(StatusCodes.NoFrame)
      else if d.packet.ptype != DataId && d.packet.ptype != EndDataId then Failure(StatusCodes.NoFrame)
      else
        var chunk := d.packet.data[..d.packet.length];
        if d.packet.ptype == EndDataId then Success(chunk)
        else
          match ParseDataPacket(h, frames[1..])
          case Failure(e) => Failure(e)
          case Success(rest) => Success(chunk + rest)
  }

  /** Every frame decodes; all but the last are data packets, the last is
      the end-of-data packet; each carries between 1 and
      min(length_, 256) bytes. */
  lemma DataFramesShape(h: Handler, data: bytes)
    requires h.chunkLength > 0 || |data| == 0
    ensures var frames := DataFrames(h, data);
      forall i :: 0 <= i < |frames| ==>
        var d := Decode(Default, frames[i], h.address);
        d.result.Success?
        && d.packet.ptype == (if i == |frames| - 1 then EndDataId else DataId)
        && 0 < d.packet.length <= Min(h.chunkLength, MaxDataSize)
  {
    var ps := DataPackets(h, data);
    var frames := DataFrames(h, data);
    DataPacketsShape(h, data);
    forall i | 0 <= i < |frames|
      ensures var d := Decode(Default, frames[i], h.address);
        d.result.Success?
        && d.packet.ptype == (if i == |frames| - 1 then EndDataId else DataId)
        && 0 < d.packet.length <= Min(h.chunkLength, MaxDataSize)
    {
      EncodeAllIndex(ps, i);
      assert IsDataPacket(h, ps[i], i == |ps| - 1);
      DecodeEncodeExact(ps[i]);
    }
  }

  /** A packet as `construct_data_packet` builds it. */
  predicate IsDataPacket(h: Handler, p: Packet, last: bool)
  {
    p.tag == BuiltinTag && p.address == h.address
    && p.ptype == (if last then EndDataId else DataId)
    && 0 < p.length <= Min(h.chunkLength, MaxDataSize)
  }

  /** The packets themselves: addressed to the handler, typed as in
      `DataFramesShape`, with non-empty chunks of at most min(length_, 256)
      bytes. */
  lemma {:induction false} DataPacketsShape(h: Handler, data: bytes)
    requires h.chunkLength > 0 || |data| == 0
    ensures forall i :: 0 <= i < |DataPackets(h, data)| ==>
      IsDataPacket(h, DataPackets(h, data)[i], i == |DataPackets(h, data)| - 1)
    decreases |data|
  {
    if |data| > 0 {
      var n := ChunkSize(h, |data|);
      DataPacketsShape(h, data[n..]);
      var ps := DataPackets(h, data);
      assert ps[1..] == DataPackets(h, data[n..]);
      if n >= |data| {
        assert |DataPackets(h, data[n..])| == 0;
      } else {
        assert |DataPackets(h, data[n..])| > 0;
      }
    }
  }

  lemma {:induction false} EncodeAllIndex(ps: seq<Packet>, i: nat)
    requires forall j :: 0 <= j < |ps| ==> ps[j].length <= MaxDataSize
    requires i < |ps|
    ensures EncodeAll(ps)[i] == EncodeExact(ps[i])
    decreases i
  {
    if i > 0 {
      EncodeAllIndex(ps[1..], i - 1);
    }
  }

  /** Parsing the frames of `construct_data_packet` gives the data back. */
  lemma DataRoundTrip(h: Handler, data: bytes)
    requires h.chunkLength > 0 || |data| == 0
    ensures ParseDataPacket(h, DataFrames(h, data)) == Success(data)
  {
    if |data| > 0 {
      DataRoundTripWithTrailing(h, data, []);
      assert DataFrames(h, data) + [] == DataFrames(h, data);
    }
  }

  /** Frames after the end-of-data packet are ignored. */
  lemma {:induction false} DataRoundTripWithTrailing(h: Handler, data: bytes, extra: seq<bytes>)
    requires h.chunkLength > 0 && |data| > 0
    ensures ParseDataPacket(h, DataFrames(h, data) + extra) == Success(data)
    decreases |data|
  {
    var n := ChunkSize(h, |data|);
    DataFramesUnfold(h, data);
    if n >= |data| {
      LastChunk(h, data, extra);
    } else {
      DataRoundTripWithTrailing(h, data[n..], extra);
      NextChunk(h, data, extra);
    }
  }

  lemma LastChunk(h: Handler, data: bytes, extra: seq<bytes>)
    requires h.chunkLength > 0 && 0 < |data| <= ChunkSize(h, |data|)
    ensures ParseDataPacket(h, DataFrames(h, data) + extra) == Success(data)
  {
    var n := ChunkSize(h, |data|);
    var p := DataPacket(h, data[..n], true);
    assert data[..n] == data;
    assert Payload(p) == data;
    DataFramesUnfold(h, data);
    var frames := DataFrames(h, data) + extra;
    assert frames[0] == EncodeExact(p);
    ParseFirst(h, frames, p);
  }

  lemma NextChunk(h: Handler, data: bytes, extra: seq<bytes>)
    requires h.chunkLength > 0 && 0 < ChunkSize(h, |data|) < |data|
    requires ParseDataPacket(h, DataFrames(h, data[ChunkSize(h, |data|)..]) + extra)
             == Success(data[ChunkSize(h, |data|)..])
    ensures ParseDataPacket(h, DataFrames(h, data) + extra) == Success(data)
  {
    var n := ChunkSize(h, |data|);
    var p := DataPacket(h, data[..n], false);
    FramesSplit(h, data, extra);
    DataPacketPayload(h, data[..n], false);
    ParseData(h, DataFrames(h, data) + extra, p, data[n..]);
    SplitJoin(data, n);
  }

  lemma DataPacketPayload(h: Handler, chunk: bytes, last: bool)
    requires |chunk| <= MaxDataSize
    ensures Payload(DataPacket(h, chunk, last)) == chunk
  {
  }

  lemma SplitJoin(data: bytes, n: nat)
    requires n <= |data|
    ensures data[..n] + data[n..] == data
  {
  }

  lemma FramesSplit(h: Handler, data: bytes, extra: seq<bytes>)
    requires h.chunkLength > 0 && 0 < |data|
    ensures var n := ChunkSize(h, |data|);
      var frames := DataFrames(h, data) + extra;
      |frames| > 0 && frames[0] == EncodeExact(DataPacket(h, data[..n], n >= |data|))
      && frames[1..] == DataFrames(h, data[n..]) + extra
  {
    DataFramesUnfold(h, data);
  }

  lemma ParseData(h: Handler, frames: seq<bytes>, p: Packet, tail: bytes)
    requires p.tag == BuiltinTag && p.address == h.address && p.length <= MaxDataSize
    requires p.ptype == DataId
    requires |frames| > 0 && frames[0] == EncodeExact(p)
    requires ParseDataPacket(h, frames[1..]) == Success(tail)
    ensures ParseDataPacket(h, frames) == Success(Payload(p) + tail)
  {
    ParseFirst(h, frames, p);
  }

  lemma DataFramesUnfold(h: Handler, data: bytes)
    requires h.chunkLength > 0 && |data| > 0
    ensures var n := ChunkSize(h, |data|);
      0 < n <= |data|
      && DataFrames(h, data) == [EncodeExact(DataPacket(h, data[..n], n >= |data|))] + DataFrames(h, data[n..])
  {
    var n := ChunkSize(h, |data|);
    var ps := DataPackets(h, data);
    assert ps[1..] == DataPackets(h, data[n..]);
  }

  /** Parsing a sequence that starts with an encoded data or end-of-data
      packet. */
  lemma ParseFirst(h: Handler, frames: seq<bytes>, p: Packet)
    requires p.tag == BuiltinTag && p.address == h.address && p.length <= MaxDataSize
    requires p.ptype == DataId || p.ptype == EndDataId
    requires |frames| > 0 && frames[0] == EncodeExact(p)
    ensures p.ptype == EndDataId ==> ParseDataPacket(h, frames) == Success(Payload(p))
    ensures p.ptype == DataId ==>
      ParseDataPacket(h, frames)
      == match ParseDataPacket(h, frames[1..])
         case Failure(e) => Failure(e)
         case Success(rest) => Success(Payload(p) + rest)
  {
    DecodeEncodeExact(p);
  }

  /** What the loop of `construct_data_packet` has built when it stops,
      or `Unfinished` when it has not stopped within `fuel` iterations. */
  datatype Outcome = Built(frames: seq<bytes>) | Unfinished

  /** `construct_data_packet` as written, for every handler, with at most
      `fuel` iterations of its loop.  A positive `length_` finishes within
      one iteration per byte, with the frames of `DataFrames`. */
  function ConstructDataPacketAsWritten(h: Handler, data: bytes, fuel: nat): (r: Outcome)
    ensures h.chunkLength > 0 && fuel >= |data| ==> r == Built(DataFrames(h, data))
    decreases fuel
  {
    if |data| == 0 then Built([])
    else if fuel == 0 then Unfinished
    else
      var n := ChunkSize(h, |data|);
      match ConstructDataPacketAsWritten(h, data[n..], fuel - 1)
      case Unfinished => Unfinished
      case Built(rest) =>
        var frames := [EncodeExact(DataPacket(h, data[..n], n >= |data|))] + rest;
        assert h.chunkLength > 0 && fuel >= |data| ==> frames == DataFrames(h, data) by {
          if h.chunkLength > 0 && fuel >= |data| {
            DataFramesUnfold(h, data);
          }
        }
        Built(frames)
  }

  /** With `length_` = 0 every iteration takes no bytes, so the loop never
      ends on non-empty data, however many iterations it is given. */
  lemma {:induction false} ZeroChunkLengthNeverEnds(h: Handler, data: bytes, fuel: nat)
    requires h.chunkLength == 0 && |data| > 0
    ensures ConstructDataPacketAsWritten(h, data, fuel) == Unfinished
    decreases fuel
  {
    if fuel > 0 {
      assert ChunkSize(h, |data|) == 0;
      assert data[0..] == data;
      ZeroChunkLengthNeverEnds(h, data, fuel - 1);
    }
  }

  /** The data length the corrected loop uses: a zero `length_` falls back
      to the default of 128. */
  function EffectiveChunkLength(h: Handler): (r: uint16)
    ensures r > 0
    ensures h.chunkLength > 0 ==> r == h.chunkLength
  {
    if h.chunkLength == 0 then DefaultHandler.chunkLength else h.chunkLength
  }

  /** `construct_data_packet` with a zero `length_` replaced by the default:
      defined, and round-tripping, for every handler. */
  function ConstructDataPacketCorrected(h: Handler, data: bytes): (r: seq<bytes>)
    ensures ParseDataPacket(h, r) == Success(data)
    ensures h.chunkLength > 0 ==> r == DataFrames(h, data)
  {
    var h' := h.(chunkLength := EffectiveChunkLength(h));
    DataRoundTrip(h', data);
    ParseSameAddress(h, h', DataFrames(h', data));
    DataFrames(h', data)
  }

  /** Parsing depends on the handler's address only. */
  lemma {:induction false} ParseSameAddress(h: Handler, h': Handler, frames: seq<bytes>)
    requires h.address == h'.address
    ensures ParseDataPacket(h, frames) == ParseDataPacket(h', frames)
    decreases |frames|
  {
    if |frames| > 0 {
      ParseSameAddress(h, h', frames[1..]);
    }
  }
}

=== FILE: secure_value.dfy ===
/** `include/carbio/utility/secure_value.h`: a wrapper around one trivially
    copyable value (a match score, a user index) that overwrites it with
    `T{}` when it is cleared, moved from or destroyed.

    `T{}` is the parameter `zero`. Copies are modelled as the code writes
    them: they leave the source as it was. Self-assignment, which the code
    turns into a no-op, is not modelled (values have no identity here). */
module SecureValue {

  datatype Secure<T> = Secure(value: T)

  /** `get()` and the conversion to `T`. */
  function Get<T>(s: Secure<T>): T
  {
    s.value
  }

  /** The default constructor: `T{}`. */
  function Default<T>(zero: T): (r: Secure<T>)
    ensures Get(r) == zero
  {
    Secure(zero)
  }

  /** `secure_value(val)`. */
  function Make<T>(v: T): (r: Secure<T>)
    ensures Get(r) == v
  {
    Secure(v)
  }

  /** `set(val)` and assignment from a `T`. */
  function Set<T>(s: Secure<T>, v: T): (r: Secure<T>)
    ensures Get(r) == v
  {
    s.(value := v)
  }

  /** `clear()`. */
  function Clear<T>(s: Secure<T>, zero: T): (r: Secure<T>)
    ensures Get(r) == zero
  {
    s.(value := zero)
  }

  /** The move constructor: the new value (first) takes the source's value,
      the source (second) is cleared. */
  function MoveConstruct<T>(src: Secure<T>, zero: T): (r: (Secure<T>, Secure<T>))
    ensures Get(r.0) == Get(src) && Get(r.1) == zero
  {
    (Secure(src.value), Clear(src, zero))
  }

  /** Move assignment: the destination (first) is cleared, then takes the
      source's value; the source (second) is cleared. */
  function MoveAssign<T>(dst: Secure<T>, src: Secure<T>, zero: T): (r: (Secure<T>, Secure<T>))
    ensures Get(r.0) == Get(src) && Get(r.1) == zero
  {
    (Clear(dst, zero).(value := src.value), Clear(src, zero))
  }

  /** The copy constructor: the copy (first) has the source's value and the
      source (second) keeps it. */
  function CopyConstruct<T>(src: Secure<T>): (r: (Secure<T>, Secure<T>))
    ensures Get(r.0) == Get(src) && r.1 == src
  {
    (Secure(src.value), src)
  }

  /** Copy assignment: the destination is cleared, then takes the source's
      value; the source keeps it. */
  function CopyAssign<T>(dst: Secure<T>, src: Secure<T>, zero: T): (r: (Secure<T>, Secure<T>))
    ensures Get(r.0) == Get(src) && r.1 == src
  {
    (Clear(dst, zero).(value := src.value), src)
  }

  /** Copies and moves give the destination the same value; they differ
      only in what is left at the source, which a copy does not clear. */
  lemma CopyKeepsWhatMoveClears<T>(dst: Secure<T>, src: Secure<T>, zero: T)
    ensures CopyAssign(dst, src, zero).0 == MoveAssign(dst, src, zero).0
    ensures CopyConstruct(src).0 == MoveConstruct(src, zero).0
    ensures Get(CopyAssign(dst, src, zero).1) == Get(src) && Get(MoveAssign(dst, src, zero).1) == zero
  {
  }

  /** `==` between two wrappers: the wrapped values are equal. */
  predicate Equal<T(==)>(a: Secure<T>, b: Secure<T>)
  {
    a.value == b.value
  }

  /** `==` against a plain value. */
  predicate EqualsValue<T(==)>(a: Secure<T>, v: T)
  {
    a.value == v
  }

  /** The comparisons look through the wrapper: a copy compares equal to
      its source, the comparison is symmetric, `!=` is the negation of
      equal values, and a wrapper equals a plain value exactly when it was
      made from it. */
  lemma ComparisonsAreValueEquality<T>(a: Secure<T>, b: Secure<T>, v: T)
    ensures Equal(CopyConstruct(a).0, a) && (Equal(a, b) <==> Equal(b, a))
    ensures !Equal(a, b) <==> Get(a) != Get(b)
    ensures EqualsValue(a, v) <==> a == Make(v)
  {
  }

  // ---------------------------------------------------------------------
  // Histories

  /** What can happen to one wrapper after it was constructed. */
  datatype Op<T> =
    | SetTo(v: T)
    | Cleared
    | CopiedIn(from: T)
    | MovedIn(from: T)
    | CopiedOut
    | MovedOut

  function Apply<T>(s: Secure<T>, op: Op<T>, zero: T): Secure<T>
  {
    match op
    case SetTo(v) => Set(s, v)
    case Cleared => Clear(s, zero)
    case CopiedIn(v) => CopyAssign(s, Make(v), zero).0
    case MovedIn(v) => MoveAssign(s, Make(v), zero).0
    case CopiedOut => CopyConstruct(s).1
    case MovedOut => MoveConstruct(s, zero).1
  }

  function Run<T>(s: Secure<T>, ops: seq<Op<T>>, zero: T): Secure<T>
    decreases |ops|
  {
    if |ops| == 0 then s else Run(Apply(s, ops[0], zero), ops[1..], zero)
  }

  /** The reference: the value last written, looking back from the end of
      the history; copying out writes nothing, clearing or moving out
      writes `T{}`. */
  function LastWritten<T>(init: T, ops: seq<Op<T>>, zero: T): T
    decreases |ops|
  {
    if |ops| == 0 then init
    else match ops[|ops| - 1]
      case SetTo(v) => v
      case CopiedIn(v) => v
      case MovedIn(v) => v
      case Cleared => zero
      case MovedOut => zero
      case CopiedOut => LastWritten(init, ops[..|ops| - 1], zero)
  }

  lemma {:induction false} RunSnoc<T>(s: Secure<T>, ops: seq<Op<T>>, op: Op<T>, zero: T)
    ensures Run(s, ops + [op], zero) == Apply(Run(s, ops, zero), op, zero)
    decreases |ops|
  {
    if |ops| > 0 {
      assert (ops + [op])[1..] == ops[1..] + [op];
      RunSnoc(Apply(s, ops[0], zero), ops[1..], op, zero);
    }
  }

  /** `get` returns the last value constructed, set or assigned: after any
      history the wrapper holds exactly what the history last wrote. */
  lemma {:induction false} GetReturnsLastWritten<T>(init: T, ops: seq<Op<T>>, zero: T)
    ensures Get(Run(Make(init), ops, zero)) == LastWritten(init, ops, zero)
    decreases |ops|
  {
    if |ops| > 0 {
      var front := ops[..|ops| - 1];
      assert ops == front + [ops[|ops| - 1]];
      RunSnoc(Make(init), front, ops[|ops| - 1], zero);
      GetReturnsLastWritten(init, front, zero);
    }
  }
}

=== FILE: security_types.dfy ===
/** The vocabulary the admin-security classes share
    (`cli/security_types.h`): audit events, authentication results, the
    admin id range and the timing and size constants. */
module SecurityTypes {
  import opened Bytes

  datatype SecurityEvent =
    | AdminAccessAttempt | AdminAccessGranted | AdminAccessDenied
    | PasswordVerified | PasswordFailed | FingerprintVerified | FingerprintFailed
    | TokenGenerated | TokenValidated | TokenExpired | TokenInvalid
    | UnauthorizedAccess | RateLimitExceeded | SessionStarted | SessionEnded

  datatype AuthResult =
    | Success | InvalidPassword | InvalidFingerprint | NotAdmin
    | RateLimited | TokenExpired | TokenInvalid | SystemError

  /** Fingerprint ids 0..2 are the admins. */
  const AdminIdMin: uint16 := 0
  const AdminIdMax: uint16 := 2
  const MinAdminConfidence: uint16 := 150

  const ChallengeWindowSeconds: int := 30
  const TokenLifetimeSeconds: int := 300
  const MaxAuthAttempts: int := 3
  const LockoutDurationSeconds: int := 300

  const SaltSize: nat := 16
  const HashSize: nat := 32
  const NonceSize: nat := 16
  const TokenSize: nat := 32
  const HmacSize: nat := 32

  /** A SHA-256 digest or HMAC-SHA-256 tag. */
  type Digest = s: bytes | |s| == 32
    witness [0, 0, 0, 0, 0, 0, 0, 0, 0, 0, 0, 0, 0, 0, 0, 0, 0, 0, 0, 0, 0, 0, 0, 0, 0, 0, 0, 0, 0, 0, 0, 0]

  predicate IsAdminId(id: uint16) { AdminIdMin <= id <= AdminIdMax }
}

=== FILE: sensor_command.dfy ===
/** The commands the sensor worker executes (`cli/sensor_command.h`) and the
    comparator that orders them in its priority queue: by priority, then by
    type, then by parameter. The `execute` callback is an opaque handle. */
module SensorCommand {
  import opened Bytes

  /** `CommandPriority`: Low 0, High 1, Critical 2. */
  datatype Priority = Low | High | Critical

  /** `CommandType`: None 0, AdminPoll 1, OperationalPoll 2. */
  datatype CommandType = NoPoll | AdminPoll | OperationalPoll

  function PriorityValue(p: Priority): uint8
  {
    match p
    case Low => 0
    case High => 1
    case Critical => 2
  }

  function TypeValue(t: CommandType): uint8
  {
    match t
    case NoPoll => 0
    case AdminPoll => 1
    case OperationalPoll => 2
  }

  /** `SensorCommand`; `action` stands for the `execute` callback. */
  datatype Command = Command(priority: Priority, ctype: CommandType, action: nat, parameter: int32)

  /** `SensorCommandComparator`: `Less(a, b)` means `b` is served first. */
  predicate Less(a: Command, b: Command)
  {
    var pa, pb := PriorityValue(a.priority), PriorityValue(b.priority);
    if pa != pb then pa < pb
    else
      var ta, tb := TypeValue(a.ctype), TypeValue(b.ctype);
      if ta != tb then ta < tb
      else a.parameter < b.parameter
  }

  /** An independent reading of the order: priority, type and parameter
      packed into one integer, most significant first. */
  function Rank(c: Command): (r: int)
    ensures 0 <= r < 9 * 0x1_0000_0000
  {
    (PriorityValue(c.priority) * 3 + TypeValue(c.ctype)) * 0x1_0000_0000 + (c.parameter + 0x8000_0000)
  }

  /** The comparator is exactly the order of ranks. */
  lemma LessIsRankOrder(a: Command, b: Command)
    ensures Less(a, b) <==> Rank(a) < Rank(b)
  {
    var ka := PriorityValue(a.priority) * 3 + TypeValue(a.ctype);
    var kb := PriorityValue(b.priority) * 3 + TypeValue(b.ctype);
    if ka < kb {
      RankMajor(ka, kb, a.parameter + 0x8000_0000, b.parameter + 0x8000_0000);
    } else if kb < ka {
      RankMajor(kb, ka, b.parameter + 0x8000_0000, a.parameter + 0x8000_0000);
    }
  }

  /** A smaller major key gives a smaller rank whatever the minor keys. */
  lemma RankMajor(k1: int, k2: int, m1: int, m2: int)
    requires k1 < k2 && 0 <= m1 < 0x1_0000_0000 && 0 <= m2 < 0x1_0000_0000
    ensures k1 * 0x1_0000_0000 + m1 < k2 * 0x1_0000_0000 + m2
  {
    assert (k2 - k1) * 0x1_0000_0000 >= 0x1_0000_0000;
  }

  /** Ties are exactly commands with the same priority, type and parameter;
      the callback plays no part. */
  lemma TiesAreEqualKeys(a: Command, b: Command)
    ensures !Less(a, b) && !Less(b, a) <==>
      a.priority == b.priority && a.ctype == b.ctype && a.parameter == b.parameter
  {
  }

  /** The comparator is a strict weak order: irreflexive, asymmetric,
      transitive, and incomparability is transitive. */
  lemma StrictWeakOrder(a: Command, b: Command, c: Command)
    ensures !Less(a, a)
    ensures Less(a, b) ==> !Less(b, a)
    ensures Less(a, b) && Less(b, c) ==> Less(a, c)
    ensures !Less(a, b) && !Less(b, a) && !Less(b, c) && !Less(c, b) ==> !Less(a, c) && !Less(c, a)
  {
    LessIsRankOrder(a, b);
    LessIsRankOrder(b, a);
    LessIsRankOrder(b, c);
    LessIsRankOrder(c, b);
    LessIsRankOrder(a, c);
    LessIsRankOrder(c, a);
  }

  /** A command of higher priority is served before any of lower priority,
      whatever the types and parameters. */
  lemma PriorityDominates(a: Command, b: Command)
    requires PriorityValue(a.priority) < PriorityValue(b.priority)
    ensures Less(a, b) && !Less(b, a)
  {
  }
}

=== FILE: sensor_command_queue.dfy ===
/** The worker's command queue (`cli/sensor_command_queue.h`): a priority
    queue under `SensorCommandComparator` with an atomic "has data" flag
    beside it. Only the sequential behaviour is modelled; the spin lock and
    the busy wait of `pop` are not.

    The queue is held as the list of commands in the order they arrived.
    Which of several equally ranked commands the heap hands out first is
    not specified by the source; the model takes the earliest, and the
    contracts promise only a maximal one. */
module CommandQueue {
  import opened SensorCommand

  datatype Queue = Queue(items: seq<Command>, hasData: bool)

  /** A default-constructed queue. */
  const Empty: Queue := Queue([], false)

  /** The flag says whether there is anything queued. */
  predicate Valid(q: Queue)
  {
    q.hasData <==> |q.items| > 0
  }

  /** No queued command is served before `c`. */
  predicate IsFirst(c: Command, s: seq<Command>)
  {
    forall x :: x in s ==> !Less(c, x)
  }

  /** `push`: adds exactly the one command and raises the flag. */
  function Push(q: Queue, cmd: Command): (r: Queue)
    ensures multiset(r.items) == multiset(q.items) + multiset{cmd}
    ensures r.hasData && Valid(r)
  {
    Queue(q.items + [cmd], true)
  }

  /** The position of the earliest command no other command outranks. */
  function MaxIndex(s: seq<Command>): (k: nat)
    requires |s| > 0
    ensures k < |s| && forall j :: 0 <= j < |s| ==> !Less(s[k], s[j])
    decreases |s|
  {
    if |s| == 1 then 0
    else
      var k := MaxIndex(s[..|s| - 1]);
      assert forall j :: 0 <= j < |s| - 1 ==> s[..|s| - 1][j] == s[j];
      RankOrder();
      if Less(s[k], s[|s| - 1]) then |s| - 1 else k
  }

  /** The comparator as the order of ranks, for all commands at once. */
  lemma RankOrder()
    ensures forall a, b :: Less(a, b) <==> Rank(a) < Rank(b)
  {
    forall a, b
      ensures Less(a, b) <==> Rank(a) < Rank(b)
    {
      LessIsRankOrder(a, b);
    }
  }

  /** `pop` on a queue with data: removes one command that no other queued
      command outranks, and lowers the flag when it was the last. */
  function Pop(q: Queue): (r: (Command, Queue))
    requires q.hasData && Valid(q)
    ensures r.0 in q.items && IsFirst(r.0, q.items)
    ensures multiset(r.1.items) + multiset{r.0} == multiset(q.items)
    ensures Valid(r.1) && (r.1.hasData <==> |q.items| > 1)
  {
    var s := q.items;
    var k := MaxIndex(s);
    assert s == s[..k] + [s[k]] + s[k + 1..];
    var rest := s[..k] + s[k + 1..];
    (s[k], Queue(rest, |rest| > 0))
  }

  /** `tryPop`: false and no change while the flag is down; a raised flag
      over an empty queue is lowered; otherwise as `pop`, with the command
      written to `out`. */
  function TryPop(q: Queue, out: Command): (r: (bool, Command, Queue))
    ensures !q.hasData ==> r == (false, out, q)
    ensures q.hasData && |q.items| == 0 ==> r == (false, out, Empty)
    ensures r.0 <==> q.hasData && |q.items| > 0
    ensures r.0 ==> r.1 in q.items && IsFirst(r.1, q.items)
                    && multiset(r.2.items) + multiset{r.1} == multiset(q.items) && Valid(r.2)
  {
    if !q.hasData then (false, out, q)
    else if |q.items| == 0 then (false, out, Empty)
    else
      var (cmd, rest) := Pop(q);
      (true, cmd, rest)
  }

  /** The commands of `s` that `drop` does not select, in order. */
  function Keep(s: seq<Command>, drop: Command -> bool): (r: seq<Command>)
    ensures forall c :: multiset(r)[c] == if drop(c) then 0 else multiset(s)[c]
    ensures forall c :: c in r ==> !drop(c)
    ensures |r| <= |s|
    decreases |s|
  {
    if |s| == 0 then []
    else
      var init := s[..|s| - 1];
      assert s == init + [s[|s| - 1]];
      Keep(init, drop) + (if drop(s[|s| - 1]) then [] else [s[|s| - 1]])
  }

  /** What both clear operations leave: the kept commands, and the flag
      lowered if none are left (it is never raised). */
  function Cleared(q: Queue, drop: Command -> bool): Queue
  {
    var kept := Keep(q.items, drop);
    Queue(kept, if |kept| == 0 then false else q.hasData)
  }

  /** `clearType`: removes all and only the commands of that type. */
  function ClearType(q: Queue, t: CommandType): (r: Queue)
    ensures forall c :: multiset(r.items)[c] == if c.ctype == t then 0 else multiset(q.items)[c]
    ensures |r.items| <= |q.items|
    ensures Valid(q) ==> Valid(r)
  {
    Cleared(q, (c: Command) => c.ctype == t)
  }

  /** `clearLowPriority`: removes all and only the Low commands. */
  function ClearLowPriority(q: Queue): (r: Queue)
    ensures forall c :: multiset(r.items)[c] == if c.priority == Low then 0 else multiset(q.items)[c]
    ensures |r.items| <= |q.items|
    ensures Valid(q) ==> Valid(r)
  {
    Cleared(q, (c: Command) => c.priority == Low)
  }

  /** `empty`: reads the flag, which on a valid queue means no commands. */
  function IsEmpty(q: Queue): (r: bool)
    ensures Valid(q) ==> (r <==> |q.items| == 0)
  {
    !q.hasData
  }

  /** `size`: the number of queued commands. */
  function Size(q: Queue): (r: nat)
    ensures Valid(q) ==> (r == 0 <==> IsEmpty(q))
  {
    |q.items|
  }

  /** Each push adds one to the size, each pop takes one away, and
      clearing never adds any. */
  lemma SizeCounts(q: Queue, cmd: Command, t: CommandType)
    ensures Size(Push(q, cmd)) == Size(q) + 1
    ensures q.hasData && Valid(q) ==> Size(Pop(q).1) == Size(q) - 1
    ensures Size(ClearType(q, t)) <= Size(q) && Size(ClearLowPriority(q)) <= Size(q)
  {
    assert |multiset(Push(q, cmd).items)| == |multiset(q.items)| + 1;
    if q.hasData && Valid(q) {
      var (c, rest) := Pop(q);
      assert |multiset(rest.items)| + 1 == |multiset(q.items)|;
    }
  }

  /** While an admin-authentication command is queued, nothing of lower
      priority is served. */
  lemma CriticalServedFirst(q: Queue, c: Command)
    requires q.hasData && Valid(q) && c in q.items && c.priority == Critical
    ensures Pop(q).0.priority == Critical
  {
    var first := Pop(q).0;
    if first.priority != Critical {
      PriorityDominates(first, c);
    }
  }

  /** Commands come out in order: the second pop never serves a command
      that outranks the first. */
  lemma PopOrderNonIncreasing(q: Queue)
    requires q.hasData && Valid(q) && |q.items| > 1
    ensures var (first, rest) := Pop(q); !Less(first, Pop(rest).0)
  {
    var (first, rest) := Pop(q);
    var second := Pop(rest).0;
    assert multiset(rest.items)[second] > 0;
    assert second in q.items;
  }

  /** A pushed command that outranks everything queued is the next one
      served. */
  lemma PushedMaxServedNext(q: Queue, cmd: Command)
    requires forall x :: x in q.items ==> Less(x, cmd)
    ensures Pop(Push(q, cmd)).0 == cmd
  {
    var p := Push(q, cmd);
    var first := Pop(p).0;
    assert first in multiset(p.items);
  }
}

=== FILE: sensor_worker.dfy ===
/** The sensor side of the access-control application, `cli/sensor_worker.cpp`:
    how the fast polling ticks and the older one-shot attempts classify what
    the sensor reports, the dialog operations that wait for a finger, and
    the two-scan enrollment.

    A capture and a feature extraction are the status bytes the sensor
    returned (`Success` when it worked); a search is the match or the error
    status; the other sensor calls are success flags. Progress signals,
    messages and the sensor-state reset capture are not modelled. */
module SensorWorker {
  import opened Wrappers
  import StatusCodes
  import FingerprintSensor
  import Controller

  type Status = StatusCodes.Status

  // ---------------------------------------------------------------------
  // Error classification

  /** The capture errors a poll tick waits out: communication trouble and
      images not good enough yet. */
  predicate TransientCaptureError(s: Status)
  {
    s == StatusCodes.FrameError || s == StatusCodes.Timeout || s == StatusCodes.BadPacket
    || s == StatusCodes.CommunicationError || s == StatusCodes.HardwareFault
    || s == StatusCodes.ImageCaptureError || s == StatusCodes.ImageTooFaint || s == StatusCodes.ImageTooBlurry
    || s == StatusCodes.ImageTooDistorted || s == StatusCodes.ImageTooFewFeatures
  }

  /** The feature-extraction errors a poll tick waits out. */
  predicate TransientExtractError(s: Status)
  {
    s == StatusCodes.FrameError || s == StatusCodes.Timeout || s == StatusCodes.BadPacket
    || s == StatusCodes.CommunicationError || s == StatusCodes.HardwareFault
    || s == StatusCodes.ImageTooFaint || s == StatusCodes.ImageTooBlurry
    || s == StatusCodes.ImageTooDistorted || s == StatusCodes.ImageTooFewFeatures
  }

  /** The search errors that mean the finger is not enrolled. */
  predicate Rejected(s: Status)
  {
    s == StatusCodes.NoMatch || s == StatusCodes.NotFound
  }

  /** The extraction set is the capture set without `image_capture_error`;
      neither contains `no_finger`, success or a rejection. */
  lemma TransientSets(s: Status)
    ensures TransientExtractError(s) <==> TransientCaptureError(s) && s != StatusCodes.ImageCaptureError
    ensures TransientCaptureError(s) ==> s != StatusCodes.NoFinger && s != StatusCodes.Success && !Rejected(s)
  {
  }

  // ---------------------------------------------------------------------
  // Poll ticks and one-shot attempts

  /** The sensor step a failure is reported for. */
  datatype Stage = SensorStage | CaptureStage | ExtractStage | SearchStage

  /** What a tick or an attempt emits. */
  datatype Signal = Quiet | NoFinger | Failed(stage: Stage) | Matched(result: FingerprintSensor.SearchResult)

  /** The signal of a poll tick, and whether its timer still runs after it. */
  datatype Tick = Tick(signal: Signal, polling: bool)

  /** A completed capture, extraction and search. */
  predicate Succeeds(capture: Status, extract: Status, search: Result<FingerprintSensor.SearchResult, Status>)
  {
    capture == StatusCodes.Success && extract == StatusCodes.Success && search.Success?
  }

  /** `onAuthPollTick` and `onAdminPollTick` of a running timer: no finger
      and transient capture errors keep polling silently, and other capture
      errors are reported with the timer still running; a finger stops the
      timer; transient extraction errors and search errors other than a
      rejection restart it silently; other extraction errors and rejections
      are reported; a match is reported. `withoutSensor` is what the tick
      emits when there is no sensor. */
  function PollTick(sensor: bool, withoutSensor: Signal, capture: Status, extract: Status,
                    search: Result<FingerprintSensor.SearchResult, Status>): (r: Tick)
    ensures !sensor ==> r == Tick(withoutSensor, true)
    ensures sensor ==> r.signal != NoFinger
    ensures sensor ==> (r.signal.Matched? <==> Succeeds(capture, extract, search))
    ensures r.signal.Matched? && sensor ==> r.signal.result == search.value
    ensures sensor ==>
      (r.signal == Failed(CaptureStage) <==>
       capture != StatusCodes.Success && capture != StatusCodes.NoFinger && !TransientCaptureError(capture))
    ensures sensor ==>
      (r.signal == Failed(ExtractStage) <==>
       capture == StatusCodes.Success && extract != StatusCodes.Success && !TransientExtractError(extract))
    ensures sensor ==>
      (r.signal == Failed(SearchStage) <==>
       capture == StatusCodes.Success && extract == StatusCodes.Success && search.Failure? && Rejected(search.error))
    ensures sensor ==> (r.polling <==> r.signal == Quiet || r.signal == Failed(CaptureStage))
  {
    if !sensor then Tick(withoutSensor, true)
    else if capture == StatusCodes.NoFinger then Tick(Quiet, true)
    else if capture != StatusCodes.Success then
      if TransientCaptureError(capture) then Tick(Quiet, true) else Tick(Failed(CaptureStage), true)
    else if extract != StatusCodes.Success then
      if TransientExtractError(extract) then Tick(Quiet, true) else Tick(Failed(ExtractStage), false)
    else match search
      case Failure(e) => if Rejected(e) then Tick(Failed(SearchStage), false) else Tick(Quiet, true)
      case Success(m) => Tick(Matched(m), false)
  }

  /** `onAuthPollTick`: without a sensor it reports no finger. */
  function AuthPollTick(sensor: bool, capture: Status, extract: Status,
                        search: Result<FingerprintSensor.SearchResult, Status>): Tick
  {
    PollTick(sensor, NoFinger, capture, extract, search)
  }

  /** `onAdminPollTick`: without a sensor it reports a failure. */
  function AdminPollTick(sensor: bool, capture: Status, extract: Status,
                         search: Result<FingerprintSensor.SearchResult, Status>): Tick
  {
    PollTick(sensor, Failed(SensorStage), capture, extract, search)
  }

  /** `performAuthentication` and `performAdminAuthentication`, the
      one-shot attempts: the same classification, but every case a poll
      tick waits out is reported as no finger. */
  function Attempt(sensor: bool, withoutSensor: Signal, capture: Status, extract: Status,
                   search: Result<FingerprintSensor.SearchResult, Status>): (r: Signal)
    ensures !sensor ==> r == withoutSensor
    ensures sensor ==> r != Quiet
    ensures sensor ==> (r.Matched? <==> Succeeds(capture, extract, search))
  {
    if !sensor then withoutSensor
    else if capture == StatusCodes.NoFinger then NoFinger
    else if capture != StatusCodes.Success then
      if TransientCaptureError(capture) then NoFinger else Failed(CaptureStage)
    else if extract != StatusCodes.Success then
      if TransientExtractError(extract) then NoFinger else Failed(ExtractStage)
    else match search
      case Failure(e) => if Rejected(e) then Failed(SearchStage) else NoFinger
      case Success(m) => Matched(m)
  }

  /** The one-shot attempt reports exactly what the poll tick reports,
      except that it says "no finger" wherever the tick stays quiet. */
  lemma AttemptAgreesWithTick(capture: Status, extract: Status, search: Result<FingerprintSensor.SearchResult, Status>,
                              withoutSensor: Signal)
    ensures var t := PollTick(true, withoutSensor, capture, extract, search).signal;
      var a := Attempt(true, withoutSensor, capture, extract, search);
      (t == Quiet <==> a == NoFinger) && (t != Quiet ==> a == t)
  {
  }

  /** A serious capture error leaves the timer running, so every tick
      reports it again while the error lasts. */
  lemma CaptureFailureRepeats(capture: Status, extract: Status, search: Result<FingerprintSensor.SearchResult, Status>)
    requires capture != StatusCodes.Success && capture != StatusCodes.NoFinger && !TransientCaptureError(capture)
    ensures AuthPollTick(true, capture, extract, search) == Tick(Failed(CaptureStage), true)
    ensures AdminPollTick(true, capture, extract, search) == Tick(Failed(CaptureStage), true)
  {
  }

  // ---------------------------------------------------------------------
  // Dialog operations

  /** `OperationType`. */
  datatype Operation = NoOperation | Find | Identify | Verify | Enroll

  /** The worker's operation state: the pending operation, its id, the
      enrollment stage and whether the operation timer runs. */
  datatype Worker = Worker(operation: Operation, parameter: int, stage: int, polling: bool)

  const Idle: Worker := Worker(NoOperation, 0, 0, false)

  /** What a dialog operation emits. */
  datatype Outcome =
    | Waiting
    | OperationFailed
    | OperationComplete
    | Identified(result: FingerprintSensor.SearchResult)
    | EnrollmentProgress
    | EnrollmentFailed
    | EnrollmentComplete(id: int)

  /** What the sensor answers to the calls one completed step makes:
      feature extraction, loading a template, the search, building the
      model and storing it. */
  datatype Replies = Replies(extractOk: bool, loadOk: bool, search: Option<FingerprintSensor.SearchResult>,
                             createOk: bool, storeOk: bool)

  /** `enrollFingerprint`: refuses without a sensor or for an id outside
      1..127; otherwise arms an enrollment at stage 0 and starts polling. */
  function EnrollFingerprint(w: Worker, sensor: bool, id: int): (r: (Worker, Outcome))
    ensures r.1 == Waiting <==> sensor && Controller.IsTemplateId(id)
    ensures r.1 == Waiting ==> r.0 == Worker(Enroll, id, 0, true)
    ensures r.1 != Waiting ==> r == (w, EnrollmentFailed)
  {
    if !sensor || id < 1 || id > 127 then (w, EnrollmentFailed)
    else (Worker(Enroll, id, 0, true), Waiting)
  }

  /** `findFingerprint`, `identifyFingerprint` and `verifyFingerprint`: arm
      the operation and start polling. */
  function StartOperation(w: Worker, sensor: bool, op: Operation, id: int): (r: (Worker, Outcome))
    requires op == Find || op == Identify || op == Verify
    ensures !sensor ==> r == (w, OperationFailed)
    ensures sensor ==> r == (w.(operation := op, parameter := if op == Verify then id else 0, polling := true), Waiting)
  {
    if !sensor then (w, OperationFailed)
    else (w.(operation := op, parameter := if op == Verify then id else 0, polling := true), Waiting)
  }

  /** `completeFindOperation` and `completeIdentifyOperation`. */
  function CompleteSearch(replies: Replies): (r: Outcome)
    ensures r.Identified? <==> replies.extractOk && replies.search.Some?
    ensures r.Identified? ==> r.result == replies.search.value
    ensures !r.Identified? ==> r == OperationFailed
  {
    if !replies.extractOk || replies.search.None? then OperationFailed
    else Identified(replies.search.value)
  }

  /** `completeVerifyOperation`: the stored template must load, and the
      search limited to it must report that very id (as a 16-bit value). */
  function CompleteVerify(id: int, replies: Replies): (r: Outcome)
    ensures r.Identified? <==>
      replies.extractOk && replies.loadOk && replies.search.Some?
      && replies.search.value.fingerId as int == id % 0x1_0000
    ensures !r.Identified? ==> r == OperationFailed
  {
    if !replies.extractOk || !replies.loadOk then OperationFailed
    else if replies.search.None? || replies.search.value.fingerId as int != id % 0x1_0000 then OperationFailed
    else Identified(replies.search.value)
  }

  /** `continueEnrollmentOperation`: stage 0 makes the first template and
      re-arms the enrollment for the second scan; stage 1 makes the second
      template, builds the model, stores it under the id and returns to
      stage 0. A failed step reports the failure and keeps the stage. */
  function ContinueEnrollment(w: Worker, replies: Replies): (r: (Worker, Outcome))
    ensures w.stage == 0 && replies.extractOk ==>
      r == (w.(stage := 1, operation := Enroll, polling := true), EnrollmentProgress)
    ensures w.stage == 1 && replies.extractOk && replies.createOk && replies.storeOk ==>
      r == (w.(stage := 0), EnrollmentComplete(w.parameter))
    ensures r.1.EnrollmentComplete? ==> w.stage == 1 && replies.extractOk && replies.createOk && replies.storeOk
    ensures r.1 == EnrollmentFailed ==> r.0 == w
    ensures w.stage != 0 && w.stage != 1 ==> r == (w, Waiting)
  {
    if w.stage == 0 then
      if !replies.extractOk then (w, EnrollmentFailed)
      else (w.(stage := 1, operation := Enroll, polling := true), EnrollmentProgress)
    else if w.stage == 1 then
      if !replies.extractOk || !replies.createOk || !replies.storeOk then (w, EnrollmentFailed)
      else (w.(stage := 0), EnrollmentComplete(w.parameter))
    else (w, Waiting)
  }

  /** The `switch` of `onOperationPollTick`: completes the operation `op`. */
  function Dispatch(op: Operation, w: Worker, replies: Replies): (r: (Worker, Outcome))
    ensures r.1.EnrollmentComplete? ==> op == Enroll && w.stage == 1
    ensures op != Enroll ==> r.0 == w
  {
    match op
    case NoOperation => (w, Waiting)
    case Find => (w, CompleteSearch(replies))
    case Identify => (w, CompleteSearch(replies))
    case Verify => (w, CompleteVerify(w.parameter, replies))
    case Enroll => ContinueEnrollment(w, replies)
  }

  /** The capture part of `onOperationPollTick`: `None` keeps polling
      without a word, `Some(o)` stops the timer and reports `o`, and
      `Some(Waiting)` is a finger on the sensor. */
  function OperationCapture(sensor: bool, capture: Status): (r: Option<Outcome>)
    ensures r == Some(Waiting) <==> sensor && capture == StatusCodes.Success
    ensures r.Some? && r != Some(Waiting) ==> r == Some(OperationFailed)
    ensures r.None? <==> sensor && (capture == StatusCodes.NoFinger || TransientCaptureError(capture))
  {
    if !sensor then Some(OperationFailed)
    else if capture == StatusCodes.NoFinger || TransientCaptureError(capture) then None
    else if capture != StatusCodes.Success then Some(OperationFailed)
    else Some(Waiting)
  }

  /** `onOperationPollTick` as written: the operation is set to NONE after
      the dispatch, so the enrollment that stage 0 re-arms is lost. */
  function OnOperationPollTickAsWritten(w: Worker, sensor: bool, capture: Status, replies: Replies)
    : (r: (Worker, Outcome))
    ensures r.1.EnrollmentComplete? ==> w.operation == Enroll && w.stage == 1
    ensures OperationCapture(sensor, capture) == Some(Waiting) ==> r.0.operation == NoOperation
  {
    match OperationCapture(sensor, capture)
    case None => (w, Waiting)
    case Some(o) =>
      if o != Waiting then (w.(polling := false), o)
      else
        var d := Dispatch(w.operation, w.(polling := false), replies);
        (d.0.(operation := NoOperation), d.1)
  }

  /** `onOperationPollTick` with the operation cleared before the
      dispatch, so that a re-armed enrollment survives. */
  function OnOperationPollTick(w: Worker, sensor: bool, capture: Status, replies: Replies): (r: (Worker, Outcome))
    ensures r.1.EnrollmentComplete? ==> w.operation == Enroll && w.stage == 1
    ensures OperationCapture(sensor, capture) == Some(Waiting) && w.operation != Enroll ==> r.0.operation == NoOperation
    ensures OperationCapture(sensor, capture) == Some(Waiting) && w.operation == Enroll && w.stage == 0 && replies.extractOk ==>
      r.0.operation == Enroll && r.0.stage == 1 && r.0.polling
  {
    match OperationCapture(sensor, capture)
    case None => (w, Waiting)
    case Some(o) =>
      if o != Waiting then (w.(polling := false), o)
      else Dispatch(w.operation, w.(polling := false, operation := NoOperation), replies)
  }

  // ---------------------------------------------------------------------
  // Runs of worker events

  /** The requests and timer ticks the worker sees. */
  datatype WorkerEvent =
    | RequestEnroll(id: int)
    | RequestOperation(op: Operation, id: int)
    | OperationTick(capture: Status, replies: Replies)

  function WorkerStep(w: Worker, sensor: bool, e: WorkerEvent, corrected: bool): (Worker, Outcome)
  {
    match e
    case RequestEnroll(id) => EnrollFingerprint(w, sensor, id)
    case RequestOperation(op, id) =>
      if op == Find || op == Identify || op == Verify then StartOperation(w, sensor, op, id) else (w, Waiting)
    case OperationTick(capture, replies) =>
      if corrected then OnOperationPollTick(w, sensor, capture, replies)
      else OnOperationPollTickAsWritten(w, sensor, capture, replies)
  }

  /** Some event of the run reports a finished enrollment. */
  predicate CompletesIn(w: Worker, sensor: bool, es: seq<WorkerEvent>, corrected: bool)
    decreases |es|
  {
    |es| > 0
    && var s := WorkerStep(w, sensor, es[0], corrected);
       s.1.EnrollmentComplete? || CompletesIn(s.0, sensor, es[1..], corrected)
  }

  /** What the worker as written keeps: a pending enrollment is always at
      stage 0. */
  predicate EnrollAtFirstStage(w: Worker)
  {
    w.operation == Enroll ==> w.stage == 0
  }

  lemma AsWrittenStepKeeps(w: Worker, sensor: bool, e: WorkerEvent)
    requires EnrollAtFirstStage(w)
    ensures var s := WorkerStep(w, sensor, e, false); EnrollAtFirstStage(s.0) && !s.1.EnrollmentComplete?
  {
  }

  /** As written, no run of requests and ticks ever finishes an
      enrollment: stage 1 is never dispatched. */
  lemma {:induction false} EnrollmentNeverCompletesAsWritten(w: Worker, sensor: bool, es: seq<WorkerEvent>)
    requires EnrollAtFirstStage(w)
    ensures !CompletesIn(w, sensor, es, false)
    decreases |es|
  {
    if |es| > 0 {
      AsWrittenStepKeeps(w, sensor, es[0]);
      EnrollmentNeverCompletesAsWritten(WorkerStep(w, sensor, es[0], false).0, sensor, es[1..]);
    }
  }

  /** The worker starts with no operation, so the above covers every run. */
  lemma NoEnrollmentFromStart(sensor: bool, es: seq<WorkerEvent>)
    ensures !CompletesIn(Idle, sensor, es, false)
  {
    EnrollmentNeverCompletesAsWritten(Idle, sensor, es);
  }

  /** With the tick corrected, an enrollment request followed by two scans
      whose sensor steps all work finishes the enrollment under the
      requested id and returns to stage 0. */
  lemma EnrollmentCompletes(w: Worker, id: int, replies: Replies)
    requires Controller.IsTemplateId(id) && replies.extractOk && replies.createOk && replies.storeOk
    ensures var e := EnrollFingerprint(w, true, id).0;
      var s1 := OnOperationPollTick(e, true, StatusCodes.Success, replies);
      var s2 := OnOperationPollTick(s1.0, true, StatusCodes.Success, replies);
      s1.1 == EnrollmentProgress && s2.1 == EnrollmentComplete(id) && s2.0.stage == 0
      && s2.0.operation == NoOperation && !s2.0.polling
  {
  }

  /** As written, the same two scans stop after the first template: the
      second scan finds no operation, so nothing is reported and polling
      stops with the enrollment stuck at stage 1. */
  lemma EnrollmentStallsAsWritten(w: Worker, id: int, replies: Replies)
    requires Controller.IsTemplateId(id) && replies.extractOk && replies.createOk && replies.storeOk
    ensures var e := EnrollFingerprint(w, true, id).0;
      var s1 := OnOperationPollTickAsWritten(e, true, StatusCodes.Success, replies);
      var s2 := OnOperationPollTickAsWritten(s1.0, true, StatusCodes.Success, replies);
      s1.1 == EnrollmentProgress && s2.1 == Waiting && s2.0.stage == 1 && !s2.0.polling
  {
  }

  // ---------------------------------------------------------------------
  // Delete and clear

  /** `deleteFingerprint` as written: a failing `erase_model` is reported
      as done and a working one as failed. */
  function DeleteFingerprintAsWritten(sensor: bool, id: int, erased: bool): (r: Outcome)
    ensures r == OperationComplete <==> sensor && Controller.IsTemplateId(id) && !erased
  {
    if !sensor then OperationFailed
    else if id < 1 || id > 127 then OperationFailed
    else if !erased then OperationComplete
    else OperationFailed
  }

  /** `clearDatabase` as written, inverted in the same way. */
  function ClearDatabaseAsWritten(sensor: bool, cleared: bool): (r: Outcome)
    ensures r == OperationComplete <==> sensor && !cleared
  {
    if !sensor then OperationFailed
    else if !cleared then OperationComplete
    else OperationFailed
  }

  /** `deleteFingerprint`, done exactly when the erase worked. */
  function DeleteFingerprint(sensor: bool, id: int, erased: bool): (r: Outcome)
    ensures r == OperationComplete <==> sensor && Controller.IsTemplateId(id) && erased
    ensures r != OperationComplete ==> r == OperationFailed
  {
    if !sensor then OperationFailed
    else if id < 1 || id > 127 then OperationFailed
    else if erased then OperationComplete
    else OperationFailed
  }

  /** `clearDatabase`, done exactly when the library was cleared. */
  function ClearDatabase(sensor: bool, cleared: bool): (r: Outcome)
    ensures r == OperationComplete <==> sensor && cleared
    ensures r != OperationComplete ==> r == OperationFailed
  {
    if !sensor then OperationFailed
    else if cleared then OperationComplete
    else OperationFailed
  }

  /** With a sensor and a valid id, the handlers as written report the
      opposite of the corrected ones for every sensor result. */
  lemma WorkerHandlersInverted(id: int, ok: bool)
    requires Controller.IsTemplateId(id)
    ensures DeleteFingerprintAsWritten(true, id, ok) == DeleteFingerprint(true, id, !ok)
    ensures ClearDatabaseAsWritten(true, ok) == ClearDatabase(true, !ok)
  {
  }
}

=== FILE: seqs.dfy ===
/** Small facts about sequences and sets that several modules use. */
module Seqs {

  lemma PrefixOf<T>(a: seq<T>, b: seq<T>)
    ensures (a + b)[..|a|] == a
  {
  }

  /** Moving one element from the front of the rest to the end of the done
      part keeps the whole. */
  lemma Regroup<T>(a: seq<T>, x: T, b: seq<T>)
    ensures a + ([x] + b) == (a + [x]) + b
  {
  }

  /** A non-empty sequence is its head in front of its tail. */
  lemma HeadTail<T>(s: seq<T>)
    requires |s| > 0
    ensures [s[0]] + s[1..] == s
  {
  }

  lemma Assoc<T>(a: seq<T>, b: seq<T>, c: seq<T>)
    ensures a + b + c == a + (b + c)
  {
  }

  /** Slicing a suffix again is slicing the original. */
  lemma SuffixSlices<T>(s: seq<T>, offset: nat, n: nat)
    requires offset + n <= |s|
    ensures s[offset..][..n] == s[offset..offset + n] && s[offset..][n..] == s[offset + n..]
  {
  }

  /** Replacing element `k` of `s` leaves the other elements in place. */
  lemma UpdateAt<T>(s: seq<T>, k: nat, x: T, w: nat)
    requires k < w <= |s|
    ensures var o := s[k := x];
      o[..k] == s[..k] && o[k..w] == [x] + s[k + 1..w] && o[w..] == s[w..]
      && o[..k + 1] == s[..k] + [x] && o[k + 1..] == s[k + 1..]
  {
  }

  /** Where the elements of a sequence go when element `k` is removed. */
  lemma RemoveAt<T>(s: seq<T>, k: nat)
    requires k < |s|
    ensures var q := s[..k] + s[k + 1..];
      |q| == |s| - 1 && (forall i :: 0 <= i < k ==> q[i] == s[i])
      && (forall i :: k <= i < |q| ==> q[i] == s[i + 1])
  {
  }

  lemma SubsetCard<T>(a: set<T>, b: set<T>)
    requires a <= b
    ensures |a| <= |b|
  {
    assert b == a + (b - a);
  }

  /** `n` copies of `v`. */
  function Repeat<T>(v: T, n: nat): (r: seq<T>)
    ensures |r| == n && forall i :: 0 <= i < n ==> r[i] == v
  {
    if n == 0 then [] else Repeat(v, n - 1) + [v]
  }
}

=== FILE: session_manager.dfy ===
/** The admin session table of `cli/session_manager.cpp`: one slot per
    admin id, each holding at most one signed, single-use token that
    expires five minutes after it was issued.

    The HMAC under the device's secret key is the function parameter
    `hmac`, the random token bytes are a parameter, and `now` is the
    `system_clock` reading in whole seconds. A token travels as the 74-byte
    payload token ‖ signature ‖ timestamp ‖ admin id, the two integers in
    the host's little-endian layout; its Base64 text form is not modelled. */
module SessionManager {
  import opened Bytes
  import opened Wrappers
  import Endian
  import opened SecurityTypes

  const PayloadSize: nat := TokenSize + HmacSize + 8 + 2

  const Two64: int := 0x1_0000_0000_0000_0000

  /** `SessionToken`. */
  datatype Session = Session(token: bytes, signature: bytes, timestamp: uint64, adminId: uint16, used: bool)

  /** `m_activeSessions`: the slots of admins 0, 1 and 2. */
  type Sessions = s: seq<Option<Session>> | |s| == AdminIdMax as int + 1
    witness [None, None, None]

  const NoSessions: Sessions := [None, None, None]

  /** The session signature: HMAC-SHA-256 over token, timestamp and admin id. */
  type Signer = (bytes, uint64, uint16) -> Digest

  /** `currentTime > timestamp + TOKEN_LIFETIME_SECONDS` in 64-bit unsigned
      arithmetic. */
  predicate Expired(timestamp: uint64, now: uint64)
  {
    now > (timestamp + TokenLifetimeSeconds) % Two64
  }

  /** The eight payload bytes of a timestamp and the two of an admin id. */
  function U64Bytes(v: uint64): bytes { Endian.LeBytes(8, v) }
  function U16Bytes(v: uint16): bytes { Endian.LeBytes(2, v) }

  function ReadU64(s: bytes): uint64
    requires |s| == 8
  {
    Endian.LeValueBound(s);
    Endian.LeValue(s)
  }

  function ReadU16(s: bytes): uint16
    requires |s| == 2
  {
    Endian.LeValueBound(s);
    Endian.LeValue(s)
  }

  lemma U64RoundTrip(v: uint64)
    ensures |U64Bytes(v)| == 8 && ReadU64(U64Bytes(v)) == v
  {
    Endian.LittleEndianBytes(8, v);
  }

  lemma U16RoundTrip(v: uint16)
    ensures |U16Bytes(v)| == 2 && ReadU16(U16Bytes(v)) == v
  {
    Endian.LittleEndianBytes(2, v);
  }

  /** The payload `generateToken` hands out for a session. */
  function Payload(s: Session): bytes
  {
    s.token + s.signature + U64Bytes(s.timestamp) + U16Bytes(s.adminId)
  }

  // ---------------------------------------------------------------------
  // generateToken, validateToken

  /** `generateToken`: for an admin id, replaces that admin's slot with a
      fresh, unused, signed session and returns its payload; for any other
      id returns the empty string and changes nothing. */
  function GenerateToken(m: Sessions, adminId: uint16, random: bytes, now: uint64, hmac: Signer)
    : (r: (Sessions, bytes))
    requires |random| == TokenSize
    ensures !IsAdminId(adminId) ==> r == (m, [])
    ensures IsAdminId(adminId) ==>
      r.0 == m[adminId := Some(Session(random, hmac(random, now, adminId), now, adminId, false))]
      && r.1 == Payload(r.0[adminId].value)
      && |r.1| == PayloadSize
  {
    if adminId > AdminIdMax then (m, [])
    else
      var session := Session(random, hmac(random, now, adminId), now, adminId, false);
      (m[adminId := Some(session)], Payload(session))
  }

  /** The signature field of a payload is the HMAC of its token,
      timestamp and the given admin id. */
  predicate SignedFor(payload: bytes, adminId: uint16, hmac: Signer)
    requires |payload| == PayloadSize
  {
    payload[TokenSize..TokenSize + HmacSize] == hmac(payload[..TokenSize], ReadU64(payload[64..72]), adminId)
  }

  /** Every check of `validateToken` passes: an admin id, a payload of the
      right size naming that admin, a valid signature, an unexpired
      timestamp, and the admin's stored, unused token. */
  predicate Accepts(m: Sessions, payload: bytes, adminId: uint16, now: uint64, hmac: Signer)
  {
    && IsAdminId(adminId) && |payload| == PayloadSize
    && ReadU16(payload[72..74]) == adminId && SignedFor(payload, adminId, hmac)
    && !Expired(ReadU64(payload[64..72]), now)
    && m[adminId].Some? && payload[..TokenSize] == m[adminId].value.token && !m[adminId].value.used
  }

  /** `validateToken`: checks the admin id, the payload size, the embedded
      admin id, the signature and the age, and then that the token is the
      one stored for that admin and has not been used; success marks it
      used. */
  function ValidateToken(m: Sessions, payload: bytes, adminId: uint16, now: uint64, hmac: Signer)
    : (r: (Sessions, AuthResult))
    ensures !IsAdminId(adminId) ==> r == (m, NotAdmin)
    ensures IsAdminId(adminId) && |payload| != PayloadSize ==> r == (m, AuthResult.TokenInvalid)
    ensures IsAdminId(adminId) && |payload| == PayloadSize && ReadU16(payload[72..74]) != adminId
      ==> r == (m, NotAdmin)
    ensures IsAdminId(adminId) && |payload| == PayloadSize && ReadU16(payload[72..74]) == adminId
      && !SignedFor(payload, adminId, hmac)
      ==> r == (m, AuthResult.TokenInvalid)
    ensures IsAdminId(adminId) && |payload| == PayloadSize && ReadU16(payload[72..74]) == adminId
      && SignedFor(payload, adminId, hmac) && Expired(ReadU64(payload[64..72]), now)
      ==> r == (m, AuthResult.TokenExpired)
    ensures r.1 == AuthResult.Success <==> Accepts(m, payload, adminId, now, hmac)
    ensures IsAdminId(adminId) && |payload| == PayloadSize && ReadU16(payload[72..74]) == adminId
      && SignedFor(payload, adminId, hmac) && !Expired(ReadU64(payload[64..72]), now)
      && !Accepts(m, payload, adminId, now, hmac)
      ==> r == (m, AuthResult.TokenInvalid)
    ensures r.1 != AuthResult.Success ==> r.0 == m
    ensures r.1 == AuthResult.Success ==>
      IsAdminId(adminId) && |payload| == PayloadSize
      && m[adminId].Some? && !m[adminId].value.used && payload[..TokenSize] == m[adminId].value.token
      && payload[TokenSize..TokenSize + HmacSize] == hmac(payload[..TokenSize], ReadU64(payload[64..72]), adminId)
      && ReadU16(payload[72..74]) == adminId && !Expired(ReadU64(payload[64..72]), now)
      && r.0 == m[adminId := Some(m[adminId].value.(used := true))]
  {
    if adminId > AdminIdMax then (m, NotAdmin)
    else if |payload| != PayloadSize then (m, AuthResult.TokenInvalid)
    else
      var token := payload[..TokenSize];
      var signature := payload[TokenSize..TokenSize + HmacSize];
      var timestamp := ReadU64(payload[64..72]);
      var tokenAdminId := ReadU16(payload[72..74]);
      if tokenAdminId != adminId then (m, NotAdmin)
      else if signature != hmac(token, timestamp, adminId) then (m, AuthResult.TokenInvalid)
      else if Expired(timestamp, now) then (m, AuthResult.TokenExpired)
      else
        match m[adminId]
        case None => (m, AuthResult.TokenInvalid)
        case Some(s) =>
          if token != s.token then (m, AuthResult.TokenInvalid)
          else if s.used then (m, AuthResult.TokenInvalid)
          else (m[adminId := Some(s.(used := true))], AuthResult.Success)
  }

  lemma PayloadParts(s: Session)
    requires |s.token| == TokenSize && |s.signature| == HmacSize
    ensures var p := Payload(s);
      |p| == PayloadSize && p[..TokenSize] == s.token && p[TokenSize..TokenSize + HmacSize] == s.signature
      && ReadU64(p[64..72]) == s.timestamp && ReadU16(p[72..74]) == s.adminId
  {
    U64RoundTrip(s.timestamp);
    U16RoundTrip(s.adminId);
    var p := Payload(s);
    assert p[64..72] == U64Bytes(s.timestamp);
    assert p[72..74] == U16Bytes(s.adminId);
  }

  /** A token validates once: right after it was issued, and before its
      five minutes are up, its payload is accepted and the session marked
      used; the same payload is refused from then on, as a replay while
      the lifetime lasts and as expired after it. */
  lemma IssuedTokenValidatesOnce(m: Sessions, adminId: uint16, random: bytes, issued: uint64, now: uint64,
                                 later: uint64, hmac: Signer)
    requires IsAdminId(adminId) && |random| == TokenSize
    requires issued <= now <= issued + TokenLifetimeSeconds < Two64
    ensures var g := GenerateToken(m, adminId, random, issued, hmac);
      var v := ValidateToken(g.0, g.1, adminId, now, hmac);
      v.1 == AuthResult.Success && ValidateToken(v.0, g.1, adminId, later, hmac).1 != AuthResult.Success
      && (later <= issued + TokenLifetimeSeconds ==> ValidateToken(v.0, g.1, adminId, later, hmac).1 == AuthResult.TokenInvalid)
      && (later > issued + TokenLifetimeSeconds ==> ValidateToken(v.0, g.1, adminId, later, hmac).1 == AuthResult.TokenExpired)
  {
    var g := GenerateToken(m, adminId, random, issued, hmac);
    PayloadParts(g.0[adminId].value);
  }

  /** A payload is never accepted for another admin than the one it names. */
  lemma NoCrossAdminValidation(m: Sessions, payload: bytes, adminId: uint16, other: uint16, now: uint64,
                               hmac: Signer)
    requires |payload| == PayloadSize && ReadU16(payload[72..74]) == adminId && other != adminId
    ensures ValidateToken(m, payload, other, now, hmac).1 != AuthResult.Success
  {
  }

  // ---------------------------------------------------------------------
  // Queries, revocation, cleanup

  /** `hasValidSession`: an occupied slot, not expired, not used. */
  function HasValidSession(m: Sessions, adminId: uint16, now: uint64): (r: bool)
    ensures r <==> IsAdminId(adminId) && m[adminId].Some? && !m[adminId].value.used
                   && !Expired(m[adminId].value.timestamp, now)
  {
    if adminId > AdminIdMax || m[adminId].None? then false
    else
      var s := m[adminId].value;
      if Expired(s.timestamp, now) then false
      else !s.used
  }

  /** `sessionTimeRemaining`: 0 without a valid session; otherwise the
      seconds until expiry, computed in 64-bit unsigned arithmetic, read as
      signed, clamped at 0 and cut to an `int`. */
  function SessionTimeRemaining(m: Sessions, adminId: uint16, now: uint64): (r: int)
    ensures !HasValidSession(m, adminId, now) ==> r == 0
    ensures HasValidSession(m, adminId, now) && m[adminId].value.timestamp <= now ==>
      0 <= r <= TokenLifetimeSeconds && now + r == m[adminId].value.timestamp + TokenLifetimeSeconds
  {
    if !HasValidSession(m, adminId, now) then 0
    else
      var s := m[adminId].value;
      var remaining := Signed(((s.timestamp + TokenLifetimeSeconds) % Two64 - now) % Two64, Two64);
      var clamped := if remaining < 0 then 0 else remaining;
      Signed(clamped % 0x1_0000_0000, 0x1_0000_0000)
  }

  /** Two's-complement reading of an unsigned value below `modulus`. */
  function Signed(v: int, modulus: int): int
  {
    if v >= modulus / 2 then v - modulus else v
  }

  /** `revokeSession`: empties the admin's slot; other ids change nothing. */
  function RevokeSession(m: Sessions, adminId: uint16): (r: Sessions)
    ensures forall i :: 0 <= i < |m| ==> r[i] == (if i == adminId as int then None else m[i])
  {
    if adminId > AdminIdMax then m else m[adminId := None]
  }

  /** `revokeAllSessions`. */
  function RevokeAllSessions(m: Sessions): (r: Sessions)
    ensures forall i :: 0 <= i < |r| ==> r[i].None?
    ensures forall id, now :: !HasValidSession(r, id, now)
  {
    NoSessions
  }

  /** `cleanupExpiredTokens`: empties exactly the slots whose session has
      expired. */
  function CleanupExpiredTokens(m: Sessions, now: uint64): (r: Sessions)
    ensures forall i :: 0 <= i < |m| ==>
      r[i] == (if m[i].Some? && Expired(m[i].value.timestamp, now) then None else m[i])
  {
    [Cleaned(m[0], now), Cleaned(m[1], now), Cleaned(m[2], now)]
  }

  function Cleaned(slot: Option<Session>, now: uint64): Option<Session>
  {
    if slot.Some? && Expired(slot.value.timestamp, now) then None else slot
  }

  /** Cleaning up never ends a session that was still valid, and removes
      only sessions that were not. */
  lemma CleanupKeepsValidSessions(m: Sessions, now: uint64, adminId: uint16)
    ensures HasValidSession(CleanupExpiredTokens(m, now), adminId, now) == HasValidSession(m, adminId, now)
  {
  }
}

=== FILE: settings.dfy ===
/** Device setting codes of `include/carbio/baud_rate_setting.h` and
    `include/carbio/data_length_setting.h` with their text conversions. Both
    enumerations are switches without a default branch, so the conversions
    are only defined on the listed codes. */
module BaudRateSetting {
  import opened Bytes
  import Decimal
  import StatusCodes

  /** The codes are exactly 0x01 (9600 bps) through 0x0C (115200 bps). */
  predicate IsCode(c: uint8) { 0x01 <= c <= 0x0C }

  /** The line speed a code selects, 9600 bps per step. */
  function Bps(c: uint8): (r: nat)
    requires IsCode(c)
    ensures 9600 <= r <= 115200
  {
    9600 * c
  }

  /** `get_name`. */
  function Name(c: uint8): string
    requires IsCode(c)
  {
    match c
    case 0x01 => "9600"
    case 0x02 => "19200"
    case 0x03 => "28800"
    case 0x04 => "38400"
    case 0x05 => "48000"
    case 0x06 => "57600"
    case 0x07 => "67200"
    case 0x08 => "76800"
    case 0x09 => "86400"
    case 0x0A => "96000"
    case 0x0B => "105600"
    case 0x0C => "115200"
    case _ => assert false; ""
  }

  /** `get_hex`. */
  function Hex(c: uint8): (r: string)
    requires IsCode(c)
    ensures r == StatusCodes.HexByte(c)
  {
    match c
    case 0x01 => "0x01"
    case 0x02 => "0x02"
    case 0x03 => "0x03"
    case 0x04 => "0x04"
    case 0x05 => "0x05"
    case 0x06 => "0x06"
    case 0x07 => "0x07"
    case 0x08 => "0x08"
    case 0x09 => "0x09"
    case 0x0A => "0x0A"
    case 0x0B => "0x0B"
    case 0x0C => "0x0C"
    case _ => assert false; ""
  }

  /** `get_message`: the name followed by the unit (the switch spells out
      each of the twelve texts). */
  function Message(c: uint8): string
    requires IsCode(c)
  {
    Name(c) + " bps"
  }

  /** The name of a code is the decimal text of its line speed. */
  lemma NameIsDecimalBps(c: uint8)
    requires IsCode(c)
    ensures Name(c) == Decimal.NatToString(Bps(c))
  {
    match c
    case 0x01 => Prints9600();
    case 0x02 => Prints19200();
    case 0x03 => Prints28800();
    case 0x04 => Prints38400();
    case 0x05 => Prints48000();
    case 0x06 => Prints57600();
    case 0x07 => Prints67200();
    case 0x08 => Prints76800();
    case 0x09 => Prints86400();
    case 0x0A => Prints96000();
    case 0x0B => Prints105600();
    case 0x0C => Prints115200();
  }

  // Each speed printed one digit at a time.

  lemma Prints9600()
    ensures Decimal.NatToString(9600) == "9600"
  {
    Decimal.AppendDigit(9, 6);
    Decimal.AppendDigit(96, 0);
    Decimal.AppendDigit(960, 0);
  }

  lemma Prints19200()
    ensures Decimal.NatToString(19200) == "19200"
  {
    Decimal.AppendDigit(1, 9);
    Decimal.AppendDigit(19, 2);
    Decimal.AppendDigit(192, 0);
    Decimal.AppendDigit(1920, 0);
  }

  lemma Prints28800()
    ensures Decimal.NatToString(28800) == "28800"
  {
    Decimal.AppendDigit(2, 8);
    Decimal.AppendDigit(28, 8);
    Decimal.AppendDigit(288, 0);
    Decimal.AppendDigit(2880, 0);
  }

  lemma Prints38400()
    ensures Decimal.NatToString(38400) == "38400"
  {
    Decimal.AppendDigit(3, 8);
    Decimal.AppendDigit(38, 4);
    Decimal.AppendDigit(384, 0);
    Decimal.AppendDigit(3840, 0);
  }

  lemma Prints48000()
    ensures Decimal.NatToString(48000) == "48000"
  {
    Decimal.AppendDigit(4, 8);
    Decimal.AppendDigit(48, 0);
    Decimal.AppendDigit(480, 0);
    Decimal.AppendDigit(4800, 0);
  }

  lemma Prints57600()
    ensures Decimal.NatToString(57600) == "57600"
  {
    Decimal.AppendDigit(5, 7);
    Decimal.AppendDigit(57, 6);
    Decimal.AppendDigit(576, 0);
    Decimal.AppendDigit(5760, 0);
  }

  lemma Prints67200()
    ensures Decimal.NatToString(67200) == "67200"
  {
    Decimal.AppendDigit(6, 7);
    Decimal.AppendDigit(67, 2);
    Decimal.AppendDigit(672, 0);
    Decimal.AppendDigit(6720, 0);
  }

  lemma Prints76800()
    ensures Decimal.NatToString(76800) == "76800"
  {
    Decimal.AppendDigit(7, 6);
    Decimal.AppendDigit(76, 8);
    Decimal.AppendDigit(768, 0);
    Decimal.AppendDigit(7680, 0);
  }

  lemma Prints86400()
    ensures Decimal.NatToString(86400) == "86400"
  {
    Decimal.AppendDigit(8, 6);
    Decimal.AppendDigit(86, 4);
    Decimal.AppendDigit(864, 0);
    Decimal.AppendDigit(8640, 0);
  }

  lemma Prints96000()
    ensures Decimal.NatToString(96000) == "96000"
  {
    Decimal.AppendDigit(9, 6);
    Decimal.AppendDigit(96, 0);
    Decimal.AppendDigit(960, 0);
    Decimal.AppendDigit(9600, 0);
  }

  lemma Prints105600()
    ensures Decimal.NatToString(105600) == "105600"
  {
    Decimal.AppendDigit(1, 0);
    Decimal.AppendDigit(10, 5);
    Decimal.AppendDigit(105, 6);
    Decimal.AppendDigit(1056, 0);
    Decimal.AppendDigit(10560, 0);
  }

  lemma Prints115200()
    ensures Decimal.NatToString(115200) == "115200"
  {
    Decimal.AppendDigit(1, 1);
    Decimal.AppendDigit(11, 5);
    Decimal.AppendDigit(115, 2);
    Decimal.AppendDigit(1152, 0);
    Decimal.AppendDigit(11520, 0);
  }
}

module DataLengthSetting {
  import opened Bytes
  import Decimal
  import StatusCodes

  /** The codes are 0x00 (32 bytes) through 0x03 (256 bytes). */
  predicate IsCode(c: uint8) { c <= 0x03 }

  /** Data bytes per packet selected by a code: 32 doubled `c` times. */
  function Size(c: uint8): nat
    requires IsCode(c)
  {
    if c == 0 then 32 else 2 * Size(c - 1)
  }

  /** `get_name`. */
  function Name(c: uint8): string
    requires IsCode(c)
  {
    match c
    case 0x00 => "32"
    case 0x01 => "64"
    case 0x02 => "128"
    case 0x03 => "256"
    case _ => assert false; ""
  }

  /** `get_hex` as written: one higher than the code. */
  function HexAsWritten(c: uint8): (r: string)
    requires IsCode(c)
    ensures r == StatusCodes.HexByte(c + 1)
  {
    match c
    case 0x00 => "0x01"
    case 0x01 => "0x02"
    case 0x02 => "0x03"
    case 0x03 => "0x04"
    case _ => assert false; ""
  }

  /** `get_hex` as the other conversions of the library define it: the code
      itself, as the fingerprint namespace's `hex_string` does. */
  function Hex(c: uint8): (r: string)
    requires IsCode(c)
    ensures r == StatusCodes.HexByte(c)
  {
    match c
    case 0x00 => "0x00"
    case 0x01 => "0x01"
    case 0x02 => "0x02"
    case 0x03 => "0x03"
    case _ => assert false; ""
  }

  /** `get_message`: the name followed by "-byte data length" (the switch
      spells out each of the four texts). */
  function Message(c: uint8): string
    requires IsCode(c)
  {
    Name(c) + "-byte data length"
  }

  /** The name of a code is the decimal text of its size, 32·2^code. */
  lemma NameIsDecimalSize(c: uint8)
    requires IsCode(c)
    ensures Name(c) == Decimal.NatToString(Size(c))
  {
    match c
    case 0x00 => assert Decimal.NatToString(32) == "32";
    case 0x01 => assert Size(1) == 64 && Decimal.NatToString(64) == "64";
    case 0x02 => assert Size(2) == 128 && Decimal.NatToString(128) == "128";
    case 0x03 => assert Size(3) == 256 && Decimal.NatToString(256) == "256";
  }

  /** The written hexadecimal text never matches the code it describes:
      code 0x00 (32 bytes) is shown as "0x01", which is the code of 64. */
  lemma HexAsWrittenIsOffByOne(c: uint8)
    requires IsCode(c)
    ensures HexAsWritten(c) != Hex(c)
    ensures HexAsWritten(0x00) == "0x01" && Hex(0x01) == "0x01"
  {
    assert HexAsWritten(c)[3] != Hex(c)[3];
  }
}

=== FILE: status_codes.dfy ===
/** Status codes of `include/carbio/status_code.h`.

    `status_code` is an enumeration over `uint8_t`; a value received from the
    sensor can be any byte, so a status is modelled as a byte and the 32 named
    enumerators as constants.  `get_name`, `get_hex_str` and `get_message` are
    switches without a default branch: they are only defined on the named
    enumerators, which their preconditions require. */
module StatusCodes {
  import opened Bytes
  import opened Wrappers

  type Status = uint8
  const Success: Status := 0x00
  const FrameError: Status := 0x01
  const NoFinger: Status := 0x02
  const ImageCaptureError: Status := 0x03
  const ImageTooFaint: Status := 0x04
  const ImageTooBlurry: Status := 0x05
  const ImageTooDistorted: Status := 0x06
  const ImageTooFewFeatures: Status := 0x07
  const NoMatch: Status := 0x08
  const NotFound: Status := 0x09
  const EnrollmentMismatch: Status := 0x0A
  const IndexOutOfRange: Status := 0x0B
  const DatabaseAccessError: Status := 0x0C
  const FeatureUploadFailed: Status := 0x0D
  const NoFrame: Status := 0x0E
  const ImageUploadFailed: Status := 0x0F
  const EraseFailed: Status := 0x10
  const DatabaseClearFailed: Status := 0x11
  const CannotEnterLowPowerMode: Status := 0x12
  const PermissionDenied: Status := 0x13
  const InvalidImageFormat: Status := 0x15
  const FlashWriteError: Status := 0x18
  const UnknownError: Status := 0x19
  const IllegalDeviceRegister: Status := 0x1A
  const InvalidDeviceConfiguration: Status := 0x1B
  const CommunicationError: Status := 0x1D
  const DatabaseFull: Status := 0x1F
  const IllegalDeviceAddress: Status := 0x20
  const DeviceAuthorizationRequired: Status := 0x21
  const HardwareFault: Status := 0x29
  const BadPacket: Status := 0xFE
  const Timeout: Status := 0xFF

  /** The named enumerators of `status_code`: every code up to
      `permission_denied` (0x13), then the scattered higher ones. */
  predicate IsEnumerator(s: Status)
  {
    s <= PermissionDenied || s == InvalidImageFormat || s == FlashWriteError || s == UnknownError
    || s == IllegalDeviceRegister || s == InvalidDeviceConfiguration || s == CommunicationError
    || s == DatabaseFull || s == IllegalDeviceAddress || s == DeviceAuthorizationRequired
    || s == HardwareFault || s == BadPacket || s == Timeout
  }

  /** `is_success`: the status is `success`. */
  predicate IsSuccess(s: Status) { s == Success }

  /** `is_error`: defined as the negation of `is_success`. */
  predicate IsError(s: Status) { !IsSuccess(s) }

  lemma IsErrorExactlyWhenNotSuccess(s: Status)
    ensures IsError(s) <==> s != 0x00
    ensures IsSuccess(s) != IsError(s)
  {
  }

  /** Upper-case hexadecimal digit of a value below 16. */
  function HexDigit(d: nat): char
    requires d < 16
  {
    "0123456789ABCDEF"[d]
  }

  /** "0x" followed by the two upper-case hexadecimal digits of a byte. */
  function HexByte(b: uint8): string
  {
    "0x" + [HexDigit(b / 16), HexDigit(b % 16)]
  }

  /** `get_name`: the enumerator's identifier. */
  function Name(s: Status): string
    requires IsEnumerator(s)
  {
    match s
    case 0x00 => "success"
    case 0x01 => "frame_error"
    case 0x02 => "no_finger"
    case 0x03 => "image_capture_error"
    case 0x04 => "image_too_faint"
    case 0x05 => "image_too_blurry"
    case 0x06 => "image_too_distorted"
    case 0x07 => "image_too_few_features"
    case 0x08 => "no_match"
    case 0x09 => "not_found"
    case 0x0A => "enrollment_mismatch"
    case 0x0B => "index_out_of_range"
    case 0x0C => "database_access_error"
    case 0x0D => "feature_upload_failed"
    case 0x0E => "no_frame"
    case 0x0F => "image_upload_failed"
    case 0x10 => "erase_failed"
    case 0x11 => "database_clear_failed"
    case 0x12 => "cannot_enter_low_power_mode"
    case 0x13 => "permission_denied"
    case 0x15 => "invalid_image_format"
    case 0x18 => "flash_write_error"
    case 0x19 => "unknown_error"
    case 0x1A => "illegal_device_register"
    case 0x1B => "invalid_device_configuration"
    case 0x1D => "communication_error"
    case 0x1F => "database_full"
    case 0x20 => "illegal_device_address"
    case 0x21 => "device_authorization_required"
    case 0x29 => "hardware_fault"
    case 0xFE => "bad_packet"
    case 0xFF => "timeout"
    case _ => assert false; ""
  }

  /** `get_hex_str`: the enumerator's value as a hexadecimal literal. */
  function HexStr(s: Status): (r: string)
    requires IsEnumerator(s)
    ensures r == HexByte(s)
  {
    match s
    case 0x00 => "0x00"
    case 0x01 => "0x01"
    case 0x02 => "0x02"
    case 0x03 => "0x03"
    case 0x04 => "0x04"
    case 0x05 => "0x05"
    case 0x06 => "0x06"
    case 0x07 => "0x07"
    case 0x08 => "0x08"
    case 0x09 => "0x09"
    case 0x0A => "0x0A"
    case 0x0B => "0x0B"
    case 0x0C => "0x0C"
    case 0x0D => "0x0D"
    case 0x0E => "0x0E"
    case 0x0F => "0x0F"
    case 0x10 => "0x10"
    case 0x11 => "0x11"
    case 0x12 => "0x12"
    case 0x13 => "0x13"
    case 0x15 => "0x15"
    case 0x18 => "0x18"
    case 0x19 => "0x19"
    case 0x1A => "0x1A"
    case 0x1B => "0x1B"
    case 0x1D => "0x1D"
    case 0x1F => "0x1F"
    case 0x20 => "0x20"
    case 0x21 => "0x21"
    case 0x29 => "0x29"
    case 0xFE => "0xFE"
    case 0xFF => "0xFF"
    case _ => assert false; ""
  }

  /** `get_message`: a human-readable description. */
  function Message(s: Status): string
    requires IsEnumerator(s)
  {
    match s
    case 0x00 => "operation succeeded"
    case 0x01 => "packet frame receive error"
    case 0x02 => "no finger detected"
    case 0x03 => "image capture error"
    case 0x04 => "image too faint"
    case 0x05 => "image too blurry"
    case 0x06 => "image too distorted"
    case 0x07 => "image contains too few feature points"
    case 0x08 => "fingerprint not match"
    case 0x09 => "fingerprint not found"
    case 0x0A => "enrollment mismatch"
    case 0x0B => "index is out of range"
    case 0x0C => "storage access error"
    case 0x0D => "feature upload failed"
    case 0x0E => "no packet frame"
    case 0x0F => "image upload failed"
    case 0x10 => "erase failed"
    case 0x11 => "failed deleting database "
    case 0x12 => "cannot enter low power mode"
    case 0x13 => "permission denied; incorrect device password"
    case 0x15 => "invalid image format"
    case 0x18 => "flash write failed"
    case 0x19 => "unknown error"
    case 0x1A => "illegal access to non-existent or invalid device register"
    case 0x1B => "invalid device configuration; configuration rejected"
    case 0x1D => "communication interface inaccessible"
    case 0x1F => "database is full"
    case 0x20 => "illegal access to non-existent or invalid device address"
    case 0x21 => "device requires password authorization prior use"
    case 0x29 => "operation failed due hardware failure"
    case 0xFE => "bad packet"
    case 0xFF => "operation timed out"
    case _ => assert false; ""
  }

  /** Inverse of `get_name`: the enumerator with the given identifier. */
  function FromName(n: string): (r: Option<Status>)
    ensures r.Some? ==> IsEnumerator(r.value) && Name(r.value) == n
  {
    if |n| == 7 && n == "success" then Some(Success)
    else if |n| == 11 && n == "frame_error" then Some(FrameError)
    else if |n| == 9 && n == "no_finger" then Some(NoFinger)
    else if |n| == 19 && n == "image_capture_error" then Some(ImageCaptureError)
    else if |n| == 15 && n == "image_too_faint" then Some(ImageTooFaint)
    else if |n| == 16 && n == "image_too_blurry" then Some(ImageTooBlurry)
    else if |n| == 19 && n == "image_too_distorted" then Some(ImageTooDistorted)
    else if |n| == 22 && n == "image_too_few_features" then Some(ImageTooFewFeatures)
    else if |n| == 8 && n == "no_match" then Some(NoMatch)
    else if |n| == 9 && n == "not_found" then Some(NotFound)
    else if |n| == 19 && n == "enrollment_mismatch" then Some(EnrollmentMismatch)
    else if |n| == 18 && n == "index_out_of_range" then Some(IndexOutOfRange)
    else if |n| == 21 && n == "database_access_error" then Some(DatabaseAccessError)
    else if |n| == 21 && n == "feature_upload_failed" then Some(FeatureUploadFailed)
    else if |n| == 8 && n == "no_frame" then Some(NoFrame)
    else if |n| == 19 && n == "image_upload_failed" then Some(ImageUploadFailed)
    else if |n| == 12 && n == "erase_failed" then Some(EraseFailed)
    else if |n| == 21 && n == "database_clear_failed" then Some(DatabaseClearFailed)
    else if |n| == 27 && n == "cannot_enter_low_power_mode" then Some(CannotEnterLowPowerMode)
    else if |n| == 17 && n == "permission_denied" then Some(PermissionDenied)
    else if |n| == 20 && n == "invalid_image_format" then Some(InvalidImageFormat)
    else if |n| == 17 && n == "flash_write_error" then Some(FlashWriteError)
    else if |n| == 13 && n == "unknown_error" then Some(UnknownError)
    else if |n| == 23 && n == "illegal_device_register" then Some(IllegalDeviceRegister)
    else if |n| == 28 && n == "invalid_device_configuration" then Some(InvalidDeviceConfiguration)
    else if |n| == 19 && n == "communication_error" then Some(CommunicationError)
    else if |n| == 13 && n == "database_full" then Some(DatabaseFull)
    else if |n| == 22 && n == "illegal_device_address" then Some(IllegalDeviceAddress)
    else if |n| == 29 && n == "device_authorization_required" then Some(DeviceAuthorizationRequired)
    else if |n| == 14 && n == "hardware_fault" then Some(HardwareFault)
    else if |n| == 10 && n == "bad_packet" then Some(BadPacket)
    else if |n| == 7 && n == "timeout" then Some(Timeout)
    else None
  }

  lemma NameRoundTripPart1(a: Status)
    requires a == 0x00 || a == 0x01 || a == 0x02 || a == 0x03
    ensures FromName(Name(a)) == Some(a)
  {
    match a
    case 0x00 =>
    case 0x01 =>
    case 0x02 =>
    case 0x03 =>
  }

  lemma NameRoundTripPart2(a: Status)
    requires a == 0x04 || a == 0x05 || a == 0x06 || a == 0x07
    ensures FromName(Name(a)) == Some(a)
  {
    match a
    case 0x04 =>
    case 0x05 =>
    case 0x06 => assert Name(a)[6] == 't';
    case 0x07 =>
  }

  lemma NameRoundTripPart3(a: Status)
    requires a == 0x08 || a == 0x09 || a == 0x0A || a == 0x0B
    ensures FromName(Name(a)) == Some(a)
  {
    match a
    case 0x08 =>
    case 0x09 => assert Name(a)[2] == 't';
    case 0x0A => assert Name(a)[0] == 'e';
    case 0x0B =>
  }

  lemma NameRoundTripPart4(a: Status)
    requires a == 0x0C || a == 0x0D || a == 0x0E || a == 0x0F
    ensures FromName(Name(a)) == Some(a)
  {
    match a
    case 0x0C =>
    case 0x0D => assert Name(a)[0] == 'f';
    case 0x0E => assert Name(a)[3] == 'f';
    case 0x0F => assert Name(a)[6] == 'u';
  }

  lemma NameRoundTripPart5(a: Status)
    requires a == 0x10 || a == 0x11 || a == 0x12 || a == 0x13
    ensures FromName(Name(a)) == Some(a)
  {
    match a
    case 0x10 =>
    case 0x11 => assert Name(a)[9] == 'c';
    case 0x12 =>
    case 0x13 =>
  }

  lemma NameRoundTripPart6(a: Status)
    requires a == 0x15 || a == 0x18 || a == 0x19 || a == 0x1A
    ensures FromName(Name(a)) == Some(a)
  {
    match a
    case 0x15 =>
    case 0x18 => assert Name(a)[0] == 'f';
    case 0x19 =>
    case 0x1A =>
  }

  lemma NameRoundTripPart7(a: Status)
    requires a == 0x1B || a == 0x1D || a == 0x1F || a == 0x20
    ensures FromName(Name(a)) == Some(a)
  {
    match a
    case 0x1B =>
    case 0x1D => assert Name(a)[0] == 'c';
    case 0x1F => assert Name(a)[0] == 'd';
    case 0x20 => assert Name(a)[1] == 'l';
  }

  lemma NameRoundTripPart8(a: Status)
    requires a == 0x21 || a == 0x29 || a == 0xFE || a == 0xFF
    ensures FromName(Name(a)) == Some(a)
  {
    match a
    case 0x21 =>
    case 0x29 =>
    case 0xFE =>
    case 0xFF => assert Name(a)[0] == 't';
  }

  /** `get_name` is injective: every identifier names exactly one
      enumerator, so `FromName` recovers the status from its name. */
  lemma NameRoundTrip(a: Status)
    requires IsEnumerator(a)
    ensures FromName(Name(a)) == Some(a)
  {
    if a < 0x04 {
      NameRoundTripPart1(a);
    } else if a < 0x08 {
      NameRoundTripPart2(a);
    } else if a < 0x0C {
      NameRoundTripPart3(a);
    } else if a < 0x10 {
      NameRoundTripPart4(a);
    } else if a < 0x15 {
      NameRoundTripPart5(a);
    } else if a < 0x1B {
      NameRoundTripPart6(a);
    } else if a < 0x21 {
      NameRoundTripPart7(a);
    } else {
      NameRoundTripPart8(a);
    }
  }

  lemma NameInjective(a: Status, b: Status)
    requires IsEnumerator(a) && IsEnumerator(b) && Name(a) == Name(b)
    ensures a == b
  {
    NameRoundTrip(a);
    NameRoundTrip(b);
  }
}

=== FILE: template_packet.dfy ===
/** The template frame pair of the internal fingerprint layer:
    `serialize<N>` (packet_serializer.h) and `deserialize<N>`
    (packet_deserializer.h) over `basic_packet<N>`, a header plus an
    `N`-byte payload array and a stored checksum.

    `deserialize` rejects every buffer shorter than 12 bytes, but the
    frame of an empty payload is 11 bytes long, so the pair does not
    round-trip for empty payloads.  `Deserialize` is the code as written;
    `DeserializeCorrected` uses the 11-byte minimum of a frame. */
module TemplatePacket {
  import opened Bytes
  import opened Wrappers
  import StatusCodes
  import Packet

  const HeaderSize: nat := 9
  const StartCode: uint16 := 0xEF01
  /** `MIN_PACKET_SIZE` as written: header, one payload byte, checksum. */
  const MinPacketSize: nat := 12
  /** The shortest frame the serializer emits: header and checksum. */
  const MinFrameSize: nat := 11

  datatype Header = Header(code: uint16, address: uint32, ptype: uint8, length: uint16)

  datatype BasicPacket = BasicPacket(header: Header, data: bytes, checksum: uint16)

  /** A `basic_packet<N>`: its payload array holds exactly `N` bytes. */
  predicate HasCapacity(p: BasicPacket, n: nat) { |p.data| == n }

  /** `serialize<N>(pkt, size)`: the header fields, `size` payload bytes and
      the checksum.  The header's own length field is not consulted; the
      written length is `size + 2`, cast to 16 bits. */
  function Serialize(capacity: nat, p: BasicPacket, size: nat): (r: bytes)
    requires HasCapacity(p, capacity) && size <= capacity
    ensures |r| == HeaderSize + size + 2
    ensures Be16(r[0], r[1]) == p.header.code
    ensures Be32(r[2], r[3], r[4], r[5]) == p.header.address
    ensures r[6] == p.header.ptype
    ensures Be16(r[7], r[8]) == (size + 2) % 0x1_0000
    ensures r[HeaderSize..HeaderSize + size] == p.data[..size]
    ensures Be16(r[HeaderSize + size], r[HeaderSize + size + 1])
            == Packet.Checksum(p.header.ptype, (size + 2) % 0x1_0000, p.data[..size])
  {
    var total := (size + 2) % 0x1_0000;
    var c := Packet.Checksum(p.header.ptype, total, p.data[..size]);
    var h := Bytes16(p.header.code) + Bytes32(p.header.address) + [p.header.ptype] + Bytes16(total);
    var r := h + p.data[..size] + Bytes16(c);
    assert r[0..2] == Bytes16(p.header.code) && r[2..6] == Bytes32(p.header.address);
    assert r[7..9] == Bytes16(total) && r[HeaderSize + size..] == Bytes16(c);
    Be16OfBytes(p.header.code);
    Be32OfBytes(p.header.address);
    Be16OfBytes(total);
    Be16OfBytes(c);
    r
  }

  /** The length field of a buffer holding a header. */
  function LengthField(buffer: bytes): uint16
    requires |buffer| >= HeaderSize
  {
    Be16(buffer[7], buffer[8])
  }

  /** Every check before the checksum passes, given the minimum size. */
  predicate Acceptable(minSize: nat, capacity: nat, buffer: bytes, expected: uint32)
  {
    |buffer| >= minSize && |buffer| >= HeaderSize
    && Be16(buffer[0], buffer[1]) == StartCode
    && Be32(buffer[2], buffer[3], buffer[4], buffer[5]) == expected
    && LengthField(buffer) >= 2
    && |buffer| >= HeaderSize + LengthField(buffer)
    && LengthField(buffer) - 2 <= capacity
  }

  /** The stored checksum equals the recomputed one. */
  predicate ChecksumMatches(buffer: bytes)
  {
    |buffer| >= HeaderSize && LengthField(buffer) >= 2 && |buffer| >= HeaderSize + LengthField(buffer)
    && var n := LengthField(buffer) - 2;
       Be16(buffer[HeaderSize + n], buffer[HeaderSize + n + 1])
       == Packet.Checksum(buffer[6], LengthField(buffer), buffer[HeaderSize..HeaderSize + n])
  }

  /** The body of `deserialize<N>`, for a given minimum buffer size. */
  function DeserializeFrom(minSize: nat, capacity: nat, buffer: bytes, expected: uint32)
    : (r: Result<BasicPacket, StatusCodes.Status>)
    requires minSize >= MinFrameSize
    ensures |buffer| < minSize ==> r == Failure(StatusCodes.BadPacket)
    ensures |buffer| >= minSize && Be16(buffer[0], buffer[1]) != StartCode
            ==> r == Failure(StatusCodes.BadPacket)
    ensures |buffer| >= minSize && Be16(buffer[0], buffer[1]) == StartCode
            && Be32(buffer[2], buffer[3], buffer[4], buffer[5]) != expected
            ==> r == Failure(StatusCodes.IllegalDeviceAddress)
    ensures |buffer| >= minSize && (LengthField(buffer) < 2 || |buffer| < HeaderSize + LengthField(buffer)
                                    || LengthField(buffer) - 2 > capacity)
            ==> r.Failure?
    ensures r.Success? <==> Acceptable(minSize, capacity, buffer, expected) && ChecksumMatches(buffer)
    ensures Acceptable(minSize, capacity, buffer, expected) && !ChecksumMatches(buffer)
            ==> r == Failure(StatusCodes.BadPacket)
    ensures r.Success? ==>
      var n := LengthField(buffer) - 2;
      r.value.header == Header(StartCode, expected, buffer[6], LengthField(buffer))
      && HasCapacity(r.value, capacity)
      && r.value.data[..n] == buffer[HeaderSize..HeaderSize + n]
      && (forall i :: n <= i < capacity ==> r.value.data[i] == 0)
      && r.value.checksum == Be16(buffer[HeaderSize + n], buffer[HeaderSize + n + 1])
  {
    if |buffer| < minSize then
      Failure(StatusCodes.BadPacket)
    else if Be16(buffer[0], buffer[1]) != StartCode then
      Failure(StatusCodes.BadPacket)
    else if Be32(buffer[2], buffer[3], buffer[4], buffer[5]) != expected then
      Failure(StatusCodes.IllegalDeviceAddress)
    else
      var length := LengthField(buffer);
      if length < 2 then
        Failure(StatusCodes.BadPacket)
      else if |buffer| < HeaderSize + length then
        Failure(StatusCodes.BadPacket)
      else if length - 2 > capacity then
        Failure(StatusCodes.BadPacket)
      else
        var n := length - 2;
        var payload := buffer[HeaderSize..HeaderSize + n];
        var data := payload + ZeroBytes(capacity - n);
        assert data[..n] == payload;
        var received := Be16(buffer[HeaderSize + n], buffer[HeaderSize + n + 1]);
        if received != Packet.Checksum(buffer[6], length, payload) then
          Failure(StatusCodes.BadPacket)
        else
          Success(BasicPacket(Header(StartCode, expected, buffer[6], length), data, received))
  }

  /** `deserialize<N>` as written, with `MIN_PACKET_SIZE` = 12. */
  function Deserialize(capacity: nat, buffer: bytes, expected: uint32): (r: Result<BasicPacket, StatusCodes.Status>)
    ensures |buffer| < MinPacketSize ==> r == Failure(StatusCodes.BadPacket)
    ensures r.Success? <==> Acceptable(MinPacketSize, capacity, buffer, expected) && ChecksumMatches(buffer)
  {
    DeserializeFrom(MinPacketSize, capacity, buffer, expected)
  }

  /** `deserialize<N>` with the minimum size of the shortest frame. */
  function DeserializeCorrected(capacity: nat, buffer: bytes, expected: uint32)
    : (r: Result<BasicPacket, StatusCodes.Status>)
    ensures |buffer| < MinFrameSize ==> r == Failure(StatusCodes.BadPacket)
    ensures r.Success? <==> Acceptable(MinFrameSize, capacity, buffer, expected) && ChecksumMatches(buffer)
  {
    DeserializeFrom(MinFrameSize, capacity, buffer, expected)
  }

  /** Deserializing a serialized packet, with any minimum size the frame
      meets, restores the header (with the length field the serializer
      wrote), the payload and the checksum, and zero-fills the rest. */
  lemma RoundTripFrom(minSize: nat, capacity: nat, p: BasicPacket, size: nat)
    requires minSize >= MinFrameSize && HeaderSize + size + 2 >= minSize
    requires HasCapacity(p, capacity) && size <= capacity && size + 2 < 0x1_0000
    requires p.header.code == StartCode
    ensures var r := DeserializeFrom(minSize, capacity, Serialize(capacity, p, size), p.header.address);
      r.Success?
      && r.value.header == p.header.(length := size + 2)
      && r.value.data[..size] == p.data[..size]
      && (forall i :: size <= i < capacity ==> r.value.data[i] == 0)
      && r.value.checksum == Packet.Checksum(p.header.ptype, size + 2, p.data[..size])
  {
    var b := Serialize(capacity, p, size);
    SerializedIsAcceptable(minSize, capacity, p, size);
    var r := DeserializeFrom(minSize, capacity, b, p.header.address);
    assert r.value.header == Header(StartCode, p.header.address, b[6], size + 2);
    assert r.value.data[..size] == b[HeaderSize..HeaderSize + size];
  }

  lemma SerializedIsAcceptable(minSize: nat, capacity: nat, p: BasicPacket, size: nat)
    requires minSize >= MinFrameSize && HeaderSize + size + 2 >= minSize
    requires HasCapacity(p, capacity) && size <= capacity && size + 2 < 0x1_0000
    requires p.header.code == StartCode
    ensures var b := Serialize(capacity, p, size);
      Acceptable(minSize, capacity, b, p.header.address) && ChecksumMatches(b)
      && LengthField(b) == size + 2 && b[HeaderSize..HeaderSize + size] == p.data[..size]
  {
    Mod16Small(size + 2);
    var b := Serialize(capacity, p, size);
    assert LengthField(b) == size + 2;
  }

  /** The round trip of the code as written holds for non-empty payloads. */
  lemma RoundTrip(capacity: nat, p: BasicPacket, size: nat)
    requires HasCapacity(p, capacity) && 1 <= size <= capacity && size + 2 < 0x1_0000
    requires p.header.code == StartCode
    ensures var r := Deserialize(capacity, Serialize(capacity, p, size), p.header.address);
      r.Success? && r.value.header == p.header.(length := size + 2)
      && r.value.data[..size] == p.data[..size]
  {
    RoundTripFrom(MinPacketSize, capacity, p, size);
  }

  /** The code as written rejects the 11-byte frame its own serializer emits
      for an empty payload. */
  lemma EmptyPayloadRejected(capacity: nat, p: BasicPacket)
    requires HasCapacity(p, capacity)
    ensures |Serialize(capacity, p, 0)| == MinFrameSize
    ensures Deserialize(capacity, Serialize(capacity, p, 0), p.header.address)
            == Failure(StatusCodes.BadPacket)
  {
  }

  /** With the 11-byte minimum, every payload size up to the capacity
      round-trips, the empty payload included. */
  lemma RoundTripCorrected(capacity: nat, p: BasicPacket, size: nat)
    requires HasCapacity(p, capacity) && size <= capacity && size + 2 < 0x1_0000
    requires p.header.code == StartCode
    ensures var r := DeserializeCorrected(capacity, Serialize(capacity, p, size), p.header.address);
      r.Success? && r.value.header == p.header.(length := size + 2)
      && r.value.data[..size] == p.data[..size]
  {
    RoundTripFrom(MinFrameSize, capacity, p, size);
  }
}

=== FILE: wrappers.dfy ===
/** Optional values and results with an error value, used wherever the C++
    code returns `std::optional`, `result<T>` or a boolean success flag. */
module Wrappers {

  datatype Option<+T> = None | Some(value: T)

  /** `Success` carries the computed value, `Failure` the error the source
      reports (a status byte, an AuthResult, ...). */
  datatype Result<+T, +E> = Success(value: T) | Failure(error: E)
}
